=== FILE: README.md ===
# html-to-pdf in Dafny

A model of the core of **html-to-pdf**, a browser library that renders an HTML
element to a canvas, cuts the rendering into PDF pages, recognises the text on
each page with Tesseract and writes it into the PDF as an invisible text layer
over the page image, so that the PDF can be searched and its text selected.

The repository holds two generations of that pipeline side by side, and each
is modelled on its own terms:

- **First generation** (`src/lib/core`, `src/lib/utils`, `src/lib/workers`):
  `create` styles a clone of the element, gathers its text into a custom word
  list and posts a job to a PDF web worker. The worker cuts the rendering at
  line-aware page breaks (`CutPlanner`), crops the pages (`UtilsCrop`), draws
  the recognised lines (`OcrFromBlocks`, `OcrWordLegacy`, `OcrWord`), reports
  progress and posts one terminal message (`PdfWorker`). Modules: `Core`,
  `Download`, `CutPlanner`, `UtilsCrop`, `UtilsTextNodes`, `PdfWorker`,
  `TesseractWorker`, `Sanitize`, `OcrFromBlocks`, `OcrWord`, `OcrWordLegacy`,
  `OcrAlignedY`, `OcrHeightStats`, `PageFit`, `AspectFit`, `Config`,
  `UtilsChain`, `Sequential`, `Zip`, `Times`, `Css`, `UtilsTraverse`,
  `LegacyTraverse`.
- **Second generation** (`src/lib/html-to-pdf`): `create` splits the marked
  page elements into fixed-height and auto-paginated pages (`HtmlCore`), cuts
  them into fixed-height pages (`FixedPlanner`, `HtmlCrop`), and places the
  text nodes read from the DOM (`HtmlTextNodes`) directly as an invisible text
  layer (`TextLayer`), after replacing marked elements with OCR-friendly SVGs
  (`OcrReplacements`). Modules: `HtmlCore`, `FixedPlanner`, `HtmlCrop`,
  `HtmlTextNodes`, `TextLayer`, `OcrReplacements`, `UniqueWords`, `HtmlChain`,
  `Range`, `Pick`.
- **The two `useDocument` React hooks** (`LegacyDocument`, `DocumentHook`):
  their page sizes, their font-size calibration, the second hook's worker cache
  and the order in which each draws text and image.

The browser, the canvas, Tesseract and jsPDF are outside the model. What they
return is an input: recognised blocks are `Ocr` records, computed styles and
client rectangles are `Dom` records, the width jsPDF gives a text is a function
parameter `measure`, and whether an awaited step throws is part of the
environment handed to an operation. What the code does to a jsPDF document is
the sequence of calls it makes (`Pdf.Op`). A `parseFloat` result is an
`Option<real>`, `None` standing for `NaN`. Geometry uses exact `real`s;
thrown errors become `Result` or `Option` values.

Shared modules: `Wrappers` (option and result types), `Seqs` (sums, means,
filtering), `Text` (JavaScript whitespace, `trim`, whitespace tokens),
`SortedStrings` (JavaScript's default string sort and the set-then-sort
idiom), `JsMath`, `Async` (runs of awaited steps), `Tree` (the node tree the
`traverse` helpers walk), `Dom`, `Ocr`, `Pdf` and `Paper` (the Letter sheet
and margin constants of `src/lib/constants.ts`).

## Model

| member | source | states |
|---|---|---|
| Paper.NamedMarginsOrdered | src/lib/core/index.ts:56-60 | the named margins: `None` is zero, `Thin` is exactly half of `Standard`, and `Standard` is the default margin in pixels |
| Paper.Lookup | src/lib/constants.ts:39-44 | a format names a sheet exactly when its upper-case spelling is `LETTER`, and that sheet is 2551 × 3295 pixels |
| Paper.LookupIgnoresCase | src/lib/core/index.ts:53-54 | formats that upper-case to the same text name the same sheet (or both none) |
| Paper.DefaultFormatIsLetter | src/lib/core/index.ts:85 | the default format `Letter`, in any case, names the Letter sheet |
| Config.DocumentedRanges | src/lib/config/index.ts:1-145 | every tuning constant lies in the range its documentation gives (confidence 0–100, quality 0–1, retries 1–10, batch size 1–20) |
| Config.StageWeights | src/lib/config/index.ts:182-237 | every stage weight is in 0–1, the four weights sum to exactly 1, and OCR is the heaviest stage |
| Css.Css | src/lib/css.ts:5-13 | the result is string `i` followed by expression `i` for every index that has an expression, string alone otherwise, concatenated in order |
| Css.NoExpressions | src/lib/css.ts:5-13 | without expressions the template is its strings concatenated; no strings give the empty text |
| Css.TemplateLayout | src/lib/css.ts:5-13 | for a real template (one more string than expressions) each expression sits between its string and the next, and the last string ends the text |
| Css.ExtraExpressionsDropped | src/lib/css.ts:8-10 | expressions beyond the strings never appear in the text |
| Pick.Pick | src/lib/html-to-pdf/utils/pick.ts:1-14 | the picked object has exactly the requested keys the source has, each with the source's value |
| Pick.SameKeysSameResult | src/lib/html-to-pdf/utils/pick.ts:5-13 | repeating or reordering the keys does not change the picked object |
| Pick.PickIdempotent | src/lib/html-to-pdf/utils/pick.ts:5-13 | picking again with the same keys gives the picked object back, and picking every key gives the source |
| Zip.MaxLength | src/lib/utils/zip.ts:8 | the longest length is at least every array's length and is one of them |
| Zip.Zip | src/lib/utils/zip.ts:3-14 | no arrays give no tuples; otherwise there is one tuple per index below the longest length, holding each array's element there or `undefined` |
| Zip.ColumnsRecoverArrays | src/lib/utils/zip.ts:8-13 | column `k` of the tuples is array `k` padded with `undefined` to the longest length, so every input is recovered |
| Zip.SameLengthNoPadding | src/lib/utils/zip.ts:8-13 | arrays of one length zip without any `undefined` |
| Times.Calls | src/utils/times.ts:1-2 | `n` results, result `i` being what the callback returns from the state left by the `i` calls before it |
| Times.Times | src/lib/utils.ts:8-9 | a `RangeError` exactly for a negative or too large count; otherwise `n` results in call order |
| Times.NoCalls | src/utils/times.ts:1-2 | a count of zero gives no results and leaves the state untouched |
| Times.CallsSplit | src/utils/times.ts:1-2 | `n + m` calls are `n` calls followed by `m` calls from the state they leave |
| Times.Stateless | src/utils/times.ts:1-2 | a callback that carries no state from one call to the next gives `n` copies of one value |
| Sequential.Sequential | src/lib/utils/sequential.ts:1-12 | results are the settled values of the tasks in order up to the first rejection, which ends the run with its reason; exactly the function tasks reached are called, in ascending order |
| Sequential.FromInvoked | src/lib/utils/sequential.ts:6-9 | the loop calls exactly the function tasks it reaches, in order |
| Sequential.SettledOnly | src/lib/utils/sequential.ts:7 | swapping a function task for the promise it returns changes neither results nor rejection |
| Sequential.RejectionStops | src/lib/utils/sequential.ts:6-9 | no task after a rejected one is called or collected |
| UtilsChain.Chain | src/lib/utils/chain.ts:25-43 | the first function is called with nothing, each later one with the previous result; results are collected in order until the first rejection, which the chain rejects with |
| UtilsChain.AgreesWithLoop | src/lib/utils/chain.ts:36-40 | the reduce-based chain makes exactly the same run (calls, results, rejection) as the loop-based chain of the second generation |
| HtmlChain.Chain | src/lib/html-to-pdf/utils/chain.ts:21-32 | a run of the functions: call 0 has no argument, call `i` gets result `i - 1`, a plain value is taken as is, and the first rejection stops the run with its reason |
| HtmlChain.Extend | src/lib/html-to-pdf/utils/chain.ts:25-29 | a first call followed by a run of the rest from its value is a run of all the functions |
| HtmlChain.RunUnique | src/lib/html-to-pdf/utils/chain.ts:25-29 | the functions and the first argument determine the run completely |
| HtmlChain.SamePrefix | src/lib/html-to-pdf/utils/chain.ts:25-29 | two runs of the same functions agree on their first `k` results and inputs |
| HtmlChain.RejectionStops | src/lib/html-to-pdf/utils/chain.ts:26-27 | a rejecting function is the last one called and the run carries its reason |
| UtilsTraverse.Traverse | src/lib/utils/traverse.ts:4-19 | the root first when it is an `HTMLElement`, then what the walker yields |
| UtilsTraverse.WalkIsFilter | src/lib/utils/traverse.ts:5-10 | the walker yields exactly the `HTMLElement`s strictly below the root, in document order, skipped elements' descendants included |
| UtilsTraverse.TraverseIsHtmlNodes | src/lib/utils/traverse.ts:12-18 | `traverse` lists every `HTMLElement` of the tree once, in document order |
| UtilsTraverse.NotBelowItself | src/lib/utils/traverse.ts:16-18 | a node is never among its own descendants, so the root is not yielded twice |
| LegacyTraverse.Visit | src/lib/traverse.ts:4-23 | the callback sees the node when it is an `HTMLElement`, then its children's calls in order, but only when the node has `style` |
| LegacyTraverse.AgreesWithWalker | src/lib/traverse.ts:12-21 | on a tree whose inner nodes are all elements with `style`, the recursive walk reports the same elements in the same order as the TreeWalker `traverse` |
| LegacyTraverse.DocumentRootHidesChildren | src/lib/traverse.ts:14 | a root without `style` holding an `HTMLElement`: the TreeWalker version yields the child, the recursive walk reports nothing |
| Sanitize.Sanitize | src/lib/workers/sanitizeForTransfer.ts:1-38 | past depth 100 the value becomes `String(value)`; settled values stay; errors become name/message/stack records; arrays and plain objects keep their shape and keys; other objects become `[Name]` |
| Sanitize.ChildrenOneLevelDeeper | src/lib/workers/sanitizeForTransfer.ts:20-35 | each array element and object value is the sanitised child at the next depth |
| Sanitize.SettledUnchanged | src/lib/workers/sanitizeForTransfer.ts:2-10 | a primitive value comes back unchanged at every depth, once `String` of a string is that string |
| Sanitize.NotIdempotentAtCutoff | src/lib/workers/sanitizeForTransfer.ts:1-17 | a second pass can change a sanitised value: an error met at the cut-off depth |
| Range.Range | src/lib/html-to-pdf/utils/range.ts:1-3 | a `RangeError` exactly when `n` is not a valid array length; otherwise `n` numbers, number `i` being `start + i` |
| Range.RangeSnoc | src/lib/html-to-pdf/utils/range.ts:2 | `range(n + 1, start)` is `range(n, start)` followed by `start + n` |
| Range.RangeEmpty | src/lib/html-to-pdf/utils/range.ts:1-3 | `range(0, start)` is empty |
| Range.RangeFromZero | src/lib/html-to-pdf/utils/range.ts:1-2 | with `start` omitted, `range(n)` lists `0` up to `n - 1` |
| Core.GetDefaults | src/lib/core/index.ts:83-105 | every option the caller gives is kept; a missing one becomes Letter, the one-inch margin, no debugging, scale 3.5, automatic pagination or the configured OCR settings; handlers pass through |
| Core.DefaultsStable | src/lib/core/index.ts:83-105 | filling in the defaults of already filled-in settings changes nothing |
| Core.GetDimensions | src/lib/core/index.ts:46-69 | defined exactly for a format naming the Letter sheet; width, height and padding times the workspace scale give the sheet's width, height and margin in pixels |
| Core.Style | src/lib/core/index.ts:157-183 | the clone is padded by the margin, as wide as the page, and at least as tall as both the page and the element's content, taking one of the two |
| Core.Prepare | src/lib/core/index.ts:153-282 | the posted options carry the unscaled page and margin, the page height at the workspace scale, the caller's flags, the dictionary built from the text of the styled clone, and as character whitelist the unique characters of that same text joined without separator |
| Core.Create | src/lib/core/index.ts:107-348 | an unknown format throws before anything else; a missing or non-HTML element rejects with its message before any worker exists; once the worker is created, a rejected import, `toCanvas` or `createImageBitmap` rejects the promise, reports to `onError` only an `Error` or string, and leaves the worker behind and, before `createImageBitmap`, the clone in the body; otherwise the clone is styled and the input posted, its sizes matching the style |
| Core.WorkerGetsSheetPixels | src/lib/core/index.ts:267-282 | scaled back up, the posted margin and page height are the sheet's margin and height in pixels, whatever the scale |
| Core.ReplacementsInDictionary | src/lib/core/index.ts:243-246 | every non-empty user replacement is a word of the dictionary sent to the recogniser |
| Core.GenerationsPaginateAlike | src/lib/core/index.ts:267-282 | this generation and the second paginate a Letter sheet with the same margin and page height, though they scale at different points |
| Download.Configure | src/lib/core/index.ts:301-306 | the kind is direct only when asked for; the file name is the given one or `document.pdf` |
| Download.Download | src/lib/core/index.ts:301-328 | a direct download clicks an anchor pointing at the URL under the configured name, opens no window and cleans up nothing; otherwise the URL opens in a new window and the clean-up revokes exactly that URL |
| Download.FilenameOnlyForDirect | src/lib/html-to-pdf/core/index.ts:405-432 | the file name has no effect on a window download |
| Download.DefaultOpensWindow | src/lib/html-to-pdf/core/index.ts:405-432 | with no options the PDF opens in a new window, and a clean-up only ever revokes the downloaded URL |
| HtmlCore.GetDefaults | src/lib/html-to-pdf/core/index.ts:88-110 | each given option is kept and each absent one takes its default (Letter, the standard margin, `warn`, scale 3.5, automatic pagination, the configured OCR settings); handlers pass through |
| HtmlCore.DefaultsStable | src/lib/html-to-pdf/core/index.ts:88-110 | filling in the defaults of filled-in settings changes nothing |
| HtmlCore.GetMargin | src/lib/html-to-pdf/core/index.ts:45-52 | the margin times the scale is the margin in sheet pixels, an absent margin counting as `Standard` |
| HtmlCore.OmittedMarginIsStandard | src/lib/html-to-pdf/core/index.ts:51 | omitting the margin and giving `Standard` are the same |
| HtmlCore.GetDimensions | src/lib/html-to-pdf/core/index.ts:54-74 | defined exactly when `PAPER_DIMENSIONS` lists the upper-cased format (otherwise destructuring throws); `(workspaceScale * 2) / 2` is the workspace scale, so width, height and padding times it give that sheet and the margin in pixels |
| HtmlCore.Sheet | src/lib/html-to-pdf/core/index.ts:61-62 | the sheet is the table entry under the upper-cased format, and there is none exactly when the table lacks that key |
| HtmlCore.FormatIgnoresCase | src/lib/html-to-pdf/core/index.ts:61-62 | format names that differ only in letter case give the same dimensions, or both throw |
| HtmlCore.Partition | src/lib/html-to-pdf/core/index.ts:163-181 | `auto` is the marked HTML elements whose value is `'true'` and `fixed` the other HTML elements, each in document order; non-HTML elements are dropped |
| HtmlCore.Layout | src/lib/html-to-pdf/core/index.ts:185-244 | one page per HTML element: the fixed ones first, then the auto ones; an auto page is at least as tall as both the page and its content, a fixed page exactly page height |
| HtmlCore.Place | src/lib/html-to-pdf/core/index.ts:185-244 | entry `i` of the list is fixed page `i`, or auto page `i` minus the number of fixed pages; it is auto-paginated exactly when it came from `auto`, and then at least as tall as the page and its content, otherwise exactly the page height |
| HtmlCore.Flags | src/lib/html-to-pdf/core/index.ts:302 | one flag per rendered page, set exactly for the auto pages |
| HtmlCore.FixedPagesFirst | src/lib/html-to-pdf/core/index.ts:185 | once a flag is set every later one is, and each group keeps document order |
| HtmlCore.ScaleCancels | src/lib/html-to-pdf/core/index.ts:304-325 | the pixel ratio cancels: a field is multiplied by canvas size over element size |
| HtmlCore.Rescale | src/lib/html-to-pdf/core/index.ts:311-325 | horizontal fields scale with the canvas width over the element width, vertical fields and the font size with the heights; text and letter spacing are kept |
| HtmlCore.RescaleAll | src/lib/html-to-pdf/core/index.ts:314-325 | every text node of a page, in order, rescaled onto that page's canvas |
| HtmlCore.PageTexts | src/lib/html-to-pdf/core/index.ts:306-326 | one list of rescaled text nodes per rendered page, in page order |
| HtmlCore.Geometry | src/lib/html-to-pdf/core/index.ts:360-366 | the posted margin and page height are those of the requested sheet in pixels, and width and height at the workspace scale give back that sheet |
| HtmlCore.Catch | src/lib/html-to-pdf/core/index.ts:447-452 | the promise rejects with the thrown value; `onError` hears its message exactly when it is given and the value is an `Error` or a string; whether a worker and an attached clone are left behind is recorded |
| HtmlCore.Prepare | src/lib/html-to-pdf/core/index.ts:158-375 | the posted margin and page height are the sheet's in pixels; one flag per rendered page, set for the auto pages, and one list of text nodes per page rescaled onto its canvas; the dictionary holds the unique words of all those nodes and the replacement values; the whitelist holds every character of those nodes exactly once and nothing else |
| HtmlCore.WhiteListIsTextChars | src/lib/html-to-pdf/core/index.ts:328-329 | the joined character list contains a character exactly when some text node contains it, and no character twice |
| HtmlCore.Create | src/lib/html-to-pdf/core/index.ts:112-452 | an unknown format throws synchronously, before the element is checked; a missing or non-HTML element rejects with its message before any worker exists; once the worker is created, a rejected load, `toCanvas` or `createImageBitmap` rejects the promise and leaves the worker behind, and the clone too unless the failure is `createImageBitmap`; otherwise the input is posted with the sheet's page height |
| HtmlCore.WorkerGetsSheetPixels | src/lib/html-to-pdf/core/index.ts:360-366 | for a listed format and no failing step the worker gets the sheet's margin and page height whatever the workspace scale |
| HtmlCore.OnMessage | src/lib/html-to-pdf/core/index.ts:381-445 | `onProgress` sees every message; `Done` resolves; an error reaches `onError` with its message, or a non-empty fallback when that is missing or empty |
| HtmlCore.FailureLeavesPending | src/lib/html-to-pdf/core/index.ts:443-444 | a worker error is reported but neither resolves nor rejects the promise |
| CutPlanner.MakeHeights | src/lib/utils/getPaginatedCanvases.ts:28-30 | the first page loses one margin and every later page two, so the first page is one margin taller; both are positive when the page exceeds two margins |
| CutPlanner.FindStraddling | src/lib/utils/getPaginatedCanvases.ts:80-82 | the first line, in OCR order, whose top is above the cut and bottom below it; none only when no line straddles |
| CutPlanner.Step | src/lib/utils/getPaginatedCanvases.ts:71-94 | a step adds at most one cut; past the bottom it adds the full height once; otherwise the new cut is the proposed one when no line straddles it and else the bottom of the first straddling line, never repeating the previous cut |
| CutPlanner.Fold | src/lib/utils/getPaginatedCanvases.ts:68-95 | after index 0 and `k` steps the cut list starts at 0 and has at most `k + 1` cuts |
| CutPlanner.Cuts | src/lib/utils/getPaginatedCanvases.ts:68-95 | no lines give no cuts; otherwise the cuts start at 0 and are no more than the lines |
| CutPlanner.Pages | src/lib/utils/getPaginatedCanvases.ts:104-124 | one page per pair of consecutive cuts, from the first cut to the next, only page 0 flagged as first |
| CutPlanner.StepPreservesWellFormed | src/lib/utils/getPaginatedCanvases.ts:71-94 | a step keeps the cut list starting at 0, strictly increasing and within the rendering |
| CutPlanner.FoldWellFormed | src/lib/utils/getPaginatedCanvases.ts:68-95 | with positive page heights and lines inside the rendering, the cuts start at 0, strictly increase and never pass the bottom |
| CutPlanner.CutsWellFormed | src/lib/utils/getPaginatedCanvases.ts:68-95 | the finished cut list is well formed in the same sense |
| CutPlanner.FewLinesNoPages | src/lib/utils/getPaginatedCanvases.ts:68-69 | no lines give no cuts and one line the single cut 0, so no page is made either way |
| CutPlanner.PagesAtMostLinesMinusOne | src/lib/utils/getPaginatedCanvases.ts:68-124 | there are at most as many pages as lines after the first |
| CutPlanner.FoldFrozen | src/lib/utils/getPaginatedCanvases.ts:76-77 | once the last cut is the full height, later lines change nothing |
| CutPlanner.PagesTile | src/lib/utils/getPaginatedCanvases.ts:104-107 | strictly increasing cuts give pages of positive height whose heights add up to the distance from the first cut to the last |
| CutPlanner.PlanTiles | src/lib/utils/getPaginatedCanvases.ts:68-124 | the planned pages have positive heights and tile the rendering from 0 to the last cut without gap or overlap |
| CutPlanner.CutCanFallInsideOverlappingLine | src/lib/utils/getPaginatedCanvases.ts:80-84 | with two overlapping lines the cut moved below the first lands inside the second |
| CutPlanner.FewLinesStopShort | src/lib/utils/getPaginatedCanvases.ts:68-95 | two lines on a tall rendering give one page that stops well above the bottom |
| FixedPlanner.PageCount | src/lib/html-to-pdf/utils/getPaginatedCanvases.ts:25-30 | for any margin, the count is one more than the least integer at or above the height left after the first page over the later page height |
| FixedPlanner.PageCountCovers | src/lib/html-to-pdf/utils/getPaginatedCanvases.ts:25-30 | when the later pages have positive height, the first page and the later ones reach the bottom of the rendering |
| FixedPlanner.WideMarginPages | src/lib/html-to-pdf/utils/getPaginatedCanvases.ts:25-30 | with a margin over half the page the count is positive exactly when the rendering is shorter than one margin, and negative, so `range` throws, exactly when it is at least three margins minus a page tall |
| FixedPlanner.Request | src/lib/html-to-pdf/utils/getPaginatedCanvases.ts:41-55 | page `k` is first exactly when `k` is 0 and last exactly when it is the last; it asks for that page's offset and height with the caller's margin and page height |
| FixedPlanner.Paginate | src/lib/html-to-pdf/utils/getPaginatedCanvases.ts:6-79 | for any margin, a `RangeError` exactly when the count is not a valid array length; otherwise one crop and node list per page, in page order |
| FixedPlanner.PageCountSign | src/lib/html-to-pdf/utils/getPaginatedCanvases.ts:29-30 | the count is negative, so `range` throws, exactly when the rendering is at most three margins minus a page tall, and positive exactly when it is taller than one margin |
| FixedPlanner.PagesContiguous | src/lib/html-to-pdf/utils/getPaginatedCanvases.ts:42-46 | each page starts where the one before ends |
| FixedPlanner.LastPageCoversBottom | src/lib/html-to-pdf/utils/getPaginatedCanvases.ts:29-46 | the last page starts above the bottom of the rendering and reaches it |
| FixedPlanner.OnPageIff | src/lib/html-to-pdf/utils/getPaginatedCanvases.ts:58-62 | the page test holds exactly when the node's top is within the page, both ends included; the node's height plays no part |
| FixedPlanner.BoundaryNodeOnBothPages | src/lib/html-to-pdf/utils/getPaginatedCanvases.ts:58-62 | a node whose top is exactly on a page boundary is put on both pages |
| FixedPlanner.PageNodesSpec | src/lib/html-to-pdf/utils/getPaginatedCanvases.ts:57-73 | a page keeps, in input order, exactly the nodes whose top lies on it, only `y` changed to the offset from the page top plus the top margin on later pages |
| FixedPlanner.SelectIff | src/lib/html-to-pdf/utils/getPaginatedCanvases.ts:57-73 | a node is kept for a page exactly when its top lies on the page, and then only its `y` changes |
| FixedPlanner.PageYIncreasing | src/lib/html-to-pdf/utils/getPaginatedCanvases.ts:44-46 | later pages start strictly lower |
| FixedPlanner.DrawnPrefix | src/lib/html-to-pdf/utils/getPaginatedCanvases.ts:41-55 | the rows drawn by the pages before page `n` add up to page `n`'s offset |
| FixedPlanner.DrawnHeightsCoverRendering | src/lib/html-to-pdf/utils/getPaginatedCanvases.ts:39-78 | cropping every page draws each row of the rendering once in total: the drawn heights add up to the rendering height |
| HtmlCrop.CropCanvas | src/lib/html-to-pdf/utils/cropCanvas.ts:1-53 | the output is as wide as the source and as tall as the integer part of the page height; the band starts at the requested row and is drawn below the top margin on later pages, as tall as requested or as the source has left |
| HtmlCrop.OutputRows | src/lib/html-to-pdf/utils/cropCanvas.ts:19-50 | every row of the output canvas outside the drawn band stays white, and inside it output row `destY + d` shows source row `y + d` without scaling |
| HtmlCrop.LastPageFlagIgnored | src/lib/html-to-pdf/utils/cropCanvas.ts:8 | `isLastPage` has no effect on the crop |
| HtmlCrop.ClippedAtSourceBottom | src/lib/html-to-pdf/utils/cropCanvas.ts:38 | a band inside the source is drawn in full, and the final band only down to the source bottom |
| UtilsCrop.CropCanvas | src/lib/utils/cropCanvas.ts:1-34 | one output per source, in order, each as wide as its source |
| UtilsCrop.CropOne | src/lib/utils/cropCanvas.ts:7-30 | the output canvas has the source's width and the band height converted to an `unsigned long`; the band starts at `y` and is drawn as tall as requested or as the source has left |
| UtilsCrop.AgreesWithFirstPage | src/lib/utils/cropCanvas.ts:17-30 | for a band height below 2^32 the first generation's crop has the size of the second generation's first page of that height, and every row either draws shows the same source row |
| UtilsCrop.SameBandForAll | src/lib/utils/cropCanvas.ts:6-33 | the same band is cut from every source; only the widths and the clipping at each source's bottom differ |
| HtmlTextNodes.Convert | src/lib/html-to-pdf/utils/getTextNodes.ts:34-78 | nothing exactly for a parentless node, an invisible parent or a rectangle of zero width or height; otherwise a node with the text, the parsed letter spacing (0 when it does not parse) and the root-relative rectangle times the scale |
| HtmlTextNodes.ConvertScales | src/lib/html-to-pdf/utils/getTextNodes.ts:63-77 | a node at scale `s` is the node at scale 1 with every field but letter spacing multiplied by `s` |
| HtmlTextNodes.ConvertTranslationInvariant | src/lib/html-to-pdf/utils/getTextNodes.ts:25-32 | moving the text and the root by the same offset gives the same node |
| HtmlTextNodes.Attempted | src/lib/html-to-pdf/utils/getTextNodes.ts:81-86 | the walker offers exactly the text nodes whose trimmed text is not empty |
| HtmlTextNodes.Extract | src/lib/html-to-pdf/utils/getTextNodes.ts:80-114 | the yielded nodes are the converted ones; every offered node is counted once, as processed or as skipped |
| HtmlTextNodes.KeptSpec | src/lib/html-to-pdf/utils/getTextNodes.ts:80-114 | a node is yielded exactly when it comes from a text node with visible text that survives the parent and size filters, in document order |
| HtmlTextNodes.CalculateStats | src/lib/html-to-pdf/utils/getTextNodes.ts:117-153 | the count is the number of nodes, and there is a position range exactly when there is a node; no nodes give all zeros |
| HtmlTextNodes.StatsBoundingBox | src/lib/html-to-pdf/utils/getTextNodes.ts:135-145 | on some nodes the position range is their bounding box: every node lies inside it and each side touches a node |
| UtilsTextNodes.MakeScale | src/lib/utils/getTextNodes.ts:13-14 | the scales map the reference element's width and height onto the canvas's |
| UtilsTextNodes.Convert | src/lib/utils/getTextNodes.ts:31-67 | a node is skipped exactly when its parent exists and is invisible; a parentless node has font size and letter spacing 0 |
| UtilsTextNodes.ConvertGeometry | src/lib/utils/getTextNodes.ts:54-66 | font size follows the vertical scale, letter spacing the horizontal one, and the rectangle is relative to the reference element and scaled |
| UtilsTextNodes.GetTextNodesSpec | src/lib/utils/getTextNodes.ts:16-71 | a node is yielded exactly when its text is not blank and its parent, if any, is visible, in document order |
| UtilsTextNodes.BlankNeverYielded | src/lib/utils/getTextNodes.ts:17-22 | a white-space-only text node is never yielded |
| UtilsTextNodes.ZeroAreaYielded | src/lib/utils/getTextNodes.ts:31-67 | there is no size filter: a visible text node with an empty rectangle is yielded |
| UniqueWords.AllTokens | src/lib/html-to-pdf/utils/getUniqueWordsFromTextNodes.ts:9-14 | the tokens are exactly the white-space separated words of the texts |
| UniqueWords.FromTexts | src/lib/html-to-pdf/utils/getUniqueWordsFromTextNodes.ts:3-23 | a strictly ascending list holding exactly the words of the texts and the non-empty additional words, never the empty word |
| UniqueWords.HtmlUniqueWords | src/lib/html-to-pdf/utils/getUniqueWordsFromTextNodes.ts:3-23 | the same for the second generation's text nodes |
| UniqueWords.UtilsUniqueWords | src/lib/utils/getUniqueWordsFromTextNodes.ts:3-23 | the same for the first generation's text nodes |
| UniqueWords.WordsOrderIndependent | src/lib/html-to-pdf/utils/getUniqueWordsFromTextNodes.ts:7-22 | the dictionary depends only on which texts and which additional words are given |
| UniqueWords.AdditionalWordsUnsplit | src/lib/html-to-pdf/utils/getUniqueWordsFromTextNodes.ts:10-19 | an additional word stays whole even with white space in it, while the same text in a node is split |
| UniqueWords.AllChars | src/lib/html-to-pdf/utils/getUniqueCharsFromTextNodes.ts:6-10 | exactly the one-character strings of characters occurring in the texts |
| UniqueWords.UniqueChars | src/lib/html-to-pdf/utils/getUniqueCharsFromTextNodes.ts:3-13 | a strictly ascending list of exactly the characters occurring in the texts |
| UniqueWords.CharsDependOnlyOnCharacters | src/lib/html-to-pdf/utils/getUniqueCharsFromTextNodes.ts:3-13 | texts with the same characters give the same list, and empty texts give none |
| OcrReplacements.GetAttribute | src/lib/html-to-pdf/core/processOCRReplacements.ts:16 | a value exactly when the element has the attribute, and then one of its values for it |
| OcrReplacements.Selected | src/lib/html-to-pdf/core/processOCRReplacements.ts:13 | every selected element carries the attribute |
| OcrReplacements.FontSize | src/lib/html-to-pdf/core/processOCRReplacements.ts:32 | `NaN` exactly when the computed size does not parse; otherwise the largest of the height, the size and 32 |
| OcrReplacements.Replacement | src/lib/html-to-pdf/core/processOCRReplacements.ts:25-76 | the SVG draws the value at the element's height, offset by the `-x`/`-y` attributes, ending at the element's right edge, and copies exactly the `data-` attributes |
| OcrReplacements.ActionFor | src/lib/html-to-pdf/core/processOCRReplacements.ts:16-91 | a non-HTML element or an empty value is left alone, the value `'false'` hides the element, and any other value replaces it with an SVG of that text |
| OcrReplacements.First | src/lib/html-to-pdf/core/processOCRReplacements.ts:91 | the index of the first replacement with a value, none before it |
| OcrReplacements.FirstSnoc | src/lib/html-to-pdf/core/processOCRReplacements.ts:91 | a later action never moves an earlier first occurrence |
| OcrReplacements.FirstKept | src/lib/html-to-pdf/core/processOCRReplacements.ts:91 | a value first replaced before the new action keeps its first replacement |
| OcrReplacements.FirstAtEnd | src/lib/html-to-pdf/core/processOCRReplacements.ts:91 | a value not replaced before is first replaced by the new action exactly when that action replaces with it |
| OcrReplacements.Collect | src/lib/html-to-pdf/core/processOCRReplacements.ts:13-92 | each replaced value once, exactly the replaced values, in the order of their first replacement |
| OcrReplacements.NewValueAppended | src/lib/html-to-pdf/core/processOCRReplacements.ts:91 | a replacement with a value not yet collected appends it and keeps the values distinct and in order of first replacement |
| OcrReplacements.OldValueSkipped | src/lib/html-to-pdf/core/processOCRReplacements.ts:91 | an action that replaces nothing new leaves the collected values as they are |
| OcrReplacements.ProcessOcrReplacements | src/lib/html-to-pdf/core/processOCRReplacements.ts:4-93 | one action per selected element in document order, and the returned values are the distinct replaced values in first-occurrence order |
| OcrReplacements.Actions | src/lib/html-to-pdf/core/processOCRReplacements.ts:13-16 | one action per selected element, in document order |
| OcrReplacements.FirstIffReplaced | src/lib/html-to-pdf/core/processOCRReplacements.ts:16-91 | a value has a first replacement exactly when some selected element is replaced with it |
| OcrReplacements.ProcessDefault | src/lib/html-to-pdf/core/processOCRReplacements.ts:8 | with the default `data-ocr` attribute every returned value is some element's attribute value |
| OcrReplacements.ReplacementFontAndBorder | src/lib/html-to-pdf/core/processOCRReplacements.ts:32-63 | a parsed size draws at 32 or more with a black border; an unparsed one gets a transparent border |
| OcrReplacements.HiddenNotReturned | src/lib/html-to-pdf/core/processOCRReplacements.ts:18-23 | neither `'false'` nor the empty value is ever returned |
| OcrWordLegacy.CharSpace | src/lib/drawOcrWord.ts:26-30 | with two or more characters the rendered width plus the spacing over every gap is the recognised width (and the spacing is not negative when the text renders narrower); a single character or none gets 0 |
| OcrWordLegacy.FrameOps | src/lib/drawOcrWord.ts:36-45 | the frame is a rectangle of the word's box times the ratio, after setting a red colour and the line width |
| OcrWordLegacy.WordOps | src/lib/drawOcrWord.ts:18-46 | a word makes its text call first, followed by the three frame calls only in debug mode |
| OcrWordLegacy.WordsOps | src/lib/drawOcrWord.ts:18-46 | the words make four calls each in debug mode and one otherwise |
| OcrWordLegacy.DrawOcrWord | src/lib/drawOcrWord.ts:3-47 | a line without a word list draws nothing; otherwise the first call sets the font size |
| OcrWordLegacy.WordsOpsBlock | src/lib/drawOcrWord.ts:18-46 | word `i`'s calls are the `i`-th block of four (debug) or one calls |
| OcrWordLegacy.TextsOfWordOps | src/lib/drawOcrWord.ts:32-45 | a word's calls hold exactly one text call, its own |
| OcrWordLegacy.OneTextPerWord | src/lib/drawOcrWord.ts:18-46 | the text calls are exactly one per word, in order, each at the word's scaled position with its spacing |
| OcrWordLegacy.TextsAreTextOps | src/lib/drawOcrWord.ts:18-46 | the text calls among a line's calls are its words' text calls, in order |
| OcrWordLegacy.WordsSetNoFontSize | src/lib/drawOcrWord.ts:18-46 | the words' calls never set the font size |
| OcrWordLegacy.FontSizeSetOnce | src/lib/drawOcrWord.ts:16 | the font size is set once, first, and never again |
| OcrWordLegacy.DefaultDrawsFrames | src/lib/drawOcrWord.ts:14 | without options the debug default is on: every word's text is followed by a red frame of its box |
| OcrWordLegacy.NoDebugOnlyTexts | src/lib/drawOcrWord.ts:36 | with `debug: false` the calls after the font size are exactly the words' text calls |
| OcrWordLegacy.NeverAddsPages | src/lib/drawOcrWord.ts:18-46 | drawing a line never adds a page |
| OcrWord.Position | src/lib/utils/drawOcrWord.ts:43-60 | `x` is the word's left edge and `y` the middle of the baseline, both scaled; the spacing stretches the rendered width over the gaps to the recognised width, 0 without a gap |
| OcrWord.DrawOcrWord | src/lib/utils/drawOcrWord.ts:4-115 | nothing at all exactly when the line has no word list; otherwise the font size is set first |
| OcrWord.WordsOpsAsLegacy | src/lib/utils/drawOcrWord.ts:30-96 | the words' calls are the first generation's, frames drawn exactly when the option lists `'debug'` |
| OcrWord.WordOpsAsLegacy | src/lib/utils/drawOcrWord.ts:30-96 | a word's calls are the first generation's, its frame drawn exactly when the option lists `'debug'` |
| OcrWord.PositionAsLegacy | src/lib/utils/drawOcrWord.ts:43-60 | the `positioning` record holds the first generation's position and spacing |
| OcrWord.AsLegacy | src/lib/utils/drawOcrWord.ts:14-96 | the calls are exactly those of the first generation with `debug` set to whether the option lists `'debug'`; the default draws no frames where the first generation's does |
| OcrWord.OneTextPerWord | src/lib/utils/drawOcrWord.ts:72-88 | one text call per word, in order, at the same place and spacing as the first generation |
| OcrWord.SpacingIsPosition | src/lib/utils/drawOcrWord.ts:72-88 | each text call carries the spacing of the word's `positioning` record |
| OcrFromBlocks.Calibrate | src/lib/utils/drawOcrFromBlocks.ts:30-34 | for any line of non-zero scaled height, the calibrated size is the known font size |
| OcrFromBlocks.Calls | src/lib/utils/drawOcrFromBlocks.ts:26-37 | one `drawOcrWord` call per line |
| OcrFromBlocks.BlockCalls | src/lib/utils/drawOcrFromBlocks.ts:18-22 | a `null` result draws nothing |
| OcrFromBlocks.DrawOcrFromBlocks | src/lib/utils/drawOcrFromBlocks.ts:5-40 | a `null` result makes no call |
| OcrFromBlocks.CallsAreLines | src/lib/utils/drawOcrFromBlocks.ts:26-37 | call `i` draws line `i` at the known size with the same ratio and no options |
| OcrFromBlocks.OneCallPerLine | src/lib/utils/drawOcrFromBlocks.ts:9-37 | every line is drawn once, in block, paragraph, line order, at the known size (12 by default), whatever its confidence |
| OcrFromBlocks.RunTexts | src/lib/utils/drawOcrFromBlocks.ts:36 | the lines' calls hold as many text calls as the lines have words |
| OcrFromBlocks.CallTexts | src/lib/utils/drawOcrFromBlocks.ts:36 | one call draws as many texts as its line has words |
| OcrFromBlocks.OneTextPerWord | src/lib/utils/drawOcrFromBlocks.ts:24-39 | every recognised word is drawn exactly once |
| OcrFromBlocks.NeverAddsPages | src/lib/utils/drawOcrFromBlocks.ts:24-39 | the text layer stays on the current page |
| OcrAlignedY.AlignedY | src/lib/getOcrAlignedY.ts:1-22 | the middle of the box scaled by the ratio over the workspace size, lowered by a quarter of the font size |
| OcrAlignedY.BaselineFactorIgnored | src/lib/getOcrAlignedY.ts:9 | `baselineFactor` has no effect |
| OcrAlignedY.StrictlyIncreasing | src/lib/getOcrAlignedY.ts:14-21 | with a positive ratio and workspace size the position strictly grows with the font size and with either edge of the box |
| OcrHeightStats.TestTextShape | src/lib/getOcrHeightStats.ts:3-10 | the test text is single-spaced with no white space at either end |
| OcrHeightStats.TestWords | src/lib/getOcrHeightStats.ts:39-44 | the test words are exactly the non-white-space characters of the test text, one per string |
| OcrHeightStats.Record | src/lib/getOcrHeightStats.ts:63-64 | every key of a record is the text of some word |
| OcrHeightStats.LastWriteWins | src/lib/getOcrHeightStats.ts:63-64 | a text's entry holds the value of the last word with that text |
| OcrHeightStats.Matched | src/lib/getOcrHeightStats.ts:52-69 | every matched word's text is one non-white-space character of the test text |
| OcrHeightStats.GetOcrHeightStats | src/lib/getOcrHeightStats.ts:24-87 | an absent block list or no match fails with the no-match error, a line without words with the iteration error; on success there is at least one match and the minimum, average and maximum are ordered |
| OcrHeightStats.Summarize | src/lib/getOcrHeightStats.ts:71-86 | success exactly when some word matched; then the count is the number of matches and the average lies between the minimum and the maximum |
| OcrHeightStats.SummaryFields | src/lib/getOcrHeightStats.ts:71-86 | a non-empty match gives the mean, minimum and maximum height, the count and the height and width records |
| OcrHeightStats.HeightBounds | src/lib/getOcrHeightStats.ts:76-77 | the minimum and maximum bound every matched word's height and are some matched word's height |
| OcrHeightStats.RunIsSummary | src/lib/getOcrHeightStats.ts:52-86 | when every line has a word list, the run's outcome is the summary of the matching words |
| OcrHeightStats.SummaryStats | src/lib/getOcrHeightStats.ts:71-86 | a summary succeeds exactly when some word matched; then the count is the number of matching words, the average their mean height, and the minimum and maximum bound every height and are attained |
| OcrHeightStats.MatchedWords | src/lib/getOcrHeightStats.ts:56 | a recognised word is matched exactly when its whole text is one non-white-space character of the test text |
| OcrHeightStats.LastMatchRecorded | src/lib/getOcrHeightStats.ts:57-64 | the height and width recorded for a character are those of the last matching word with that text |
| OcrHeightStats.Recorded | src/lib/getOcrHeightStats.ts:79-86 | the returned maps are the records of the matching words' heights and widths |
| OcrHeightStats.RecordedKeys | src/lib/getOcrHeightStats.ts:63-64 | both maps have the same keys, the texts of the matching words |
| Pdf.RenderingModeNumber | src/lib/html-to-pdf/utils/drawTextLayerFromNodes.ts:54 | rendering modes are numbered 0 to 7, `fill` being 0 and `invisible` 3 |
| TextLayer.NodesOps | src/lib/html-to-pdf/utils/drawTextLayerFromNodes.ts:36-63 | two calls per node: its font size, then its text |
| TextLayer.NodesOpsAt | src/lib/html-to-pdf/utils/drawTextLayerFromNodes.ts:45-55 | calls `2i` and `2i + 1` belong to node `i` |
| TextLayer.NodesOpsSlice | src/lib/html-to-pdf/utils/drawTextLayerFromNodes.ts:45-55 | calls `2i` and `2i + 1` are exactly node `i`'s calls |
| TextLayer.RoundTo | src/lib/html-to-pdf/utils/drawTextLayerFromNodes.ts:59-61 | rounding to `1/f` moves a value by at most half a unit, rounding halves up |
| TextLayer.Shorten | src/lib/html-to-pdf/utils/drawTextLayerFromNodes.ts:94-95 | a text of at most 20 characters is kept; a longer one keeps its first 20 characters followed by `...` |
| TextLayer.Row | src/lib/html-to-pdf/utils/drawTextLayerFromNodes.ts:92-99 | a table row carries its number, the shortened text and positions within half a hundredth of the drawn ones |
| TextLayer.TableRows | src/lib/html-to-pdf/utils/drawTextLayerFromNodes.ts:92-99 | one row per listed node |
| TextLayer.TableRowsAt | src/lib/html-to-pdf/utils/drawTextLayerFromNodes.ts:92-99 | row `i` is the row of node `i` numbered from the first number |
| TextLayer.TableRowOf | src/lib/html-to-pdf/utils/drawTextLayerFromNodes.ts:91-101 | with a verbose debug option, row `i` of the table is the row of node `i` numbered `i + 1` |
| TextLayer.DrawTextLayer | src/lib/html-to-pdf/utils/drawTextLayerFromNodes.ts:15-107 | two calls per node; a debug table exactly when the debug option lists `'verbose'`, with one row for each of the first ten nodes at most |
| TextLayer.DrawsEachNode | src/lib/html-to-pdf/utils/drawTextLayerFromNodes.ts:32-55 | node `i` sets its size times the horizontal scale, then draws its text invisible and top-left anchored at its position times the page-to-canvas scales |
| TextLayer.OnlyDrawnFieldsMatter | src/lib/html-to-pdf/utils/drawTextLayerFromNodes.ts:37-55 | nodes that differ only in width, height or letter spacing draw the same, whatever the debug option |
| TextLayer.SameNodesOps | src/lib/html-to-pdf/utils/drawTextLayerFromNodes.ts:45-55 | nodes that agree on text, position and font size make the same calls |
| TextLayer.TableListsFirstNodes | src/lib/html-to-pdf/utils/drawTextLayerFromNodes.ts:91-101 | the verbose table lists the first ten nodes at most, numbered from 1, at rounded drawn positions |
| PdfWorker.Completed | src/lib/workers/pdfWorker.ts:227-264 | no more pages complete than there are pages |
| PdfWorker.PageMessage | src/lib/workers/pdfWorker.ts:246-256 | the message after page `i` is a pending message carrying that page's progress |
| PdfWorker.Run | src/lib/workers/pdfWorker.ts:188-304 | a run starts with the 0.1 setup message and always ends with the `finally` garbage-collection hint |
| PdfWorker.AttemptCases | src/lib/workers/pdfWorker.ts:191-300 | the attempt either fails during setup, fails for a missing first page, fails on some page, or completes every page and posts `Done` |
| PdfWorker.AttemptEarly | src/lib/workers/pdfWorker.ts:191-223 | a failure during setup posts the progress messages reached and then the error; so does a missing first page, with the `TypeError` message |
| PdfWorker.AttemptLoop | src/lib/workers/pdfWorker.ts:191-300 | a job that reaches its pages posts the three setup messages, then runs the page loop and what follows it |
| PdfWorker.EarlyShape | src/lib/workers/pdfWorker.ts:191-223 | a job that fails before any page is processed ends its attempt with its one terminal message |
| PdfWorker.LoopShape | src/lib/workers/pdfWorker.ts:227-300 | a job that reaches its pages ends its attempt with its one terminal message, `Done` only on success |
| PdfWorker.AfterLoopShape | src/lib/workers/pdfWorker.ts:266-300 | what follows the loop posts its one terminal message last: `Done` on success, otherwise the error thrown |
| PdfWorker.LoopNoTerminal | src/lib/workers/pdfWorker.ts:227-264 | the page loop posts no terminal message |
| PdfWorker.AttemptShape | src/lib/workers/pdfWorker.ts:191-300 | the attempt ends with exactly one terminal message, nothing after it |
| PdfWorker.OneTerminalAtEnd | src/lib/workers/pdfWorker.ts:301-303 | the final garbage-collection hint is not a terminal message, so the terminal message ending the attempt stays the only one and comes second to last |
| PdfWorker.OneTerminalMessage | src/lib/workers/pdfWorker.ts:290-303 | exactly one terminal message is posted, right before the final hint: `Done` when nothing throws, otherwise `Error` with the thrown message |
| PdfWorker.MissingPageFails | src/lib/workers/pdfWorker.ts:216 | with automatic pagination off and no cropped page, the job ends in `Error` |
| PdfWorker.PageCollects | src/lib/workers/pdfWorker.ts:261-263 | page `i` gives one hint exactly when `i` is a multiple of the batch size |
| PdfWorker.BatchStartsStep | src/lib/workers/pdfWorker.ts:261-263 | one more page adds a hint exactly when its index is a multiple of the batch size |
| PdfWorker.PageProcesses | src/lib/workers/pdfWorker.ts:230-240 | page `i`'s events process page `i` once and no other page |
| PdfWorker.LoopTerminates | src/lib/workers/pdfWorker.ts:227-264 | the loop never terminates the OCR worker |
| PdfWorker.LoopCollects | src/lib/workers/pdfWorker.ts:261-263 | the first `k` pages give one hint per multiple of the batch size below `k` |
| PdfWorker.LoopProcesses | src/lib/workers/pdfWorker.ts:227-240 | the first `k` pages are processed once each, and no other page |
| PdfWorker.AfterLoopCounts | src/lib/workers/pdfWorker.ts:266-290 | after the loop the OCR worker is terminated once and no page is processed |
| PdfWorker.FinishCounts | src/lib/workers/pdfWorker.ts:266-290 | the finish terminates the OCR worker exactly once and neither hints at garbage collection nor processes a page |
| PdfWorker.EarlyCount | src/lib/workers/pdfWorker.ts:191-223 | a job that fails before any page posts messages and nothing else |
| PdfWorker.LoopCount | src/lib/workers/pdfWorker.ts:227-290 | apart from posted messages, a job that reaches its pages does what its loop and the finish do |
| PdfWorker.RunCount | src/lib/workers/pdfWorker.ts:188-304 | an event's count in a run is its count in the loop and after it, plus the final hint |
| PdfWorker.TerminatedOnlyAfterAllPages | src/lib/workers/pdfWorker.ts:266 | the OCR worker is terminated once when every page completes and never otherwise; a successful job completes every page |
| PdfWorker.CollectCadence | src/lib/workers/pdfWorker.ts:261-263 | one hint per completed page whose index is a multiple of 5, plus the `finally` one: 4 hints for 11 pages |
| PdfWorker.PagesProcessedOnce | src/lib/workers/pdfWorker.ts:216-240 | each page up to the first failing one is processed exactly once and no other; with automatic pagination off only the first page can be |
| PdfWorker.AsWrittenNoPageProcessed | src/lib/workers/pdfWorker.ts:209-240 | when cropping throws inside the worker whenever a page is cut, no page is ever processed, and only a job that paginates automatically and cuts nothing can post `Done` |
| PdfWorker.PageProgressIncreasing | src/lib/workers/pdfWorker.ts:246 | page progress strictly grows with the page, stays above 0.3, and is exactly 0.9 on the last page |
| PdfWorker.LastPageProgress | src/lib/workers/pdfWorker.ts:246 | the last page reports exactly 0.9 |
| PdfWorker.EtaBounds | src/lib/workers/pdfWorker.ts:247-249 | for non-negative durations the ETA is never negative and is 0 after the last page |
| PdfWorker.Progresses | src/lib/workers/pdfWorker.ts:55-72 | no more progress values than events |
| PdfWorker.Schedule | src/lib/workers/pdfWorker.ts:194-272 | a successful job's schedule has the three setup values, one per page, and 0.95 |
| PdfWorker.ScheduleIncreasing | src/lib/workers/pdfWorker.ts:194-272 | the schedule strictly increases |
| PdfWorker.ProgressesAppend | src/lib/workers/pdfWorker.ts:55-72 | the progress values of two event runs are those of each, in order |
| PdfWorker.PageProgresses | src/lib/workers/pdfWorker.ts:246-256 | page `i` reports only its own progress |
| PdfWorker.LoopProgresses | src/lib/workers/pdfWorker.ts:227-264 | the first `k` pages report their page progresses in order |
| PdfWorker.OpeningProgresses | src/lib/workers/pdfWorker.ts:194-223 | the setup reports 0.1, 0.2 and 0.3, and a failure reports no progress |
| PdfWorker.AfterLoopProgresses | src/lib/workers/pdfWorker.ts:266-272 | after the loop only a successful job reports progress, 0.95 |
| PdfWorker.LoopCaseProgresses | src/lib/workers/pdfWorker.ts:227-290 | from the loop on, the reported values are the page progresses of the completed pages, then 0.95 on success |
| PdfWorker.AttemptProgresses | src/lib/workers/pdfWorker.ts:191-300 | the attempt reports a prefix of the schedule |
| PdfWorker.ScheduleSlices | src/lib/workers/pdfWorker.ts:246-272 | after the three setup values the schedule lists the pages' progress in page order, then 0.95 |
| PdfWorker.RunProgresses | src/lib/workers/pdfWorker.ts:301-303 | the `finally` hint reports no progress |
| PdfWorker.SuccessReportsAll | src/lib/workers/pdfWorker.ts:194-290 | a successful job reaches every value of the schedule |
| PdfWorker.ProgressFollowsSchedule | src/lib/workers/pdfWorker.ts:188-304 | whatever happens the progress values are a prefix of the schedule and strictly increase; a successful job reports the whole schedule |
| PdfWorker.PageOrder | src/lib/workers/pdfWorker.ts:109-160 | page 0 reuses the first page and every later page adds one; the OCR text comes before the covering image, and the last call writes the page number half a margin from the bottom-right corner |
| PdfWorker.OcrOpsNeverAddPages | src/lib/workers/pdfWorker.ts:130-138 | the OCR text layer of a page never adds a page |
| PdfWorker.HandleDataCloneError | src/lib/workers/pdfWorker.ts:28-50 | an event is swallowed exactly when its error is a `DataCloneError` or its error or event message mentions `could not be cloned` |
| PdfWorker.NotInEvent | src/lib/workers/pdfWorker.ts:35 | a rejection's placeholder message never matches |
| PageFit.GetDimensions | src/lib/getDimensions.ts:3-25 | the ratio is the smaller of the two side ratios (the width one on a tie), and the size is the input scaled by it |
| PageFit.AspectPreserved | src/lib/getDimensions.ts:17-18 | the fitted size keeps the input's aspect ratio |
| PageFit.FitsPage | src/lib/getDimensions.ts:13-18 | on a positive page the fitted size lies within the page and touches it on at least one side |
| PageFit.PageSizedUnchanged | src/lib/getDimensions.ts:13-18 | a page-sized input stays as it is with ratio 1 |
| PageFit.ScaleInvariant | src/lib/getDimensions.ts:13-18 | scaling the input by `c` keeps the fitted size and divides the ratio by `c` |
| AspectFit.GetDimensions | src/lib/utils/getDimensions.ts:1-31 | the input divided by the scale factor (1 when omitted) stays positive, and its fit is exactly the smaller-ratio fit of the older `getDimensions` on that scaled input |
| AspectFit.Fit | src/lib/utils/getDimensions.ts:15-30 | an input wider than the page gets the page width and the width ratio, any other (equal aspects included) the page height and the height ratio; both sides are scaled by the one ratio |
| AspectFit.AspectOrder | src/lib/utils/getDimensions.ts:15-18 | the aspect test is the comparison of cross products |
| AspectFit.FitAgrees | src/lib/utils/getDimensions.ts:18-30 | the aspect branches and the smaller-ratio fit give the same size and ratio |
| AspectFit.SameRatio | src/lib/utils/getDimensions.ts:15-30 | the aspect test picks the smaller of the two side ratios |
| AspectFit.WidthBranch | src/lib/utils/getDimensions.ts:18-23 | fitting to the page width scales both sides by the width ratio |
| AspectFit.HeightBranch | src/lib/utils/getDimensions.ts:26-30 | fitting to the page height scales both sides by the height ratio |
| AspectFit.FitsPage | src/lib/utils/getDimensions.ts:18-30 | the result fits within the page and touches it on at least one side |
| AspectFit.OmittedIsUnscaled | src/lib/utils/getDimensions.ts:10 | an omitted scale factor fits the input as it is |
| AspectFit.SizeIndependentOfScale | src/lib/utils/getDimensions.ts:10-13 | dividing the input by a factor keeps the fitted size and multiplies the ratio by the factor, so the scale factor changes only the ratio |
| TesseractWorker.EnsureNewLine | src/lib/workers/createTesseractWorker.ts:13-14 | the result ends with a line break, and equals the input when it already did |
| TesseractWorker.EnsureNewLineIdempotent | src/lib/workers/createTesseractWorker.ts:13-14 | adding the line break twice is adding it once |
| TesseractWorker.TargetPath | src/lib/workers/createTesseractWorker.ts:16-17 | the path is `/tessdata/`, the language and `.user-words` |
| TesseractWorker.TargetPathInjective | src/lib/workers/createTesseractWorker.ts:16-17 | the path gives its language back, so two languages never share a word file |
| TesseractWorker.CreateTesseractWorker | src/lib/workers/createTesseractWorker.ts:19-137 | the worker is ready exactly when the creation, word file, reload and parameter steps all complete; otherwise it fails with an error one of those steps threw; the calls made are a prefix of the full sequence, all of it when ready |
| TesseractWorker.MkdirNeverMatters | src/lib/workers/createTesseractWorker.ts:55-71 | a failing `mkdir` changes neither the calls after it nor the outcome |
| TesseractWorker.ReadyConfiguration | src/lib/workers/createTesseractWorker.ts:75-119 | a ready worker's word file holds the custom words ending in one line break, and exactly the three parameters are set |
| TesseractWorker.FullConfiguration | src/lib/workers/createTesseractWorker.ts:75-119 | a full run writes the custom words with one closing line break to the language's word file and sets exactly the three parameters |
| LegacyDocument.Defaults | src/lib/useDocument.tsx:33-39 | every omitted option takes its default (Letter, the standard margin, workspace size 5, automatic scaling) and every given option is kept |
| LegacyDocument.Render | src/lib/useDocument.tsx:48-61 | the sizes exist exactly for a known format, and times the workspace size they give back the Letter sheet and the margin in pixels |
| LegacyDocument.Ratio | src/lib/useDocument.tsx:181-189 | there is a ratio exactly with automatic scaling (otherwise it is `NaN`), and it is positive on a page of positive size |
| LegacyDocument.ImageSize | src/lib/useDocument.tsx:187-197 | without automatic scaling the image has the workspace size; with it, on a positive page, it fits the page and keeps the workspace's aspect ratio |
| LegacyDocument.WordFontSize | src/lib/useDocument.tsx:199-223 | a size exists exactly when the known size parses, there is a ratio and the scaled average is not zero, and then size times average equals word height times known size |
| LegacyDocument.FirstMissing | src/lib/useDocument.tsx:216-219 | the index of the first line with no words: every line before it has words |
| LegacyDocument.Draw | src/lib/useDocument.tsx:187-243 | the image is always added; a rejected recognition or a `null` `blocks` stops before any size; otherwise the run completes exactly when no line lacks words, and only then are the worker terminated, the result published and the clone scheduled for removal; the words reached before a missing list get one size each |
| LegacyDocument.Exec | src/lib/useDocument.tsx:77-250 | a rejected load stops before the clone; no element means no worker and no clone; a rejected `createWorker` leaves the clone but no worker; a rejected test canvas, a failed calibration, an unmounted element or a rejected document canvas stop before the image; the image is added exactly after all of them pass; a rejected await always stops at its own step; the worker is terminated and the clone removed exactly on a completed run |
| LegacyDocument.Calibration | src/lib/useDocument.tsx:159-163 | the average test-character height exists exactly when `getOcrHeightStats` succeeds, and is its average |
| LegacyDocument.Early | src/lib/useDocument.tsx:77-169 | a run that stops before the document canvas adds no image and releases nothing, and stops at the first of: a rejected load, a missing element, a rejected `createWorker`, a rejected test canvas, a failed calibration, an unmounted element |
| LegacyDocument.Late | src/lib/useDocument.tsx:171-243 | after the calibration, a rejected document canvas stops before the image, and otherwise the run is the drawing |
| LegacyDocument.Create | src/lib/useDocument.tsx:236-248 | a published run has created and terminated the worker and appended the clone and removes it; a run that publishes nothing releases neither, whatever stopped it; the clone exists exactly when the loads succeed on a mounted element, and the worker exactly when `createWorker` succeeds as well |
| LegacyDocument.CompletedSizes | src/lib/useDocument.tsx:216-225 | on a complete run every recognised word gets one size, in order; with automatic scaling each size is proportional to the word's height, without it each is `NaN` |
| LegacyDocument.SizeGrowsWithHeight | src/lib/useDocument.tsx:222-223 | a taller word never gets a smaller size |
| LegacyDocument.NullBlocksStopDrawing | src/lib/useDocument.tsx:212-216 | a run stops at a `null` `blocks` exactly when it gets past the document canvas and its recognition, and then it has added the image, sized no word and published and released nothing |
| LegacyDocument.AbsentBlocksAsEmpty | src/lib/useDocument.tsx:212-214 | an absent `blocks` is drawn exactly as an empty list |
| LegacyDocument.MissingWordsStopDrawing | src/lib/useDocument.tsx:216-234 | a line without words stops the loop: only the words of the lines before it are sized, and nothing is published or terminated |
| LegacyDocument.MisplacedCallDrawsNothing | src/lib/useDocument.tsx:227-230 | the `drawOcrWord` call, given a word's text where a line is expected, draws nothing at all |
| DocumentHook.StartGetWorker | src/lib/useDocument/useDocument.tsx:81-82 | the worker in the ref is returned at once, whether or not it is still running, and a pending call starts exactly when the ref is empty; no worker is created, stopped or stranded |
| DocumentHook.MakeWorker | src/lib/useDocument/useDocument.tsx:84-86 | a waiting call's `createWorker` starts exactly one worker never used before, which that call then sets up; nothing is stranded |
| DocumentHook.SetUpWorker | src/lib/useDocument/useDocument.tsx:87-91 | the worker set up is put in the ref and returned; a running worker the ref held before becomes stranded, and no other |
| DocumentHook.CreateFails | src/lib/useDocument/useDocument.tsx:84-86 | a rejected import or `createWorker` changes neither the ref nor the running workers |
| DocumentHook.SetUpFails | src/lib/useDocument/useDocument.tsx:87 | a rejected `setParameters` leaves the ref alone and strands exactly the worker its call created |
| DocumentHook.StartTerminate | src/lib/useDocument/useDocument.tsx:77 | the worker in the ref stops but stays in the ref until the call resumes |
| DocumentHook.ClearRef | src/lib/useDocument/useDocument.tsx:78 | the ref is emptied whatever it holds by then, stranding a running worker put there meanwhile |
| DocumentHook.GetWorker | src/lib/useDocument/useDocument.tsx:81-92 | without interruption: the cached worker is returned unchanged when there is one; otherwise a worker never used before is created, cached and returned, and no running worker is stranded |
| DocumentHook.TerminateWorker | src/lib/useDocument/useDocument.tsx:76-79 | without interruption: the ref is emptied and exactly the worker it held stops; stranded workers and those being set up keep running |
| DocumentHook.TerminateThenFresh | src/lib/useDocument/useDocument.tsx:76-92 | after `terminateWorker` the next `getWorker` creates a worker never used before, which runs beside the stranded workers and those being set up |
| DocumentHook.UnmountAsWritten | src/lib/useDocument/useDocument.tsx:68-74 | the clean-up stops exactly the worker read at mount and leaves the ref as it is; with none read it stops nothing |
| DocumentHook.UnmountCorrected | src/lib/useDocument/useDocument.tsx:68-74 | the intended clean-up stops the worker in the ref; what stays running is exactly the stranded workers and those being set up |
| DocumentHook.StepValid | src/lib/useDocument/useDocument.tsx:68-92 | any single step of a mount, `getWorker`, `terminateWorker` or unmount keeps the cache consistent, and a stranded worker not captured at mount stays stranded |
| DocumentHook.StepsValid | src/lib/useDocument/useDocument.tsx:68-92 | any interleaving of those steps keeps the cache consistent with the running workers |
| DocumentHook.StrandedStayRunning | src/lib/useDocument/useDocument.tsx:68-92 | a stranded worker other than the one captured at mount keeps running whatever happens afterwards, with either clean-up |
| DocumentHook.UnmountLeaksWorker | src/lib/useDocument/useDocument.tsx:68-74 | mounting, creating and unmounting leaves the created worker running |
| DocumentHook.UnmountCorrectedReleases | src/lib/useDocument/useDocument.tsx:68-74 | with the intended clean-up, unmounting after any interleaving leaves running exactly the workers stranded by then and those still being set up |
| DocumentHook.GetWorkerSteps | src/lib/useDocument/useDocument.tsx:76-92 | an uninterrupted `getWorker` or `terminateWorker` is the interleaving in which its own steps follow one another |
| DocumentHook.OverlappingCallsStrandWorker | src/lib/useDocument/useDocument.tsx:81-92 | two overlapping `getWorker` calls on an empty ref create two workers; the first stays running after the second is cached, even past the intended clean-up |
| DocumentHook.RejectedSetUpStrandsWorker | src/lib/useDocument/useDocument.tsx:84-91 | when `setParameters` rejects, the ref stays empty and the created worker keeps running, stranded |
| DocumentHook.TerminateRaceStrandsWorker | src/lib/useDocument/useDocument.tsx:76-92 | a `getWorker` during a pending termination returns the stopped worker; a termination overtaken by a `getWorker` strands the newly cached worker |
| DocumentHook.UninterruptedReleases | src/lib/useDocument/useDocument.tsx:68-92 | when no two calls overlap, the intended clean-up leaves no worker running |
| DocumentHook.TransparentIffMarkedAbove | src/lib/useDocument/useDocument.tsx:175-179 | an element is at opacity 0 or inside one exactly when it or one of its ancestors is a marked `HTMLElement` |
| DocumentHook.Rasterise | src/lib/useDocument/useDocument.tsx:173-181 | an element is in the image exactly when shown, and in the recognised raster exactly when shown and neither marked `data-ocr='false'` nor inside a marked element |
| DocumentHook.MarkedOnlyInImage | src/lib/useDocument/useDocument.tsx:175-179 | a shown marked element and everything inside it are in the image but not in the recognised raster; an element with no mark on itself or an ancestor is in both or in neither |
| DocumentHook.MarkedHidesChildren | src/lib/useDocument/useDocument.tsx:175-181 | a paragraph inside a marked `div` is in the image but not in the recognised raster |
| DocumentHook.LineFontSize | src/lib/useDocument/useDocument.tsx:201-208 | the size is a number exactly when the known size and the ratio are numbers and the scaled line height is not zero, and then it equals the known size |
| DocumentHook.RenderedPlacement | src/lib/useDocument/useDocument.tsx:210 | a drawn line sets the known size and places each word at its box scaled by the workspace size |
| DocumentHook.Draw | src/lib/useDocument/useDocument.tsx:197-225 | one line drawing per recognised line, in order, each at its calibrated size, then the image last |
| DocumentHook.Create | src/lib/useDocument/useDocument.tsx:94-249 | the PDF is published exactly when no step fails; a truthy failure is rethrown and leaves `isCreating` set; the clone stays in the body exactly when a failure comes after it was appended; both rasters exist exactly when recognition was reached |
| DocumentHook.ImageCoversText | src/lib/useDocument/useDocument.tsx:216-225 | on a published run the image is the last action, after every line, and each line's size is the known size when that is a number |
| DocumentHook.SizesByScaling | src/lib/useDocument/useDocument.tsx:187-208 | with automatic scaling on a positive page each line of non-zero height is drawn at the known size; without it no line gets a numeric size |
| DocumentHook.NoBlocksOnlyImage | src/lib/useDocument/useDocument.tsx:193-197 | a `null` or absent `blocks` draws no line but still adds the image |
| DocumentHook.FalsyErrorSwallowed | src/lib/useDocument/useDocument.tsx:238-244 | a falsy thrown value is neither rethrown nor leaves `isCreating` set, and nothing is published |

## Left out

- DOM, canvas and browser APIs: rendering with `html-to-image`, bitmap transfer, `blobToDataURL`, canvas creation, the pixels drawn by both `cropCanvas` files, and the layout passes of both `create`s. Only the geometry and the decisions computed from them are modelled, because the rest is browser I/O.
- Tesseract recognition, jsPDF's rendering and `getTextWidth`: recognised blocks and rendered widths are inputs, and jsPDF calls are recorded as `Pdf.Op` values, because these are outside systems.
- Logging (`DebugLogger`, `guard`, the `console` calls and the timing they print), because it only produces console output.
- Clocks and timers (`Date.now`, `performance.now`, `debounce`) and `createDeferred`: per-page durations are inputs.
- React state, effects other than the second hook's mount effect, rendering and the demo components, because they are UI.
- `NaN`, infinities and division by zero: operations that divide require a non-zero divisor (a workspace scale, a page size, a canvas size), and a `NaN` from `parseFloat`, or the `NaN` ratio of a hook without automatic scaling, is `None`. Floating-point rounding is not modelled; `Math.round` appears only in debug output.
- String lengths and the default sort compare UTF-16 code units in JavaScript; the model uses Dafny characters, so text outside the Basic Multilingual Plane is not modelled.
- `src/lib/utils/range.ts` is not part of this model; `Zip` uses the second generation's `range`.
- `src/lib/core/processOCRReplacements.ts` and `src/lib/utils/getUniqueCharsFromTextNodes.ts` are not part of this model; `Core` takes their results as inputs.
- The constants and `CONFIG` modules of the second generation are not part of this model; `HtmlCore` takes the paper-size table (a map from upper-case format names to sheets), the default margin and the OCR defaults as the parameter `Constants`.
- `makeStyleProps`, and the loops that set `overflow` to `hidden` before rendering, because they only change how the browser lays out the clone.
- The `cropCanvas` call inside `src/lib/utils/getPaginatedCanvases.ts` passes an options object where the function takes positional arguments; the cut plan and the crop are modelled separately, and the call itself is not.
- Confidence filtering: no modelled file applies `confidenceThreshold`, and `drawOcrFromBlocks` ignores the settings it receives, so no filter is modelled.
- Pick: inherited properties are not modelled; `key in source` is membership in the object's own property map.
- Sanitize: getters that throw and cyclic values are not modelled; `String(value)` and the constructor name are parameters.
- OcrReplacements: the SVG's `viewBox`, which depends on the laid-out text's bounding box, is not modelled; layout and computed style are inputs.
- Core.Create and HtmlCore.Create: which awaited step fails, and with what value, is the parameter `fault`; what the layout and the pages look like when a step fails part-way is not modelled, only the rejection and the worker and clone left behind. Failures inside the PDF worker arrive later as its messages (`HtmlCore.OnMessage`).
- Download.Configure: an option given explicitly as `undefined` is read as absent. The spread keeps such a value, so an explicit `filename: undefined` names a direct download `undefined`; the model gives it `document.pdf`. An explicit `type: undefined` behaves like an absent one in both.
- PdfWorker.Run: whether pagination throws is an input (`FailsAt(job, Pagination)`). As written, pagination inside the worker calls `src/lib/utils/cropCanvas.ts`, whose `document.createElement` throws a `ReferenceError` whenever a page is cut; `PdfWorker.CropsInWorker` states that, and `Run` also covers jobs whose pagination returns pages, which need a crop that works in a worker.
- DocumentHook.TerminateWorker and DocumentHook.UnmountCorrected: neither promises any more that no worker is left running. Workers stranded by overlapping or failed `getWorker` calls, or by a `terminateWorker` that a `getWorker` overtakes, keep running, and so do workers still being set up (`DocumentHook.Stranded`). Only a history without overlapping calls ends with none (`DocumentHook.UninterruptedReleases`).
- DocumentHook: a `terminate()` that rejects is not modelled; the worker is taken to stop.
- Paper.ToUpper: only ASCII letters are upper-cased, while `String.prototype.toUpperCase` also maps other characters (`ı` to `I`, `ſ` to `S`, `é` to `É`). It decides the key looked up in both paper tables (`Paper.Lookup`, `HtmlCore.Sheet`), so a format name with such characters is not modelled.
- Times.Times and Range.Range: the count is an integer. `new Array(n)` also throws a `RangeError` for a fractional or `NaN` count, which no modelled caller passes.
- HtmlCrop.CropCanvas: `new OffscreenCanvas` converts its sizes as `[EnforceRange] unsigned long long`, so a page height whose integer part is negative or at least 2^64 throws a `TypeError`; that throw is not modelled, and the output height is the integer part of the page height.
- UtilsCrop.CropOne: a negative `y` (which `drawImage` clips at the source's top, shifting the drawn band down) is not modelled; the band is drawn from `y` for as many rows as the source has left.
- LegacyDocument.Exec and DocumentHook.Create: the adopted style sheets are not modelled. The first hook adds a sheet to `document.adoptedStyleSheets` on every run and never removes it, even after a successful run. The second hook adds one that it removes only after the OCR canvas, so a failure before that leaves it on the document.
- TesseractWorker.CreateTesseractWorker: the log line written when `mkdir` fails, and the error logged before a failed `setParameters` is rethrown, are not modelled; only the calls and the outcome are.
- LegacyDocument.Draw: the `drawOcrWord` calls themselves are not listed in the run, since `MisplacedCallDrawsNothing` shows each of them draws nothing.
- DocumentHook.Create: the `overflow` rewrite and the `getCharDimensions` test node are not modelled; the known font size is an input.

## Notes on behaviour

The model follows the code where it differs from what a reader of the
project's documentation might expect:

- The line-aware planner (`CutPlanner`) produces no page at all for zero or one recognised line: the fold starts its cut list only at the first line (`CutPlanner.FewLinesNoPages`), and it cannot produce more pages than there are lines less one.
- The planner moves a cut only past the first line that straddles it, so with overlapping lines a cut can still fall inside another line (`CutPlanner.CutCanFallInsideOverlappingLine`).
- With margins of half a page or more the fixed planner's later pages have zero or negative height; with a negative one a rendering taller than a margin gets no page or a `RangeError` (`FixedPlanner.WideMarginPages`).
- The fixed planner computes a page count below one for a rendering no taller than the margin, and a negative one (for which `range` throws a `RangeError`) once the rendering is shorter still (`FixedPlanner.PageCountSign`).
- When pagination returns pages (as written it throws inside the worker as soon as it cuts one, `PdfWorker.AsWrittenNoPageProcessed`), the PDF worker hints a garbage collection after each page whose zero-based index is a multiple of 5 (the 1st, 6th, 11th page), not after every fifth page.
- The two `drawOcrWord` files default `debug` differently: the first generation draws debug frames unless told not to, the newer one only when asked.
- `getOcrHeightStats` throws on a recognised line without words, before any statistic is computed.
- The recursive `traverse` of `src/lib/traverse.ts` descends only into nodes with a `style` property, so a document or fragment root hides its whole subtree (`LegacyTraverse.DocumentRootHidesChildren`).
- `sanitizeForTransfer` is not idempotent: an error without a stack, sanitised at the cut-off depth, keeps an `undefined` stack one level deeper, which a second pass turns into the text `"undefined"` (`Sanitize.NotIdempotentAtCutoff`).
- In the second generation, an `Error` message from the worker reaches the error callback, when one is given, but neither resolves nor rejects the `create` promise, which stays pending (`HtmlCore.FailureLeavesPending`).
- The first `useDocument` hook passes a word's text to `drawOcrWord` where a line is expected, so it draws no text layer (`LegacyDocument.MisplacedCallDrawsNothing`). It terminates the recognition worker and removes the clone only after a complete run, so a run that rejects after `createWorker` leaves the worker running and the clone in the body (`LegacyDocument.Create`).
- The second `useDocument` hook passes the workspace size where `drawOcrWord` expects the ratio, so words are placed at their boxes scaled by the workspace size; and a falsy thrown value is swallowed without publishing (`DocumentHook.FalsyErrorSwallowed`).
- Both generations' `create` throw synchronously on an unknown paper format, before they look at the element, rather than rejecting the promise (`Core.Create`, `HtmlCore.Create`).
- The second `useDocument` hook's `getWorker` caches its worker only after `createWorker` and `setParameters` resolve. Two overlapping calls on an empty cache each create a worker and the first is overwritten; a rejected `setParameters` leaves its worker running; and a `terminateWorker` overtaken by a `getWorker` empties the cache after the new worker was stored. Each strands a running worker that no clean-up reaches (`DocumentHook.OverlappingCallsStrandWorker`, `DocumentHook.RejectedSetUpStrandsWorker`, `DocumentHook.TerminateRaceStrandsWorker`, `DocumentHook.StrandedStayRunning`).
- The first `useDocument` hook defaults an absent `blocks` to `[]`, but a `null` one reaches `for … of` and throws a `TypeError` after the image was added (`LegacyDocument.NullBlocksStopDrawing`).
- In both generations, a failure after the PDF worker has been created rejects the promise but leaves that worker running, and, before `createImageBitmap`, leaves the clone in the body.

## Findings

| source | as written | input that shows it | evidently intended | confidence | as-written member | corrected member |
|---|---|---|---|---|---|---|
| src/lib/useDocument/useDocument.tsx:68-74 | the unmount clean-up terminates the worker read from the cache when the component mounted, which is none, so a worker that `create` caches later is never terminated | mount, then `create`, then unmount: the worker created by `create` is still running | terminate the worker cached at unmount | not executed | DocumentHook.UnmountLeaksWorker | DocumentHook.UninterruptedReleases |
| src/lib/utils/getPaginatedCanvases.ts:116-123 | the first generation's pagination runs in the PDF worker but crops with `cropCanvas`, which creates its canvases with `document.createElement`; a worker has no `document` | any job whose pagination cuts at least one page: the worker posts an error and processes no page | crop with `OffscreenCanvas`, as the second generation does | high; not executed | PdfWorker.AsWrittenNoPageProcessed | PdfWorker.PagesProcessedOnce |

=== FILE: aspect_fit.dfy ===
/** `getDimensions` (`src/lib/utils/getDimensions.ts`): divides the input by a
    scale factor, then fits it to the page by comparing aspect ratios. */
module AspectFit {
  import opened Wrappers
  import PageFit

  const DefaultScaleFactor: real := 1.0

  /** The input divided by the scale factor. */
  function Scaled(dims: PageFit.Size, s: real): PageFit.Size
    requires s > 0.0
  {
    PageFit.Size(dims.width / s, dims.height / s)
  }

  /** `getDimensions(dimensions, page, scaleFactor)`; `None` is an omitted
      scale factor. The input is divided by the scale factor and then fitted
      by `Fit`, which always gives what the older smaller-ratio
      `getDimensions` gives for the scaled input. */
  function GetDimensions(dims: PageFit.Size, page: PageFit.Size, scaleFactor: Option<real>): (f: PageFit.Fitted)
    requires PageFit.Positive(dims) && PageFit.Positive(page)
    requires scaleFactor.Some? ==> scaleFactor.value > 0.0
    ensures PageFit.Positive(Scaled(dims, scaleFactor.GetOr(DefaultScaleFactor)))
    ensures f == PageFit.GetDimensions(Scaled(dims, scaleFactor.GetOr(DefaultScaleFactor)), page)
  {
    var s := scaleFactor.GetOr(DefaultScaleFactor);
    ScaledPositive(dims, s);
    FitAgrees(Scaled(dims, s), page);
    Fit(Scaled(dims, s), page)
  }

  /** Dividing a positive size by a positive factor keeps it positive. */
  lemma ScaledPositive(dims: PageFit.Size, s: real)
    requires PageFit.Positive(dims) && s > 0.0
    ensures PageFit.Positive(Scaled(dims, s))
  {
    var w := dims.width / s;
    var h := dims.height / s;
    assert w * s == dims.width && h * s == dims.height;
  }

  /** The fit of the scaled input: an input wider than the page is fitted to
      the page width, anything else (equal aspects included) to the page
      height; both sides are scaled by the same ratio. */
  function Fit(scaled: PageFit.Size, page: PageFit.Size): (f: PageFit.Fitted)
    requires PageFit.Positive(scaled) && PageFit.Positive(page)
    ensures scaled.width * page.height > page.width * scaled.height ==>
              f.width == page.width && f.ratio == page.width / scaled.width
    ensures scaled.width * page.height <= page.width * scaled.height ==>
              f.height == page.height && f.ratio == page.height / scaled.height
    ensures f.width == scaled.width * f.ratio && f.height == scaled.height * f.ratio
  {
    var inputAspect := scaled.width / scaled.height;
    var pageAspect := page.width / page.height;
    AspectOrder(scaled, page);
    if inputAspect > pageAspect then
      WidthBranch(scaled, page.width);
      PageFit.Fitted(page.width, page.width / inputAspect, page.width / scaled.width)
    else
      HeightBranch(scaled, page.height);
      PageFit.Fitted(page.height * inputAspect, page.height, page.height / scaled.height)
  }

  /** Fitting to the page width scales both sides by the width ratio. */
  lemma WidthBranch(scaled: PageFit.Size, pw: real)
    requires PageFit.Positive(scaled)
    ensures var f := PageFit.Fitted(pw, pw / (scaled.width / scaled.height), pw / scaled.width);
            f.width == scaled.width * f.ratio && f.height == scaled.height * f.ratio
  {
    var w, h := scaled.width, scaled.height;
    var r := pw / w;
    var a := w / h;
    assert a * h == w;
    assert r * w == pw;
    assert (h * r) * a == r * w;
  }

  /** Fitting to the page height scales both sides by the height ratio. */
  lemma HeightBranch(scaled: PageFit.Size, ph: real)
    requires PageFit.Positive(scaled)
    ensures var f := PageFit.Fitted(ph * (scaled.width / scaled.height), ph, ph / scaled.height);
            f.width == scaled.width * f.ratio && f.height == scaled.height * f.ratio
  {
    var w, h := scaled.width, scaled.height;
    var r := ph / h;
    assert r * h == ph;
    assert ph * (w / h) == (r * h) * (w / h);
  }

  /** The aspect comparison, cross-multiplied. */
  lemma AspectOrder(dims: PageFit.Size, page: PageFit.Size)
    requires PageFit.Positive(dims) && PageFit.Positive(page)
    ensures dims.width / dims.height > page.width / page.height
            <==> dims.width * page.height > page.width * dims.height
  {
    var a := dims.width / dims.height;
    var b := page.width / page.height;
    assert a * dims.height == dims.width && b * page.height == page.width;
    assert a > b <==> a * dims.height * page.height > b * page.height * dims.height;
  }

  /** The aspect branches agree with the smaller-ratio fit of the older
      `getDimensions`: same size, same ratio. */
  lemma FitAgrees(scaled: PageFit.Size, page: PageFit.Size)
    requires PageFit.Positive(scaled) && PageFit.Positive(page)
    ensures Fit(scaled, page) == PageFit.GetDimensions(scaled, page)
  {
    SameRatio(scaled, page);
    SameScale(Fit(scaled, page), PageFit.GetDimensions(scaled, page), scaled);
  }

  /** The branch taken picks the smaller of the two side ratios. */
  lemma SameRatio(scaled: PageFit.Size, page: PageFit.Size)
    requires PageFit.Positive(scaled) && PageFit.Positive(page)
    ensures Fit(scaled, page).ratio == PageFit.GetDimensions(scaled, page).ratio
  {
    var wr, hr := page.width / scaled.width, page.height / scaled.height;
    RatioOrder(page.width, page.height, scaled.width, scaled.height);
    if scaled.width * page.height > page.width * scaled.height {
      assert Fit(scaled, page).ratio == wr && wr < hr;
    } else {
      assert Fit(scaled, page).ratio == hr && hr <= wr;
    }
  }

  /** Two fits of the same size by the same ratio are equal. */
  lemma SameScale(f: PageFit.Fitted, g: PageFit.Fitted, size: PageFit.Size)
    requires f.ratio == g.ratio
    requires f.width == size.width * f.ratio && f.height == size.height * f.ratio
    requires g.width == size.width * g.ratio && g.height == size.height * g.ratio
    ensures f == g
  {
  }

  /** Comparing side ratios is comparing cross products. */
  lemma RatioOrder(pw: real, ph: real, w: real, h: real)
    requires pw > 0.0 && ph > 0.0 && w > 0.0 && h > 0.0
    ensures pw / w < ph / h <==> w * ph > pw * h
  {
    var a := pw / w;
    var b := ph / h;
    assert a * w == pw && b * h == ph;
    assert a * w * h == pw * h && b * h * w == ph * w;
  }

  /** The result fits within the page and touches it on at least one side. */
  lemma FitsPage(dims: PageFit.Size, page: PageFit.Size, scaleFactor: Option<real>)
    requires PageFit.Positive(dims) && PageFit.Positive(page)
    requires scaleFactor.Some? ==> scaleFactor.value > 0.0
    ensures var f := GetDimensions(dims, page, scaleFactor);
            && 0.0 < f.width <= page.width && 0.0 < f.height <= page.height
            && (f.width == page.width || f.height == page.height)
  {
    var s := scaleFactor.GetOr(DefaultScaleFactor);
    PageFit.FitsPage(Scaled(dims, s), page);
  }

  /** The scale factor changes only the ratio: fitting the input divided by
      `s` (what `GetDimensions` fits for the factor `s`) gives the same size
      as fitting the input itself, with the ratio multiplied by `s`. */
  lemma SizeIndependentOfScale(dims: PageFit.Size, page: PageFit.Size, s: real)
    requires PageFit.Positive(dims) && s > 0.0
    ensures PageFit.Positive(Scaled(dims, s))
    ensures var f := PageFit.GetDimensions(dims, page);
            var g := PageFit.GetDimensions(Scaled(dims, s), page);
            g.width == f.width && g.height == f.height && g.ratio == f.ratio * s
  {
    var scaled := Scaled(dims, s);
    ScaledPositive(dims, s);
    var big := PageFit.Size(scaled.width * s, scaled.height * s);
    Unscale(dims, s);
    assert big == dims;
    PageFit.ScaleInvariant(scaled, page, s);
  }

  /** An omitted scale factor fits the input as it is. */
  lemma OmittedIsUnscaled(dims: PageFit.Size, page: PageFit.Size)
    requires PageFit.Positive(dims) && PageFit.Positive(page)
    ensures GetDimensions(dims, page, None) == PageFit.GetDimensions(dims, page)
  {
    assert Scaled(dims, DefaultScaleFactor) == dims;
  }

  /** Scaling the divided input back by the factor gives the input. */
  lemma Unscale(dims: PageFit.Size, s: real)
    requires s > 0.0
    ensures PageFit.Size(Scaled(dims, s).width * s, Scaled(dims, s).height * s) == dims
  {
    var w := dims.width / s;
    var h := dims.height / s;
    assert w * s == dims.width && h * s == dims.height;
  }
}

=== FILE: async.dfy ===
/** What awaiting gives, and the record of running asynchronous steps one
    after the other. The helpers `chain` (both generations) and `sequential`
    never run two steps at once, so a run is a sequence of calls, each fed the
    value of the one before, ending either after the last step or at the
    first rejection. */
module Async {
  import opened Wrappers

  /** The settled outcome of one call: a plain (non-promise) return value, the
      value of a fulfilled promise, or a rejection (a synchronous throw
      included) with its reason. */
  datatype Outcome<T> = Returned(value: T) | Fulfilled(value: T) | Rejected(reason: string)

  /** `await` on the outcome: a plain value is used as it is, a promise is
      waited for; both give their value. */
  ghost predicate Gives<T>(o: Outcome<T>, v: T)
  {
    !o.Rejected? && o.value == v
  }

  /** A finished run: `inputs[i]` is the argument of the i-th call (`None`
      for a call with no argument), `results` the awaited values in call
      order, `rejection` the reason that stopped the run, if any. */
  datatype Run<T> = Run(inputs: seq<Option<T>>, results: seq<T>, rejection: Option<string>)

  /** The shape every run has, whatever it runs: one call per result, plus
      the rejected call when the run was stopped; and a run that was not
      stopped made all `n` calls. */
  predicate Shaped<T>(n: nat, r: Run<T>)
  {
    && |r.results| <= n
    && |r.inputs| == |r.results| + (if r.rejection.Some? then 1 else 0)
    && (r.rejection.None? ==> |r.results| == n)
    && (r.rejection.Some? ==> |r.results| < n)
  }

  /** Every call after the first receives the value of the call before it. */
  ghost predicate Threaded<T>(first: Option<T>, r: Run<T>)
    requires |r.inputs| <= |r.results| + 1
  {
    forall i :: 0 <= i < |r.inputs| ==> r.inputs[i] == if i == 0 then first else Some(r.results[i - 1])
  }
}

=== FILE: config.dfy ===
/** `CONFIG` and `PROCESSING_STAGES` (`src/lib/config/index.ts`): the
    tuning constants, with the ranges their documentation gives. */
module Config {
  import Seqs
  import opened Wrappers

  const ConfidenceThreshold: int := 30
  const PageSegMode: string := "8"
  const EngineMode: string := "1"
  const RetryDelayMs: int := 1000
  const LowConfidenceThreshold: int := 70

  /** `OCRSettings`: per-document overrides of the two OCR constants above;
      an absent field is `None`. */
  datatype OcrSettings = OcrSettings(confidenceThreshold: Option<int>, pageSegMode: Option<string>)

  /** The settings a document gets when it gives none. */
  const DefaultOcrSettings: OcrSettings := OcrSettings(Some(ConfidenceThreshold), Some(PageSegMode))

  const ImageFormat: string := "JPEG"
  const ImageQuality: real := 1.0
  const Compression: bool := true
  const PageNumberColor: string := "#999"

  const MaxRetries: int := 3
  const BatchSize: int := 5
  const MemoryCleanupIntervalMs: int := 5000
  const EnableOffscreenCanvas: bool := true

  const ProgressUpdateIntervalMs: int := 100
  const AnimationDurationMs: int := 300
  const DebounceDelayMs: int := 300

  /** One entry of `PROCESSING_STAGES`. */
  datatype Stage = Stage(name: string, weight: real, description: string)

  const Setup: Stage := Stage("Setup", 0.1, "Preparing document...")
  const Canvas: Stage := Stage("Canvas", 0.15, "Converting to canvas...")
  const OcrStage: Stage := Stage("OCR", 0.6, "Processing text recognition...")
  const PdfStage: Stage := Stage("PDF", 0.15, "Generating PDF...")

  /** The stages in declaration order. */
  function Stages(): (r: seq<Stage>)
    ensures |r| == 4
  {
    [Setup, Canvas, OcrStage, PdfStage]
  }

  function Weights(stages: seq<Stage>): (r: seq<real>)
    ensures |r| == |stages| && forall i :: 0 <= i < |r| ==> r[i] == stages[i].weight
  {
    seq(|stages|, i requires 0 <= i < |stages| => stages[i].weight)
  }

  /** Every constant lies in its documented range: confidence thresholds in
      0–100 (and the low-confidence one above the acceptance one), image
      quality in 0–1, retries in 1–10, batch size in 1–20. */
  lemma DocumentedRanges()
    ensures 0 <= ConfidenceThreshold <= 100 && 0 <= LowConfidenceThreshold <= 100
    ensures ConfidenceThreshold < LowConfidenceThreshold
    ensures 0.0 <= ImageQuality <= 1.0
    ensures 1 <= MaxRetries <= 10 && 1 <= BatchSize <= 20
    ensures PageSegMode in {"6", "7", "8", "13"} && EngineMode in {"0", "1", "2", "3"}
  {
  }

  /** Each stage weight lies in 0–1, the weights sum to exactly 1, and the
      OCR stage is the heaviest. */
  lemma StageWeights()
    ensures forall i :: 0 <= i < |Stages()| ==> 0.0 <= Stages()[i].weight <= 1.0
    ensures Seqs.Sum(Weights(Stages())) == 1.0
    ensures forall i :: 0 <= i < |Stages()| ==> Stages()[i].weight <= OcrStage.weight
  {
    var w := Weights(Stages());
    assert w == [0.1, 0.15, 0.6, 0.15];
    assert w[..3] == [0.1, 0.15, 0.6] && w[..3][..2] == [0.1, 0.15] && w[..3][..2][..1] == [0.1];
    assert [0.1][..0] == [];
    assert Seqs.Sum([0.1]) == 0.1;
    assert Seqs.Sum([0.1, 0.15]) == 0.25;
    assert Seqs.Sum([0.1, 0.15, 0.6]) == 0.85;
  }
}

=== FILE: core.dfy ===
/** `create` of the first generation (`src/lib/core/index.ts`): option
    defaults, the page dimensions at the workspace scale, the style given to
    the cloned element, the text gathered from its canvas, and the input
    posted to the PDF worker. Rendering (`toCanvas`), bitmaps and the worker
    itself are outside the model: what the styled clone renders to is an
    input, and whether an awaited step rejects is the parameter `fault`. `processOCRReplacements` and `getUniqueCharsFromTextNodes` of
    this generation (`src/lib/core/processOCRReplacements.ts`,
    `src/lib/utils/getUniqueCharsFromTextNodes.ts`) are not part of this
    model: their results are inputs. The catch block and the worker's
    messages are handled as in the second generation (`HtmlCore.Catch`,
    `HtmlCore.OnMessage`). */
module Core {
  import opened Wrappers
  import JsMath
  import Config
  import Paper
  import Text
  import Dom
  import UtilsTextNodes
  import UniqueWords
  import HtmlCore

  const DefaultWorkspaceScale: real := 3.5

  const MissingElementMessage: string := "Document reference not available"
  const InvalidElementPrefix: string := "Invalid element type: expected HTMLElement, got "

  /** `debug`: `false` unless the caller lists log levels. */
  datatype Debug = Off | Levels(levels: seq<string>)

  /** `ICreateOptions`; an absent field is `None`. */
  datatype Options = Options(
    format: Option<string>,
    margin: Option<Paper.Margin>,
    debug: Option<seq<string>>,
    workspaceScale: Option<real>,
    autoPaginate: Option<bool>,
    ocrSettings: Option<Config.OcrSettings>,
    handlers: HtmlCore.Handlers)

  /** The options once `getDefaults` has filled them in. */
  datatype Settings = Settings(
    format: string,
    margin: Paper.Margin,
    debug: Debug,
    workspaceScale: real,
    autoPaginate: bool,
    ocrSettings: Config.OcrSettings,
    handlers: HtmlCore.Handlers)

  /** `getDefaults(options)`: Letter, the one-inch margin, no debugging,
      scale 3.5, automatic pagination and the `CONFIG.OCR` settings, each
      only where the caller gave nothing; the handlers are kept. */
  function GetDefaults(o: Options): (s: Settings)
    ensures o.format.None? ==> s.format == Paper.DefaultFormat
    ensures o.margin.None? ==> s.margin == Paper.Pixels(Paper.DefaultMargin)
    ensures s.debug.Off? <==> o.debug.None?
    ensures o.workspaceScale.None? ==> s.workspaceScale == DefaultWorkspaceScale
    ensures o.autoPaginate.None? ==> s.autoPaginate
    ensures o.ocrSettings.None? ==> s.ocrSettings == Config.DefaultOcrSettings
    ensures o.format.Some? ==> s.format == o.format.value
    ensures o.margin.Some? ==> s.margin == o.margin.value
    ensures o.debug.Some? ==> s.debug == Levels(o.debug.value)
    ensures o.workspaceScale.Some? ==> s.workspaceScale == o.workspaceScale.value
    ensures o.autoPaginate.Some? ==> s.autoPaginate == o.autoPaginate.value
    ensures o.ocrSettings.Some? ==> s.ocrSettings == o.ocrSettings.value
    ensures s.handlers == o.handlers
  {
    Settings(
      o.format.GetOr(Paper.DefaultFormat),
      o.margin.GetOr(Paper.Pixels(Paper.DefaultMargin)),
      if o.debug.Some? then Levels(o.debug.value) else Off,
      o.workspaceScale.GetOr(DefaultWorkspaceScale),
      o.autoPaginate.GetOr(true),
      o.ocrSettings.GetOr(Config.DefaultOcrSettings),
      o.handlers)
  }

  /** The settings passed back as options, every field given (no debugging
      is passing no levels). */
  function Supplied(s: Settings): Options
  {
    Options(Some(s.format), Some(s.margin), if s.debug.Off? then None else Some(s.debug.levels),
            Some(s.workspaceScale), Some(s.autoPaginate), Some(s.ocrSettings), s.handlers)
  }

  /** Filling in the defaults twice changes nothing more. */
  lemma DefaultsStable(o: Options)
    ensures GetDefaults(Supplied(GetDefaults(o))) == GetDefaults(o)
  {
  }

  /** The page size and margin at the workspace scale. */
  datatype Dimensions = Dimensions(width: real, height: real, padding: real)

  /** `getDimensions({ format, margin, workspaceScale })`: the sheet of the
      format and the margin in pixels (a name through `MARGIN_MAP`), each
      divided by the workspace scale. A format `PAPER_DIMENSIONS` does not
      list cannot be destructured: `None` is that `TypeError`. */
  function GetDimensions(format: string, margin: Paper.Margin, workspaceScale: real): (r: Option<Dimensions>)
    requires workspaceScale != 0.0
    ensures r.Some? <==> Paper.Lookup(format).Some?
    ensures r.Some? ==> r.value.width * workspaceScale == Paper.LetterWidth
    ensures r.Some? ==> r.value.height * workspaceScale == Paper.LetterHeight
    ensures r.Some? ==> r.value.padding * workspaceScale == Paper.MarginPixels(margin, Paper.DefaultMargin)
  {
    match Paper.Lookup(format)
    case None => None
    case Some(sheet) =>
      Some(Dimensions(sheet.width / workspaceScale, sheet.height / workspaceScale,
                      Paper.MarginPixels(margin, Paper.DefaultMargin) / workspaceScale))
  }

  /** The part of the clone's `cssText` that sets its size. */
  datatype CloneStyle = CloneStyle(padding: real, minHeight: real, width: real)

  /** The clone gets the margin as padding, the page width, and as minimum
      height the page height or the element's `scrollHeight`, whichever is
      larger: a long element is never cut short. */
  function Style(d: Dimensions, scrollHeight: real): (st: CloneStyle)
    ensures st.padding == d.padding && st.width == d.width
    ensures st.minHeight >= d.height && st.minHeight >= scrollHeight
    ensures st.minHeight == d.height || st.minHeight == scrollHeight
  {
    CloneStyle(d.padding, JsMath.Max(d.height, scrollHeight), d.width)
  }

  /** What the styled clone renders to: the canvas size, the clone's client
      rectangle, and the text nodes met in document order. */
  datatype Capture = Capture(canvasWidth: real, canvasHeight: real, base: Dom.Rect, walk: seq<Dom.TextSite>)

  predicate Measurable(cap: Capture)
  {
    cap.base.width > 0.0 && cap.base.height > 0.0
  }

  /** `getTextNodes(clonedNode, canvas)`. */
  function TextNodes(cap: Capture): seq<UtilsTextNodes.TextNode>
    requires Measurable(cap)
  {
    UtilsTextNodes.GetTextNodes(cap.walk, cap.base, UtilsTextNodes.MakeScale(cap.canvasWidth, cap.canvasHeight, cap.base))
  }

  /** `getUniqueWordsFromTextNodes(textNodes, userDefinedReplacements)
      .join('\n')`. */
  function CustomWords(nodes: seq<UtilsTextNodes.TextNode>, replacements: seq<string>): string
  {
    Text.Join(UniqueWords.UtilsUniqueWords(nodes, replacements), "\n")
  }

  /** The `options` of the posted `PdfWorkerInput`, bitmaps left out. */
  datatype WorkerOptions = WorkerOptions(
    height: real,
    width: real,
    margin: real,
    pageHeight: real,
    workspaceScale: real,
    autoPaginate: bool,
    customWords: string,
    charWhiteList: string,
    debug: Debug,
    ocrSettings: Config.OcrSettings)

  /** The element `create` is given; an HTML element brings its
      `scrollHeight` and the values `processOCRReplacements` returns for its
      clone. */
  datatype Element =
    | Missing
    | Foreign(constructorName: string)
    | Html(scrollHeight: real, replacements: seq<string>)

  /** The awaited steps after `new PdfWorker()`: the `chain` of the
      `html-to-image` import and the first `toCanvas`; the second
      `toCanvas`; and `createImageBitmap`, which comes after the clone is
      removed. */
  datatype Step = Capture | OcrCapture | Bitmaps

  /** The first awaited step that rejects, and its reason. */
  datatype Fault = Fault(step: Step, reason: HtmlCore.Reason)

  /** How `create` ends its synchronous part: it throws before making a
      promise (unknown format), rejects, or posts the input to a new worker
      after styling the clone. */
  datatype Started =
    | Threw
    | Rejected(rejection: HtmlCore.Rejection)
    | Posted(style: CloneStyle, options: WorkerOptions)

  /** The worker input for an HTML element: the unscaled page and margin,
      the page height scaled back up, and the dictionaries gathered from
      what the styled clone renders to. */
  function Prepare(scrollHeight: real, replacements: seq<string>, s: Settings, d: Dimensions,
                   render: CloneStyle -> Capture, uniqueChars: seq<UtilsTextNodes.TextNode> -> seq<string>): (r: Started)
    requires forall st :: Measurable(render(st))
    ensures r.Posted? && r.style == Style(d, scrollHeight)
    ensures r.options.margin == d.padding && r.options.width == d.width && r.options.height == d.height
    ensures r.options.pageHeight == d.height * s.workspaceScale && r.options.workspaceScale == s.workspaceScale
    ensures r.options.autoPaginate == s.autoPaginate && r.options.debug == s.debug && r.options.ocrSettings == s.ocrSettings
    ensures r.options.customWords == CustomWords(TextNodes(render(r.style)), replacements)
    ensures r.options.charWhiteList == Text.Join(uniqueChars(TextNodes(render(r.style))), "")
  {
    var style := Style(d, scrollHeight);
    var nodes := TextNodes(render(style));
    Posted(style, WorkerOptions(d.height, d.width, d.padding, d.height * s.workspaceScale, s.workspaceScale,
                                s.autoPaginate, CustomWords(nodes, replacements), Text.Join(uniqueChars(nodes), ""),
                                s.debug, s.ocrSettings))
  }

  /** `create(element, options)` up to `postMessage`. `render` gives what a
      styled clone renders to; `uniqueChars` is
      `getUniqueCharsFromTextNodes`; `fault` is the first awaited step that
      rejects, if any. The dimensions are computed before the promise
      exists, so an unknown format throws even for a missing element; the
      element checks come next, and the worker is created once they pass. */
  function Create(element: Element, options: Options, render: CloneStyle -> Capture,
                  uniqueChars: seq<UtilsTextNodes.TextNode> -> seq<string>, fault: Option<Fault>): (r: Started)
    requires GetDefaults(options).workspaceScale != 0.0
    requires forall st :: Measurable(render(st))
    ensures r.Threw? <==> Paper.Lookup(GetDefaults(options).format).None?
    ensures !r.Threw? && element.Missing? ==>
              r == Rejected(HtmlCore.Catch(HtmlCore.Message(MissingElementMessage), options.handlers, false, false))
    ensures !r.Threw? && element.Foreign? ==>
              r == Rejected(HtmlCore.Catch(HtmlCore.Message(InvalidElementPrefix + element.constructorName),
                                           options.handlers, false, false))
    ensures !r.Threw? && element.Html? && fault.Some? ==>
              r == Rejected(HtmlCore.Catch(fault.value.reason, options.handlers, true, fault.value.step != Bitmaps))
    ensures r.Rejected? ==> (r.rejection.workerCreated <==> element.Html?)
    ensures r.Posted? <==> !r.Threw? && element.Html? && fault.None?
    ensures r.Posted? ==> r.style.padding == r.options.margin && r.style.width == r.options.width
    ensures r.Posted? ==> r.style.minHeight >= r.options.height && r.style.minHeight >= element.scrollHeight
    ensures r.Posted? ==> r.options.customWords == CustomWords(TextNodes(render(r.style)), element.replacements)
  {
    var s := GetDefaults(options);
    match GetDimensions(s.format, s.margin, s.workspaceScale)
    case None => Threw
    case Some(d) =>
      match element
      case Missing => Rejected(HtmlCore.Catch(HtmlCore.Message(MissingElementMessage), options.handlers, false, false))
      case Foreign(name) =>
        Rejected(HtmlCore.Catch(HtmlCore.Message(InvalidElementPrefix + name), options.handlers, false, false))
      case Html(scrollHeight, replacements) =>
        match fault
        case Some(f) => Rejected(HtmlCore.Catch(f.reason, options.handlers, true, f.step != Bitmaps))
        case None => Prepare(scrollHeight, replacements, s, d, render, uniqueChars)
  }

  /** The margin the worker paginates with: `options.margin *
      options.workspaceScale` (`src/lib/workers/pdfWorker.ts`). */
  function PaginationMargin(o: WorkerOptions): real
  {
    o.margin * o.workspaceScale
  }

  /** Scaling the posted margin and page height back up gives the sheet's
      margin and height in pixels, whatever the workspace scale. */
  lemma WorkerGetsSheetPixels(element: Element, options: Options, render: CloneStyle -> Capture,
                              uniqueChars: seq<UtilsTextNodes.TextNode> -> seq<string>, fault: Option<Fault>)
    requires GetDefaults(options).workspaceScale != 0.0
    requires forall st :: Measurable(render(st))
    requires Create(element, options, render, uniqueChars, fault).Posted?
    ensures var r := Create(element, options, render, uniqueChars, fault);
            && PaginationMargin(r.options) == Paper.MarginPixels(GetDefaults(options).margin, Paper.DefaultMargin)
            && r.options.pageHeight == Paper.LetterHeight
  {
    var s := GetDefaults(options);
    var d := GetDimensions(s.format, s.margin, s.workspaceScale).value;
    assert Create(element, options, render, uniqueChars, fault) == Prepare(element.scrollHeight, element.replacements, s, d, render, uniqueChars);
  }

  /** Every user-defined replacement value reaches the recogniser's
      dictionary as a word of its own. */
  lemma ReplacementsInDictionary(nodes: seq<UtilsTextNodes.TextNode>, replacements: seq<string>, w: string)
    requires w in replacements && w != ""
    ensures w in UniqueWords.UtilsUniqueWords(nodes, replacements)
  {
  }

  /** The constants the second generation reads, when they are this
      generation's. */
  function LetterConstants(): HtmlCore.Constants
  {
    HtmlCore.Constants(Paper.DefaultMargin, map["LETTER" := Paper.Sheet(Paper.LetterWidth, Paper.LetterHeight)],
                       Config.DefaultOcrSettings)
  }

  /** The two generations scale differently (this one posts the margin at
      the workspace scale and the worker scales it up; the second scales it
      up before posting) but paginate a Letter sheet with the same margin and
      page height. */
  lemma GenerationsPaginateAlike(margin: Paper.Margin, workspaceScale: real)
    requires workspaceScale != 0.0
    ensures var d := GetDimensions(Paper.DefaultFormat, margin, workspaceScale);
            var s := HtmlCore.GetDefaults(HtmlCore.Options(None, Some(margin), None, Some(workspaceScale), None, None,
                                                            HtmlCore.Handlers(false, false)), LetterConstants());
            && d.Some?
            && HtmlCore.Sheet(s.format, LetterConstants()).Some?
            && var g := HtmlCore.Geometry(s, LetterConstants());
            && d.value.padding * workspaceScale == g.margin
            && d.value.height * workspaceScale == g.pageHeight
  {
    Paper.DefaultFormatIsLetter();
  }
}

=== FILE: css.dfy ===
/** `css` (`src/lib/css.ts`): the template tag that rebuilds the template
    text, placing expression `i` right after string `i`. Expressions are
    given already converted to their text. */
module Css {

  /** The piece the reduce appends for string `i`. */
  function Piece(strings: seq<string>, exprs: seq<string>, i: nat): string
    requires i < |strings|
  {
    if i < |exprs| then strings[i] + exprs[i] else strings[i]
  }

  /** `styles.reduce((acc, string, index) => ..., '')` over the first
      `|strings|` strings. */
  function Css(strings: seq<string>, exprs: seq<string>): (r: string)
    ensures r == Concat(seq(|strings|, i requires 0 <= i < |strings| => Piece(strings, exprs, i)))
  {
    if |strings| == 0 then ""
    else
      var n := |strings| - 1;
      var acc := Css(strings[..n], exprs);
      var pieces := seq(|strings|, i requires 0 <= i < |strings| => Piece(strings, exprs, i));
      assert pieces == seq(n, i requires 0 <= i < n => Piece(strings[..n], exprs, i)) + [Piece(strings, exprs, n)];
      ConcatSnoc(pieces[..n], pieces[n]);
      acc + Piece(strings, exprs, n)
  }

  /** The texts joined with nothing between them. */
  function Concat(parts: seq<string>): string
  {
    if |parts| == 0 then "" else parts[0] + Concat(parts[1..])
  }

  lemma {:induction false} ConcatSnoc(parts: seq<string>, last: string)
    ensures Concat(parts + [last]) == Concat(parts) + last
  {
    if |parts| > 0 {
      assert (parts + [last])[1..] == parts[1..] + [last];
      ConcatSnoc(parts[1..], last);
    }
  }

  /** With no expressions the strings are simply concatenated; no strings
      give the empty text. */
  lemma NoExpressions(strings: seq<string>)
    ensures Css(strings, []) == Concat(strings)
    ensures Css([], []) == ""
  {
    assert seq(|strings|, i requires 0 <= i < |strings| => Piece(strings, [], i)) == strings;
  }

  /** For a real template (one string more than expressions) every
      expression follows its string once, and the last string closes the
      text on its own. */
  lemma TemplateLayout(strings: seq<string>, exprs: seq<string>)
    requires |strings| == |exprs| + 1
    ensures Css(strings, exprs)
            == Concat(seq(|exprs|, i requires 0 <= i < |exprs| => strings[i] + exprs[i])) + strings[|exprs|]
  {
    var n := |exprs|;
    var pieces := seq(|strings|, i requires 0 <= i < |strings| => Piece(strings, exprs, i));
    assert pieces == seq(n, i requires 0 <= i < n => strings[i] + exprs[i]) + [strings[n]];
    ConcatSnoc(seq(n, i requires 0 <= i < n => strings[i] + exprs[i]), strings[n]);
  }

  /** Expressions beyond the strings are never placed. */
  lemma ExtraExpressionsDropped(strings: seq<string>, exprs: seq<string>, extra: seq<string>)
    requires |exprs| >= |strings|
    ensures Css(strings, exprs + extra) == Css(strings, exprs)
  {
    assert seq(|strings|, i requires 0 <= i < |strings| => Piece(strings, exprs + extra, i))
        == seq(|strings|, i requires 0 <= i < |strings| => Piece(strings, exprs, i));
  }
}

=== FILE: cut_planner.dfy ===
/** The line-aware page planner of the first generation
    (`src/lib/utils/getPaginatedCanvases.ts`): a fold over the OCR line boxes
    of the whole rendering that proposes one cut per step and pushes a cut
    that would split a line down to that line's bottom. The OCR call and the
    cropping are left out; the lines are an input. */
module CutPlanner {
  import opened Wrappers
  import Seqs

  /** One OCR line, as the planner keeps it: its vertical extent. */
  datatype LineBox = LineBox(top: real, bottom: real, confidence: real)

  /** The heights the planner works with: the rendering's full height, the
      content height of the first page and that of every later page. */
  datatype Heights = Heights(total: real, first: real, subsequent: real)

  /** Page heights from the page height and the margin: the first page
      loses its bottom margin only, every later page both margins. */
  function MakeHeights(totalHeight: real, pageHeight: real, margin: real): (h: Heights)
    ensures h.total == totalHeight
    ensures h.first + margin == pageHeight && h.subsequent + 2.0 * margin == pageHeight
    ensures h.first - h.subsequent == margin
    ensures margin >= 0.0 && pageHeight > 2.0 * margin ==> 0.0 < h.subsequent <= h.first
  {
    Heights(totalHeight, pageHeight - margin, pageHeight - margin * 2.0)
  }

  /** Both content heights are positive and the rendering has no negative
      height. */
  predicate ValidHeights(h: Heights)
  {
    h.first > 0.0 && h.subsequent > 0.0 && h.total >= 0.0
  }

  /** A line straddles `y` when `y` lies strictly inside it. */
  predicate Straddles(line: LineBox, y: real)
  {
    line.top < y < line.bottom
  }

  /** `allLines.find(...)` from index `k` on: the first line, in OCR order,
      that straddles `y`. */
  function FindStraddling(lines: seq<LineBox>, y: real, k: nat): (r: Option<nat>)
    requires k <= |lines|
    ensures r.Some? ==> k <= r.value < |lines| && Straddles(lines[r.value], y)
    ensures r.Some? ==> forall j :: k <= j < r.value ==> !Straddles(lines[j], y)
    ensures r.None? ==> forall j :: k <= j < |lines| ==> !Straddles(lines[j], y)
    decreases |lines| - k
  {
    if k == |lines| then None
    else if Straddles(lines[k], y) then Some(k)
    else FindStraddling(lines, y, k + 1)
  }

  /** The cut a step proposes: the previous cut plus the first-page height
      while only the initial cut exists, plus the later-page height after. */
  function Proposed(h: Heights, acc: seq<real>): real
    requires |acc| > 0
  {
    acc[|acc| - 1] + (if |acc| == 1 then h.first else h.subsequent)
  }

  /** One step of the reduce callback for a line index `i >= 1`. */
  function Step(lines: seq<LineBox>, h: Heights, acc: seq<real>): (r: seq<real>)
    requires |acc| > 0
    ensures r == acc || (|r| == |acc| + 1 && r[..|acc|] == acc)
    ensures Proposed(h, acc) >= h.total ==>
              (r == acc <==> acc[|acc| - 1] == h.total) && (r != acc ==> r[|acc|] == h.total)
    ensures Proposed(h, acc) < h.total && r != acc ==>
              var c := r[|acc|];
              c != acc[|acc| - 1] && c >= Proposed(h, acc) &&
              (c == Proposed(h, acc) <==> forall j :: 0 <= j < |lines| ==> !Straddles(lines[j], Proposed(h, acc))) &&
              (c != Proposed(h, acc) ==> exists j :: 0 <= j < |lines| && Straddles(lines[j], Proposed(h, acc))
                                                    && c == lines[j].bottom
                                                    && forall i :: 0 <= i < j ==> !Straddles(lines[i], Proposed(h, acc)))
  {
    var previous := acc[|acc| - 1];
    var proposed := Proposed(h, acc);
    if proposed >= h.total then
      (if previous == h.total then acc else acc + [h.total])
    else
      var safe := match FindStraddling(lines, proposed, 0)
        case Some(j) => lines[j].bottom
        case None => proposed;
      if safe == previous then acc else acc + [safe]
  }

  /** The accumulator after the callback has run for indices `0 .. steps`:
      index 0 resets it to `[0]`, each later index takes one `Step`. */
  function Fold(lines: seq<LineBox>, h: Heights, steps: nat): (acc: seq<real>)
    ensures 1 <= |acc| <= steps + 1
    ensures acc[0] == 0.0
  {
    if steps == 0 then [0.0] else Step(lines, h, Fold(lines, h, steps - 1))
  }

  /** `cutPoints`: the reduce over all lines, starting from `[]`. */
  function Cuts(lines: seq<LineBox>, h: Heights): (cuts: seq<real>)
    ensures |cuts| <= |lines|
    ensures |lines| == 0 <==> cuts == []
    ensures |lines| > 0 ==> cuts[0] == 0.0
  {
    if |lines| == 0 then [] else Fold(lines, h, |lines| - 1)
  }

  /** One page of the plan: where it starts, how tall it is, and whether it
      is the first page. */
  datatype Page = Page(startY: real, height: real, isFirstPage: bool)

  /** `cutPoints.slice(1).map(...)`: page `i` runs from cut `i` to cut `i+1`. */
  function Pages(cuts: seq<real>): (pages: seq<Page>)
    ensures |pages| == if |cuts| == 0 then 0 else |cuts| - 1
    ensures forall i :: 0 <= i < |pages| ==>
              pages[i].startY == cuts[i] && pages[i].startY + pages[i].height == cuts[i + 1]
    ensures forall i :: 0 <= i < |pages| ==> (pages[i].isFirstPage <==> i == 0)
  {
    if |cuts| <= 1 then []
    else seq(|cuts| - 1, i requires 0 <= i < |cuts| - 1 => Page(cuts[i], cuts[i + 1] - cuts[i], i == 0))
  }

  /** The planner end to end: cut points, then page intervals. */
  function Plan(lines: seq<LineBox>, h: Heights): seq<Page>
  {
    Pages(Cuts(lines, h))
  }

  /** Cuts start at 0, strictly increase and never pass the full height. */
  ghost predicate WellFormed(cuts: seq<real>, total: real)
  {
    && |cuts| >= 1
    && cuts[0] == 0.0
    && (forall i, j :: 0 <= i < j < |cuts| ==> cuts[i] < cuts[j])
    && (forall i :: 0 <= i < |cuts| ==> cuts[i] <= total)
  }

  predicate LinesWithin(lines: seq<LineBox>, total: real)
  {
    forall j :: 0 <= j < |lines| ==> lines[j].bottom <= total
  }

  lemma StepPreservesWellFormed(lines: seq<LineBox>, h: Heights, acc: seq<real>)
    requires ValidHeights(h) && LinesWithin(lines, h.total)
    requires WellFormed(acc, h.total)
    ensures WellFormed(Step(lines, h, acc), h.total)
  {
    var r := Step(lines, h, acc);
    if r != acc {
      var last := acc[|acc| - 1];
      var c := r[|acc|];
      assert c > last by {
        if Proposed(h, acc) >= h.total {
          assert c == h.total;
        }
      }
      assert c <= h.total by {
        if Proposed(h, acc) < h.total && c != Proposed(h, acc) {
          var j :| 0 <= j < |lines| && c == lines[j].bottom;
        }
      }
      assert forall i :: 0 <= i < |acc| ==> r[i] == acc[i];
    }
  }

  /** With positive page heights and every line inside the rendering, the
      cut list starts at 0, strictly increases and stays within the full
      height, however many lines there are. */
  lemma {:induction false} FoldWellFormed(lines: seq<LineBox>, h: Heights, steps: nat)
    requires ValidHeights(h) && LinesWithin(lines, h.total)
    ensures WellFormed(Fold(lines, h, steps), h.total)
  {
    if steps > 0 {
      FoldWellFormed(lines, h, steps - 1);
      StepPreservesWellFormed(lines, h, Fold(lines, h, steps - 1));
    }
  }

  lemma CutsWellFormed(lines: seq<LineBox>, h: Heights)
    requires ValidHeights(h) && LinesWithin(lines, h.total)
    requires |lines| > 0
    ensures WellFormed(Cuts(lines, h), h.total)
  {
    FoldWellFormed(lines, h, |lines| - 1);
  }

  /** No lines give no cuts, one line gives the single cut 0: no page at
      all either way. */
  lemma FewLinesNoPages(lines: seq<LineBox>, h: Heights)
    requires |lines| <= 1
    ensures Cuts(lines, h) == (if |lines| == 0 then [] else [0.0])
    ensures Plan(lines, h) == []
  {
  }

  /** There are at most as many pages as lines after the first. */
  lemma PagesAtMostLinesMinusOne(lines: seq<LineBox>, h: Heights)
    requires |lines| > 0
    ensures |Plan(lines, h)| <= |lines| - 1
  {
  }

  /** Once the full height has been reached, later steps change nothing. */
  lemma {:induction false} FoldFrozen(lines: seq<LineBox>, h: Heights, k: nat, m: nat)
    requires ValidHeights(h)
    requires k <= m
    requires var acc := Fold(lines, h, k); acc[|acc| - 1] == h.total
    ensures Fold(lines, h, m) == Fold(lines, h, k)
    decreases m - k
  {
    if m > k {
      FoldFrozen(lines, h, k, m - 1);
      var acc := Fold(lines, h, m - 1);
      assert Proposed(h, acc) >= h.total;
    }
  }

  /** The differences of consecutive cuts. */
  function Gaps(cuts: seq<real>): (g: seq<real>)
    requires |cuts| >= 1
    ensures |g| == |cuts| - 1
  {
    seq(|cuts| - 1, i requires 0 <= i < |cuts| - 1 => cuts[i + 1] - cuts[i])
  }

  lemma {:induction false} GapsTelescope(cuts: seq<real>)
    requires |cuts| >= 1
    ensures Seqs.Sum(Gaps(cuts)) == cuts[|cuts| - 1] - cuts[0]
    decreases |cuts|
  {
    if |cuts| > 1 {
      var init := cuts[..|cuts| - 1];
      GapsTelescope(init);
      assert Gaps(cuts)[..|cuts| - 2] == Gaps(init);
    }
  }

  function HeightsOf(pages: seq<Page>): (hs: seq<real>)
    ensures |hs| == |pages|
  {
    seq(|pages|, i requires 0 <= i < |pages| => pages[i].height)
  }

  /** The pages of a strictly increasing cut list have positive heights
      adding up to the distance from the first cut to the last. */
  lemma PagesTile(cuts: seq<real>)
    requires |cuts| >= 1
    requires forall i, j :: 0 <= i < j < |cuts| ==> cuts[i] < cuts[j]
    ensures forall i :: 0 <= i < |Pages(cuts)| ==> Pages(cuts)[i].height > 0.0
    ensures Seqs.Sum(HeightsOf(Pages(cuts))) == cuts[|cuts| - 1] - cuts[0]
  {
    var pages := Pages(cuts);
    forall i | 0 <= i < |pages|
      ensures pages[i].height > 0.0
    {
      assert cuts[i] < cuts[i + 1];
    }
    assert HeightsOf(pages) == Gaps(cuts);
    GapsTelescope(cuts);
  }

  /** The pages of the plan have positive heights and add up to the last
      cut: they tile `[0, last cut)` without gap or overlap. */
  lemma PlanTiles(lines: seq<LineBox>, h: Heights)
    requires ValidHeights(h) && LinesWithin(lines, h.total)
    requires |lines| > 0
    ensures forall i :: 0 <= i < |Plan(lines, h)| ==> Plan(lines, h)[i].height > 0.0
    ensures Seqs.Sum(HeightsOf(Plan(lines, h))) == Cuts(lines, h)[|Cuts(lines, h)| - 1]
  {
    CutsWellFormed(lines, h);
    PagesTile(Cuts(lines, h));
  }

  /** The planner only avoids the FIRST line that straddles a proposed cut.
      With overlapping OCR lines the realised cut can fall strictly inside
      another line: here the cut is moved to 150, inside the second line. */
  lemma CutCanFallInsideOverlappingLine()
    ensures var lines := [LineBox(50.0, 150.0, 90.0), LineBox(140.0, 200.0, 90.0)];
            var h := Heights(1000.0, 100.0, 50.0);
            Cuts(lines, h) == [0.0, 150.0] && Straddles(lines[1], 150.0)
  {
    var lines := [LineBox(50.0, 150.0, 90.0), LineBox(140.0, 200.0, 90.0)];
    assert FindStraddling(lines, 100.0, 0) == Some(0);
  }

  /** With few lines the fold stops before the full height is reached: two
      lines on a tall rendering give one first page and nothing after it. */
  lemma FewLinesStopShort()
    ensures var lines := [LineBox(10.0, 20.0, 90.0), LineBox(30.0, 40.0, 90.0)];
            Cuts(lines, Heights(1000.0, 100.0, 50.0)) == [0.0, 100.0]
  {
    var lines := [LineBox(10.0, 20.0, 90.0), LineBox(30.0, 40.0, 90.0)];
    assert FindStraddling(lines, 100.0, 0) == None;
  }
}

=== FILE: document_hook.dfy ===
/** The second `useDocument` hook (`src/lib/useDocument/useDocument.tsx`):
    the same page sizes as the first hook, a cached recognition worker, and a
    `create` that rasterises the document twice (once as shown, once with
    the `data-ocr='false'` elements hidden), draws the recognised lines with
    a per-line calibrated font size and then adds the image over them. React
    state, canvases, jsPDF and Tesseract are outside the model; what the
    environment does at each `await` is the input `Env`. */
module DocumentHook {
  import opened Wrappers
  import Core
  import PageFit
  import Ocr
  import Pdf
  import OcrWordLegacy
  import LegacyDocument

  /** The language and the parameters (`OCR_PARAMS`) every new worker is
      set up with. */
  const Language: string := "eng"
  const OcrParams: seq<(string, string)> := [("preserve_interword_spaces", "0")]

  // ---------------------------------------------------------------------
  // The worker cache
  // ---------------------------------------------------------------------

  /** Workers are numbered in creation order. `cached` is
      `tesseractWorkerRef.current`; `captured` is what the mount effect read
      from it; `live` holds the workers created and not yet terminated. A
      `getWorker` call that found the ref empty is pending until it assigns
      the ref or rejects: `creating` counts the calls still awaiting
      `import('tesseract.js')` or `createWorker('eng')`, and `configuring`
      holds the workers whose call awaits `setParameters(OCR_PARAMS)` (a
      call is known by its worker from then on). `clearing` counts the
      `terminateWorker` calls between `terminate()` and
      `tesseractWorkerRef.current = null`. */
  datatype Cache = Cache(
    cached: Option<nat>,
    captured: Option<nat>,
    next: nat,
    live: set<nat>,
    creating: nat,
    configuring: set<nat>,
    clearing: nat)

  /** A first render: no worker and no call yet. */
  const Initial: Cache := Cache(None, None, 0, {}, 0, {}, 0)

  /** The worker an optional reference holds, as a set. */
  function Held(o: Option<nat>): set<nat>
  {
    if o.Some? then {o.value} else {}
  }

  /** The running workers nothing in the hook can reach any more: not in
      the ref and not being set up by a pending call. Only the mount
      effect's captured worker can still be terminated among them. */
  function Stranded(c: Cache): set<nat>
  {
    c.live - Held(c.cached) - c.configuring
  }

  /** Every worker ever made is numbered below `next`; a worker being set
      up is running and is neither the one in the ref nor the one captured
      at mount. */
  predicate Valid(c: Cache)
  {
    && (forall w :: w in c.live ==> w < c.next)
    && (c.cached.Some? ==> c.cached.value < c.next && c.cached.value !in c.configuring)
    && (c.captured.Some? ==> c.captured.value < c.next && c.captured.value !in c.configuring)
    && c.configuring <= c.live
  }

  /** `getWorker()` up to its first `await`: the worker in the ref is
      returned at once, whether or not it is still running; an empty ref
      starts a call. No worker is created or stopped. */
  function StartGetWorker(c: Cache): (r: (Cache, Option<nat>))
    ensures r.1 == c.cached
    ensures r.0.live == c.live && r.0.cached == c.cached && r.0.configuring == c.configuring
    ensures c.cached.Some? <==> r.0.creating == c.creating
    ensures c.cached.None? ==> r.0.creating == c.creating + 1
    ensures Valid(c) ==> Valid(r.0) && Stranded(r.0) == Stranded(c)
  {
    if c.cached.Some? then (c, c.cached)
    else (c.(creating := c.creating + 1), None)
  }

  /** `createWorker('eng')` resolves for a waiting call: one new worker
      runs, and the call goes on to set it up. Nothing happens when no call
      is waiting there. */
  function MakeWorker(c: Cache): (r: Cache)
    ensures c.creating == 0 ==> r == c
    ensures c.creating > 0 ==> r.live == c.live + {c.next} && r.configuring == c.configuring + {c.next}
    ensures c.creating > 0 ==> r.creating == c.creating - 1
    ensures r.cached == c.cached && r.captured == c.captured
    ensures Valid(c) ==> Valid(r) && Stranded(r) == Stranded(c)
  {
    if c.creating > 0 then
      c.(next := c.next + 1, live := c.live + {c.next}, creating := c.creating - 1,
         configuring := c.configuring + {c.next})
    else c
  }

  /** `setParameters` resolves on worker `w`: `tesseractWorkerRef.current =
      worker` puts it in the ref and the call returns it. A worker the ref
      held before is overwritten and, if still running, stranded. */
  function SetUpWorker(c: Cache, w: nat): (r: (Cache, Option<nat>))
    ensures w !in c.configuring ==> r == (c, None)
    ensures w in c.configuring ==> r.1 == Some(w) && r.0.cached == r.1 && r.0.live == c.live
    ensures Valid(c) ==> Valid(r.0)
    ensures Valid(c) && w in c.configuring ==> Stranded(r.0) == Stranded(c) + (Held(c.cached) * c.live)
  {
    if w in c.configuring then (c.(cached := Some(w), configuring := c.configuring - {w}), Some(w))
    else (c, None)
  }

  /** A waiting call rejects (the import or `createWorker` fails): nothing
      else changes. */
  function CreateFails(c: Cache): (r: Cache)
    ensures r.cached == c.cached && r.live == c.live && r.configuring == c.configuring
    ensures c.creating > 0 ==> r.creating == c.creating - 1
    ensures Valid(c) ==> Valid(r) && Stranded(r) == Stranded(c)
  {
    if c.creating > 0 then c.(creating := c.creating - 1) else c
  }

  /** `setParameters` rejects on worker `w`: the ref is left alone, and the
      worker keeps running, stranded. */
  function SetUpFails(c: Cache, w: nat): (r: Cache)
    ensures r.cached == c.cached && r.live == c.live
    ensures w !in c.configuring ==> r == c
    ensures Valid(c) ==> Valid(r)
    ensures Valid(c) && w in c.configuring ==> Stranded(r) == Stranded(c) + {w}
  {
    c.(configuring := c.configuring - {w})
  }

  /** `terminateWorker()` up to its `await`: the worker in the ref stops,
      but the ref still holds it until the call resumes. */
  function StartTerminate(c: Cache): (r: Cache)
    ensures r.cached == c.cached && r.live == c.live - Held(c.cached) && r.clearing == c.clearing + 1
    ensures Valid(c) ==> Valid(r) && Stranded(r) == Stranded(c)
  {
    c.(live := c.live - Held(c.cached), clearing := c.clearing + 1)
  }

  /** `terminateWorker()` resumes: `tesseractWorkerRef.current = null`,
      whatever the ref holds by then, so a worker put there meanwhile keeps
      running, stranded. */
  function ClearRef(c: Cache): (r: Cache)
    ensures c.clearing == 0 ==> r == c
    ensures c.clearing > 0 ==> r.cached.None? && r.live == c.live
    ensures Valid(c) ==> Valid(r)
    ensures Valid(c) && c.clearing > 0 ==> Stranded(r) == Stranded(c) + (Held(c.cached) * c.live)
  {
    if c.clearing > 0 then c.(cached := None, clearing := c.clearing - 1) else c
  }

  /** `getWorker()` when nothing else happens meanwhile: the cached worker
      when there is one; otherwise a worker never used before is created,
      set up, cached and returned, and no running worker is stranded. */
  function GetWorker(c: Cache): (r: (Cache, nat))
    ensures r.0.cached == Some(r.1)
    ensures c.cached.Some? ==> r == (c, c.cached.value)
    ensures c.cached.None? ==> r.1 == c.next && r.0.live == c.live + {r.1}
    ensures r.0.captured == c.captured && r.0.clearing == c.clearing
    ensures Valid(c) ==> Valid(r.0) && (c.cached.None? ==> r.1 !in c.live) && Stranded(r.0) == Stranded(c)
  {
    if c.cached.Some? then (c, c.cached.value)
    else (SetUpWorker(MakeWorker(StartGetWorker(c).0), c.next).0, c.next)
  }

  /** `terminateWorker()` when nothing else happens meanwhile: the ref is
      emptied and exactly the worker it held stops running. Workers
      stranded earlier, and those being set up, keep running. */
  function TerminateWorker(c: Cache): (r: Cache)
    ensures r.cached.None? && r.captured == c.captured && r.next == c.next && r.clearing == c.clearing
    ensures r.live == c.live - Held(c.cached)
    ensures Valid(c) ==> Valid(r) && r.live == Stranded(c) + c.configuring
  {
    ClearRef(StartTerminate(c))
  }

  /** Clearing the cache makes the next `getWorker` create a fresh worker,
      never one used before, which then runs beside whatever the clearing
      left running. */
  lemma TerminateThenFresh(c: Cache)
    requires Valid(c)
    ensures var r := GetWorker(TerminateWorker(c));
            && r.1 == c.next
            && (c.cached.Some? ==> r.1 != c.cached.value)
            && r.0.live == Stranded(c) + c.configuring + {r.1}
  {
  }

  /** What happens to the hook's workers over its life: mounting (the
      effect runs and reads the ref), the steps of a `getWorker` call (it
      starts; `createWorker` resolves; `setParameters` resolves and the ref
      is assigned; or one of them rejects), the two halves of a
      `terminateWorker` call, and unmounting (the effect's clean-up). Calls
      from overlapping `create`s interleave at every `await`. */
  datatype Event =
    | Mount
    | GetStarted
    | WorkerMade
    | WorkerSetUp(worker: nat)
    | CreateFailed
    | SetUpFailed(worker: nat)
    | TerminateStarted
    | RefCleared
    | Unmount

  /** The mount effect's clean-up as written: it terminates the worker the
      effect read when the component mounted. */
  function UnmountAsWritten(c: Cache): (r: Cache)
    ensures r.cached == c.cached
    ensures r.live == c.live - Held(c.captured)
    ensures c.captured.None? ==> r.live == c.live
  {
    c.(live := c.live - Held(c.captured))
  }

  /** The clean-up as evidently intended: terminate whatever worker the ref
      holds when the component unmounts. What stays running is exactly the
      stranded workers and those still being set up. */
  function UnmountCorrected(c: Cache): (r: Cache)
    ensures r.live == c.live - Held(c.cached)
    ensures Valid(c) ==> Valid(r) && r.live == Stranded(c) + c.configuring
  {
    c.(live := c.live - Held(c.cached))
  }

  /** One event. The effect has an empty dependency list, so it reads the
      ref once, at mount. */
  function Step(c: Cache, e: Event, corrected: bool): Cache
  {
    match e
    case Mount => c.(captured := c.cached)
    case GetStarted => StartGetWorker(c).0
    case WorkerMade => MakeWorker(c)
    case WorkerSetUp(w) => SetUpWorker(c, w).0
    case CreateFailed => CreateFails(c)
    case SetUpFailed(w) => SetUpFails(c, w)
    case TerminateStarted => StartTerminate(c)
    case RefCleared => ClearRef(c)
    case Unmount => if corrected then UnmountCorrected(c) else UnmountAsWritten(c)
  }

  function Steps(c: Cache, events: seq<Event>, corrected: bool): Cache
    decreases |events|
  {
    if |events| == 0 then c else Steps(Step(c, events[0], corrected), events[1..], corrected)
  }

  /** One event keeps the cache valid, and strands for good: a worker
      stranded and not captured at mount stays so. */
  lemma StepValid(c: Cache, e: Event, corrected: bool)
    requires Valid(c)
    ensures var d := Step(c, e, corrected);
            Valid(d) && Stranded(c) - Held(c.captured) <= Stranded(d) - Held(d.captured)
  {
    var d := Step(c, e, corrected);
    match e
    case Mount =>
      assert d.live == c.live && d.cached == c.cached && d.configuring == c.configuring;
    case GetStarted =>
    case WorkerMade =>
    case WorkerSetUp(w) =>
    case CreateFailed =>
    case SetUpFailed(w) =>
    case TerminateStarted =>
    case RefCleared =>
    case Unmount =>
      if !corrected {
        assert d.live <= c.live && d.configuring == c.configuring && d.cached == c.cached;
      }
  }

  /** Any interleaving of mounts, `getWorker` and `terminateWorker` steps
      and unmounts keeps the cache valid, written or corrected. */
  lemma {:induction false} StepsValid(c: Cache, events: seq<Event>, corrected: bool)
    requires Valid(c)
    ensures Valid(Steps(c, events, corrected))
    decreases |events|
  {
    if |events| > 0 {
      StepValid(c, events[0], corrected);
      StepsValid(Step(c, events[0], corrected), events[1..], corrected);
    }
  }

  /** A stranded worker (other than the one captured at mount) is never
      terminated by anything that happens later, with either clean-up. */
  lemma {:induction false} StrandedStayRunning(c: Cache, events: seq<Event>, corrected: bool)
    requires Valid(c)
    ensures var d := Steps(c, events, corrected);
            Stranded(c) - Held(c.captured) <= Stranded(d) - Held(d.captured)
            && Stranded(c) - Held(c.captured) <= d.live
    decreases |events|
  {
    if |events| > 0 {
      StepValid(c, events[0], corrected);
      StrandedStayRunning(Step(c, events[0], corrected), events[1..], corrected);
    }
  }

  /** As written, a worker created by `create` after mounting outlives the
      component: the clean-up terminates the worker read at mount, which was
      none. */
  lemma UnmountLeaksWorker()
    ensures Steps(Initial, [Mount, GetStarted, WorkerMade, WorkerSetUp(0), Unmount], false).live == {0}
  {
    var c1 := Step(Initial, Mount, false);
    var c2 := Step(c1, GetStarted, false);
    var c3 := Step(c2, WorkerMade, false);
    var c4 := Step(c3, WorkerSetUp(0), false);
    assert c4.live == {0} && c4.captured.None?;
    var es := [Mount, GetStarted, WorkerMade, WorkerSetUp(0), Unmount];
    assert Steps(Initial, es, false) == Steps(c1, es[1..], false);
    assert Steps(c1, es[1..], false) == Steps(c2, es[2..], false);
    assert Steps(c2, es[2..], false) == Steps(c3, es[3..], false);
    assert Steps(c3, es[3..], false) == Steps(c4, es[4..], false);
  }

  /** With the corrected clean-up, unmounting after any history leaves
      running exactly the workers stranded by then and those still being
      set up. */
  lemma UnmountCorrectedReleases(events: seq<Event>)
    ensures var c := Steps(Initial, events, true);
            Steps(Initial, events + [Unmount], true).live == Stranded(c) + c.configuring
  {
    StepsValid(Initial, events, true);
    StepsSnoc(Initial, events, Unmount, true);
  }

  lemma {:induction false} StepsSnoc(c: Cache, events: seq<Event>, e: Event, corrected: bool)
    ensures Steps(c, events + [e], corrected) == Step(Steps(c, events, corrected), e, corrected)
    decreases |events|
  {
    if |events| == 0 {
      assert events + [e] == [e];
    } else {
      assert (events + [e])[1..] == events[1..] + [e];
      StepsSnoc(Step(c, events[0], corrected), events[1..], e, corrected);
    }
  }

  /** An uninterrupted `getWorker` is the interleaving in which its own
      steps follow one another; likewise `terminateWorker`. */
  lemma GetWorkerSteps(c: Cache, corrected: bool)
    ensures c.cached.Some? ==> GetWorker(c).0 == Steps(c, [GetStarted], corrected)
    ensures c.cached.None? ==>
              GetWorker(c).0 == Steps(c, [GetStarted, WorkerMade, WorkerSetUp(c.next)], corrected)
    ensures TerminateWorker(c) == Steps(c, [TerminateStarted, RefCleared], corrected)
  {
    var ts := [TerminateStarted, RefCleared];
    assert Steps(c, ts, corrected) == Steps(StartTerminate(c), ts[1..], corrected);
    assert Steps(StartTerminate(c), ts[1..], corrected) == Steps(ClearRef(StartTerminate(c)), ts[2..], corrected);
    var s := StartGetWorker(c).0;
    if c.cached.Some? {
      assert s == c;
      assert Steps(c, [GetStarted], corrected) == Steps(s, [GetStarted][1..], corrected);
    } else {
      var es := [GetStarted, WorkerMade, WorkerSetUp(c.next)];
      var m := MakeWorker(s);
      assert Steps(c, es, corrected) == Steps(s, es[1..], corrected);
      assert Steps(s, es[1..], corrected) == Steps(m, es[2..], corrected);
      assert Steps(m, es[2..], corrected) == Steps(SetUpWorker(m, c.next).0, es[3..], corrected);
    }
  }

  /** Two overlapping `create`s both find the ref empty and each creates a
      worker; the second assignment overwrites the first, which then runs
      on unreached, and even the corrected clean-up leaves it running. */
  lemma OverlappingCallsStrandWorker()
    ensures var c := Steps(Initial, [GetStarted, GetStarted, WorkerMade, WorkerMade, WorkerSetUp(0), WorkerSetUp(1)], true);
            && c.cached == Some(1) && Stranded(c) == {0}
            && UnmountCorrected(c).live == {0}
  {
    var c1 := Step(Initial, GetStarted, true);
    var c2 := Step(c1, GetStarted, true);
    assert c2.creating == 2 && c2.live == {};
    var c3 := Step(c2, WorkerMade, true);
    var c4 := Step(c3, WorkerMade, true);
    assert c4.live == {0, 1} && c4.configuring == {0, 1} && c4.cached.None?;
    var c5 := Step(c4, WorkerSetUp(0), true);
    assert c5.cached == Some(0) && c5.configuring == {1};
    var c6 := Step(c5, WorkerSetUp(1), true);
    assert c6.cached == Some(1) && c6.configuring == {} && c6.live == {0, 1};
    var es := [GetStarted, GetStarted, WorkerMade, WorkerMade, WorkerSetUp(0), WorkerSetUp(1)];
    assert Steps(Initial, es, true) == Steps(c1, es[1..], true);
    assert Steps(c1, es[1..], true) == Steps(c2, es[2..], true);
    assert Steps(c2, es[2..], true) == Steps(c3, es[3..], true);
    assert Steps(c3, es[3..], true) == Steps(c4, es[4..], true);
    assert Steps(c4, es[4..], true) == Steps(c5, es[5..], true);
    assert Steps(c5, es[5..], true) == Steps(c6, es[6..], true);
  }

  /** A `setParameters` that rejects strands the worker its call created:
      the ref stays empty and the worker keeps running. */
  lemma RejectedSetUpStrandsWorker()
    ensures var c := Steps(Initial, [GetStarted, WorkerMade, SetUpFailed(0)], true);
            && c.cached.None? && c.live == {0} && Stranded(c) == {0}
  {
    var c1 := Step(Initial, GetStarted, true);
    var c2 := Step(c1, WorkerMade, true);
    assert c2.configuring == {0} && c2.live == {0};
    var c3 := Step(c2, SetUpFailed(0), true);
    assert c3.configuring == {};
    var es := [GetStarted, WorkerMade, SetUpFailed(0)];
    assert Steps(Initial, es, true) == Steps(c1, es[1..], true);
    assert Steps(c1, es[1..], true) == Steps(c2, es[2..], true);
    assert Steps(c2, es[2..], true) == Steps(c3, es[3..], true);
  }

  /** `terminateWorker` and `getWorker` racing. A `getWorker` that starts
      while a termination is pending returns the stopped worker still in
      the ref; and a termination overtaken by a `getWorker` clears the ref
      after the new worker was put there, which then runs on, stranded. */
  lemma TerminateRaceStrandsWorker()
    ensures var c := Steps(Initial, [GetStarted, WorkerMade, WorkerSetUp(0), TerminateStarted], true);
            && StartGetWorker(c).1 == Some(0) && 0 !in c.live
    ensures var c := Steps(Initial, [TerminateStarted, GetStarted, WorkerMade, WorkerSetUp(0), RefCleared], true);
            && c.cached.None? && c.live == {0} && Stranded(c) == {0}
  {
    var a1 := Step(Initial, GetStarted, true);
    var a2 := Step(a1, WorkerMade, true);
    var a3 := Step(a2, WorkerSetUp(0), true);
    assert a3.cached == Some(0) && a3.live == {0};
    var a4 := Step(a3, TerminateStarted, true);
    var xs := [GetStarted, WorkerMade, WorkerSetUp(0), TerminateStarted];
    assert Steps(Initial, xs, true) == Steps(a1, xs[1..], true);
    assert Steps(a1, xs[1..], true) == Steps(a2, xs[2..], true);
    assert Steps(a2, xs[2..], true) == Steps(a3, xs[3..], true);
    assert Steps(a3, xs[3..], true) == Steps(a4, xs[4..], true);

    var b1 := Step(Initial, TerminateStarted, true);
    assert b1.clearing == 1 && b1.cached.None?;
    var b2 := Step(b1, GetStarted, true);
    var b3 := Step(b2, WorkerMade, true);
    assert b3.configuring == {0} && b3.live == {0};
    var b4 := Step(b3, WorkerSetUp(0), true);
    assert b4.cached == Some(0) && b4.configuring == {} && b4.clearing == 1;
    var b5 := Step(b4, RefCleared, true);
    var ys := [TerminateStarted, GetStarted, WorkerMade, WorkerSetUp(0), RefCleared];
    assert Steps(Initial, ys, true) == Steps(b1, ys[1..], true);
    assert Steps(b1, ys[1..], true) == Steps(b2, ys[2..], true);
    assert Steps(b2, ys[2..], true) == Steps(b3, ys[3..], true);
    assert Steps(b3, ys[3..], true) == Steps(b4, ys[4..], true);
    assert Steps(b4, ys[4..], true) == Steps(b5, ys[5..], true);
  }

  /** A call of the hook that runs to its end before the next one starts. */
  datatype Whole = WholeMount | WholeGet | WholeTerminate | WholeUnmount

  /** A history of uninterrupted calls. */
  function Uninterrupted(c: Cache, calls: seq<Whole>, corrected: bool): Cache
    decreases |calls|
  {
    if |calls| == 0 then c
    else
      var d := match calls[0]
               case WholeMount => Step(c, Mount, corrected)
               case WholeGet => GetWorker(c).0
               case WholeTerminate => TerminateWorker(c)
               case WholeUnmount => Step(c, Unmount, corrected);
      Uninterrupted(d, calls[1..], corrected)
  }

  /** Nothing pending and nothing running but the worker in the ref. */
  predicate Quiet(c: Cache)
  {
    Valid(c) && c.creating == 0 && c.configuring == {} && c.clearing == 0 && c.live <= Held(c.cached)
  }

  /** Uninterrupted calls strand nothing: with the corrected clean-up,
      unmounting after such a history leaves no worker running. */
  lemma {:induction false} UninterruptedReleases(c: Cache, calls: seq<Whole>)
    requires Quiet(c)
    ensures Quiet(Uninterrupted(c, calls, true))
    ensures Uninterrupted(c, calls + [WholeUnmount], true).live == {}
    decreases |calls|
  {
    if |calls| == 0 {
      assert calls + [WholeUnmount] == [WholeUnmount];
      assert Uninterrupted(c, [WholeUnmount], true) == UnmountCorrected(c);
    } else {
      var d := match calls[0]
               case WholeMount => Step(c, Mount, true)
               case WholeGet => GetWorker(c).0
               case WholeTerminate => TerminateWorker(c)
               case WholeUnmount => Step(c, Unmount, true);
      assert Quiet(d);
      assert (calls + [WholeUnmount])[1..] == calls[1..] + [WholeUnmount];
      UninterruptedReleases(d, calls[1..]);
    }
  }

  // ---------------------------------------------------------------------
  // One `create`
  // ---------------------------------------------------------------------

  /** An element below the clone's root, in document order: whether it is
      an `HTMLElement`, whether it is visible as laid out, its `data-ocr`
      attribute, and the position of its parent element in the list
      (`None` for a child of the root). A parent comes before its children;
      a position that does not is read as no parent. */
  datatype Element = Element(isHtml: bool, shown: bool, dataOcr: Option<string>, parent: Option<nat>)

  /** Matched by `[data-ocr='false']` and set to opacity 0. */
  predicate HiddenForOcr(e: Element)
  {
    e.isHtml && e.dataOcr == Some("false")
  }

  /** Element `i`'s parent, when it is one of the listed elements. */
  function ParentOf(elements: seq<Element>, i: nat): (p: Option<nat>)
    requires i < |elements|
    ensures p.Some? ==> p.value < i
  {
    if elements[i].parent.Some? && elements[i].parent.value < i then elements[i].parent else None
  }

  /** Element `a` is an ancestor of element `i`. */
  predicate Below(elements: seq<Element>, a: nat, i: nat)
    requires i < |elements|
    decreases i
  {
    ParentOf(elements, i).Some?
    && (ParentOf(elements, i).value == a || Below(elements, a, ParentOf(elements, i).value))
  }

  /** Whether element `i` is at opacity 0 or inside an element that is:
      opacity hides the whole subtree. The query looks below the clone's
      root only, so the root itself is never made transparent. */
  predicate Transparent(elements: seq<Element>, i: nat)
    requires i < |elements|
    decreases i
  {
    HiddenForOcr(elements[i])
    || (ParentOf(elements, i).Some? && Transparent(elements, ParentOf(elements, i).value))
  }

  lemma {:induction false} BelowBefore(elements: seq<Element>, a: nat, i: nat)
    requires i < |elements| && Below(elements, a, i)
    ensures a < i
    decreases i
  {
    var p := ParentOf(elements, i).value;
    if p != a {
      BelowBefore(elements, a, p);
    }
  }

  /** An element is transparent exactly when it or one of its ancestors is
      marked `data-ocr='false'`. */
  lemma {:induction false} TransparentIffMarkedAbove(elements: seq<Element>, i: nat)
    requires i < |elements|
    ensures Transparent(elements, i) <==>
              HiddenForOcr(elements[i])
              || exists a :: 0 <= a < i && Below(elements, a, i) && HiddenForOcr(elements[a])
    decreases i
  {
    var p := ParentOf(elements, i);
    if p.Some? {
      TransparentIffMarkedAbove(elements, p.value);
      if Transparent(elements, p.value) && !HiddenForOcr(elements[i]) {
        if HiddenForOcr(elements[p.value]) {
          assert Below(elements, p.value, i);
        } else {
          var a :| 0 <= a < p.value && Below(elements, a, p.value) && HiddenForOcr(elements[a]);
          assert Below(elements, a, i);
        }
      }
      if exists a :: 0 <= a < i && Below(elements, a, i) && HiddenForOcr(elements[a]) {
        var a :| 0 <= a < i && Below(elements, a, i) && HiddenForOcr(elements[a]);
        if a != p.value {
          BelowBefore(elements, a, p.value);
        }
      }
    }
  }

  /** Which elements each raster shows: the visible raster is captured
      first, then the marked elements are set to opacity 0 and the OCR
      raster is captured. */
  datatype Rasters = Rasters(visible: seq<bool>, ocr: seq<bool>)

  function Rasterise(elements: seq<Element>): (r: Rasters)
    ensures |r.visible| == |r.ocr| == |elements|
    ensures forall i :: 0 <= i < |elements| ==> r.visible[i] == elements[i].shown
    ensures forall i :: 0 <= i < |elements| ==> (r.ocr[i] <==> elements[i].shown && !Transparent(elements, i))
  {
    Rasters(seq(|elements|, i requires 0 <= i < |elements| => elements[i].shown),
            seq(|elements|, i requires 0 <= i < |elements| => elements[i].shown && !Transparent(elements, i)))
  }

  /** An element marked `data-ocr='false'`, and everything inside it,
      appears in the image of the PDF but is never seen by the recogniser;
      an element with no marked ancestor and no mark of its own appears in
      both or in neither. */
  lemma MarkedOnlyInImage(elements: seq<Element>, i: nat)
    requires i < |elements|
    ensures var r := Rasterise(elements);
            && r.visible[i] == elements[i].shown
            && (HiddenForOcr(elements[i]) ==> !r.ocr[i])
            && (forall a :: 0 <= a < i && Below(elements, a, i) && HiddenForOcr(elements[a]) ==> !r.ocr[i])
            && ((!HiddenForOcr(elements[i])
                 && forall a :: 0 <= a < i && Below(elements, a, i) ==> !HiddenForOcr(elements[a]))
                ==> r.ocr[i] == r.visible[i])
  {
    TransparentIffMarkedAbove(elements, i);
  }

  /** `<div data-ocr="false"><p>…</p></div>`, both shown: the paragraph is
      in the image but not in the recognised raster, like its parent. */
  lemma MarkedHidesChildren()
    ensures Rasterise([Element(true, true, Some("false"), None), Element(true, true, None, Some(0))])
            == Rasters([true, true], [false, false])
  {
    var es := [Element(true, true, Some("false"), None), Element(true, true, None, Some(0))];
    assert Transparent(es, 0);
    assert ParentOf(es, 1) == Some(0);
    assert Transparent(es, 1);
  }

  /** `line.bbox.y1 - line.bbox.y0`. */
  function LineHeight(line: Ocr.Line): real
  {
    line.bbox.y1 - line.bbox.y0
  }

  /** `multiplier = knownFontSize / ((height * ratio) / workspaceSize)` and
      `fontSize = (height * ratio * multiplier) / workspaceSize`: the line's
      own height cancels out, so the size is the known size whenever it is
      a number (`None` stands for `NaN`: an unparsed known size, a `NaN`
      ratio, or a zero divisor). */
  function LineFontSize(line: Ocr.Line, known: Option<real>, ratio: Option<real>, workspaceSize: real): (r: Option<real>)
    requires workspaceSize != 0.0
    ensures r.Some? <==> known.Some? && ratio.Some? && LineHeight(line) * ratio.value != 0.0
    ensures r.Some? ==> r.value == known.value
  {
    if known.None? || ratio.None? then None
    else
      var p := LineHeight(line) * ratio.value;
      var divisor := p / workspaceSize;
      assert divisor * workspaceSize == p;
      if divisor == 0.0 then None
      else
        var multiplier := known.value / divisor;
        assert multiplier * divisor == known.value;
        assert p * multiplier == known.value * workspaceSize;
        Some((p * multiplier) / workspaceSize)
  }

  /** One call `drawOcrWord(doc, line, fontSize, workspaceSize, ratio)`. */
  datatype LineCall = LineCall(line: Ocr.Line, fontSize: Option<real>)

  /** What the first generation's `drawOcrWord` does with that call: the
      workspace size lands in its `ratio` parameter and the ratio in its
      `options`, where a number has no `debug` field, so the default (red
      frames) applies. Defined when the font size is a number. */
  function Rendered(call: LineCall, workspaceSize: real, measure: string -> real): (ops: seq<Pdf.Op>)
    requires call.fontSize.Some?
  {
    OcrWordLegacy.DrawOcrWord(call.line, call.fontSize.value, workspaceSize, None, measure)
  }

  /** A drawn line sets the known size and places each word at its box
      scaled by the workspace size (not by the page ratio), followed by its
      debug frame. */
  lemma RenderedPlacement(line: Ocr.Line, known: Option<real>, ratio: Option<real>, workspaceSize: real,
                          measure: string -> real, i: nat)
    requires workspaceSize != 0.0
    requires LineFontSize(line, known, ratio, workspaceSize).Some?
    requires line.words.Some? && i < |line.words.value|
    ensures var ops := Rendered(LineCall(line, LineFontSize(line, known, ratio, workspaceSize)), workspaceSize, measure);
            var w := line.words.value[i];
            && ops[0] == Pdf.SetFontSize(known.value)
            && |ops| == 1 + 4 * |line.words.value|
            && ops[1 + 4 * i].Text? && ops[1 + 4 * i].x == w.bbox.x0 * workspaceSize
            && ops[4 + 4 * i].Rect?
  {
    OcrWordLegacy.DefaultDrawsFrames(line, known.value, workspaceSize, measure, i);
  }

  /** What a document call does, in order. */
  datatype Action = DrawLine(call: LineCall) | AddImage(size: PageFit.Size)

  /** The lines of the recognition result: an absent `blocks` defaults to
      `[]`, and a `null` one is skipped by `if (blocks)`. */
  function RecognisedLines(b: Ocr.Recognised): seq<Ocr.Line>
  {
    Ocr.AllLines(Ocr.Listed(b))
  }

  /** Where a `create` can fail: loading jsPDF or html-to-image, styling
      the clone (`sheet.replace`, or a missing element, whose clone is
      `undefined`), getting the worker, rasterising, or recognising. */
  datatype Stage = Loading | Styling | Acquiring | Rasterising | Recognising

  /** A thrown value, and whether it is truthy (`if (error)`). */
  datatype Fault = Fault(stage: Stage, truthy: bool)

  /** What the environment does during one `create`. A missing element
      makes the styling step throw a `TypeError` once `sheet.replace` has
      settled. */
  datatype Env = Env(
    mounted: bool,
    fault: Option<Fault>,
    knownFontSize: Option<real>,
    page: PageFit.Size,
    elements: seq<Element>,
    recognised: Ocr.Recognised)

  /** The fault that ends the run, if any: a failure while loading or in
      `sheet.replace` comes first, then the missing element, then the later
      steps. */
  function FaultOf(env: Env): Option<Fault>
  {
    if env.fault.Some? && Rank(env.fault.value.stage) <= Rank(Styling) then env.fault
    else if !env.mounted then Some(Fault(Styling, true))
    else env.fault
  }

  /** The stages a run passes before `s`. */
  function Rank(s: Stage): nat
  {
    match s
    case Loading => 0
    case Styling => 1
    case Acquiring => 2
    case Rasterising => 3
    case Recognising => 4
  }

  /** One run of `create`: the document calls made, whether the data URIs
      were published, whether `create` rethrows, whether `isCreating` is
      still set afterwards, whether the clone stays in the body, whether
      `getWorker` returned a worker, and the rasters taken. */
  datatype Run = Run(
    actions: seq<Action>,
    published: bool,
    rethrown: bool,
    stillCreating: bool,
    cloneLeft: bool,
    acquired: bool,
    rasters: Option<Rasters>)

  /** The document calls of a run that gets through recognition: one
      `drawOcrWord` per recognised line, then the image. */
  function Draw(lines: seq<Ocr.Line>, known: Option<real>, ratio: Option<real>, workspaceSize: real, image: PageFit.Size): (r: seq<Action>)
    requires workspaceSize != 0.0
    ensures |r| == |lines| + 1 && r[|lines|] == AddImage(image)
    ensures forall i :: 0 <= i < |lines| ==> r[i] == DrawLine(LineCall(lines[i], LineFontSize(lines[i], known, ratio, workspaceSize)))
  {
    seq(|lines|, i requires 0 <= i < |lines| => DrawLine(LineCall(lines[i], LineFontSize(lines[i], known, ratio, workspaceSize))))
      + [AddImage(image)]
  }

  /** `create()` for the sizes `d` of the first render: `create` is a
      `useCallback` with no dependencies, so it keeps the width, height and
      padding that render computed. A fault resolves
      the deferred result with `{ error }`; a truthy one is rethrown and
      leaves `isCreating` set; only a complete run removes the clone. */
  function Create(d: Core.Dimensions, s: LegacyDocument.HookSettings, env: Env): (r: Run)
    requires d.width > 0.0 && d.height > 0.0 && s.workspaceSize != 0.0
    ensures r.published <==> FaultOf(env).None?
    ensures r.rethrown <==> FaultOf(env).Some? && FaultOf(env).value.truthy
    ensures r.stillCreating <==> r.rethrown
    ensures r.cloneLeft <==> FaultOf(env).Some? && Rank(FaultOf(env).value.stage) >= Rank(Acquiring)
    ensures r.acquired <==> FaultOf(env).None? || Rank(FaultOf(env).value.stage) > Rank(Acquiring)
    ensures r.rasters.Some? <==> FaultOf(env).None? || FaultOf(env).value.stage == Recognising
    ensures r.rasters.Some? ==> r.rasters.value == Rasterise(env.elements)
    ensures r.actions != [] <==> r.published
    ensures r.published ==>
              r.actions == Draw(RecognisedLines(env.recognised), env.knownFontSize,
                                LegacyDocument.Ratio(d, s.autoScale, env.page), s.workspaceSize,
                                LegacyDocument.ImageSize(d, s.autoScale, env.page))
  {
    match FaultOf(env)
    case Some(f) =>
      var left := Rank(f.stage) >= Rank(Acquiring);
      Run([], false, f.truthy, f.truthy, left, Rank(f.stage) > Rank(Acquiring),
          if f.stage == Recognising then Some(Rasterise(env.elements)) else None)
    case None =>
      var actions := Draw(RecognisedLines(env.recognised), env.knownFontSize,
                          LegacyDocument.Ratio(d, s.autoScale, env.page), s.workspaceSize,
                          LegacyDocument.ImageSize(d, s.autoScale, env.page));
      Run(actions, true, false, false, false, true, Some(Rasterise(env.elements)))
  }

  /** The image is added last, after every line, so it covers the text
      layer; every drawn line gets exactly the known font size when that
      size and the ratio are numbers and the line has height. */
  lemma ImageCoversText(d: Core.Dimensions, s: LegacyDocument.HookSettings, env: Env, i: nat)
    requires d.width > 0.0 && d.height > 0.0 && s.workspaceSize != 0.0
    requires Create(d, s, env).published
    requires i < |Create(d, s, env).actions|
    ensures var actions := Create(d, s, env).actions;
            && actions[|actions| - 1].AddImage?
            && (i < |actions| - 1 ==> actions[i].DrawLine?)
            && (i < |actions| - 1 && actions[i].call.fontSize.Some? ==>
                  actions[i].call.fontSize.value == env.knownFontSize.value)
  {
  }

  /** With automatic scaling on a positive page, each line of non-zero
      height is drawn at the known size; without it the ratio is `NaN` and
      no line has a numeric size. */
  lemma SizesByScaling(d: Core.Dimensions, s: LegacyDocument.HookSettings, env: Env, i: nat)
    requires d.width > 0.0 && d.height > 0.0 && s.workspaceSize != 0.0
    requires Create(d, s, env).published
    requires i < |RecognisedLines(env.recognised)|
    ensures var line := RecognisedLines(env.recognised)[i];
            var call := Create(d, s, env).actions[i].call;
            && call.line == line
            && (!s.autoScale ==> call.fontSize.None?)
            && (s.autoScale && PageFit.Positive(env.page) && env.knownFontSize.Some? && LineHeight(line) != 0.0 ==>
                  call.fontSize == env.knownFontSize)
  {
    var ratio := LegacyDocument.Ratio(d, s.autoScale, env.page);
    if s.autoScale && PageFit.Positive(env.page) {
      assert ratio.value > 0.0;
    }
  }

  /** A `null` or absent `blocks` draws no line; the image is still added
      and the PDF published. */
  lemma NoBlocksOnlyImage(d: Core.Dimensions, s: LegacyDocument.HookSettings, env: Env)
    requires d.width > 0.0 && d.height > 0.0 && s.workspaceSize != 0.0
    requires FaultOf(env).None? && !env.recognised.Blocks?
    ensures Create(d, s, env).actions == [AddImage(LegacyDocument.ImageSize(d, s.autoScale, env.page))]
  {
  }

  /** A falsy thrown value is swallowed: `create` neither rethrows nor
      leaves `isCreating` set, yet publishes nothing. */
  lemma FalsyErrorSwallowed(d: Core.Dimensions, s: LegacyDocument.HookSettings, env: Env)
    requires d.width > 0.0 && d.height > 0.0 && s.workspaceSize != 0.0
    requires env.mounted && env.fault.Some? && !env.fault.value.truthy
    ensures var r := Create(d, s, env);
            !r.rethrown && !r.stillCreating && !r.published
  {
  }
}

=== FILE: dom.dfy ===
/** The parts of the DOM the text extractors read, as plain values: a text
    node seen by a tree walker, its parent's computed style and the client
    rectangle of its contents. Layout and style computation are the
    browser's; here they are inputs. */
module Dom {
  import opened Wrappers
  import Text

  /** A client rectangle (`getBoundingClientRect`). */
  datatype Rect = Rect(left: real, top: real, width: real, height: real)

  /** The computed-style properties the extractors consult. Lengths are the
      results of `parseFloat`; `None` stands for `NaN`. */
  datatype Style = Style(
    display: string,
    visibility: string,
    opacity: string,
    fontSize: Option<real>,
    letterSpacing: Option<real>)

  /** A text node in document order: its `textContent`, its parent element's
      style (`None` when it has no parent element) and its range rectangle. */
  datatype TextSite = TextSite(text: string, parent: Option<Style>, rect: Rect)

  /** `display: none`, `visibility: hidden` or `opacity: '0'`. */
  predicate Invisible(style: Style)
  {
    style.display == "none" || style.visibility == "hidden" || style.opacity == "0"
  }

  /** The tree walkers' `acceptNode`: `textContent.trim()` is truthy. */
  predicate HasVisibleText(site: TextSite)
  {
    Text.Trim(site.text) != ""
  }

  /** `parseFloat(v) || 0`: `NaN` (and 0) become 0. */
  function OrZero(v: Option<real>): (r: real)
    ensures v.Some? ==> r == v.value
    ensures v.None? ==> r == 0.0
  {
    v.GetOr(0.0)
  }
}

=== FILE: download.dfy ===
/** The `download` function `create` resolves with, identical in both
    generations (`src/lib/core/index.ts` and
    `src/lib/html-to-pdf/core/index.ts`): it either opens the PDF's object
    URL in a new window, or clicks a temporary anchor that saves it under a
    file name, and returns the matching clean-up. */
module Download {
  import opened Wrappers

  const DefaultFilename: string := "document.pdf"

  /** `IDownloadOptions['type']`. */
  datatype Kind = Window | Direct

  /** `IDownloadOptions`; an absent field is `None`. */
  datatype DownloadOptions = DownloadOptions(kind: Option<Kind>, filename: Option<string>)

  /** `config`: the defaults overridden by every given option. */
  datatype Settings = Settings(kind: Kind, filename: string)

  /** What the returned clean-up does. */
  datatype Cleanup = NoOp | Revoke(url: string)

  /** The effects of one `download` call: the attributes set on a clicked
      anchor (none when no anchor is made), the URL and target passed to
      `window.open` (if it is called), and the clean-up returned. */
  datatype Effect = Effect(anchor: seq<(string, string)>, clicked: bool, window: Option<(string, string)>, cleanup: Cleanup)

  /** `{ type: 'window', filename: 'document.pdf', ...options }`. */
  function Configure(o: DownloadOptions): (s: Settings)
    ensures s.kind == Direct <==> o.kind == Some(Direct)
    ensures o.filename.None? ==> s.filename == DefaultFilename
    ensures o.filename.Some? ==> s.filename == o.filename.value
  {
    Settings(o.kind.GetOr(Window), o.filename.GetOr(DefaultFilename))
  }

  /** The anchor of a direct download, attributes in the order they are
      set. */
  function AnchorAttributes(url: string, filename: string): seq<(string, string)>
  {
    [("href", url), ("target", "_blank"), ("rel", "noopener noreferrer"), ("download", filename)]
  }

  /** `download(options)` for the object URL `url`. A direct download
      clicks an anchor that points at `url` and names the file, opens no
      window and returns a clean-up that does nothing; otherwise `url` is
      opened in a new window and the clean-up revokes exactly that URL. */
  function Download(url: string, o: DownloadOptions): (e: Effect)
    ensures e.clicked <==> o.kind == Some(Direct)
    ensures e.clicked ==> ("href", url) in e.anchor && ("download", Configure(o).filename) in e.anchor
    ensures e.clicked ==> e.window.None? && e.cleanup == NoOp
    ensures !e.clicked ==> e.anchor == [] && e.window == Some((url, "_blank")) && e.cleanup == Revoke(url)
  {
    var s := Configure(o);
    if s.kind == Direct then Effect(AnchorAttributes(url, s.filename), true, None, NoOp)
    else Effect([], false, Some((url, "_blank")), Revoke(url))
  }

  /** The file name matters only to a direct download: a window download
      does the same whatever name is given. */
  lemma FilenameOnlyForDirect(url: string, a: DownloadOptions, b: DownloadOptions)
    requires a.kind == b.kind && a.kind != Some(Direct)
    ensures Download(url, a) == Download(url, b)
  {
  }

  /** With no options the PDF opens in a new window and the clean-up frees
      its URL; the clean-up never frees a URL other than the one
      downloaded. */
  lemma DefaultOpensWindow(url: string, o: DownloadOptions)
    ensures Download(url, DownloadOptions(None, None)) == Effect([], false, Some((url, "_blank")), Revoke(url))
    ensures Download(url, o).cleanup.Revoke? ==> Download(url, o).cleanup.url == url
  {
  }
}

=== FILE: fixed_planner.dfy ===
/** The fixed-height page planner of the second generation
    (`src/lib/html-to-pdf/utils/getPaginatedCanvases.ts`): a page count from
    the rendering height, fixed page offsets, one crop request per page and
    the text nodes each page carries, moved to page coordinates. */
module FixedPlanner {
  import opened Wrappers
  import Seqs
  import Range
  import HtmlCrop
  import HtmlTextNodes
  import JsMath

  /** The planner's inputs: the rendering height, the page height and the
      margin, all in canvas pixels. */
  datatype Layout = Layout(total: real, pageHeight: real, margin: real)
  {
    function First(): real { pageHeight - margin }
    function Subsequent(): real { pageHeight - margin * 2.0 }
    predicate Valid() { pageHeight > 2.0 * margin }
  }

  /** `1 + Math.ceil((totalHeight - firstPageHeight) / subsequentPageHeight)`.
      Nothing checks the margin against the page height; only a zero later
      page height, a division by zero, is left out. */
  function PageCount(l: Layout): (n: int)
    requires l.Subsequent() != 0.0
    ensures (n - 2) as real < (l.total - l.First()) / l.Subsequent() <= (n - 1) as real
  {
    1 + JsMath.Ceil((l.total - l.First()) / l.Subsequent())
  }

  /** With later pages of positive height, the first page and `count - 1`
      later pages reach the bottom of the rendering. */
  lemma PageCountCovers(l: Layout)
    requires l.Valid()
    ensures l.total <= l.First() + l.Subsequent() * ((PageCount(l) - 1) as real)
  {
    var x := (l.total - l.First()) / l.Subsequent();
    MulBound(x, (PageCount(l) - 1) as real, l.Subsequent());
    assert x * l.Subsequent() == l.total - l.First();
  }

  lemma MulBound(x: real, c: real, s: real)
    requires s > 0.0 && x <= c
    ensures x * s <= c * s
  {
  }

  /** Top of page `k`: 0 for the first page, then whole later pages after
      the first one. */
  function PageY(l: Layout, k: nat): real
  {
    if k == 0 then 0.0 else l.First() + l.Subsequent() * ((k - 1) as real)
  }

  function PageHeight(l: Layout, k: nat): real
  {
    if k == 0 then l.First() else l.Subsequent()
  }

  /** The crop options of page `k` of `count`. */
  function Request(l: Layout, k: nat, count: int): (req: HtmlCrop.Request)
    ensures req.isFirstPage <==> k == 0
    ensures req.isLastPage <==> k == count - 1
    ensures req.y == PageY(l, k) && req.height == PageHeight(l, k)
    ensures req.margin == l.margin && req.pageHeight == l.pageHeight
  {
    HtmlCrop.Request(PageY(l, k), PageHeight(l, k), l.margin, k == 0, k + 1 == count, l.pageHeight)
  }

  /** The page test `nodeTop >= y && nodeBottom <= pageBottom + nodeHeight`. */
  predicate OnPage(n: HtmlTextNodes.TextNode, y: real, height: real)
  {
    n.y >= y && n.y + n.height <= (y + height) + n.height
  }

  /** A kept node moved to page coordinates: below the top margin on every
      page but the first. */
  function Rebase(n: HtmlTextNodes.TextNode, y: real, isFirstPage: bool, margin: real): HtmlTextNodes.TextNode
  {
    n.(y := n.y - y + (if isFirstPage then 0.0 else margin))
  }

  function Select(l: Layout, k: nat): HtmlTextNodes.TextNode -> Option<HtmlTextNodes.TextNode>
  {
    n => if OnPage(n, PageY(l, k), PageHeight(l, k)) then Some(Rebase(n, PageY(l, k), k == 0, l.margin)) else None
  }

  /** The inner reduce: page `k`'s text nodes, in input order. */
  function PageNodes(nodes: seq<HtmlTextNodes.TextNode>, l: Layout, k: nat): seq<HtmlTextNodes.TextNode>
  {
    Seqs.FilterMap(Select(l, k), nodes)
  }

  /** One entry of the result: the crop of the page and its text nodes. */
  datatype Page = Page(crop: HtmlCrop.Crop, nodes: seq<HtmlTextNodes.TextNode>)

  /** `getPaginatedCanvases`; the error is the `RangeError` `range` throws
      for a negative page count. */
  function Paginate(source: HtmlCrop.Size, nodes: seq<HtmlTextNodes.TextNode>, l: Layout): (r: Result<seq<Page>>)
    requires l.Subsequent() != 0.0
    ensures r.Err? <==> PageCount(l) < 0 || PageCount(l) >= Range.MaxArrayLength
    ensures r.Ok? ==> |r.value| == PageCount(l)
    ensures r.Ok? ==> forall k :: 0 <= k < |r.value| ==>
              r.value[k].crop == HtmlCrop.CropCanvas(source, Request(l, k, PageCount(l)))
              && r.value[k].nodes == PageNodes(nodes, l, k)
  {
    var count := PageCount(l);
    match Range.RangeFromZero(count)
    case Err(e) => Err(e)
    case Ok(ks) =>
      Ok(seq(|ks|, i requires 0 <= i < |ks| =>
        Page(HtmlCrop.CropCanvas(source, Request(l, ks[i], count)), PageNodes(nodes, l, ks[i]))))
  }

  /** The page count goes negative, and `range` throws, exactly when the
      rendering is at most `3 * margin - pageHeight` tall; it is positive
      exactly when the rendering is taller than one margin. */
  lemma PageCountSign(l: Layout)
    requires l.Valid()
    ensures PageCount(l) < 0 <==> l.total <= 3.0 * l.margin - l.pageHeight
    ensures PageCount(l) >= 1 <==> l.total > l.margin
  {
    var s := l.Subsequent();
    var x := (l.total - l.First()) / s;
    assert PageCount(l) == 1 + JsMath.Ceil(x);
    CeilAtMost(x, -2);
    CeilAtMost(x, -1);
    ScaledAtMost(l.total - l.First(), s, -2.0);
    ScaledAtMost(l.total - l.First(), s, -1.0);
  }

  lemma CeilAtMost(x: real, k: int)
    ensures JsMath.Ceil(x) <= k <==> x <= k as real
  {
  }

  /** For positive `s`, `d / s <= a` iff `d <= a * s`. */
  lemma ScaledAtMost(d: real, s: real, a: real)
    requires s > 0.0
    ensures d / s <= a <==> d <= a * s
  {
    var x := d / s;
    assert x * s == d;
    if x <= a {
      MulBound(x, a, s);
    } else {
      MulStrict(a, x, s);
    }
  }

  /** Margins of half a page or more make the later page height zero or
      negative. With a negative one, the count is positive exactly when the
      rendering is shorter than one margin, and negative, so `range` throws,
      exactly when it is at least `3 * margin - pageHeight` tall: a
      rendering taller than a margin gets no page or an error. */
  lemma WideMarginPages(l: Layout)
    requires l.Subsequent() < 0.0
    ensures PageCount(l) >= 1 <==> l.total < l.margin
    ensures PageCount(l) < 0 <==> l.total >= 3.0 * l.margin - l.pageHeight
  {
    var s := l.Subsequent();
    var d := l.total - l.First();
    var x := d / s;
    assert PageCount(l) == 1 + JsMath.Ceil(x);
    CeilAtMost(x, -2);
    CeilAtMost(x, -1);
    assert (-d) / (-s) == x;
    ScaledAtMost(-d, -s, -2.0);
    ScaledAtMost(-d, -s, -1.0);
  }

  lemma MulStrict(a: real, x: real, s: real)
    requires s > 0.0 && a < x
    ensures a * s < x * s
  {
  }

  /** Pages are contiguous: each page starts where the previous one ends. */
  lemma PagesContiguous(l: Layout, k: nat)
    ensures PageY(l, k + 1) == PageY(l, k) + PageHeight(l, k)
  {
    if k > 0 {
      assert l.Subsequent() * (k as real) == l.Subsequent() * ((k - 1) as real) + l.Subsequent();
    }
  }

  /** The last page reaches the bottom of the rendering (it may pass it;
      clipping is the crop's job), and it starts above that bottom, so no
      page is wasted. */
  lemma LastPageCoversBottom(l: Layout)
    requires l.Valid() && l.total > 0.0 && PageCount(l) >= 1
    ensures var last := PageCount(l) - 1;
            PageY(l, last) + PageHeight(l, last) >= l.total && PageY(l, last) < l.total
  {
    var s := l.Subsequent();
    var d := l.total - l.First();
    var c := JsMath.Ceil(d / s);
    assert PageCount(l) - 1 == c;
    ScaledAtMost(d, s, c as real);
    assert d <= (c as real) * s;
    if c > 0 {
      ScaledAtMost(d, s, (c - 1) as real);
      assert d > ((c - 1) as real) * s;
      PagesContiguous(l, c - 1);
      assert PageY(l, c) == l.First() + s * ((c - 1) as real);
      assert PageY(l, c) + PageHeight(l, c) == l.First() + s * ((c - 1) as real) + s;
      assert s * ((c - 1) as real) + s == (c as real) * s;
    }
  }

  /** The page test only looks at the node's top: it holds iff the top lies
      in `[y, y + height]`, both ends included. */
  lemma OnPageIff(n: HtmlTextNodes.TextNode, y: real, height: real)
    ensures OnPage(n, y, height) <==> y <= n.y <= y + height
  {
  }

  /** A node whose top lies exactly on the boundary between pages `k` and
      `k + 1` is given to both pages. */
  lemma BoundaryNodeOnBothPages(l: Layout, k: nat, n: HtmlTextNodes.TextNode)
    requires l.Valid() && l.margin >= 0.0
    requires n.y == PageY(l, k + 1)
    ensures OnPage(n, PageY(l, k), PageHeight(l, k))
    ensures OnPage(n, PageY(l, k + 1), PageHeight(l, k + 1))
  {
    PagesContiguous(l, k);
    assert PageHeight(l, k) > 0.0;
  }

  /** A page carries, in input order, exactly the nodes whose top lies on
      it, each moved to page coordinates: only `y` changes, to the offset
      from the page top plus the top margin on later pages. */
  lemma PageNodesSpec(nodes: seq<HtmlTextNodes.TextNode>, more: seq<HtmlTextNodes.TextNode>,
                      l: Layout, k: nat, m: HtmlTextNodes.TextNode)
    ensures m in PageNodes(nodes, l, k) <==>
              exists j :: 0 <= j < |nodes| && PageY(l, k) <= nodes[j].y <= PageY(l, k) + PageHeight(l, k)
                          && m == nodes[j].(y := nodes[j].y - PageY(l, k) + (if k == 0 then 0.0 else l.margin))
    ensures PageNodes(nodes + more, l, k) == PageNodes(nodes, l, k) + PageNodes(more, l, k)
  {
    Seqs.FilterMapMembers(Select(l, k), nodes, m);
    Seqs.FilterMapAppend(Select(l, k), nodes, more);
    forall j | 0 <= j < |nodes|
      ensures Seqs.MapsTo(Select(l, k), nodes[j], m)
              <==> PageY(l, k) <= nodes[j].y <= PageY(l, k) + PageHeight(l, k)
                   && m == nodes[j].(y := nodes[j].y - PageY(l, k) + (if k == 0 then 0.0 else l.margin))
    {
      SelectIff(l, k, nodes[j], m);
    }
  }

  lemma SelectIff(l: Layout, k: nat, n: HtmlTextNodes.TextNode, m: HtmlTextNodes.TextNode)
    ensures Seqs.MapsTo(Select(l, k), n, m)
            <==> PageY(l, k) <= n.y <= PageY(l, k) + PageHeight(l, k)
                 && m == n.(y := n.y - PageY(l, k) + (if k == 0 then 0.0 else l.margin))
  {
    OnPageIff(n, PageY(l, k), PageHeight(l, k));
  }

  /** The heights the crops of the first `n` pages actually draw from a
      source exactly as tall as the rendering. */
  function DrawnHeights(l: Layout, n: nat): (d: seq<real>)
    ensures |d| == n
  {
    seq(n, k requires 0 <= k < n => JsMath.Min(PageHeight(l, k), l.total - PageY(l, k)))
  }

  lemma PageYIncreasing(l: Layout, j: nat, k: nat)
    requires l.Valid() && l.margin >= 0.0
    requires j < k
    ensures PageY(l, j) < PageY(l, k)
  {
    if j > 0 {
      MulStrict((j - 1) as real, (k - 1) as real, l.Subsequent());
      assert l.Subsequent() * ((j - 1) as real) == ((j - 1) as real) * l.Subsequent();
      assert l.Subsequent() * ((k - 1) as real) == ((k - 1) as real) * l.Subsequent();
    } else {
      if k > 1 {
        assert l.Subsequent() * ((k - 1) as real) >= 0.0;
      }
    }
  }

  lemma {:induction false} DrawnPrefix(l: Layout, n: nat)
    requires l.Valid() && l.margin >= 0.0 && l.total > 0.0 && PageCount(l) >= 1
    requires n <= PageCount(l) - 1
    ensures Seqs.Sum(DrawnHeights(l, n)) == PageY(l, n)
  {
    if n > 0 {
      DrawnPrefix(l, n - 1);
      assert DrawnHeights(l, n)[..n - 1] == DrawnHeights(l, n - 1);
      PagesContiguous(l, n - 1);
      LastPageCoversBottom(l);
      if n < PageCount(l) - 1 {
        PageYIncreasing(l, n, PageCount(l) - 1);
      }
    }
  }

  /** Cropping every planned page from a source as tall as the rendering
      draws each source row exactly once in total: the drawn heights add up
      to the rendering height. */
  lemma DrawnHeightsCoverRendering(l: Layout)
    requires l.Valid() && l.margin >= 0.0 && l.total > 0.0 && PageCount(l) >= 1
    ensures Seqs.Sum(DrawnHeights(l, PageCount(l))) == l.total
  {
    var c := PageCount(l) - 1;
    DrawnPrefix(l, c);
    LastPageCoversBottom(l);
    assert DrawnHeights(l, c + 1)[..c] == DrawnHeights(l, c);
  }
}

=== FILE: html_chain.dfy ===
/** `chain(...fns)` of the second generation
    (`src/lib/html-to-pdf/utils/chain.ts`): a loop that calls function 0 with
    no argument and every later function with the previous awaited result,
    collecting the results. A function may return a plain value or a
    promise. */
module HtmlChain {
  import opened Wrappers
  import opened Async

  /** What a run of `fns`, started with `prev` as the first argument, is:
      each call's outcome gives the next result, and a rejected call ends the
      run with its reason. */
  ghost predicate ChainedFrom<T>(fns: seq<Option<T> -> Outcome<T>>, prev: Option<T>, r: Run<T>)
  {
    && Shaped(|fns|, r)
    && Threaded(prev, r)
    && (forall i :: 0 <= i < |r.results| ==> Calls(fns[i], r.inputs[i], r.results[i]))
    && (r.rejection.Some? ==> fns[|r.results|](r.inputs[|r.results|]) == Rejected(r.rejection.value))
  }

  /** Calling `f` on `x` gives `y`. */
  ghost predicate Calls<T>(f: Option<T> -> Outcome<T>, x: Option<T>, y: T)
  {
    Gives(f(x), y)
  }

  /** `chain(...fns)`. No functions give no results. */
  function Chain<T>(fns: seq<Option<T> -> Outcome<T>>): (r: Run<T>)
    ensures ChainedFrom(fns, None, r)
  {
    ChainFrom(fns, None)
  }

  /** The loop from some function on, `prev` holding the last result. */
  function ChainFrom<T>(fns: seq<Option<T> -> Outcome<T>>, prev: Option<T>): (r: Run<T>)
    ensures ChainedFrom(fns, prev, r)
    decreases |fns|
  {
    if |fns| == 0 then Run([], [], None)
    else
      var o := fns[0](prev);
      if o.Rejected? then Run([prev], [], Some(o.reason))
      else
        var rest := ChainFrom(fns[1..], Some(o.value));
        Extend(fns, prev, o.value, rest);
        Run([prev] + rest.inputs, [o.value] + rest.results, rest.rejection)
  }

  /** A first call that gives `v`, followed by a run of the remaining
      functions started with `v`, is a run of all of them. */
  lemma Extend<T>(fns: seq<Option<T> -> Outcome<T>>, prev: Option<T>, v: T, rest: Run<T>)
    requires |fns| > 0 && Gives(fns[0](prev), v)
    requires ChainedFrom(fns[1..], Some(v), rest)
    ensures ChainedFrom(fns, prev, Run([prev] + rest.inputs, [v] + rest.results, rest.rejection))
  {
    var r := Run([prev] + rest.inputs, [v] + rest.results, rest.rejection);
    assert Shaped(|fns|, r);
    ExtendThreaded(prev, v, rest);
    ExtendCalls(fns, prev, v, rest);
    if rest.rejection.Some? {
      ExtendRejection(fns, prev, v, rest);
    }
  }

  lemma ExtendThreaded<T>(prev: Option<T>, v: T, rest: Run<T>)
    requires |rest.inputs| <= |rest.results| + 1
    requires Threaded(Some(v), rest)
    ensures Threaded(prev, Run([prev] + rest.inputs, [v] + rest.results, rest.rejection))
  {
    var r := Run([prev] + rest.inputs, [v] + rest.results, rest.rejection);
    forall i | 0 < i < |r.inputs|
      ensures r.inputs[i] == Some(r.results[i - 1])
    {
      assert r.inputs[i] == rest.inputs[i - 1];
      if i > 1 {
        assert r.results[i - 1] == rest.results[i - 2];
      }
    }
  }

  lemma ExtendCalls<T>(fns: seq<Option<T> -> Outcome<T>>, prev: Option<T>, v: T, rest: Run<T>)
    requires |fns| > 0 && Gives(fns[0](prev), v)
    requires |rest.results| <= |fns| - 1 && |rest.inputs| >= |rest.results|
    requires forall i :: 0 <= i < |rest.results| ==> Calls(fns[1..][i], rest.inputs[i], rest.results[i])
    ensures var r := Run([prev] + rest.inputs, [v] + rest.results, rest.rejection);
            forall i :: 0 <= i < |r.results| ==> Calls(fns[i], r.inputs[i], r.results[i])
  {
    var r := Run([prev] + rest.inputs, [v] + rest.results, rest.rejection);
    forall i | 0 < i < |r.results|
      ensures Calls(fns[i], r.inputs[i], r.results[i])
    {
      assert fns[i] == fns[1..][i - 1];
      assert r.inputs[i] == rest.inputs[i - 1];
      assert r.results[i] == rest.results[i - 1];
    }
  }

  lemma ExtendRejection<T>(fns: seq<Option<T> -> Outcome<T>>, prev: Option<T>, v: T, rest: Run<T>)
    requires |fns| > 0 && rest.rejection.Some?
    requires |rest.results| < |fns| - 1 && |rest.inputs| == |rest.results| + 1
    requires fns[1..][|rest.results|](rest.inputs[|rest.results|]) == Rejected(rest.rejection.value)
    ensures var r := Run([prev] + rest.inputs, [v] + rest.results, rest.rejection);
            fns[|r.results|](r.inputs[|r.results|]) == Rejected(r.rejection.value)
  {
    var r := Run([prev] + rest.inputs, [v] + rest.results, rest.rejection);
    assert fns[|r.results|] == fns[1..][|rest.results|];
    assert r.inputs[|r.results|] == rest.inputs[|rest.results|];
  }

  /** A run is determined by the functions and the first argument: the
      description of `ChainedFrom` leaves no freedom. */
  lemma RunUnique<T>(fns: seq<Option<T> -> Outcome<T>>, prev: Option<T>, r1: Run<T>, r2: Run<T>)
    requires ChainedFrom(fns, prev, r1) && ChainedFrom(fns, prev, r2)
    ensures r1 == r2
  {
    var m := if |r1.results| < |r2.results| then |r1.results| else |r2.results|;
    SamePrefix(fns, prev, r1, r2, m);
    assert |r1.results| == |r2.results|;
    assert r1.results == r2.results;
    assert r1.rejection == r2.rejection;
    assert r1.inputs == r2.inputs;
  }

  /** Two runs agree on their first `k` results and `k + 1` inputs. */
  lemma {:induction false} SamePrefix<T>(fns: seq<Option<T> -> Outcome<T>>, prev: Option<T>, r1: Run<T>, r2: Run<T>, k: nat)
    requires ChainedFrom(fns, prev, r1) && ChainedFrom(fns, prev, r2)
    requires k <= |r1.results| && k <= |r2.results|
    ensures forall i :: 0 <= i < k ==> r1.results[i] == r2.results[i]
    ensures k < |r1.inputs| && k < |r2.inputs| ==> r1.inputs[k] == r2.inputs[k]
  {
    if k > 0 {
      SamePrefix(fns, prev, r1, r2, k - 1);
      assert r1.inputs[k - 1] == r2.inputs[k - 1];
      assert r1.results[k - 1] == r2.results[k - 1];
    }
  }

  /** A function that rejects stops the run: the functions after it are
      never called and the run carries its reason. */
  lemma RejectionStops<T>(fns: seq<Option<T> -> Outcome<T>>, k: nat)
    requires k < |fns| && k <= |Chain(fns).results|
    requires fns[k](if k == 0 then None else Some(Chain(fns).results[k - 1])).Rejected?
    ensures |Chain(fns).results| == k && |Chain(fns).inputs| == k + 1
    ensures Chain(fns).rejection == Some(fns[k](Chain(fns).inputs[k]).reason)
  {
  }
}

=== FILE: html_core.dfy ===
/** `create` of the second generation (`src/lib/html-to-pdf/core/index.ts`):
    option defaults, the page dimensions at the workspace scale, the split of
    the marked page elements into fixed-height and auto-paginated pages, the
    rescaling of the extracted text nodes to their canvases, and the input
    posted to the PDF worker. Rendering (`toCanvas`), bitmaps and the worker
    itself are outside the model: a captured canvas is an input, and whether
    an awaited step rejects is the parameter `fault`. This generation's
    constants and `CONFIG` modules are not part of this model; the values it
    reads from them, the paper sizes included, are the parameter
    `Constants`. */
module HtmlCore {
  import opened Wrappers
  import Seqs
  import Text
  import JsMath
  import Config
  import Paper
  import HtmlTextNodes
  import UniqueWords
  import OcrReplacements
  import SortedStrings

  /** `DEFAULT_MARGIN`, `PAPER_DIMENSIONS` (keyed by upper-case format
      names), and the `CONFIG.OCR` defaults. */
  datatype Constants = Constants(defaultMargin: real, paperDimensions: map<string, Paper.Sheet>, ocrDefaults: Config.OcrSettings)

  /** `PAPER_DIMENSIONS[format?.toUpperCase()]`: `None` is the `undefined`
      of a format the table does not list. */
  function Sheet(format: string, c: Constants): (r: Option<Paper.Sheet>)
    ensures r.Some? <==> Paper.ToUpper(format) in c.paperDimensions
    ensures r.Some? ==> r.value == c.paperDimensions[Paper.ToUpper(format)]
  {
    var key := Paper.ToUpper(format);
    if key in c.paperDimensions then Some(c.paperDimensions[key]) else None
  }

  const DefaultFormat: string := "Letter"
  const DefaultDebug: string := "warn"
  const DefaultWorkspaceScale: real := 3.5

  /** The attribute that marks a page element; the value `'true'` asks for
      automatic pagination. */
  const PageAttribute: string := "data-html-to-pdf-page"

  const MissingElementMessage: string := "Document reference not available"
  const InvalidElementPrefix: string := "Invalid element type: expected HTMLElement, got "
  const UnknownWorkerError: string := "Unknown worker error"

  /** Whether the caller passed `onError` and `onProgress`. */
  datatype Handlers = Handlers(onError: bool, onProgress: bool)

  /** `ICreateOptions`; an absent field is `None`. */
  datatype Options = Options(
    format: Option<string>,
    margin: Option<Paper.Margin>,
    debug: Option<string>,
    workspaceScale: Option<real>,
    autoPaginate: Option<bool>,
    ocrSettings: Option<Config.OcrSettings>,
    handlers: Handlers)

  /** The options once `getDefaults` has filled them in. */
  datatype Settings = Settings(
    format: string,
    margin: Paper.Margin,
    debug: string,
    workspaceScale: real,
    autoPaginate: bool,
    ocrSettings: Config.OcrSettings,
    handlers: Handlers)

  /** `getDefaults(options)`: every absent field gets its default and every
      given one, the handlers included, is kept. */
  function GetDefaults(o: Options, c: Constants): (s: Settings)
    ensures s.format == (if o.format.Some? then o.format.value else DefaultFormat)
    ensures s.margin == (if o.margin.Some? then o.margin.value else Paper.Pixels(c.defaultMargin))
    ensures s.debug == (if o.debug.Some? then o.debug.value else DefaultDebug)
    ensures s.workspaceScale == (if o.workspaceScale.Some? then o.workspaceScale.value else DefaultWorkspaceScale)
    ensures s.autoPaginate == (if o.autoPaginate.Some? then o.autoPaginate.value else true)
    ensures s.ocrSettings == (if o.ocrSettings.Some? then o.ocrSettings.value else c.ocrDefaults)
    ensures s.handlers == o.handlers
  {
    Settings(
      o.format.GetOr(DefaultFormat),
      o.margin.GetOr(Paper.Pixels(c.defaultMargin)),
      o.debug.GetOr(DefaultDebug),
      o.workspaceScale.GetOr(DefaultWorkspaceScale),
      o.autoPaginate.GetOr(true),
      o.ocrSettings.GetOr(c.ocrDefaults),
      o.handlers)
  }

  /** The settings passed back as options, every field present. */
  function Supplied(s: Settings): Options
  {
    Options(Some(s.format), Some(s.margin), Some(s.debug), Some(s.workspaceScale),
            Some(s.autoPaginate), Some(s.ocrSettings), s.handlers)
  }

  /** Filling in the defaults twice changes nothing more. */
  lemma DefaultsStable(o: Options, c: Constants)
    ensures GetDefaults(Supplied(GetDefaults(o, c)), c) == GetDefaults(o, c)
  {
  }

  /** `MARGIN_MAP` of this generation, on the named margins. */
  function MarginMap(m: Paper.Margin, c: Constants): real
    requires !m.Pixels?
  {
    Paper.MarginPixels(m, c.defaultMargin)
  }

  /** `getMargin(margin, scale)`: an absent margin is `'Standard'`. The
      result times the scale is the margin in page pixels. */
  function GetMargin(margin: Option<Paper.Margin>, scale: real, c: Constants): (r: real)
    requires scale != 0.0
    ensures r * scale == Paper.MarginPixels(margin.GetOr(Paper.Standard), c.defaultMargin)
  {
    var m := margin.GetOr(Paper.Standard);
    (if m.Pixels? then m.px else MarginMap(m, c)) / scale
  }

  /** The page size and margin at the workspace scale. */
  datatype Dimensions = Dimensions(width: real, height: real, padding: real)

  /** `getDimensions({ format, margin, workspaceScale })`: the sheet of the
      format and the margin divided by `(workspaceScale * 2) / 2`, which is
      the workspace scale itself. Scaling back up gives the sheet and margin
      pixels. A format the table does not list cannot be destructured:
      `None` is that `TypeError`. */
  function GetDimensions(format: string, margin: Paper.Margin, workspaceScale: real, c: Constants): (r: Option<Dimensions>)
    requires workspaceScale != 0.0
    ensures r.Some? <==> Paper.ToUpper(format) in c.paperDimensions
    ensures r.Some? ==> r.value.width * workspaceScale == c.paperDimensions[Paper.ToUpper(format)].width
    ensures r.Some? ==> r.value.height * workspaceScale == c.paperDimensions[Paper.ToUpper(format)].height
    ensures r.Some? ==> r.value.padding * workspaceScale == Paper.MarginPixels(margin, c.defaultMargin)
  {
    match Sheet(format, c)
    case None => None
    case Some(sheet) =>
      var scale := (workspaceScale * 2.0) / 2.0;
      assert scale == workspaceScale;
      Some(Dimensions(sheet.width / scale, sheet.height / scale, GetMargin(Some(margin), scale, c)))
  }

  /** The lookup ignores the case of the format name. */
  lemma FormatIgnoresCase(a: string, b: string, margin: Paper.Margin, workspaceScale: real, c: Constants)
    requires workspaceScale != 0.0
    requires Paper.ToUpper(a) == Paper.ToUpper(b)
    ensures GetDimensions(a, margin, workspaceScale, c) == GetDimensions(b, margin, workspaceScale, c)
  {
  }

  /** An element matching `[data-html-to-pdf-page]`, in document order:
      whether it is an `HTMLElement`, its attribute value and the
      `scrollHeight` it has once its height is unset. */
  datatype PageElement = PageElement(isHtml: bool, pageValue: string, scrollHeight: real)

  predicate IsFixed(p: PageElement)
  {
    p.isHtml && p.pageValue != "true"
  }

  predicate IsAuto(p: PageElement)
  {
    p.isHtml && p.pageValue == "true"
  }

  datatype Groups = Groups(fixed: seq<PageElement>, auto: seq<PageElement>)

  /** The `reduce` that sorts the page elements: an element that is not an
      `HTMLElement` is dropped, one whose value is `'true'` joins `auto`,
      every other one joins `fixed`. Each group is the document-order
      selection of its kind. */
  function Partition(pages: seq<PageElement>): (g: Groups)
    ensures g.fixed == Seqs.Filter(IsFixed, pages)
    ensures g.auto == Seqs.Filter(IsAuto, pages)
  {
    if |pages| == 0 then Groups([], [])
    else
      var n := |pages| - 1;
      var acc := Partition(pages[..n]);
      var page := pages[n];
      Seqs.FilterSnoc(IsFixed, pages);
      Seqs.FilterSnoc(IsAuto, pages);
      if !page.isHtml then acc
      else if page.pageValue == "true" then Groups(acc.fixed, acc.auto + [page])
      else Groups(acc.fixed + [page], acc.auto)
  }

  /** A page element as it is rendered: whether it is auto-paginated and the
      height it is given (`min-height` for an auto page, `height` for a fixed
      one). */
  datatype PageLayout = PageLayout(element: PageElement, autoPaginate: bool, trueHeight: real)

  /** The `nodes` list: the fixed pages, then the auto pages. `auto.includes
      (node)` compares elements by identity and the selection holds each
      element once, so it holds exactly for the pages taken from `auto`. */
  function Layout(pages: seq<PageElement>, height: real): (r: seq<PageLayout>)
    ensures |r| == |Seqs.Filter(IsFixed, pages)| + |Seqs.Filter(IsAuto, pages)|
    ensures forall i :: 0 <= i < |r| ==> (r[i].autoPaginate <==> i >= |Seqs.Filter(IsFixed, pages)|)
    ensures forall i :: 0 <= i < |r| ==> r[i].element in pages && (r[i].autoPaginate <==> IsAuto(r[i].element))
    ensures forall i :: 0 <= i < |r| ==> r[i].element.isHtml
    ensures forall i :: 0 <= i < |r| && r[i].autoPaginate ==>
              r[i].trueHeight >= height && r[i].trueHeight >= r[i].element.scrollHeight &&
              (r[i].trueHeight == height || r[i].trueHeight == r[i].element.scrollHeight)
    ensures forall i :: 0 <= i < |r| && !r[i].autoPaginate ==> r[i].trueHeight == height
  {
    var g := Partition(pages);
    var nodes := g.fixed + g.auto;
    seq(|nodes|, i requires 0 <= i < |nodes| => Place(g, pages, i, height))
  }

  /** Entry `i` of `nodes` with its flag and height. */
  function Place(g: Groups, pages: seq<PageElement>, i: nat, height: real): (p: PageLayout)
    requires g == Partition(pages) && i < |g.fixed| + |g.auto|
    ensures p.element == (g.fixed + g.auto)[i] && p.element in pages && p.element.isHtml
    ensures p.autoPaginate <==> i >= |g.fixed|
    ensures p.autoPaginate <==> IsAuto(p.element)
    ensures p.autoPaginate ==> p.trueHeight == JsMath.Max(height, p.element.scrollHeight)
    ensures !p.autoPaginate ==> p.trueHeight == height
  {
    var auto := i >= |g.fixed|;
    var node := if auto then g.auto[i - |g.fixed|] else g.fixed[i];
    PageLayout(node, auto, if auto then JsMath.Max(height, node.scrollHeight) else height)
  }

  /** `autoPaginationFlags`: one flag per rendered page. */
  function Flags(layout: seq<PageLayout>): (r: seq<bool>)
    ensures |r| == |layout| && forall i :: 0 <= i < |r| ==> r[i] == layout[i].autoPaginate
  {
    seq(|layout|, i requires 0 <= i < |layout| => layout[i].autoPaginate)
  }

  /** Every fixed page comes before every auto page, and each group keeps
      document order. */
  lemma FixedPagesFirst(pages: seq<PageElement>, height: real, i: nat, j: nat)
    requires i <= j < |Layout(pages, height)|
    ensures Flags(Layout(pages, height))[i] ==> Flags(Layout(pages, height))[j]
    ensures var g := Partition(pages);
            Layout(pages, height)[i].element == (g.fixed + g.auto)[i]
  {
  }

  /** What a rendered page gave: its canvas size, its client rectangle size,
      and its text nodes extracted at scale 1. */
  datatype Capture = Capture(
    canvasWidth: real,
    canvasHeight: real,
    boundsWidth: real,
    boundsHeight: real,
    textNodes: seq<HtmlTextNodes.TextNode>)

  predicate Measurable(cap: Capture)
  {
    cap.boundsWidth != 0.0 && cap.boundsHeight != 0.0
  }

  /** `canvas / pixelRatio / bounds`, the factor the source multiplies a
      field by before multiplying by the pixel ratio again: together the
      two give canvas over bounds, the pixel ratio cancelling out. */
  lemma ScaleCancels(canvas: real, bounds: real, pixelRatio: real)
    requires bounds != 0.0 && pixelRatio != 0.0
    ensures canvas / pixelRatio / bounds * pixelRatio == canvas / bounds
  {
    var q := canvas / pixelRatio;
    assert q * pixelRatio == canvas;
    assert q / bounds * bounds == q;
  }

  /** One field moved onto the canvas by `scale * pixelRatio`. */
  function Scaled(v: real, scale: real, pixelRatio: real, ratio: real): (r: real)
    requires scale * pixelRatio == ratio
    ensures r == v * ratio
  {
    v * scale * pixelRatio
  }

  /** A text node moved onto its canvas: horizontal fields scale by canvas
      width over element width, vertical ones and the font size by canvas
      height over element height; the text and letter spacing are kept. */
  function Rescale(n: HtmlTextNodes.TextNode, cap: Capture, pixelRatio: real): (r: HtmlTextNodes.TextNode)
    requires Measurable(cap) && pixelRatio != 0.0
    ensures r.x == n.x * (cap.canvasWidth / cap.boundsWidth)
    ensures r.width == n.width * (cap.canvasWidth / cap.boundsWidth)
    ensures r.y == n.y * (cap.canvasHeight / cap.boundsHeight)
    ensures r.height == n.height * (cap.canvasHeight / cap.boundsHeight)
    ensures r.fontSize == n.fontSize * (cap.canvasHeight / cap.boundsHeight)
    ensures r.text == n.text && r.letterSpacing == n.letterSpacing
  {
    var scaleX := cap.canvasWidth / pixelRatio / cap.boundsWidth;
    var scaleY := cap.canvasHeight / pixelRatio / cap.boundsHeight;
    var ratioX := cap.canvasWidth / cap.boundsWidth;
    var ratioY := cap.canvasHeight / cap.boundsHeight;
    ScaleCancels(cap.canvasWidth, cap.boundsWidth, pixelRatio);
    ScaleCancels(cap.canvasHeight, cap.boundsHeight, pixelRatio);
    HtmlTextNodes.TextNode(
      n.text,
      Scaled(n.fontSize, scaleY, pixelRatio, ratioY),
      n.letterSpacing,
      Scaled(n.x, scaleX, pixelRatio, ratioX),
      Scaled(n.y, scaleY, pixelRatio, ratioY),
      Scaled(n.width, scaleX, pixelRatio, ratioX),
      Scaled(n.height, scaleY, pixelRatio, ratioY))
  }

  /** The text nodes of one page, rescaled onto its canvas. */
  function RescaleAll(cap: Capture, pixelRatio: real): (r: seq<HtmlTextNodes.TextNode>)
    requires Measurable(cap) && pixelRatio != 0.0
    ensures |r| == |cap.textNodes|
    ensures forall i :: 0 <= i < |r| ==> r[i] == Rescale(cap.textNodes[i], cap, pixelRatio)
  {
    seq(|cap.textNodes|, i requires 0 <= i < |cap.textNodes| => Rescale(cap.textNodes[i], cap, pixelRatio))
  }

  /** The `options` of the posted `PdfWorkerInput`, bitmaps left out. */
  datatype WorkerOptions = WorkerOptions(
    height: real,
    width: real,
    margin: real,
    pageHeight: real,
    autoPaginationFlags: seq<bool>,
    autoPaginate: bool,
    customWords: string,
    charWhiteList: string,
    debug: string,
    ocrSettings: Config.OcrSettings,
    textNodes: seq<seq<HtmlTextNodes.TextNode>>)

  /** The element `create` is given. */
  datatype Element =
    | Missing
    | Foreign(constructorName: string)
    | Html(pages: seq<PageElement>, replacementNodes: seq<OcrReplacements.Node>)

  /** What a promise rejects with: an `Error` or a string, which carries a
      message, or any other value. */
  datatype Reason = Message(text: string) | OtherValue

  /** How the `create` promise is rejected: the reason, what `onError`
      received, whether a PDF worker had already been created, and whether
      the clone was still attached to `document.body`. Neither the worker
      nor the clone is cleaned up on this path. */
  datatype Rejection = Rejection(reason: Reason, reported: Option<string>, workerCreated: bool, cloneAttached: bool)

  /** The catch block: `errorHandler(error)` when the reason is an `Error`
      or a string, so that `onError` hears its message when it was given;
      then `reject(error)`. */
  function Catch(reason: Reason, handlers: Handlers, workerCreated: bool, cloneAttached: bool): (r: Rejection)
    ensures r.reason == reason && r.workerCreated == workerCreated && r.cloneAttached == cloneAttached
    ensures r.reported.Some? <==> handlers.onError && reason.Message?
    ensures r.reported.Some? ==> r.reported.value == reason.text
  {
    Rejection(reason, if handlers.onError && reason.Message? then Some(reason.text) else None,
              workerCreated, cloneAttached)
  }

  /** The awaited steps after `new PdfWorker()`: the `Promise.all` over the
      `html-to-image` import, the fonts and the images; the `toCanvas` of
      every page; and `createImageBitmap`, which comes after the clone is
      removed. */
  datatype Step = Load | Render | Bitmaps

  /** The first awaited step that rejects, and its reason. */
  datatype Fault = Fault(step: Step, reason: Reason)

  /** How `create` ends its synchronous part: it throws before making a
      promise (unknown format), rejects, or posts the input to a new
      worker. */
  datatype Started =
    | Threw
    | Rejected(rejection: Rejection)
    | Posted(options: WorkerOptions)

  /** The joined per-page text nodes. */
  function Flatten(pages: seq<seq<HtmlTextNodes.TextNode>>): seq<HtmlTextNodes.TextNode>
  {
    Seqs.Flatten(pages)
  }

  /** The rescaled text nodes of every rendered page, in page order. */
  function PageTexts(layout: seq<PageLayout>, capture: PageLayout -> Capture, pixelRatio: real): (r: seq<seq<HtmlTextNodes.TextNode>>)
    requires pixelRatio != 0.0
    requires forall l :: Measurable(capture(l))
    ensures |r| == |layout|
    ensures forall i :: 0 <= i < |r| ==> r[i] == RescaleAll(capture(layout[i]), pixelRatio)
  {
    seq(|layout|, i requires 0 <= i < |layout| => RescaleAll(capture(layout[i]), pixelRatio))
  }

  /** The values `processOCRReplacements` collects with the default
      attribute. */
  function Replacements(replacementNodes: seq<OcrReplacements.Node>, parseFloat: string -> Option<real>): seq<string>
  {
    OcrReplacements.ProcessOcrReplacements(replacementNodes, OcrReplacements.DefaultAttribute, parseFloat).values
  }

  /** `getUniqueWordsFromTextNodes(allTextNodes, userDefinedReplacements)
      .join('\n')`. */
  function CustomWords(all: seq<HtmlTextNodes.TextNode>, replacementNodes: seq<OcrReplacements.Node>, parseFloat: string -> Option<real>): string
  {
    Text.Join(UniqueWords.HtmlUniqueWords(all, Replacements(replacementNodes, parseFloat)), "\n")
  }

  /** `getUniqueCharsFromTextNodes(allTextNodes).join('')`, stated by
      `WhiteListIsTextChars`. */
  function CharWhiteList(all: seq<HtmlTextNodes.TextNode>): string
  {
    Text.Join(UniqueWords.UniqueChars(all), "")
  }

  /** The whitelist holds every character of the text nodes, each exactly
      once, and nothing else. */
  lemma WhiteListIsTextChars(all: seq<HtmlTextNodes.TextNode>)
    ensures forall c :: c in CharWhiteList(all) <==> UniqueWords.CharOf(UniqueWords.Texts(all), c)
    ensures forall i, j :: 0 <= i < j < |CharWhiteList(all)| ==> CharWhiteList(all)[i] != CharWhiteList(all)[j]
  {
    var u := UniqueWords.UniqueChars(all);
    assert forall i :: 0 <= i < |u| ==> u[i] in u;
    JoinedSinglesHold(u);
    JoinedSinglesDistinct(u);
    forall c ensures c in CharWhiteList(all) <==> UniqueWords.CharOf(UniqueWords.Texts(all), c) {
      assert [c] in u <==> |[c]| == 1 && UniqueWords.CharOf(UniqueWords.Texts(all), [c][0]);
    }
  }

  /** Joined one-character strings hold exactly their characters. */
  lemma JoinedSinglesHold(u: seq<string>)
    requires forall i :: 0 <= i < |u| ==> |u[i]| == 1
    ensures forall c :: c in Text.Join(u, "") <==> [c] in u
  {
    var wl := Text.Join(u, "");
    Text.JoinSingles(u);
    forall c ensures c in wl <==> [c] in u {
      if c in wl {
        var i :| 0 <= i < |wl| && wl[i] == c;
        assert u[i] == [c];
      }
      if [c] in u {
        var i :| 0 <= i < |u| && u[i] == [c];
        assert wl[i] == c;
      }
    }
  }

  /** Joined one-character strings in strictly ascending order repeat no
      character. */
  lemma JoinedSinglesDistinct(u: seq<string>)
    requires forall i :: 0 <= i < |u| ==> |u[i]| == 1
    requires SortedStrings.StrictlySorted(u)
    ensures forall i, j :: 0 <= i < j < |Text.Join(u, "")| ==> Text.Join(u, "")[i] != Text.Join(u, "")[j]
  {
    var wl := Text.Join(u, "");
    Text.JoinSingles(u);
    forall i, j | 0 <= i < j < |wl| ensures wl[i] != wl[j] {
      assert SortedStrings.Less(u[i], u[j]);
      SortedStrings.LessIrreflexive(u[i]);
      assert u[i] == [wl[i]] && u[j] == [wl[j]];
    }
  }

  /** The sizes the worker receives: the page at the workspace scale, and
      `margin: padding * pixelRatio`, `pageHeight: height * pixelRatio` with
      the canvas pixel ratio, which is the workspace scale. */
  datatype SheetGeometry = SheetGeometry(height: real, width: real, margin: real, pageHeight: real)

  function Geometry(s: Settings, c: Constants): (g: SheetGeometry)
    requires s.workspaceScale != 0.0
    requires Sheet(s.format, c).Some?
    ensures g.margin == Paper.MarginPixels(s.margin, c.defaultMargin)
    ensures g.pageHeight == Sheet(s.format, c).value.height
    ensures g.height * s.workspaceScale == Sheet(s.format, c).value.height
    ensures g.width * s.workspaceScale == Sheet(s.format, c).value.width
  {
    var d := GetDimensions(s.format, s.margin, s.workspaceScale, c).value;
    var pixelRatio := s.workspaceScale;
    SheetGeometry(d.height, d.width, d.padding * pixelRatio, d.height * pixelRatio)
  }

  /** The worker input `create` builds for an HTML element: the sheet's
      margin and page height in pixels, one flag and one list of rescaled
      text nodes per rendered page, and the two dictionaries built from
      all those text nodes. */
  function Prepare(pages: seq<PageElement>, replacementNodes: seq<OcrReplacements.Node>, s: Settings, c: Constants,
                   capture: PageLayout -> Capture, parseFloat: string -> Option<real>): (o: WorkerOptions)
    requires s.workspaceScale != 0.0
    requires Sheet(s.format, c).Some?
    requires forall l :: Measurable(capture(l))
    ensures o.margin == Paper.MarginPixels(s.margin, c.defaultMargin)
    ensures o.pageHeight == Sheet(s.format, c).value.height
    ensures o.autoPaginate == s.autoPaginate && o.debug == s.debug && o.ocrSettings == s.ocrSettings
    ensures |o.autoPaginationFlags| == |o.textNodes| == |Seqs.Filter(IsFixed, pages)| + |Seqs.Filter(IsAuto, pages)|
    ensures o.autoPaginationFlags == Flags(Layout(pages, o.height))
    ensures o.textNodes == PageTexts(Layout(pages, o.height), capture, s.workspaceScale)
    ensures o.customWords == Text.Join(UniqueWords.HtmlUniqueWords(Flatten(o.textNodes), Replacements(replacementNodes, parseFloat)), "\n")
    ensures forall ch :: ch in o.charWhiteList <==> UniqueWords.CharOf(UniqueWords.Texts(Flatten(o.textNodes)), ch)
    ensures forall i, j :: 0 <= i < j < |o.charWhiteList| ==> o.charWhiteList[i] != o.charWhiteList[j]
  {
    var g := Geometry(s, c);
    var layout := Layout(pages, g.height);
    var perPage := PageTexts(layout, capture, s.workspaceScale);
    var all := Flatten(perPage);
    WhiteListIsTextChars(all);
    WorkerOptions(g.height, g.width, g.margin, g.pageHeight,
                  Flags(layout), s.autoPaginate, CustomWords(all, replacementNodes, parseFloat), CharWhiteList(all),
                  s.debug, s.ocrSettings, perPage)
  }

  /** `create(element, options)` up to `postMessage`. `capture` renders a
      laid-out page; `parseFloat` is the one `processOCRReplacements` uses;
      `fault` is the first awaited step that rejects, if any. The dimensions
      are computed before the promise exists, so an unknown format throws
      even for a missing element; the element checks come next, and the
      worker is created once they pass. */
  function Create(element: Element, options: Options, c: Constants,
                  capture: PageLayout -> Capture, parseFloat: string -> Option<real>, fault: Option<Fault>): (r: Started)
    requires GetDefaults(options, c).workspaceScale != 0.0
    requires forall l :: Measurable(capture(l))
    ensures r.Threw? <==> Sheet(GetDefaults(options, c).format, c).None?
    ensures !r.Threw? && element.Missing? ==>
              r == Rejected(Catch(Message(MissingElementMessage), options.handlers, false, false))
    ensures !r.Threw? && element.Foreign? ==>
              r == Rejected(Catch(Message(InvalidElementPrefix + element.constructorName), options.handlers, false, false))
    ensures !r.Threw? && element.Html? && fault.Some? ==>
              r == Rejected(Catch(fault.value.reason, options.handlers, true, fault.value.step != Bitmaps))
    ensures r.Rejected? ==> (r.rejection.workerCreated <==> element.Html?)
    ensures r.Posted? <==> !r.Threw? && element.Html? && fault.None?
    ensures r.Posted? ==> r.options.pageHeight == Sheet(GetDefaults(options, c).format, c).value.height
  {
    var s := GetDefaults(options, c);
    if Sheet(s.format, c).None? then Threw
    else
      match element
      case Missing => Rejected(Catch(Message(MissingElementMessage), options.handlers, false, false))
      case Foreign(name) => Rejected(Catch(Message(InvalidElementPrefix + name), options.handlers, false, false))
      case Html(pages, replacementNodes) =>
        match fault
        case Some(f) => Rejected(Catch(f.reason, options.handlers, true, f.step != Bitmaps))
        case None => Posted(Prepare(pages, replacementNodes, s, c, capture, parseFloat))
  }

  /** The worker paginates at full resolution: the margin and page height
      it receives are the sheet's, whatever the workspace scale. */
  lemma WorkerGetsSheetPixels(pages: seq<PageElement>, replacementNodes: seq<OcrReplacements.Node>, options: Options, c: Constants,
                              capture: PageLayout -> Capture, parseFloat: string -> Option<real>)
    requires GetDefaults(options, c).workspaceScale != 0.0
    requires Sheet(GetDefaults(options, c).format, c).Some?
    requires forall l :: Measurable(capture(l))
    ensures var r := Create(Html(pages, replacementNodes), options, c, capture, parseFloat, None);
            && r.Posted?
            && r.options.margin == Paper.MarginPixels(GetDefaults(options, c).margin, c.defaultMargin)
            && r.options.pageHeight == Sheet(GetDefaults(options, c).format, c).value.height
  {
  }

  /** An omitted margin is the standard one. */
  lemma OmittedMarginIsStandard(scale: real, c: Constants)
    requires scale != 0.0
    ensures GetMargin(None, scale, c) == GetMargin(Some(Paper.Standard), scale, c)
  {
  }

  /** A message from the PDF worker (`Progress.Done`, `Progress.Error` with
      its optional message, or any other progress or console message). */
  datatype WorkerMessage = Done | Failed(message: Option<string>) | Other

  /** What `worker.onmessage` does: whether `onProgress` is called, whether
      the promise resolves, and what `onError` receives. */
  datatype Reaction = Reaction(progressed: bool, resolved: bool, reported: Option<string>)

  /** `worker.onmessage`: `onProgress` sees every message; `Done` resolves;
      `Error` goes to `onError` with its message, or `'Unknown worker
      error'` when that is absent or empty. */
  function OnMessage(m: WorkerMessage, handlers: Handlers): (r: Reaction)
    ensures r.progressed == handlers.onProgress
    ensures r.resolved <==> m.Done?
    ensures r.reported.Some? <==> m.Failed? && handlers.onError
    ensures r.reported.Some? ==> r.reported.value != ""
    ensures r.reported.Some? && m.message.Some? && m.message.value != "" ==> r.reported.value == m.message.value
  {
    match m
    case Done => Reaction(handlers.onProgress, true, None)
    case Failed(message) =>
      var text := if message.Some? && message.value != "" then message.value else UnknownWorkerError;
      Reaction(handlers.onProgress, false, if handlers.onError then Some(text) else None)
    case Other => Reaction(handlers.onProgress, false, None)
  }

  /** A worker failure is reported but never settles the promise: it is
      neither resolved nor rejected. */
  lemma FailureLeavesPending(message: Option<string>, handlers: Handlers)
    ensures !OnMessage(Failed(message), handlers).resolved
    ensures handlers.onError ==> OnMessage(Failed(message), handlers).reported.Some?
  {
  }
}

=== FILE: html_crop.dfy ===
/** Crop geometry of the second generation
    (`src/lib/html-to-pdf/utils/cropCanvas.ts`): the output canvas is one
    full page tall, filled white, and receives one unscaled band of the
    source, shifted down by the top margin on every page but the first.
    Pixels are not modelled; a row of the output is described by where its
    content comes from. Canvas sizes are integers: `new OffscreenCanvas`
    keeps the integer part of the page height. */
module HtmlCrop {
  import JsMath

  /** Size of a canvas. */
  datatype Size = Size(width: real, height: real)

  /** The options object `cropCanvas` receives. */
  datatype Request = Request(
    y: real,
    height: real,
    margin: real,
    isFirstPage: bool,
    isLastPage: bool,
    pageHeight: real)

  /** What `cropCanvas` does: an output canvas of size `output`, and one
      `drawImage` copying source rows `[srcY, srcY + drawHeight)` to output
      rows `[destY, destY + drawHeight)` at the source's full width. */
  datatype Crop = Crop(output: Size, srcY: real, drawHeight: real, destY: real)

  function CropCanvas(source: Size, req: Request): (c: Crop)
    ensures c.output == Size(source.width, JsMath.Trunc(req.pageHeight) as real)
    ensures 0.0 <= req.pageHeight ==> req.pageHeight - 1.0 < c.output.height <= req.pageHeight
    ensures c.destY == (if req.isFirstPage then 0.0 else req.margin)
    ensures c.srcY == req.y
    ensures c.drawHeight <= req.height && c.drawHeight <= source.height - req.y
    ensures c.drawHeight == req.height || c.drawHeight == source.height - req.y
  {
    var drawOffsetY := if req.isFirstPage then 0.0 else req.margin;
    Crop(Size(source.width, JsMath.Trunc(req.pageHeight) as real), req.y, JsMath.Min(req.height, source.height - req.y), drawOffsetY)
  }

  /** The content of one output row: white, or a copy of a source row. */
  datatype Row = White | SourceRow(row: real)

  /** Output row `r` after the white fill and the single `drawImage`. */
  function OutputRow(c: Crop, r: real): (row: Row)
    requires 0.0 <= r < c.output.height
  {
    if c.destY <= r < c.destY + c.drawHeight then SourceRow(c.srcY + (r - c.destY)) else White
  }

  /** Rows above the drawn band and below it stay white; inside it, output
      row `destY + d` shows source row `y + d` (no scaling), and every
      source row of the clipped band that fits on the page appears. */
  lemma OutputRows(source: Size, req: Request, r: real)
    requires 0.0 <= r < CropCanvas(source, req).output.height
    ensures var c := CropCanvas(source, req);
            var top := if req.isFirstPage then 0.0 else req.margin;
            && (r < top ==> OutputRow(c, r) == White)
            && (r >= top + req.height ==> OutputRow(c, r) == White)
            && (r >= top + (source.height - req.y) ==> OutputRow(c, r) == White)
            && (top <= r < top + req.height && req.y + (r - top) < source.height ==>
                  OutputRow(c, r) == SourceRow(req.y + (r - top)))
  {
  }

  /** `isLastPage` is accepted but has no effect. */
  lemma LastPageFlagIgnored(source: Size, req: Request, flag: bool)
    ensures CropCanvas(source, req.(isLastPage := flag)) == CropCanvas(source, req)
  {
  }

  /** On a slice that ends inside the source the whole requested height is
      drawn; on the final slice only the rows down to the source bottom. */
  lemma ClippedAtSourceBottom(source: Size, req: Request)
    ensures req.y + req.height <= source.height ==> CropCanvas(source, req).drawHeight == req.height
    ensures req.y + req.height >= source.height ==> CropCanvas(source, req).drawHeight == source.height - req.y
  {
  }
}

=== FILE: html_text_nodes.dfy ===
/** Text-node extraction of the second generation
    (`src/lib/html-to-pdf/utils/getTextNodes.ts`): which text nodes survive
    the visibility and size filters, and how their rectangles are moved to
    the root's origin and scaled by the workspace scale. */
module HtmlTextNodes {
  import opened Wrappers
  import Seqs
  import Dom
  import JsMath

  /** `ITextNode` of this generation: flat position and size fields. */
  datatype TextNode = TextNode(
    text: string,
    fontSize: real,
    letterSpacing: real,
    x: real,
    y: real,
    width: real,
    height: real)

  /** The origin positions are taken relative to: the root element's rectangle
      corner, or (0, 0) when the root has no element. */
  datatype Origin = Origin(left: real, top: real)

  /** `createTextNodeFromElement`: `None` for a parentless node, an invisible
      parent or an empty rectangle; otherwise the scaled, root-relative node. */
  function Convert(site: Dom.TextSite, root: Origin, scale: real): (r: Option<TextNode>)
    ensures r.None? <==>
              || site.parent.None?
              || Dom.Invisible(site.parent.value)
              || site.rect.width == 0.0 || site.rect.height == 0.0
    ensures r.Some? ==> r.value.text == site.text
    ensures r.Some? ==> r.value.letterSpacing == Dom.OrZero(site.parent.value.letterSpacing)
  {
    match site.parent
    case None => None
    case Some(style) =>
      if Dom.Invisible(style) then None
      else if site.rect.width == 0.0 || site.rect.height == 0.0 then None
      else
        Some(TextNode(
          site.text,
          Dom.OrZero(style.fontSize) * scale,
          Dom.OrZero(style.letterSpacing),
          (site.rect.left - root.left) * scale,
          (site.rect.top - root.top) * scale,
          site.rect.width * scale,
          site.rect.height * scale))
  }

  /** Everything but `letterSpacing` is multiplied by the workspace scale: the
      node at scale `s` is the node at scale 1 with those fields times `s`. */
  lemma ConvertScales(site: Dom.TextSite, root: Origin, scale: real)
    requires Convert(site, root, 1.0).Some?
    ensures Convert(site, root, scale).Some?
    ensures var u := Convert(site, root, 1.0).value;
            Convert(site, root, scale).value == TextNode(
              u.text, u.fontSize * scale, u.letterSpacing,
              u.x * scale, u.y * scale, u.width * scale, u.height * scale)
  {
  }

  /** Positions are relative to the root: moving the node and the root by the
      same offset changes nothing. */
  lemma ConvertTranslationInvariant(site: Dom.TextSite, root: Origin, scale: real, dx: real, dy: real)
    ensures var moved := site.(rect := site.rect.(left := site.rect.left + dx, top := site.rect.top + dy));
            var r := Convert(moved, Origin(root.left + dx, root.top + dy), scale);
            r.Some? == Convert(site, root, scale).Some? &&
            (r.Some? ==> r.value == Convert(site, root, scale).value)
  {
    assert (site.rect.left + dx) - (root.left + dx) == site.rect.left - root.left;
    assert (site.rect.top + dy) - (root.top + dy) == site.rect.top - root.top;
  }

  /** What the generator produced, with its processed/skipped counters. */
  datatype Extraction = Extraction(nodes: seq<TextNode>, processed: nat, skipped: nat)

  /** The text nodes the walker offers: those whose trimmed text is non-empty. */
  function Attempted(walk: seq<Dom.TextSite>): (r: seq<Dom.TextSite>)
    ensures forall i :: 0 <= i < |r| ==> Dom.HasVisibleText(r[i]) && r[i] in walk
    ensures forall i :: 0 <= i < |walk| && Dom.HasVisibleText(walk[i]) ==> walk[i] in r
  {
    Seqs.Filter(Dom.HasVisibleText, walk)
  }

  /** What happens to one text node the walker visits: rejected by the
      walker when its text is blank, else converted or skipped. */
  function Visit(root: Origin, scale: real): Dom.TextSite -> Option<TextNode>
  {
    site => if Dom.HasVisibleText(site) then Convert(site, root, scale) else None
  }

  /** The nodes `textNodeGenerator` yields, in document order. */
  function Kept(walk: seq<Dom.TextSite>, root: Origin, scale: real): seq<TextNode>
  {
    Seqs.FilterMap(Visit(root, scale), walk)
  }

  /** `textNodeGenerator` with its processed/skipped counters: every offered
      node is counted exactly once, as processed or as skipped. */
  function Extract(walk: seq<Dom.TextSite>, root: Origin, scale: real): (r: Extraction)
    ensures r.nodes == Kept(walk, root, scale)
    ensures r.processed == |r.nodes|
    ensures r.processed + r.skipped == |Attempted(walk)|
  {
    if |walk| == 0 then Extraction([], 0, 0)
    else
      var rest := Extract(walk[1..], root, scale);
      if !Dom.HasVisibleText(walk[0]) then rest
      else match Convert(walk[0], root, scale)
        case None => Extraction(rest.nodes, rest.processed, rest.skipped + 1)
        case Some(n) => Extraction([n] + rest.nodes, rest.processed + 1, rest.skipped)
  }

  /** A node is yielded iff it comes from a text node with visible text that
      survives the parent and size filters; document order is kept. */
  lemma KeptSpec(walk: seq<Dom.TextSite>, more: seq<Dom.TextSite>, root: Origin, scale: real, n: TextNode)
    ensures n in Kept(walk, root, scale) <==>
              exists j :: 0 <= j < |walk| && Dom.HasVisibleText(walk[j])
                          && Convert(walk[j], root, scale).Some? && Convert(walk[j], root, scale).value == n
    ensures Kept(walk + more, root, scale) == Kept(walk, root, scale) + Kept(more, root, scale)
  {
    Seqs.FilterMapMembers(Visit(root, scale), walk, n);
    Seqs.FilterMapAppend(Visit(root, scale), walk, more);
    if exists j :: 0 <= j < |walk| && Seqs.MapsTo(Visit(root, scale), walk[j], n) {
      var j :| 0 <= j < |walk| && Seqs.MapsTo(Visit(root, scale), walk[j], n);
    }
  }

  /** The summary `calculateStats` logs. */
  datatype PositionRange = PositionRange(minX: real, maxX: real, minY: real, maxY: real)
  datatype Stats = Stats(totalNodes: nat, totalCharacters: nat, averageFontSize: int, positionRange: Option<PositionRange>)

  function Xs(nodes: seq<TextNode>): (r: seq<real>)
    ensures |r| == |nodes| && forall i :: 0 <= i < |r| ==> r[i] == nodes[i].x
  {
    seq(|nodes|, i requires 0 <= i < |nodes| => nodes[i].x)
  }

  function Ys(nodes: seq<TextNode>): (r: seq<real>)
    ensures |r| == |nodes| && forall i :: 0 <= i < |r| ==> r[i] == nodes[i].y
  {
    seq(|nodes|, i requires 0 <= i < |nodes| => nodes[i].y)
  }

  function Rights(nodes: seq<TextNode>): (r: seq<real>)
    ensures |r| == |nodes| && forall i :: 0 <= i < |r| ==> r[i] == nodes[i].x + nodes[i].width
  {
    seq(|nodes|, i requires 0 <= i < |nodes| => nodes[i].x + nodes[i].width)
  }

  function Bottoms(nodes: seq<TextNode>): (r: seq<real>)
    ensures |r| == |nodes| && forall i :: 0 <= i < |r| ==> r[i] == nodes[i].y + nodes[i].height
  {
    seq(|nodes|, i requires 0 <= i < |nodes| => nodes[i].y + nodes[i].height)
  }

  function FontSizes(nodes: seq<TextNode>): (r: seq<real>)
    ensures |r| == |nodes|
  {
    seq(|nodes|, i requires 0 <= i < |nodes| => nodes[i].fontSize)
  }

  function TotalCharacters(nodes: seq<TextNode>): nat
  {
    if |nodes| == 0 then 0 else |nodes[0].text| + TotalCharacters(nodes[1..])
  }

  /** `calculateStats`. */
  function CalculateStats(nodes: seq<TextNode>): (s: Stats)
    ensures s.totalNodes == |nodes|
    ensures |nodes| == 0 <==> s.positionRange.None?
    ensures |nodes| == 0 ==> s == Stats(0, 0, 0, None)
  {
    if |nodes| == 0 then Stats(0, 0, 0, None)
    else
      Stats(
        |nodes|,
        TotalCharacters(nodes),
        JsMath.Round(Seqs.Mean(FontSizes(nodes))),
        Some(PositionRange(Seqs.Min(Xs(nodes)), Seqs.Max(Rights(nodes)), Seqs.Min(Ys(nodes)), Seqs.Max(Bottoms(nodes)))))
  }

  /** On non-empty input the position range is the bounding box of the
      nodes: every node lies inside it and each side touches some node. */
  lemma StatsBoundingBox(nodes: seq<TextNode>)
    requires |nodes| > 0
    ensures var r := CalculateStats(nodes).positionRange.value;
            && (forall i :: 0 <= i < |nodes| ==>
                  r.minX <= nodes[i].x && nodes[i].x + nodes[i].width <= r.maxX
                  && r.minY <= nodes[i].y && nodes[i].y + nodes[i].height <= r.maxY)
            && (exists i :: 0 <= i < |nodes| && r.minX == nodes[i].x)
            && (exists i :: 0 <= i < |nodes| && r.maxX == nodes[i].x + nodes[i].width)
            && (exists i :: 0 <= i < |nodes| && r.minY == nodes[i].y)
            && (exists i :: 0 <= i < |nodes| && r.maxY == nodes[i].y + nodes[i].height)
  {
    Seqs.MinIsLowerBound(Xs(nodes));
    Seqs.MaxIsUpperBound(Rights(nodes));
    Seqs.MinIsLowerBound(Ys(nodes));
    Seqs.MaxIsUpperBound(Bottoms(nodes));
  }
}

=== FILE: js_math.dfy ===
/** The `Math` functions the model needs, on exact reals. */
module JsMath {

  /** `Math.ceil`. */
  function Ceil(x: real): (c: int)
    ensures c as real - 1.0 < x <= c as real
  {
    -((-x).Floor)
  }

  /** The integer part of a finite number, rounded toward zero, as WebIDL
      takes it before converting to an integer type. */
  function Trunc(x: real): (t: int)
    ensures 0.0 <= x ==> t as real <= x < t as real + 1.0
    ensures x < 0.0 ==> t as real - 1.0 < x <= t as real
  {
    if x >= 0.0 then x.Floor else -((-x).Floor)
  }

  /** WebIDL's `unsigned long` conversion of a finite number (what
      assigning `canvas.height` does): the integer part, wrapped modulo
      2^32. Below 2^32 a non-negative number is simply truncated. */
  function ToUint32(x: real): (u: int)
    ensures 0 <= u < 0x1_0000_0000
    ensures 0.0 <= x < 4294967296.0 ==> u == Trunc(x)
  {
    Trunc(x) % 0x1_0000_0000
  }

  /** `Math.round`: the nearest integer, halves rounded up. */
  function Round(x: real): (r: int)
    ensures x - 0.5 < r as real <= x + 0.5
  {
    (x + 0.5).Floor
  }

  /** `Math.min` of two numbers. */
  function Min(a: real, b: real): (m: real)
    ensures m <= a && m <= b && (m == a || m == b)
  {
    if a <= b then a else b
  }

  /** `Math.max` of two numbers. */
  function Max(a: real, b: real): (m: real)
    ensures m >= a && m >= b && (m == a || m == b)
  {
    if a >= b then a else b
  }
}

=== FILE: legacy_document.dfy ===
/** The first `useDocument` hook (`src/lib/useDocument.tsx`): it sizes the
    page at the workspace scale, and its `create` calibrates font sizes
    against a rendered test text, rasterises the document, adds the image to
    a jsPDF document and sets one font size per recognised word. The call it
    makes to `drawOcrWord` passes the word's text where a line is expected,
    so that call draws nothing: this hook produces no text layer. React
    state, rendering, canvases and Tesseract are outside the model; what the
    environment does at each `await` is the input `Env`. */
module LegacyDocument {
  import opened Wrappers
  import Paper
  import Core
  import PageFit
  import Ocr
  import Pdf
  import OcrHeightStats
  import OcrWordLegacy

  const DefaultWorkspaceSize: real := 5.0

  /** `IUseDocumentOptions`; an absent field is `None`. */
  datatype HookOptions = HookOptions(format: Option<string>, margin: Option<Paper.Margin>, workspaceSize: Option<real>, autoScale: Option<bool>)

  /** The options after the parameter defaults. */
  datatype HookSettings = HookSettings(format: string, margin: Paper.Margin, workspaceSize: real, autoScale: bool)

  /** The destructuring defaults: Letter, the one-inch margin, workspace
      size 5 and automatic scaling. */
  function Defaults(o: HookOptions): (s: HookSettings)
    ensures o.format.None? ==> s.format == Paper.DefaultFormat
    ensures o.margin.None? ==> s.margin == Paper.Pixels(Paper.DefaultMargin)
    ensures o.workspaceSize.None? ==> s.workspaceSize == DefaultWorkspaceSize
    ensures o.autoScale.None? ==> s.autoScale
    ensures o.format.Some? ==> s.format == o.format.value
    ensures o.margin.Some? ==> s.margin == o.margin.value
    ensures o.workspaceSize.Some? ==> s.workspaceSize == o.workspaceSize.value
    ensures o.autoScale.Some? ==> s.autoScale == o.autoScale.value
  {
    HookSettings(o.format.GetOr(Paper.DefaultFormat), o.margin.GetOr(Paper.Pixels(Paper.DefaultMargin)),
                 o.workspaceSize.GetOr(DefaultWorkspaceSize), o.autoScale.GetOr(true))
  }

  /** The sizes the hook computes on every render: the sheet and the margin
      divided by the workspace size, as `getDimensions` of the first `create`
      computes them. An unknown format throws while rendering (`None`). */
  function Render(o: HookOptions): (r: Option<Core.Dimensions>)
    requires Defaults(o).workspaceSize != 0.0
    ensures r.Some? <==> Paper.Lookup(Defaults(o).format).Some?
    ensures r.Some? ==> r.value.width * Defaults(o).workspaceSize == Paper.LetterWidth
    ensures r.Some? ==> r.value.height * Defaults(o).workspaceSize == Paper.LetterHeight
    ensures r.Some? ==> r.value.padding * Defaults(o).workspaceSize == Paper.MarginPixels(Defaults(o).margin, Paper.DefaultMargin)
  {
    var s := Defaults(o);
    Core.GetDimensions(s.format, s.margin, s.workspaceSize)
  }

  /** The awaited steps of `exec` that can reject, in the order it reaches
      them: loading jsPDF and `html-to-image`; importing Tesseract and
      `createWorker('eng')`; the test canvas and its recognition inside
      `getOcrHeightStats`; the document canvas; its recognition. */
  datatype Step = Loading | Acquiring | Calibrating | Rasterising | Recognising

  /** What the environment does during one `create`: the awaited step that
      rejects, if the run reaches it; whether the document element is
      mounted when cloning starts and again after calibration, `parseFloat`
      of the test text's computed font size, the recognition of the test
      canvas (`None` when `blocks` is absent) and of the document canvas,
      and jsPDF's page size. */
  datatype Env = Env(
    fault: Option<Step>,
    mountedAtStart: bool,
    knownFontSize: Option<real>,
    testBlocks: Option<seq<Ocr.Block>>,
    mountedAfterCalibration: bool,
    blocks: Ocr.Recognised,
    page: PageFit.Size)

  /** Where `exec` stopped: at a rejected await, at cloning a missing
      element (a `TypeError`), at a calibration error, at the early `return
      {}` when the element was unmounted, at a `null` `blocks` or a line
      without words (each a `TypeError` from `for … of`; an absent `blocks`
      defaults to `[]`), or after publishing the PDF. */
  datatype Stage = Rejected(step: Step) | NoElement | CalibrationFailed | Unmounted | BlocksNull | WordsMissing | Completed

  /** One run of `create`: where it stopped, whether a recognition worker
      was created and terminated, whether the clone was appended to the
      body and whether the returned clean-up removes it, the size of the
      image added to the PDF, the argument of each `setFontSize` call
      (`None` for `NaN` or an infinity), and whether the data URIs were
      published. */
  datatype Run = Run(
    stage: Stage,
    workerCreated: bool,
    workerTerminated: bool,
    cloneAppended: bool,
    cleanupRemovesClone: bool,
    image: Option<PageFit.Size>,
    fontSizes: seq<Option<real>>,
    published: bool)

  /** The scale from the workspace to the page: the fitted ratio with
      `autoScale`, `NaN` (`None`) without. */
  function Ratio(d: Core.Dimensions, autoScale: bool, page: PageFit.Size): (r: Option<real>)
    requires d.width > 0.0 && d.height > 0.0
    ensures r.Some? <==> autoScale
    ensures r.Some? && PageFit.Positive(page) ==> r.value > 0.0
  {
    if autoScale then Some(PageFit.GetDimensions(PageFit.Size(d.width, d.height), page).ratio) else None
  }

  /** The size the image is added with: fitted to the page with
      `autoScale`, the workspace size without. */
  function ImageSize(d: Core.Dimensions, autoScale: bool, page: PageFit.Size): (r: PageFit.Size)
    requires d.width > 0.0 && d.height > 0.0
    ensures !autoScale ==> r == PageFit.Size(d.width, d.height)
    ensures autoScale && PageFit.Positive(page) ==>
              0.0 < r.width <= page.width && 0.0 < r.height <= page.height
              && r.width * d.height == r.height * d.width
  {
    if autoScale then
      var dims := PageFit.Size(d.width, d.height);
      var f := PageFit.GetDimensions(dims, page);
      PageFit.AspectPreserved(dims, page);
      FitsPositivePage(dims, page);
      PageFit.Size(f.width, f.height)
    else PageFit.Size(d.width, d.height)
  }

  lemma FitsPositivePage(dims: PageFit.Size, page: PageFit.Size)
    requires PageFit.Positive(dims)
    ensures PageFit.Positive(page) ==>
              var f := PageFit.GetDimensions(dims, page);
              0.0 < f.width <= page.width && 0.0 < f.height <= page.height
  {
    if PageFit.Positive(page) {
      PageFit.FitsPage(dims, page);
    }
  }

  /** `fontSize = ((y1 - y0) * ratio * multiplier) / workspaceSize` with
      `multiplier = knownFontSize / ((averageOcrHeight * ratio) /
      workspaceSize)`. It is a finite number exactly when the known size
      parses, the ratio is a number and the divisor is not zero; it then
      scales the word height by the known size over the average test
      character height, so a word as tall as that average gets exactly the
      known size. */
  function WordFontSize(height: real, known: Option<real>, average: real, ratio: Option<real>, workspaceSize: real): (r: Option<real>)
    requires workspaceSize != 0.0
    ensures r.Some? <==> known.Some? && ratio.Some? && average * ratio.value != 0.0
    ensures r.Some? ==> r.value * average == height * known.value
  {
    if known.None? || ratio.None? then None
    else
      var m := (average * ratio.value) / workspaceSize;
      assert m * workspaceSize == average * ratio.value;
      if m == 0.0 then None
      else
        var q := known.value / m;
        assert q * m == known.value;
        var size := (height * ratio.value * q) / workspaceSize;
        Calibrated(height, known.value, average, ratio.value, workspaceSize, m, q, size);
        Some(size)
  }

  lemma Calibrated(h: real, k: real, avg: real, ratio: real, ws: real, m: real, q: real, size: real)
    requires ws != 0.0 && m != 0.0
    requires m * ws == avg * ratio && q * m == k
    requires size == (h * ratio * q) / ws
    ensures size * avg == h * k
  {
    assert size * ws == h * ratio * q;
    assert size * ws * avg == h * q * (avg * ratio);
    assert h * q * (avg * ratio) == h * q * m * ws;
    assert size * avg * ws == h * k * ws;
  }

  function WordHeight(w: Ocr.Word): real
  {
    w.bbox.y1 - w.bbox.y0
  }

  /** The `setFontSize` arguments for the words, in order. */
  function FontSizes(words: seq<Ocr.Word>, known: Option<real>, average: real, ratio: Option<real>, workspaceSize: real): (r: seq<Option<real>>)
    requires workspaceSize != 0.0
    ensures |r| == |words|
    ensures forall i :: 0 <= i < |r| ==> r[i] == WordFontSize(WordHeight(words[i]), known, average, ratio, workspaceSize)
  {
    seq(|words|, i requires 0 <= i < |words| => WordFontSize(WordHeight(words[i]), known, average, ratio, workspaceSize))
  }

  /** The index of the first line without words, or the number of lines. */
  function FirstMissing(lines: seq<Ocr.Line>): (k: nat)
    ensures k <= |lines|
    ensures k < |lines| ==> lines[k].words.None?
    ensures forall j :: 0 <= j < k ==> lines[j].words.Some?
  {
    if |lines| == 0 || lines[0].words.None? then 0
    else 1 + FirstMissing(lines[1..])
  }

  /** The words the nested loops reach before a line without words stops
      them. */
  function Reached(blocks: seq<Ocr.Block>): seq<Ocr.Word>
  {
    var lines := Ocr.AllLines(blocks);
    Ocr.LineWords(lines[..FirstMissing(lines)])
  }

  /** Whether the awaited step `step` rejects when the run reaches it. */
  predicate FailsAt(env: Env, step: Step)
  {
    env.fault.Some? && env.fault.value == step
  }

  /** Whether the run stopped at a rejected `step`. */
  predicate StoppedAt(r: Run, step: Step)
  {
    r.stage.Rejected? && r.stage.step == step
  }

  /** The part of `exec` after the document canvas: the image is added,
      then the canvas is recognised, and the words are sized until a line
      without words stops the loop. */
  function Draw(d: Core.Dimensions, s: HookSettings, env: Env, average: real): (r: Run)
    requires d.width > 0.0 && d.height > 0.0 && s.workspaceSize != 0.0
    ensures r.workerCreated && r.cloneAppended && r.image == Some(ImageSize(d, s.autoScale, env.page))
    ensures StoppedAt(r, Recognising) || r.stage.BlocksNull? || r.stage.Completed? || r.stage.WordsMissing?
    ensures StoppedAt(r, Recognising) <==> FailsAt(env, Recognising)
    ensures r.stage.BlocksNull? <==> !FailsAt(env, Recognising) && env.blocks.Null?
    ensures r.stage.Completed? <==>
              !FailsAt(env, Recognising) && !env.blocks.Null? && !OcrHeightStats.MissingWords(Ocr.Listed(env.blocks))
    ensures r.published == r.workerTerminated == r.cleanupRemovesClone == r.stage.Completed?
    ensures r.stage.Rejected? || r.stage.BlocksNull? ==> r.fontSizes == []
    ensures r.stage.Completed? || r.stage.WordsMissing? ==>
              r.fontSizes == FontSizes(Reached(Ocr.Listed(env.blocks)), env.knownFontSize, average,
                                       Ratio(d, s.autoScale, env.page), s.workspaceSize)
  {
    var bs := Ocr.Listed(env.blocks);
    var lines := Ocr.AllLines(bs);
    var sizes := FontSizes(Reached(bs), env.knownFontSize, average, Ratio(d, s.autoScale, env.page), s.workspaceSize);
    var image := Some(ImageSize(d, s.autoScale, env.page));
    if FailsAt(env, Recognising) then Run(Rejected(Recognising), true, false, true, false, image, [], false)
    else if env.blocks.Null? then Run(BlocksNull, true, false, true, false, image, [], false)
    else if FirstMissing(lines) < |lines| then Run(WordsMissing, true, false, true, false, image, sizes, false)
    else Run(Completed, true, true, true, true, image, sizes, true)
  }

  /** The average height of the recognised test characters, when
      `getOcrHeightStats` finds any. */
  function Calibration(env: Env): (r: Option<real>)
    ensures r.Some? <==> OcrHeightStats.GetOcrHeightStats(env.testBlocks, OcrHeightStats.TestText).Ok?
    ensures r.Some? ==> r.value == OcrHeightStats.GetOcrHeightStats(env.testBlocks, OcrHeightStats.TestText).value.average
  {
    var stats := OcrHeightStats.GetOcrHeightStats(env.testBlocks, OcrHeightStats.TestText);
    if stats.Ok? then Some(stats.value.average) else None
  }

  /** Whether a run gets past the calibration: the loads, the worker and the
      test canvas succeed on a mounted element, some test character is
      recognised, and the element is still mounted afterwards. */
  predicate PastCalibration(env: Env)
  {
    && env.mountedAtStart
    && !FailsAt(env, Loading) && !FailsAt(env, Acquiring) && !FailsAt(env, Calibrating)
    && Calibration(env).Some?
    && env.mountedAfterCalibration
  }

  /** `exec` of `create`, for the sizes `d` of the first render. Every
      error it catches, a rejected await included, resolves the deferred
      result with `{ error }`: the recognition worker is terminated only
      after a complete run, and only then does the clean-up remove the clone
      from the body. */
  function Exec(d: Core.Dimensions, s: HookSettings, env: Env): (r: Run)
    requires d.width > 0.0 && d.height > 0.0 && s.workspaceSize != 0.0
    ensures r.published <==> r.stage.Completed?
    ensures r.stage.Rejected? ==> FailsAt(env, r.stage.step)
    ensures StoppedAt(r, Loading) <==> FailsAt(env, Loading)
    ensures r.stage.NoElement? <==> !env.mountedAtStart && !FailsAt(env, Loading)
    ensures r.cloneAppended <==> env.mountedAtStart && !FailsAt(env, Loading)
    ensures StoppedAt(r, Acquiring) <==> r.cloneAppended && FailsAt(env, Acquiring)
    ensures r.workerCreated <==> r.cloneAppended && !FailsAt(env, Acquiring)
    ensures StoppedAt(r, Calibrating) <==> r.workerCreated && FailsAt(env, Calibrating)
    ensures r.workerTerminated <==> r.stage.Completed?
    ensures r.cleanupRemovesClone <==> r.stage.Completed?
    ensures r.stage.CalibrationFailed? <==>
              r.workerCreated && !FailsAt(env, Calibrating) && Calibration(env).None?
    ensures r.stage.Unmounted? <==>
              r.workerCreated && !FailsAt(env, Calibrating) && Calibration(env).Some?
              && !env.mountedAfterCalibration
    ensures StoppedAt(r, Rasterising) <==> PastCalibration(env) && FailsAt(env, Rasterising)
    ensures r.image.Some? <==> PastCalibration(env) && !FailsAt(env, Rasterising)
    ensures r.image.None? ==> r.fontSizes == []
    ensures r.image.Some? ==> Calibration(env).Some? && r == Draw(d, s, env, Calibration(env).value)
  {
    if PastCalibration(env) then Late(d, s, env) else Early(env)
  }

  /** `exec` up to the calibration, for a run that stops there. */
  function Early(env: Env): (r: Run)
    requires !PastCalibration(env)
    ensures r.image.None? && r.fontSizes == []
    ensures !r.published && !r.workerTerminated && !r.cleanupRemovesClone
    ensures r.stage.Rejected? ==> FailsAt(env, r.stage.step) && r.stage.step != Rasterising
    ensures StoppedAt(r, Loading) <==> FailsAt(env, Loading)
    ensures r.stage.NoElement? <==> !env.mountedAtStart && !FailsAt(env, Loading)
    ensures r.cloneAppended <==> env.mountedAtStart && !FailsAt(env, Loading)
    ensures StoppedAt(r, Acquiring) <==> r.cloneAppended && FailsAt(env, Acquiring)
    ensures r.workerCreated <==> r.cloneAppended && !FailsAt(env, Acquiring)
    ensures StoppedAt(r, Calibrating) <==> r.workerCreated && FailsAt(env, Calibrating)
    ensures r.stage.CalibrationFailed? <==>
              r.workerCreated && !FailsAt(env, Calibrating) && Calibration(env).None?
    ensures r.stage.Unmounted? <==>
              r.workerCreated && !FailsAt(env, Calibrating) && Calibration(env).Some?
  {
    if FailsAt(env, Loading) then Run(Rejected(Loading), false, false, false, false, None, [], false)
    else if !env.mountedAtStart then Run(NoElement, false, false, false, false, None, [], false)
    else if FailsAt(env, Acquiring) then Run(Rejected(Acquiring), false, false, true, false, None, [], false)
    else if FailsAt(env, Calibrating) then Run(Rejected(Calibrating), true, false, true, false, None, [], false)
    else if Calibration(env).None? then Run(CalibrationFailed, true, false, true, false, None, [], false)
    else Run(Unmounted, true, false, true, false, None, [], false)
  }

  /** `exec` after the calibration: the document canvas, then the drawing. */
  function Late(d: Core.Dimensions, s: HookSettings, env: Env): (r: Run)
    requires d.width > 0.0 && d.height > 0.0 && s.workspaceSize != 0.0
    requires PastCalibration(env)
    ensures r.workerCreated && r.cloneAppended
    ensures r.published <==> r.stage.Completed?
    ensures r.workerTerminated <==> r.stage.Completed?
    ensures r.cleanupRemovesClone <==> r.stage.Completed?
    ensures r.stage.Rejected? || r.stage.BlocksNull? || r.stage.Completed? || r.stage.WordsMissing?
    ensures r.stage.Rejected? ==> FailsAt(env, r.stage.step) && (r.stage.step == Rasterising || r.stage.step == Recognising)
    ensures StoppedAt(r, Rasterising) <==> FailsAt(env, Rasterising)
    ensures r.image.Some? <==> !FailsAt(env, Rasterising)
    ensures r.image.None? ==> r.fontSizes == []
    ensures r.image.Some? ==> r == Draw(d, s, env, Calibration(env).value)
  {
    if FailsAt(env, Rasterising) then Run(Rejected(Rasterising), true, false, true, false, None, [], false)
    else Draw(d, s, env, Calibration(env).value)
  }

  /** `create()` of a hook first rendered with `o`. A run that publishes
      has created the worker and appended the clone, and releases both; a
      run that does not publish releases neither: the worker, once created,
      keeps running and the clone, once appended, stays in the body. The
      worker exists exactly when the loads succeed on a mounted element and
      `createWorker` does not reject. */
  function Create(o: HookOptions, env: Env): (r: Run)
    requires Defaults(o).workspaceSize > 0.0 && Render(o).Some?
    ensures r.published ==> r.workerCreated && r.workerTerminated && r.cloneAppended && r.cleanupRemovesClone
    ensures !r.published ==> !r.workerTerminated && !r.cleanupRemovesClone
    ensures r.cloneAppended <==> env.mountedAtStart && !FailsAt(env, Loading)
    ensures r.workerCreated <==> env.mountedAtStart && !FailsAt(env, Loading) && !FailsAt(env, Acquiring)
  {
    var d := Render(o).value;
    assert d.width * Defaults(o).workspaceSize == Paper.LetterWidth;
    assert d.height * Defaults(o).workspaceSize == Paper.LetterHeight;
    Exec(d, Defaults(o), env)
  }

  /** On a complete run every recognised word gets one `setFontSize`, in
      block, paragraph, line, word order. With automatic scaling on a page
      of positive size, each size is finite as soon as the known size parses
      and the average test height is not zero, and is the word's height
      scaled by the known size over that average. Without automatic scaling
      the ratio is `NaN` and so is every size. */
  lemma CompletedSizes(d: Core.Dimensions, s: HookSettings, env: Env, average: real, i: nat)
    requires d.width > 0.0 && d.height > 0.0 && s.workspaceSize != 0.0
    requires Draw(d, s, env, average).stage.Completed?
    requires i < |Ocr.AllWords(Ocr.Listed(env.blocks))|
    ensures var r := Draw(d, s, env, average);
            var words := Ocr.AllWords(Ocr.Listed(env.blocks));
            && |r.fontSizes| == |words|
            && (!s.autoScale ==> r.fontSizes[i].None?)
            && (s.autoScale && PageFit.Positive(env.page) && env.knownFontSize.Some? && average != 0.0 ==>
                  r.fontSizes[i].Some? && r.fontSizes[i].value * average == WordHeight(words[i]) * env.knownFontSize.value)
  {
    var bs := Ocr.Listed(env.blocks);
    var lines := Ocr.AllLines(bs);
    assert lines[..FirstMissing(lines)] == lines;
    assert Reached(bs) == Ocr.AllWords(bs);
    var ratio := Ratio(d, s.autoScale, env.page);
    if s.autoScale && PageFit.Positive(env.page) && average != 0.0 {
      assert ratio.value > 0.0;
      assert average * ratio.value != 0.0;
    }
  }

  /** Taller words get larger sizes: with a positive known size and a
      positive average, the calibrated size grows with the word height. */
  lemma SizeGrowsWithHeight(h1: real, h2: real, known: Option<real>, average: real, ratio: Option<real>, workspaceSize: real)
    requires workspaceSize != 0.0 && h1 <= h2
    requires known.Some? && known.value > 0.0 && average > 0.0
    requires WordFontSize(h1, known, average, ratio, workspaceSize).Some?
    ensures WordFontSize(h2, known, average, ratio, workspaceSize).Some?
    ensures WordFontSize(h1, known, average, ratio, workspaceSize).value <= WordFontSize(h2, known, average, ratio, workspaceSize).value
  {
    var r1 := WordFontSize(h1, known, average, ratio, workspaceSize).value;
    var r2 := WordFontSize(h2, known, average, ratio, workspaceSize).value;
    assert h1 * known.value <= h2 * known.value;
    assert r1 * average <= r2 * average;
  }

  /** A line of the result that has no `words` stops the drawing loop: only
      the words of the lines before it get a font size, and nothing is
      published. */
  lemma MissingWordsStopDrawing(d: Core.Dimensions, s: HookSettings, env: Env)
    requires d.width > 0.0 && d.height > 0.0 && s.workspaceSize != 0.0
    requires Exec(d, s, env).stage.WordsMissing?
    ensures var lines := Ocr.AllLines(Ocr.Listed(env.blocks));
            var k := FirstMissing(lines);
            && k < |lines|
            && |Exec(d, s, env).fontSizes| == |Ocr.LineWords(lines[..k])|
            && !Exec(d, s, env).published && !Exec(d, s, env).workerTerminated
  {
  }

  /** A `null` `blocks` stops the run right after the image is added: no
      word is sized, and nothing is published or terminated. */
  lemma NullBlocksStopDrawing(d: Core.Dimensions, s: HookSettings, env: Env)
    requires d.width > 0.0 && d.height > 0.0 && s.workspaceSize != 0.0
    ensures Exec(d, s, env).stage.BlocksNull? <==>
              PastCalibration(env) && !FailsAt(env, Rasterising) && !FailsAt(env, Recognising) && env.blocks.Null?
    ensures Exec(d, s, env).stage.BlocksNull? ==>
              var r := Exec(d, s, env);
              r.image.Some? && r.fontSizes == [] && !r.published && !r.workerTerminated && !r.cleanupRemovesClone
  {
  }

  /** An absent `blocks` is drawn as an empty list. */
  lemma AbsentBlocksAsEmpty(d: Core.Dimensions, s: HookSettings, env: Env, average: real)
    requires d.width > 0.0 && d.height > 0.0 && s.workspaceSize != 0.0
    ensures Draw(d, s, env.(blocks := Ocr.Absent), average) == Draw(d, s, env.(blocks := Ocr.Blocks([])), average)
  {
    assert Ocr.Listed(Ocr.Absent) == Ocr.Listed(Ocr.Blocks([]));
  }

  /** A word's text read as a Tesseract line: a string has no `words` (and
      no box or baseline). */
  function StringAsLine(text: string): Ocr.Line
  {
    Ocr.Line(text, None, Ocr.BBox(0.0, 0.0, 0.0, 0.0), Ocr.Baseline(0.0, 0.0, 0.0, 0.0), 0.0)
  }

  /** `drawOcrWord(doc, text, bbox, fontSize, workspaceSize, ratio, {…})`
      binds the text to `line` and returns at `if (!line.words)`: whatever
      lands in the other parameters, no text (and nothing else) is drawn. */
  lemma MisplacedCallDrawsNothing(text: string, fontSize: real, ratio: real, debug: Option<bool>, measure: string -> real)
    ensures OcrWordLegacy.DrawOcrWord(StringAsLine(text), fontSize, ratio, debug, measure) == []
    ensures Pdf.Texts(OcrWordLegacy.DrawOcrWord(StringAsLine(text), fontSize, ratio, debug, measure)) == []
  {
    assert Pdf.Texts([]) == [];
  }
}

=== FILE: legacy_traverse.dfy ===
/** `traverse(node, callback)` (`src/lib/traverse.ts`): a recursive walk that
    hands every `HTMLElement` to the callback. It descends into the children
    of a node only when that node has a `style` property, so a document or
    fragment root hides its whole subtree. The callback's calls are the
    returned list, in call order. */
module LegacyTraverse {
  import opened Tree
  import UtilsTraverse

  /** The callback's calls for the walk from `n`. */
  function Visit(n: Node): (r: seq<Node>)
    ensures forall x :: x in r ==> IsHtml(x) && x in PreOrder(n)
    decreases n, 1
  {
    (if IsHtml(n) then [n] else []) + (if n.hasStyle then VisitAll(n.children) else [])
  }

  /** The calls for the children, in order. */
  function VisitAll(ns: seq<Node>): (r: seq<Node>)
    ensures forall x :: x in r ==> IsHtml(x) && x in PreOrderAll(ns)
    decreases ns, 0
  {
    if |ns| == 0 then []
    else Visit(ns[0]) + VisitAll(ns[1..])
  }

  /** Every node that has children also has a `style` property: true of
      trees made of elements only. */
  predicate Styled(n: Node)
    decreases n, 1
  {
    (|n.children| == 0 || n.hasStyle) && StyledAll(n.children)
  }

  predicate StyledAll(ns: seq<Node>)
    decreases ns, 0
  {
    |ns| == 0 || (Styled(ns[0]) && StyledAll(ns[1..]))
  }

  /** On a tree of elements the recursive walk and the TreeWalker generator
      report the same `HTMLElement`s in the same order. */
  lemma AgreesWithWalker(root: Node)
    requires Styled(root)
    ensures Visit(root) == UtilsTraverse.Traverse(root)
  {
    AgreesBelow(root.children);
  }

  lemma {:induction false} AgreesBelow(ns: seq<Node>)
    requires StyledAll(ns)
    ensures VisitAll(ns) == UtilsTraverse.Walk(ns)
    decreases ns
  {
    if |ns| > 0 {
      AgreesBelow(ns[0].children);
      AgreesBelow(ns[1..]);
    }
  }

  /** A root without `style` (a document) with an `HTMLElement` child: the
      generator yields the child, the recursive walk reports nothing. */
  lemma DocumentRootHidesChildren()
    ensures var child := Node(1, HtmlElement, true, []);
            var root := Node(0, NonElement, false, [child]);
            Visit(root) == [] && UtilsTraverse.Traverse(root) == [child]
  {
    var child := Node(1, HtmlElement, true, []);
    var root := Node(0, NonElement, false, [child]);
    assert UtilsTraverse.Walk([child]) == [child] by {
      assert [child][1..] == [];
    }
  }
}

=== FILE: ocr.dfy ===
/** The parts of a Tesseract recognition result the drawing and statistics
    code reads: blocks of paragraphs of lines of words, each with a bounding
    box in pixels of the recognised raster. Recognition itself is outside the
    model; these records are its output, taken as input. */
module Ocr {
  import opened Wrappers

  datatype BBox = BBox(x0: real, y0: real, x1: real, y1: real)
  {
    function Width(): real { x1 - x0 }
    function Height(): real { y1 - y0 }
  }

  /** The line's baseline, from (x0, y0) to (x1, y1). */
  datatype Baseline = Baseline(x0: real, y0: real, x1: real, y1: real)

  datatype Word = Word(text: string, bbox: BBox, confidence: real)

  /** `words` is `None` when Tesseract left the field out. */
  datatype Line = Line(text: string, words: Option<seq<Word>>, bbox: BBox, baseline: Baseline, confidence: real)

  datatype Paragraph = Paragraph(lines: seq<Line>)

  datatype Block = Block(paragraphs: seq<Paragraph>)

  /** The `blocks` field of a recognition result: absent (`undefined`),
      `null`, or a list. */
  datatype Recognised = Absent | Null | Blocks(blocks: seq<Block>)

  /** The listed blocks; none when the field is absent or `null`. */
  function Listed(r: Recognised): seq<Block>
  {
    if r.Blocks? then r.blocks else []
  }

  /** The lines of a paragraph list, in paragraph then line order. */
  function ParagraphLines(ps: seq<Paragraph>): (r: seq<Line>)
    ensures |ps| == 0 ==> r == []
  {
    if |ps| == 0 then [] else ps[0].lines + ParagraphLines(ps[1..])
  }

  /** Every line of every paragraph of every block, in block, paragraph,
      line order: the order of the nested `for … of` loops. */
  function AllLines(blocks: seq<Block>): (r: seq<Line>)
    ensures |blocks| == 0 ==> r == []
  {
    if |blocks| == 0 then [] else ParagraphLines(blocks[0].paragraphs) + AllLines(blocks[1..])
  }

  lemma {:induction false} AllLinesAppend(a: seq<Block>, b: seq<Block>)
    ensures AllLines(a + b) == AllLines(a) + AllLines(b)
  {
    if |a| == 0 {
      assert a + b == b;
    } else {
      assert (a + b)[1..] == a[1..] + b;
      AllLinesAppend(a[1..], b);
    }
  }

  /** The words of a line sequence, absent word lists contributing none. */
  function LineWords(lines: seq<Line>): (r: seq<Word>)
    ensures |lines| == 0 ==> r == []
  {
    if |lines| == 0 then [] else lines[0].words.GetOr([]) + LineWords(lines[1..])
  }

  lemma {:induction false} LineWordsAppend(a: seq<Line>, b: seq<Line>)
    ensures LineWords(a + b) == LineWords(a) + LineWords(b)
  {
    if |a| == 0 {
      assert a + b == b;
    } else {
      assert (a + b)[1..] == a[1..] + b;
      LineWordsAppend(a[1..], b);
    }
  }

  /** Every word in block, paragraph, line, word order. */
  function AllWords(blocks: seq<Block>): seq<Word>
  {
    LineWords(AllLines(blocks))
  }
}

=== FILE: ocr_aligned_y.dfy ===
/** `getOcrAlignedY` (`src/lib/getOcrAlignedY.ts`): the vertical text
    position for an OCR box, the centre of the box scaled into the workspace,
    lowered by a quarter of the font size. */
module OcrAlignedY {
  import opened Wrappers

  /** The box edges scaled by `ratio / workspaceSize`. */
  function Scaled(v: real, ratio: real, workspaceSize: real): real
    requires workspaceSize != 0.0
  {
    v * ratio / workspaceSize
  }

  /** `getOcrAlignedY({ y0, y1 }, { fontSize, baselineFactor, workspaceSize, ratio })`. */
  function AlignedY(y0: real, y1: real, fontSize: real, baselineFactor: Option<real>, workspaceSize: real, ratio: real): (y: real)
    requires workspaceSize != 0.0
    ensures var a := Scaled(y0, ratio, workspaceSize);
            var b := Scaled(y1, ratio, workspaceSize);
            var centre := y - fontSize / 4.0;
            (a <= centre <= b || b <= centre <= a) && centre - a == b - centre
  {
    var sy0 := (y0 * ratio) / workspaceSize;
    var sy1 := (y1 * ratio) / workspaceSize;
    var centreY := (sy0 + sy1) / 2.0;
    var baselineOffset := fontSize * 0.25;
    centreY + baselineOffset
  }

  /** The `baselineFactor` option is accepted and ignored. */
  lemma BaselineFactorIgnored(y0: real, y1: real, fontSize: real, f: Option<real>, g: Option<real>, workspaceSize: real, ratio: real)
    requires workspaceSize != 0.0
    ensures AlignedY(y0, y1, fontSize, f, workspaceSize, ratio) == AlignedY(y0, y1, fontSize, g, workspaceSize, ratio)
  {
  }

  lemma ScaledStrictlyIncreasing(v: real, w: real, ratio: real, workspaceSize: real)
    requires ratio > 0.0 && workspaceSize > 0.0 && v < w
    ensures Scaled(v, ratio, workspaceSize) < Scaled(w, ratio, workspaceSize)
  {
    assert v * ratio < w * ratio;
  }

  /** For a positive ratio and workspace size the position strictly increases
      with the font size and with either edge of the box. */
  lemma StrictlyIncreasing(y0: real, y1: real, fontSize: real, f: Option<real>, workspaceSize: real, ratio: real, d: real)
    requires ratio > 0.0 && workspaceSize > 0.0 && d > 0.0
    ensures AlignedY(y0, y1, fontSize, f, workspaceSize, ratio) < AlignedY(y0, y1, fontSize + d, f, workspaceSize, ratio)
    ensures AlignedY(y0, y1, fontSize, f, workspaceSize, ratio) < AlignedY(y0 + d, y1, fontSize, f, workspaceSize, ratio)
    ensures AlignedY(y0, y1, fontSize, f, workspaceSize, ratio) < AlignedY(y0, y1 + d, fontSize, f, workspaceSize, ratio)
  {
    ScaledStrictlyIncreasing(y0, y0 + d, ratio, workspaceSize);
    ScaledStrictlyIncreasing(y1, y1 + d, ratio, workspaceSize);
  }
}

=== FILE: ocr_from_blocks.dfy ===
/** `drawOcrFromBlocks` (`src/lib/utils/drawOcrFromBlocks.ts`): walks the
    recognised blocks, paragraphs and lines and hands each line to the first
    generation's `drawOcrWord` with a calibrated font size. The calibration
    multiplies the line height by its own reciprocal, so every line gets the
    known font size. Recognition is outside the model: its blocks are the
    input (`None` standing for a `null` result). */
module OcrFromBlocks {
  import opened Wrappers
  import Ocr
  import Pdf
  import OcrWordLegacy

  /** The font size assumed when the caller gives none. */
  const DefaultKnownFontSize: real := 12.0

  /** One call `drawOcrWord(doc, line, fontSize, ratio, options)`;
      `debug` is `None` because no options are passed. */
  datatype WordCall = WordCall(line: Ocr.Line, fontSize: real, ratio: real, debug: Option<bool>)

  /** Line height times ratio: the divisor of the calibration. */
  function ScaledHeight(line: Ocr.Line, ratio: real): real
  {
    (line.bbox.y1 - line.bbox.y0) * ratio
  }

  /** A line of non-zero scaled height, for which the calibration is defined
      (a zero height would make it `0 * Infinity`, that is `NaN`). */
  predicate Measurable(line: Ocr.Line, ratio: real)
  {
    ScaledHeight(line, ratio) != 0.0
  }

  /** `multiplier = knownFontSize / (lineHeight * ratio)` and
      `fontSize = lineHeight * ratio * multiplier`. */
  function Calibrate(line: Ocr.Line, knownFontSize: real, ratio: real): (fontSize: real)
    requires Measurable(line, ratio)
    ensures fontSize == knownFontSize
  {
    var lineHeight := line.bbox.y1 - line.bbox.y0;
    var multiplier := knownFontSize / (lineHeight * ratio);
    lineHeight * ratio * multiplier
  }

  /** The `drawOcrWord` calls for a list of lines, in order. */
  function Calls(lines: seq<Ocr.Line>, knownFontSize: real, ratio: real): (calls: seq<WordCall>)
    requires forall i :: 0 <= i < |lines| ==> Measurable(lines[i], ratio)
    ensures |calls| == |lines|
  {
    if |lines| == 0 then []
    else [WordCall(lines[0], Calibrate(lines[0], knownFontSize, ratio), ratio, None)]
         + Calls(lines[1..], knownFontSize, ratio)
  }

  /** What the calls draw, one after the other. */
  function Run(calls: seq<WordCall>, measure: string -> real): seq<Pdf.Op>
  {
    if |calls| == 0 then []
    else OcrWordLegacy.DrawOcrWord(calls[0].line, calls[0].fontSize, calls[0].ratio, calls[0].debug, measure)
         + Run(calls[1..], measure)
  }

  predicate AllMeasurable(blocks: seq<Ocr.Block>, ratio: real)
  {
    var lines := Ocr.AllLines(blocks);
    forall i :: 0 <= i < |lines| ==> Measurable(lines[i], ratio)
  }

  /** The `drawOcrWord` calls made for a recognition result. */
  function BlockCalls(blocks: Option<seq<Ocr.Block>>, knownFontSize: Option<real>, ratio: real): (calls: seq<WordCall>)
    requires blocks.Some? ==> AllMeasurable(blocks.value, ratio)
    ensures blocks.None? ==> calls == []
  {
    match blocks
    case None => []
    case Some(bs) => Calls(Ocr.AllLines(bs), knownFontSize.GetOr(DefaultKnownFontSize), ratio)
  }

  /** `drawOcrFromBlocks({ doc, worker, canvas, knownFontSize, ratio })` with
      the recognised `blocks`: the jsPDF calls it makes. */
  function DrawOcrFromBlocks(blocks: Option<seq<Ocr.Block>>, knownFontSize: Option<real>, ratio: real, measure: string -> real): (ops: seq<Pdf.Op>)
    requires blocks.Some? ==> AllMeasurable(blocks.value, ratio)
    ensures blocks.None? ==> ops == []
  {
    Run(BlockCalls(blocks, knownFontSize, ratio), measure)
  }

  lemma {:induction false} CallsAreLines(lines: seq<Ocr.Line>, knownFontSize: real, ratio: real)
    requires forall i :: 0 <= i < |lines| ==> Measurable(lines[i], ratio)
    ensures Calls(lines, knownFontSize, ratio)
            == seq(|lines|, i requires 0 <= i < |lines| => WordCall(lines[i], knownFontSize, ratio, None))
  {
    if |lines| > 0 {
      CallsAreLines(lines[1..], knownFontSize, ratio);
      var expected := seq(|lines|, i requires 0 <= i < |lines| => WordCall(lines[i], knownFontSize, ratio, None));
      assert expected == [expected[0]] + expected[1..];
    }
  }

  /** `drawOcrWord` is called once per line, in block, paragraph, line order,
      every line with font size exactly `knownFontSize` (12 by default), the
      same ratio and no options, so the first generation's debug default
      applies. No line is filtered out, whatever its confidence. */
  lemma OneCallPerLine(blocks: seq<Ocr.Block>, knownFontSize: Option<real>, ratio: real)
    requires AllMeasurable(blocks, ratio)
    ensures var lines := Ocr.AllLines(blocks);
            var k := if knownFontSize.Some? then knownFontSize.value else 12.0;
            BlockCalls(Some(blocks), knownFontSize, ratio)
            == seq(|lines|, i requires 0 <= i < |lines| => WordCall(lines[i], k, ratio, None))
  {
    CallsAreLines(Ocr.AllLines(blocks), knownFontSize.GetOr(DefaultKnownFontSize), ratio);
  }

  /** The lines the calls are made for, in order. */
  function CallLines(calls: seq<WordCall>): (lines: seq<Ocr.Line>)
    ensures |lines| == |calls|
    ensures forall i :: 0 <= i < |calls| ==> lines[i] == calls[i].line
  {
    if |calls| == 0 then [] else [calls[0].line] + CallLines(calls[1..])
  }

  lemma CallTexts(c: WordCall, measure: string -> real)
    ensures |Pdf.Texts(OcrWordLegacy.DrawOcrWord(c.line, c.fontSize, c.ratio, c.debug, measure))| == |c.line.words.GetOr([])|
  {
    match c.line.words
    case None =>
    case Some(words) =>
      var rest := OcrWordLegacy.WordsOps(c.line, words, c.ratio, c.debug.GetOr(true), measure);
      Pdf.TextsAppend([Pdf.SetFontSize(c.fontSize)], rest);
      assert Pdf.Texts([Pdf.SetFontSize(c.fontSize)]) == [];
      OcrWordLegacy.OneTextPerWord(c.line, words, c.ratio, c.debug.GetOr(true), measure);
  }

  lemma {:induction false} RunTexts(calls: seq<WordCall>, measure: string -> real)
    ensures |Pdf.Texts(Run(calls, measure))| == |Ocr.LineWords(CallLines(calls))|
  {
    if |calls| > 0 {
      var c := calls[0];
      Pdf.TextsAppend(OcrWordLegacy.DrawOcrWord(c.line, c.fontSize, c.ratio, c.debug, measure), Run(calls[1..], measure));
      RunTexts(calls[1..], measure);
      CallTexts(c, measure);
      assert CallLines(calls)[1..] == CallLines(calls[1..]);
    }
  }

  /** Every recognised word is drawn exactly once: the text calls are as many
      as the words of all lines. */
  lemma OneTextPerWord(blocks: seq<Ocr.Block>, knownFontSize: Option<real>, ratio: real, measure: string -> real)
    requires AllMeasurable(blocks, ratio)
    ensures |Pdf.Texts(DrawOcrFromBlocks(Some(blocks), knownFontSize, ratio, measure))| == |Ocr.AllWords(blocks)|
  {
    var calls := BlockCalls(Some(blocks), knownFontSize, ratio);
    OneCallPerLine(blocks, knownFontSize, ratio);
    RunTexts(calls, measure);
    var lines := Ocr.AllLines(blocks);
    assert CallLines(calls) == lines;
  }

  /** The text layer stays on the current page. */
  lemma {:induction false} NeverAddsPages(calls: seq<WordCall>, measure: string -> real)
    ensures forall j :: 0 <= j < |Run(calls, measure)| ==> Run(calls, measure)[j] != Pdf.AddPage
  {
    if |calls| > 0 {
      var c := calls[0];
      NeverAddsPages(calls[1..], measure);
      if c.line.words.Some? {
        OcrWordLegacy.NeverAddsPages(c.line, c.line.words.value, c.ratio, c.debug.GetOr(true), measure);
      }
    }
  }
}

=== FILE: ocr_height_stats.dfy ===
/** `getOcrHeightStats` (`src/lib/getOcrHeightStats.ts`): recognises a
    rendered test text and measures the boxes of the words that are single
    characters of it. Recognition is outside the model: its blocks are the
    input (`None` standing for an absent `blocks` field). */
module OcrHeightStats {
  import opened Wrappers
  import Seqs
  import Text
  import Ocr

  /** The template literal `TEST_TEXT` is built from: four indented lines of
      letters, digits and ASCII punctuation, between two line breaks. */
  const RawTestText: string :=
    "\n  ABCDEFGHIJKLMNOPQRSTUVWXYZ\n  abcdefghijklmnopqrstuvwxyz\n  0123456789\n  `~!@#$%^&*()_+-=[]{}\\|;:'\",<.>/?\n"

  /** `TEST_TEXT`: the raw text with white-space runs collapsed and trimmed. */
  const TestText: string := Text.Normalize(RawTestText)

  /** `TEST_TEXT` is single-spaced and has no white space at either end. */
  lemma TestTextShape()
    ensures Text.SingleSpaced(TestText)
    ensures |TestText| == 0 || (!Text.IsWhitespace(TestText[0]) && !Text.IsWhitespace(TestText[|TestText| - 1]))
  {
    Text.NormalizeShape(RawTestText);
  }

  /** `new Set(testText.split('').map((w) => w.trim()).filter(Boolean))`:
      the non-white-space characters of the test text, as one-character
      strings. */
  function TestWords(testText: string): (r: set<string>)
    ensures forall w :: w in r <==> |w| == 1 && w[0] in testText && !Text.IsWhitespace(w[0])
  {
    assert forall w: string :: |w| == 1 ==> w == [w[0]];
    set c | c in testText && !Text.IsWhitespace(c) :: [c]
  }

  /** The result of a successful run. */
  datatype Stats = Stats(
    average: real,
    min: real,
    max: real,
    count: nat,
    charHeights: map<string, real>,
    charWidths: map<string, real>)

  const NoMatchMessage: string := "No OCR words matched the test text."

  /** The engine's message for iterating over a line without words. */
  const NotIterableMessage: string := "line.words is not iterable"

  function WordHeight(w: Ocr.Word): real
  {
    w.bbox.y1 - w.bbox.y0
  }

  function WordWidth(w: Ocr.Word): real
  {
    w.bbox.x1 - w.bbox.x0
  }

  /** Whether the word counts: its whole text is one of the test words. */
  predicate Matches(testWords: set<string>, w: Ocr.Word)
  {
    w.text in testWords
  }

  /** The value of `record[key] = f(word)` over the words in order: the
      object after the loop. */
  function Record(words: seq<Ocr.Word>, f: Ocr.Word -> real): (m: map<string, real>)
    ensures forall k :: k in m ==> exists i :: 0 <= i < |words| && HasText(words, i, k)
  {
    if |words| == 0 then map[]
    else
      var last := words[|words| - 1];
      var m := Record(words[..|words| - 1], f);
      assert forall k :: k in m ==> exists i :: 0 <= i < |words| - 1 && HasText(words, i, k) by {
        forall k | k in m
          ensures exists i :: 0 <= i < |words| - 1 && HasText(words, i, k)
        {
          var i :| 0 <= i < |words| - 1 && HasText(words[..|words| - 1], i, k);
          assert HasText(words, i, k);
        }
      }
      assert HasText(words, |words| - 1, last.text);
      m[last.text := f(last)]
  }

  predicate HasText(words: seq<Ocr.Word>, i: int, k: string)
  {
    0 <= i < |words| && words[i].text == k
  }

  /** Every text of the words is a key, holding the value of the last word
      with that text. */
  lemma {:induction false} LastWriteWins(words: seq<Ocr.Word>, f: Ocr.Word -> real, i: nat)
    requires i < |words|
    requires forall j :: i < j < |words| ==> words[j].text != words[i].text
    ensures words[i].text in Record(words, f) && Record(words, f)[words[i].text] == f(words[i])
  {
    if i < |words| - 1 {
      LastWriteWins(words[..|words| - 1], f, i);
    }
  }

  /** Whether some line has no word list, which makes the loop throw. */
  predicate MissingWords(blocks: seq<Ocr.Block>)
  {
    exists i :: 0 <= i < |Ocr.AllLines(blocks)| && Ocr.AllLines(blocks)[i].words.None?
  }

  /** The matching words, in block, paragraph, line, word order. */
  function Matched(blocks: seq<Ocr.Block>, testText: string): (r: seq<Ocr.Word>)
    ensures forall i :: 0 <= i < |r| ==> |r[i].text| == 1 && r[i].text[0] in testText && !Text.IsWhitespace(r[i].text[0])
  {
    var testWords := TestWords(testText);
    Seqs.Filter(w => Matches(testWords, w), Ocr.AllWords(blocks))
  }

  function Heights(words: seq<Ocr.Word>): (r: seq<real>)
    ensures |r| == |words| && forall i :: 0 <= i < |r| ==> r[i] == WordHeight(words[i])
  {
    seq(|words|, i requires 0 <= i < |words| => WordHeight(words[i]))
  }

  /** `getOcrHeightStats({ canvas, testText, worker })` with the recognised
      `blocks`. */
  function GetOcrHeightStats(blocks: Option<seq<Ocr.Block>>, testText: string): (r: Result<Stats>)
    ensures blocks.None? ==> r == Err(NoMatchMessage)
    ensures blocks.Some? && MissingWords(blocks.value) ==> r == Err(NotIterableMessage)
    ensures r.Err? ==> r.message == NoMatchMessage || r.message == NotIterableMessage
    ensures r.Ok? ==> r.value.count > 0 && r.value.min <= r.value.average <= r.value.max
  {
    var bs := blocks.GetOr([]);
    if MissingWords(bs) then Err(NotIterableMessage)
    else Summarize(Matched(bs, testText))
  }

  /** The statistics of the matching words, or the no-match error. */
  function Summarize(matched: seq<Ocr.Word>): (r: Result<Stats>)
    ensures r.Ok? <==> |matched| > 0
    ensures r.Err? ==> r.message == NoMatchMessage
    ensures r.Ok? ==> r.value.count == |matched| && r.value.min <= r.value.average <= r.value.max
  {
    var heights := Heights(matched);
    if |heights| == 0 then Err(NoMatchMessage)
    else
      Seqs.MeanBetweenMinAndMax(heights);
      Ok(Stats(Seqs.Mean(heights), Seqs.Min(heights), Seqs.Max(heights), |heights|,
               Record(matched, WordHeight), Record(matched, WordWidth)))
  }

  /** Without a missing word list the run summarises the matching words. */
  lemma RunIsSummary(blocks: seq<Ocr.Block>, testText: string)
    requires !MissingWords(blocks)
    ensures GetOcrHeightStats(Some(blocks), testText) == Summarize(Matched(blocks, testText))
  {
  }

  /** The fields of a successful summary. */
  lemma SummaryFields(matched: seq<Ocr.Word>)
    requires |matched| > 0
    ensures var h := Heights(matched);
            Summarize(matched)
            == Ok(Stats(Seqs.Mean(h), Seqs.Min(h), Seqs.Max(h), |matched|,
                        Record(matched, WordHeight), Record(matched, WordWidth)))
  {
  }

  /** On success `count` is the number of matching words, `average` their
      mean height, and `min`/`max` bound every one of their heights and are
      attained; the run fails exactly when nothing matched. */
  lemma SummaryStats(matched: seq<Ocr.Word>)
    ensures var r := Summarize(matched);
            && (r.Ok? <==> |matched| > 0)
            && (r.Ok? ==>
                  && r.value.count == |matched|
                  && r.value.average == Seqs.Sum(Heights(matched)) / (|matched| as real)
                  && (forall i :: 0 <= i < |matched| ==> r.value.min <= WordHeight(matched[i]) <= r.value.max)
                  && (exists i :: 0 <= i < |matched| && r.value.min == WordHeight(matched[i]))
                  && (exists i :: 0 <= i < |matched| && r.value.max == WordHeight(matched[i])))
  {
    if |matched| > 0 {
      SummaryFields(matched);
      HeightBounds(matched);
    }
  }

  /** The smallest and largest heights bound every word's height and are
      some word's height. */
  lemma HeightBounds(words: seq<Ocr.Word>)
    requires |words| > 0
    ensures var h := Heights(words);
            && (forall i :: 0 <= i < |words| ==> Seqs.Min(h) <= WordHeight(words[i]) <= Seqs.Max(h))
            && (exists i :: 0 <= i < |words| && Seqs.Min(h) == WordHeight(words[i]))
            && (exists i :: 0 <= i < |words| && Seqs.Max(h) == WordHeight(words[i]))
  {
    var h := Heights(words);
    Seqs.MinIsLowerBound(h);
    Seqs.MaxIsUpperBound(h);
    var a :| 0 <= a < |h| && Seqs.Min(h) == h[a];
    var b :| 0 <= b < |h| && Seqs.Max(h) == h[b];
    assert Seqs.Min(h) == WordHeight(words[a]) && Seqs.Max(h) == WordHeight(words[b]);
  }

  /** A word is matched exactly when its whole text is one non-white-space
      character of the test text. */
  lemma MatchedWords(blocks: seq<Ocr.Block>, testText: string, w: Ocr.Word)
    requires w in Ocr.AllWords(blocks)
    ensures w in Matched(blocks, testText) <==> |w.text| == 1 && w.text[0] in testText && !Text.IsWhitespace(w.text[0])
  {
  }

  /** `charHeights[c]` and `charWidths[c]` come from the last matching word
      whose text is `c`. */
  lemma LastMatchRecorded(blocks: seq<Ocr.Block>, testText: string, i: nat)
    requires !MissingWords(blocks)
    requires i < |Matched(blocks, testText)|
    requires var matched := Matched(blocks, testText);
             forall j :: i < j < |matched| ==> matched[j].text != matched[i].text
    ensures var matched := Matched(blocks, testText);
            var r := GetOcrHeightStats(Some(blocks), testText);
            && r.Ok?
            && matched[i].text in r.value.charHeights && r.value.charHeights[matched[i].text] == WordHeight(matched[i])
            && matched[i].text in r.value.charWidths && r.value.charWidths[matched[i].text] == WordWidth(matched[i])
  {
    var matched := Matched(blocks, testText);
    Recorded(blocks, testText);
    LastWriteWins(matched, WordHeight, i);
    LastWriteWins(matched, WordWidth, i);
  }

  /** The maps of a successful run are the records of the matching words. */
  lemma Recorded(blocks: seq<Ocr.Block>, testText: string)
    requires !MissingWords(blocks) && |Matched(blocks, testText)| > 0
    ensures var r := GetOcrHeightStats(Some(blocks), testText);
            && r.Ok?
            && r.value.charHeights == Record(Matched(blocks, testText), WordHeight)
            && r.value.charWidths == Record(Matched(blocks, testText), WordWidth)
  {
    RunIsSummary(blocks, testText);
    SummaryFields(Matched(blocks, testText));
  }

  /** The two maps have the same keys: the texts of the matching words. */
  lemma RecordedKeys(blocks: seq<Ocr.Block>, testText: string, k: string)
    requires !MissingWords(blocks)
    requires GetOcrHeightStats(Some(blocks), testText).Ok?
    ensures var r := GetOcrHeightStats(Some(blocks), testText).value;
            var matched := Matched(blocks, testText);
            && (k in r.charHeights <==> exists i :: HasText(matched, i, k))
            && (k in r.charWidths <==> exists i :: HasText(matched, i, k))
  {
    var matched := Matched(blocks, testText);
    Recorded(blocks, testText);
    if exists i :: HasText(matched, i, k) {
      var i :| HasText(matched, i, k);
      var last := LastWithText(matched, i);
      LastWriteWins(matched, WordHeight, last);
      LastWriteWins(matched, WordWidth, last);
    }
  }

  /** The last index whose word has the same text as word `i`. */
  function LastWithText(words: seq<Ocr.Word>, i: nat): (j: nat)
    requires i < |words|
    ensures i <= j < |words| && words[j].text == words[i].text
    ensures forall k :: j < k < |words| ==> words[k].text != words[j].text
    decreases |words| - i
  {
    if words[|words| - 1].text == words[i].text then |words| - 1
    else if i == |words| - 1 then i
    else
      var j := LastWithText(words[..|words| - 1], i);
      j
  }
}

=== FILE: ocr_replacements.dfy ===
/** `processOCRReplacements` (`src/lib/html-to-pdf/core/processOCRReplacements.ts`):
    every element of the cloned tree that carries the OCR attribute is
    either hidden (value `'false'`), left alone (not an HTML element, or an
    empty value) or replaced by an SVG that draws the value in a font the
    recogniser reads well; the distinct replaced values are returned in the
    order they first occur. Layout (`getBoundingClientRect`), computed style
    and `parseFloat` are inputs; the SVG's `viewBox`, taken from the laid-out
    text's bounding box, is not modelled. */
module OcrReplacements {
  import opened Wrappers
  import Seqs
  import Text
  import JsMath
  import Dom

  const DefaultAttribute: string := "data-ocr"

  /** Attributes with this prefix are copied onto the replacement. */
  const DataPrefix: string := "data-"

  /** The smallest font size a replacement is drawn with. */
  const MinFontSize: real := 32.0

  /** Above this font size the replacement text gets a black border. */
  const BorderThreshold: real := 25.0

  /** An element of the cloned tree, in document order: whether it is an
      `HTMLElement`, its attributes, its client rectangle's size and its
      computed `font-size` string. */
  datatype Node = Node(isHtml: bool, attributes: seq<(string, string)>, width: real, height: real, fontSize: string)

  /** `getAttribute(name)`: the value of the first attribute of that name. */
  function GetAttribute(attributes: seq<(string, string)>, name: string): (r: Option<string>)
    ensures r.Some? <==> exists i :: 0 <= i < |attributes| && attributes[i].0 == name
    ensures r.Some? ==> (name, r.value) in attributes
  {
    if |attributes| == 0 then None
    else if attributes[0].0 == name then Some(attributes[0].1)
    else
      var r := GetAttribute(attributes[1..], name);
      assert forall i :: 1 <= i < |attributes| ==> attributes[i] == attributes[1..][i - 1];
      r
  }

  predicate HasAttribute(attribute: string, n: Node)
  {
    GetAttribute(n.attributes, attribute).Some?
  }

  /** `querySelectorAll('[attribute]')` over the descendants. */
  function Selected(nodes: seq<Node>, attribute: string): (r: seq<Node>)
    ensures forall i :: 0 <= i < |r| ==> HasAttribute(attribute, r[i])
  {
    Seqs.Filter(n => HasAttribute(attribute, n), nodes)
  }

  /** The SVG that replaces an element. */
  datatype Svg = Svg(
    marginTop: real,
    marginLeft: real,
    width: real,
    height: real,
    text: string,
    fontSize: Option<real>,
    border: string,
    attributes: seq<(string, string)>)

  /** What happens to one selected element. */
  datatype Action = Skipped | Hidden | Replaced(svg: Svg)

  /** `Math.max(height, parseFloat(fontSize), 32)`: `NaN` (`None`) when the
      computed size does not parse, since `Math.max` with a `NaN` argument
      is `NaN`. */
  function FontSize(height: real, parsed: Option<real>): (r: Option<real>)
    ensures r.Some? <==> parsed.Some?
    ensures r.Some? ==> r.value >= MinFontSize && r.value >= height && r.value >= parsed.value
    ensures r.Some? ==> r.value == MinFontSize || r.value == height || r.value == parsed.value
  {
    match parsed
    case None => None
    case Some(f) => Some(JsMath.Max(JsMath.Max(height, f), MinFontSize))
  }

  /** The border colour: `fontSize > 25`, which is false for `NaN`. */
  function Border(fontSize: Option<real>): string
  {
    if fontSize.Some? && fontSize.value > BorderThreshold then "black" else "transparent"
  }

  /** An offset attribute `<attribute>-x` or `<attribute>-y`:
      `parseFloat(getAttribute(name) ?? '') || 0`. */
  function Offset(n: Node, name: string, parseFloat: string -> Option<real>): real
  {
    Dom.OrZero(parseFloat(GetAttribute(n.attributes, name).GetOr("")))
  }

  /** The replacement of an element whose value is `value`. */
  function Replacement(n: Node, attribute: string, value: string, parseFloat: string -> Option<real>): (svg: Svg)
    ensures svg.text == value && svg.height == n.height
    ensures svg.marginLeft == Offset(n, attribute + "-x", parseFloat)
    ensures svg.marginTop == Offset(n, attribute + "-y", parseFloat)
    ensures svg.marginLeft + svg.width == n.width
    ensures svg.fontSize == FontSize(n.height, parseFloat(n.fontSize))
    ensures forall a :: a in svg.attributes <==> a in n.attributes && Text.StartsWith(a.0, DataPrefix)
  {
    var x := Offset(n, attribute + "-x", parseFloat);
    var y := Offset(n, attribute + "-y", parseFloat);
    var size := FontSize(n.height, parseFloat(n.fontSize));
    Svg(y, x, n.width - x, n.height, value, size, Border(size),
        Seqs.Filter((a: (string, string)) => Text.StartsWith(a.0, DataPrefix), n.attributes))
  }

  /** The value an element is replaced with, if it is replaced. */
  function ReplacedValue(n: Node, attribute: string): Option<string>
  {
    var value := GetAttribute(n.attributes, attribute);
    if n.isHtml && value.Some? && value.value != "" && value.value != "false" then value else None
  }

  /** The callback's effect on one element. */
  function ActionFor(n: Node, attribute: string, parseFloat: string -> Option<real>): (a: Action)
    ensures a.Skipped? <==> !n.isHtml || GetAttribute(n.attributes, attribute).GetOr("") == ""
    ensures a.Hidden? <==> n.isHtml && GetAttribute(n.attributes, attribute) == Some("false")
    ensures a.Replaced? <==> ReplacedValue(n, attribute).Some?
    ensures a.Replaced? ==> a.svg.text == ReplacedValue(n, attribute).value
  {
    var value := GetAttribute(n.attributes, attribute);
    if !n.isHtml || value.GetOr("") == "" then Skipped
    else if value.value == "false" then Hidden
    else Replaced(Replacement(n, attribute, value.value, parseFloat))
  }

  /** Action `i` replaced its element with the text `v`. */
  predicate ReplacedWith(actions: seq<Action>, i: int, v: string)
  {
    0 <= i < |actions| && actions[i].Replaced? && actions[i].svg.text == v
  }

  /** The index of the first action that replaced its element with `v`, or
      the number of actions when none did. */
  function First(actions: seq<Action>, v: string): (k: nat)
    ensures k <= |actions|
    ensures k < |actions| ==> ReplacedWith(actions, k, v)
    ensures forall j :: 0 <= j < k ==> !ReplacedWith(actions, j, v)
  {
    if |actions| == 0 then 0
    else if ReplacedWith(actions, 0, v) then 0
    else
      var k := First(actions[1..], v);
      assert forall j :: 1 <= j < |actions| ==> (ReplacedWith(actions, j, v) <==> ReplacedWith(actions[1..], j - 1, v));
      1 + k
  }

  /** Appending an action leaves every earlier first occurrence where it was. */
  lemma FirstSnoc(actions: seq<Action>, v: string)
    requires |actions| > 0
    ensures First(actions[..|actions| - 1], v) < |actions| - 1 ==> First(actions, v) == First(actions[..|actions| - 1], v)
    ensures First(actions[..|actions| - 1], v) == |actions| - 1 ==>
              First(actions, v) == if ReplacedWith(actions, |actions| - 1, v) then |actions| - 1 else |actions|
  {
    var n := |actions| - 1;
    if First(actions[..n], v) < n {
      FirstKept(actions, n, v);
    } else if First(actions[..n], v) == n {
      FirstAtEnd(actions, v);
    }
  }

  lemma FirstKept(actions: seq<Action>, n: nat, v: string)
    requires n <= |actions| && First(actions[..n], v) < n
    ensures First(actions, v) == First(actions[..n], v)
  {
    var f := First(actions[..n], v);
    NoneBefore(actions, n, v, f);
    assert actions[..n][f] == actions[f];
    FirstUnique(actions, v, f);
  }

  lemma FirstAtEnd(actions: seq<Action>, v: string)
    requires |actions| > 0 && First(actions[..|actions| - 1], v) == |actions| - 1
    ensures First(actions, v) == if ReplacedWith(actions, |actions| - 1, v) then |actions| - 1 else |actions|
  {
    var n := |actions| - 1;
    NoneBefore(actions, n, v, n);
    if ReplacedWith(actions, n, v) {
      FirstUnique(actions, v, n);
    } else {
      FirstUnique(actions, v, n + 1);
    }
  }

  /** No replacement with `v` before `k` in a prefix means none in the
      whole sequence either. */
  lemma NoneBefore(actions: seq<Action>, n: nat, v: string, k: nat)
    requires k <= n <= |actions|
    requires forall j :: 0 <= j < k ==> !ReplacedWith(actions[..n], j, v)
    ensures forall j :: 0 <= j < k ==> !ReplacedWith(actions, j, v)
  {
    forall j | 0 <= j < k
      ensures !ReplacedWith(actions, j, v)
    {
      assert !ReplacedWith(actions[..n], j, v);
      assert actions[..n][j] == actions[j];
    }
  }

  /** `First` is the only index meeting its description. */
  lemma FirstUnique(actions: seq<Action>, v: string, k: nat)
    requires k <= |actions|
    requires k < |actions| ==> ReplacedWith(actions, k, v)
    requires forall j :: 0 <= j < k ==> !ReplacedWith(actions, j, v)
    ensures First(actions, v) == k
  {
  }

  /** The `reduce` accumulator: each replaced value appended unless already
      there. The result holds no value twice, holds exactly the replaced
      values, and lists them in the order of their first replacement. */
  function Collect(actions: seq<Action>): (r: seq<string>)
    ensures CollectsFirsts(actions, r)
  {
    if |actions| == 0 then []
    else
      var n := |actions| - 1;
      var acc := Collect(actions[..n]);
      var last := actions[n];
      if last.Replaced? && last.svg.text !in acc then
        NewValueAppended(actions, acc);
        acc + [last.svg.text]
      else
        OldValueSkipped(actions, acc);
        acc
  }

  /** `r` holds no value twice, holds exactly the values some action
      replaced an element with, in the order of their first replacement. */
  ghost predicate CollectsFirsts(actions: seq<Action>, r: seq<string>)
  {
    && (forall a, b :: 0 <= a < b < |r| ==> r[a] != r[b])
    && (forall v :: v in r <==> First(actions, v) < |actions|)
    && (forall a, b :: 0 <= a < b < |r| ==> First(actions, r[a]) < First(actions, r[b]))
  }

  /** A last action replacing with a value not yet collected appends it. */
  lemma NewValueAppended(actions: seq<Action>, acc: seq<string>)
    requires |actions| > 0 && CollectsFirsts(actions[..|actions| - 1], acc)
    requires actions[|actions| - 1].Replaced? && actions[|actions| - 1].svg.text !in acc
    ensures CollectsFirsts(actions, acc + [actions[|actions| - 1].svg.text])
  {
    var n := |actions| - 1;
    var x := actions[n].svg.text;
    var r := acc + [x];
    forall v {
      FirstSnoc(actions, v);
    }
    assert forall a :: 0 <= a < |acc| ==> r[a] == acc[a] && acc[a] in acc;
  }

  /** Any other last action leaves the collected values as they are. */
  lemma OldValueSkipped(actions: seq<Action>, acc: seq<string>)
    requires |actions| > 0 && CollectsFirsts(actions[..|actions| - 1], acc)
    requires !(actions[|actions| - 1].Replaced? && actions[|actions| - 1].svg.text !in acc)
    ensures CollectsFirsts(actions, acc)
  {
    forall v {
      FirstSnoc(actions, v);
    }
  }

  /** The elements' fates and the returned values. */
  datatype Processed = Processed(actions: seq<Action>, values: seq<string>)

  /** `processOCRReplacements(clonedNode, { attribute })` over the
      descendants `nodes` of the clone, in document order. */
  function ProcessOcrReplacements(nodes: seq<Node>, attribute: string, parseFloat: string -> Option<real>): (r: Processed)
    ensures |r.actions| == |Selected(nodes, attribute)|
    ensures forall i :: 0 <= i < |r.actions| ==> r.actions[i] == ActionFor(Selected(nodes, attribute)[i], attribute, parseFloat)
    ensures forall a, b :: 0 <= a < b < |r.values| ==> r.values[a] != r.values[b]
    ensures forall a, b :: 0 <= a < b < |r.values| ==> First(r.actions, r.values[a]) < First(r.actions, r.values[b])
    ensures forall v :: v in r.values <==>
              exists i :: 0 <= i < |Selected(nodes, attribute)| && ReplacedValue(Selected(nodes, attribute)[i], attribute) == Some(v)
  {
    var selected := Selected(nodes, attribute);
    var actions := Actions(selected, attribute, parseFloat);
    var values := Collect(actions);
    forall v {
      FirstIffReplaced(selected, attribute, parseFloat, v);
    }
    Processed(actions, values)
  }

  /** The callback applied to each selected element, in order. */
  function Actions(selected: seq<Node>, attribute: string, parseFloat: string -> Option<real>): (r: seq<Action>)
    ensures |r| == |selected|
    ensures forall i :: 0 <= i < |r| ==> r[i] == ActionFor(selected[i], attribute, parseFloat)
  {
    seq(|selected|, i requires 0 <= i < |selected| => ActionFor(selected[i], attribute, parseFloat))
  }

  /** A value is replaced by some action exactly when some selected element
      is replaced with it. */
  lemma FirstIffReplaced(selected: seq<Node>, attribute: string, parseFloat: string -> Option<real>, v: string)
    ensures var actions := Actions(selected, attribute, parseFloat);
            First(actions, v) < |actions| <==>
            exists i :: 0 <= i < |selected| && ReplacedValue(selected[i], attribute) == Some(v)
  {
    var actions := Actions(selected, attribute, parseFloat);
    if exists i :: 0 <= i < |selected| && ReplacedValue(selected[i], attribute) == Some(v) {
      var i :| 0 <= i < |selected| && ReplacedValue(selected[i], attribute) == Some(v);
      assert ReplacedWith(actions, i, v);
    }
  }

  /** With the default attribute: `processOCRReplacements(node, { logger })`. */
  function ProcessDefault(nodes: seq<Node>, parseFloat: string -> Option<real>): (r: Processed)
    ensures forall v :: v in r.values ==> exists i :: 0 <= i < |nodes| && GetAttribute(nodes[i].attributes, DefaultAttribute) == Some(v)
  {
    var r := ProcessOcrReplacements(nodes, DefaultAttribute, parseFloat);
    forall v | v in r.values
      ensures exists i :: 0 <= i < |nodes| && GetAttribute(nodes[i].attributes, DefaultAttribute) == Some(v)
    {
      var selected := Selected(nodes, DefaultAttribute);
      var k :| 0 <= k < |selected| && ReplacedValue(selected[k], DefaultAttribute) == Some(v);
      assert selected[k] in nodes;
    }
    r
  }

  /** A replacement whose computed font size parses is drawn at 32 or more
      and always with a black border; one whose size does not parse has a
      transparent border. */
  lemma ReplacementFontAndBorder(n: Node, attribute: string, value: string, parseFloat: string -> Option<real>)
    ensures var svg := Replacement(n, attribute, value, parseFloat);
            && (parseFloat(n.fontSize).Some? ==> svg.fontSize.value >= MinFontSize && svg.border == "black")
            && (parseFloat(n.fontSize).None? ==> svg.border == "transparent")
  {
  }

  /** Elements left alone or hidden contribute nothing, and hiding is the
      only effect of the value `'false'`. */
  lemma HiddenNotReturned(nodes: seq<Node>, attribute: string, parseFloat: string -> Option<real>)
    ensures "false" !in ProcessOcrReplacements(nodes, attribute, parseFloat).values
    ensures "" !in ProcessOcrReplacements(nodes, attribute, parseFloat).values
  {
  }
}

=== FILE: ocr_word.dfy ===
/** `drawOcrWord` of the newer generation (`src/lib/utils/drawOcrWord.ts`):
    the same word placement as the first generation, computed through a
    `calculations`/`positioning` record, with debug frames drawn only when
    the debug option is an array listing `'debug'`. Logging is left out;
    jsPDF's `getTextWidth` is the parameter `measure`. */
module OcrWord {
  import opened Wrappers
  import Ocr
  import Pdf
  import OcrWordLegacy

  /** The `positioning` record of one word. */
  datatype Positioning = Positioning(x: real, y: real, wordWidth: real, rendered: real, gaps: int, charSpace: real)

  function Position(line: Ocr.Line, word: Ocr.Word, ratio: real, measure: string -> real): (p: Positioning)
    ensures p.x == word.bbox.x0 * ratio
    ensures p.y == (line.baseline.y0 * ratio + line.baseline.y1 * ratio) / 2.0
    ensures p.wordWidth == (word.bbox.x1 - word.bbox.x0) * ratio
    ensures p.gaps > 0 ==> p.rendered + p.charSpace * p.gaps as real == p.wordWidth
    ensures p.gaps == |word.text| - 1 && p.rendered == measure(word.text)
    ensures p.gaps <= 0 ==> p.charSpace == 0.0
  {
    var x := word.bbox.x0 * ratio;
    var y0 := line.baseline.y0 * ratio;
    var y1 := line.baseline.y1 * ratio;
    var wordWidth := (word.bbox.x1 - word.bbox.x0) * ratio;
    var rendered := measure(word.text);
    var gaps := |word.text| - 1;
    Positioning(x, (y0 + y1) / 2.0, wordWidth, rendered, gaps,
      if gaps > 0 then (wordWidth - rendered) / gaps as real else 0.0)
  }

  /** Whether debug frames are drawn: `Array.isArray(debug) && debug.includes('debug')`. */
  predicate DrawsFrames(debug: Pdf.Debug)
  {
    Pdf.Lists(debug, "debug")
  }

  function WordOps(line: Ocr.Line, word: Ocr.Word, ratio: real, debug: Pdf.Debug, measure: string -> real): seq<Pdf.Op>
  {
    var p := Position(line, word, ratio, measure);
    [Pdf.Text(word.text, p.x, p.y, Pdf.TextOptions(Some(p.charSpace), None, None, None))]
    + (if DrawsFrames(debug) then
         [Pdf.SetDrawColor(255, 0, 0),
          Pdf.SetLineWidth(0.25),
          Pdf.Rect(word.bbox.x0 * ratio, word.bbox.y0 * ratio, (word.bbox.x1 - word.bbox.x0) * ratio, (word.bbox.y1 - word.bbox.y0) * ratio)]
       else [])
  }

  /** `line.words.map(…)`: the calls for each word, in order. */
  function WordsOps(line: Ocr.Line, words: seq<Ocr.Word>, ratio: real, debug: Pdf.Debug, measure: string -> real): seq<Pdf.Op>
  {
    if |words| == 0 then []
    else WordOps(line, words[0], ratio, debug, measure) + WordsOps(line, words[1..], ratio, debug, measure)
  }

  /** `drawOcrWord(doc, line, fontSize, ratio, { debug })`: nothing at all
      (not even the font size) when the line has no word list. An absent
      `debug` is `Unset`, whose default `false` draws no frame. */
  function DrawOcrWord(line: Ocr.Line, fontSize: real, ratio: real, debug: Pdf.Debug, measure: string -> real): (ops: seq<Pdf.Op>)
    ensures line.words.None? <==> ops == []
    ensures line.words.Some? ==> ops[0] == Pdf.SetFontSize(fontSize)
  {
    match line.words
    case None => []
    case Some(words) => [Pdf.SetFontSize(fontSize)] + WordsOps(line, words, ratio, debug, measure)
  }

  lemma {:induction false} WordsOpsAsLegacy(line: Ocr.Line, words: seq<Ocr.Word>, ratio: real, debug: Pdf.Debug, measure: string -> real)
    ensures WordsOps(line, words, ratio, debug, measure)
            == OcrWordLegacy.WordsOps(line, words, ratio, DrawsFrames(debug), measure)
  {
    if |words| > 0 {
      WordsOpsAsLegacy(line, words[1..], ratio, debug, measure);
      WordOpsAsLegacy(line, words[0], ratio, debug, measure);
    }
  }

  lemma WordOpsAsLegacy(line: Ocr.Line, word: Ocr.Word, ratio: real, debug: Pdf.Debug, measure: string -> real)
    ensures WordOps(line, word, ratio, debug, measure)
            == OcrWordLegacy.WordOps(line, word, ratio, DrawsFrames(debug), measure)
  {
    PositionAsLegacy(line, word, ratio, measure);
    var legacy := OcrWordLegacy.WordOps(line, word, ratio, DrawsFrames(debug), measure);
    assert legacy[0] == OcrWordLegacy.TextOp(line, word, ratio, measure);
  }

  /** The `positioning` record holds the first generation's position and
      spacing. */
  lemma PositionAsLegacy(line: Ocr.Line, word: Ocr.Word, ratio: real, measure: string -> real)
    ensures var p := Position(line, word, ratio, measure);
            && p.x == OcrWordLegacy.X(word, ratio) && p.y == OcrWordLegacy.Y(line, ratio)
            && p.charSpace == OcrWordLegacy.CharSpace(word.text, OcrWordLegacy.WordWidth(word, ratio), measure(word.text))
  {
  }

  /** The newer variant makes exactly the calls the first generation makes
      with `debug` set to whether the option lists `'debug'`: same positions,
      same spacing, same frames, same order. In particular the default draws
      no frames, where the first generation's default draws them. */
  lemma AsLegacy(line: Ocr.Line, fontSize: real, ratio: real, debug: Pdf.Debug, measure: string -> real)
    ensures DrawOcrWord(line, fontSize, ratio, debug, measure)
            == OcrWordLegacy.DrawOcrWord(line, fontSize, ratio, Some(DrawsFrames(debug)), measure)
    ensures DrawOcrWord(line, fontSize, ratio, Pdf.Unset, measure)
            == OcrWordLegacy.DrawOcrWord(line, fontSize, ratio, Some(false), measure)
  {
    if line.words.Some? {
      WordsOpsAsLegacy(line, line.words.value, ratio, debug, measure);
      WordsOpsAsLegacy(line, line.words.value, ratio, Pdf.Unset, measure);
    }
  }

  /** Exactly one text call per word, in order, carrying the computed
      spacing; with the default options there is nothing else after the font
      size. */
  lemma OneTextPerWord(line: Ocr.Line, fontSize: real, ratio: real, debug: Pdf.Debug, measure: string -> real)
    requires line.words.Some?
    ensures var ops := DrawOcrWord(line, fontSize, ratio, debug, measure);
            var words := line.words.value;
            && Pdf.Texts(ops) == seq(|words|, i requires 0 <= i < |words| => OcrWordLegacy.TextOp(line, words[i], ratio, measure))
            && (forall i :: 0 <= i < |words| ==>
                  OcrWordLegacy.TextOp(line, words[i], ratio, measure).options.charSpace == Some(Position(line, words[i], ratio, measure).charSpace))
            && (!DrawsFrames(debug) ==> |ops| == 1 + |words|)
  {
    var words := line.words.value;
    var ops := DrawOcrWord(line, fontSize, ratio, debug, measure);
    var rest := OcrWordLegacy.WordsOps(line, words, ratio, DrawsFrames(debug), measure);
    AsLegacy(line, fontSize, ratio, debug, measure);
    assert ops == [Pdf.SetFontSize(fontSize)] + rest;
    OcrWordLegacy.OneTextPerWord(line, words, ratio, DrawsFrames(debug), measure);
    Pdf.TextsAppend([Pdf.SetFontSize(fontSize)], rest);
    assert Pdf.Texts([Pdf.SetFontSize(fontSize)]) == [] by {
      assert [Pdf.SetFontSize(fontSize)][1..] == [];
    }
    assert Pdf.Texts(ops) == Pdf.Texts(rest);
    forall i | 0 <= i < |words|
      ensures OcrWordLegacy.TextOp(line, words[i], ratio, measure).options.charSpace
              == Some(Position(line, words[i], ratio, measure).charSpace)
    {
      SpacingIsPosition(line, words[i], ratio, measure);
    }
  }

  lemma SpacingIsPosition(line: Ocr.Line, word: Ocr.Word, ratio: real, measure: string -> real)
    ensures OcrWordLegacy.TextOp(line, word, ratio, measure).options.charSpace
            == Some(Position(line, word, ratio, measure).charSpace)
  {
  }
}

=== FILE: ocr_word_legacy.dfy ===
/** `drawOcrWord` of the first generation (`src/lib/drawOcrWord.ts`): the
    jsPDF calls that place one OCR line's words on the page, each word at its
    ratio-scaled box with a character spacing that stretches jsPDF's rendered
    width to the recognised width, and, unless disabled, a red debug frame.
    jsPDF's `getTextWidth` is the parameter `measure`. */
module OcrWordLegacy {
  import opened Wrappers
  import Ocr
  import Pdf
  import Seqs

  /** Left edge of a word on the page. */
  function X(word: Ocr.Word, ratio: real): real
  {
    word.bbox.x0 * ratio
  }

  /** Vertical position: the middle of the line's scaled baseline. */
  function Y(line: Ocr.Line, ratio: real): real
  {
    (line.baseline.y0 * ratio + line.baseline.y1 * ratio) / 2.0
  }

  /** Width of the recognised word on the page. */
  function WordWidth(word: Ocr.Word, ratio: real): real
  {
    (word.bbox.x1 - word.bbox.x0) * ratio
  }

  /** Extra space between characters: the difference between the recognised
      and the rendered width, spread over the `length - 1` gaps; 0 when there
      is no gap. */
  function CharSpace(text: string, wordWidth: real, rendered: real): (c: real)
    ensures |text| >= 2 ==> rendered + c * (|text| - 1) as real == wordWidth
    ensures |text| < 2 ==> c == 0.0
    ensures |text| >= 2 && rendered <= wordWidth ==> c >= 0.0
  {
    var gaps := |text| - 1;
    if gaps > 0 then (wordWidth - rendered) / gaps as real else 0.0
  }

  /** The text call for one word. */
  function TextOp(line: Ocr.Line, word: Ocr.Word, ratio: real, measure: string -> real): Pdf.Op
  {
    Pdf.Text(word.text, X(word, ratio), Y(line, ratio),
      Pdf.TextOptions(Some(CharSpace(word.text, WordWidth(word, ratio), measure(word.text))), None, None, None))
  }

  /** The red frame drawn around one word's scaled box in debug mode. */
  function FrameOps(word: Ocr.Word, ratio: real): (ops: seq<Pdf.Op>)
    ensures |ops| == 3 && ops[2].Rect?
    ensures ops[2].w == WordWidth(word, ratio) && ops[2].h == (word.bbox.y1 - word.bbox.y0) * ratio
  {
    [Pdf.SetDrawColor(255, 0, 0),
     Pdf.SetLineWidth(0.25),
     Pdf.Rect(word.bbox.x0 * ratio, word.bbox.y0 * ratio, (word.bbox.x1 - word.bbox.x0) * ratio, (word.bbox.y1 - word.bbox.y0) * ratio)]
  }

  /** The calls for one word: its text, then its frame in debug mode. */
  function WordOps(line: Ocr.Line, word: Ocr.Word, ratio: real, debug: bool, measure: string -> real): (ops: seq<Pdf.Op>)
    ensures |ops| == (if debug then 4 else 1)
    ensures ops[0] == TextOp(line, word, ratio, measure)
  {
    [TextOp(line, word, ratio, measure)] + (if debug then FrameOps(word, ratio) else [])
  }

  function WordsOps(line: Ocr.Line, words: seq<Ocr.Word>, ratio: real, debug: bool, measure: string -> real): (ops: seq<Pdf.Op>)
    ensures |ops| == |words| * (if debug then 4 else 1)
  {
    if |words| == 0 then []
    else WordOps(line, words[0], ratio, debug, measure) + WordsOps(line, words[1..], ratio, debug, measure)
  }

  /** `drawOcrWord(doc, line, fontSize, ratio, { debug })`; `debug` is `None`
      when the option is absent, and then defaults to `true`. */
  function DrawOcrWord(line: Ocr.Line, fontSize: real, ratio: real, debug: Option<bool>, measure: string -> real): (ops: seq<Pdf.Op>)
    ensures line.words.None? ==> ops == []
    ensures line.words.Some? ==> |ops| >= 1 && ops[0] == Pdf.SetFontSize(fontSize)
  {
    match line.words
    case None => []
    case Some(words) => [Pdf.SetFontSize(fontSize)] + WordsOps(line, words, ratio, debug.GetOr(true), measure)
  }

  /** The calls for word `i` form the `i`-th block of `k` calls, `k` being 4
      with frames and 1 without. */
  lemma {:induction false} WordsOpsBlock(line: Ocr.Line, words: seq<Ocr.Word>, ratio: real, debug: bool, measure: string -> real, i: nat)
    requires i < |words|
    ensures var k := if debug then 4 else 1;
            var ops := WordsOps(line, words, ratio, debug, measure);
            k * i + k <= |ops| && ops[k * i .. k * i + k] == WordOps(line, words[i], ratio, debug, measure)
  {
    var k := if debug then 4 else 1;
    var ops := WordsOps(line, words, ratio, debug, measure);
    var head := WordOps(line, words[0], ratio, debug, measure);
    var tail := WordsOps(line, words[1..], ratio, debug, measure);
    assert ops == head + tail;
    if i > 0 {
      WordsOpsBlock(line, words[1..], ratio, debug, measure, i - 1);
      BlockAfterHead(head, tail, k, i);
    } else {
      assert ops[0 .. k] == head;
    }
  }

  /** Block `i` of `k` elements behind a head of `k` elements is block
      `i - 1` of the rest. */
  lemma BlockAfterHead<T>(head: seq<T>, tail: seq<T>, k: nat, i: nat)
    requires |head| == k && i > 0 && k * (i - 1) + k <= |tail|
    ensures k * i + k <= |head + tail|
    ensures (head + tail)[k * i .. k * i + k] == tail[k * (i - 1) .. k * (i - 1) + k]
  {
    var lo := k * (i - 1);
    assert k * i == lo + k;
    Seqs.SliceAppend(head, tail, lo + k, lo + k + k);
  }

  /** A word's calls contain exactly one text call, its own. */
  lemma TextsOfWordOps(line: Ocr.Line, word: Ocr.Word, ratio: real, debug: bool, measure: string -> real)
    ensures Pdf.Texts(WordOps(line, word, ratio, debug, measure)) == [TextOp(line, word, ratio, measure)]
  {
    var head := WordOps(line, word, ratio, debug, measure);
    Pdf.TextsAppend([head[0]], head[1..]);
    assert [head[0]] + head[1..] == head;
    if debug {
      var f := FrameOps(word, ratio);
      assert head[1..] == f;
      assert f[1..][1..][1..] == [];
      assert Pdf.Texts(f[1..][1..]) == [];
      assert Pdf.Texts(f) == Pdf.Texts(f[1..]) == [];
    } else {
      assert head[1..] == [];
    }
  }

  /** Every word is drawn once, in order: the text calls are exactly one per
      word, at the word's scaled position and with its spacing. */
  lemma OneTextPerWord(line: Ocr.Line, words: seq<Ocr.Word>, ratio: real, debug: bool, measure: string -> real)
    ensures Pdf.Texts(WordsOps(line, words, ratio, debug, measure))
            == seq(|words|, i requires 0 <= i < |words| => TextOp(line, words[i], ratio, measure))
  {
    TextsAreTextOps(line, words, ratio, debug, measure);
  }

  /** The text call of every word, in order. */
  function TextOps(line: Ocr.Line, words: seq<Ocr.Word>, ratio: real, measure: string -> real): (ops: seq<Pdf.Op>)
    ensures |ops| == |words|
    ensures forall i :: 0 <= i < |words| ==> ops[i] == TextOp(line, words[i], ratio, measure)
  {
    if |words| == 0 then [] else [TextOp(line, words[0], ratio, measure)] + TextOps(line, words[1..], ratio, measure)
  }

  lemma {:induction false} TextsAreTextOps(line: Ocr.Line, words: seq<Ocr.Word>, ratio: real, debug: bool, measure: string -> real)
    ensures Pdf.Texts(WordsOps(line, words, ratio, debug, measure)) == TextOps(line, words, ratio, measure)
  {
    if |words| > 0 {
      Pdf.TextsAppend(WordOps(line, words[0], ratio, debug, measure), WordsOps(line, words[1..], ratio, debug, measure));
      TextsOfWordOps(line, words[0], ratio, debug, measure);
      TextsAreTextOps(line, words[1..], ratio, debug, measure);
    }
  }

  /** The font size is set once, as the first call, before any word. */
  lemma FontSizeSetOnce(line: Ocr.Line, fontSize: real, ratio: real, debug: Option<bool>, measure: string -> real)
    requires line.words.Some?
    ensures var ops := DrawOcrWord(line, fontSize, ratio, debug, measure);
            ops[0] == Pdf.SetFontSize(fontSize) && forall j :: 1 <= j < |ops| ==> !ops[j].SetFontSize?
  {
    var ops := DrawOcrWord(line, fontSize, ratio, debug, measure);
    var rest := WordsOps(line, line.words.value, ratio, debug.GetOr(true), measure);
    WordsSetNoFontSize(line, line.words.value, ratio, debug.GetOr(true), measure);
    assert ops == [Pdf.SetFontSize(fontSize)] + rest;
    forall j | 1 <= j < |ops|
      ensures !ops[j].SetFontSize?
    {
      assert ops[j] == rest[j - 1];
    }
  }

  lemma {:induction false} WordsSetNoFontSize(line: Ocr.Line, words: seq<Ocr.Word>, ratio: real, debug: bool, measure: string -> real)
    ensures forall j :: 0 <= j < |WordsOps(line, words, ratio, debug, measure)| ==>
              !WordsOps(line, words, ratio, debug, measure)[j].SetFontSize?
  {
    if |words| > 0 {
      WordsSetNoFontSize(line, words[1..], ratio, debug, measure);
      var head := WordOps(line, words[0], ratio, debug, measure);
      var tail := WordsOps(line, words[1..], ratio, debug, measure);
      var ops := WordsOps(line, words, ratio, debug, measure);
      assert ops == head + tail;
      assert forall j :: 0 <= j < |head| ==> !head[j].SetFontSize?;
      forall j | 0 <= j < |ops|
        ensures !ops[j].SetFontSize?
      {
        if j >= |head| {
          assert ops[j] == tail[j - |head|];
        }
      }
    }
  }

  /** In the default (debug) mode word `i` is followed by a red frame of its
      scaled box. */
  lemma DefaultDrawsFrames(line: Ocr.Line, fontSize: real, ratio: real, measure: string -> real, i: nat)
    requires line.words.Some? && i < |line.words.value|
    ensures var ops := DrawOcrWord(line, fontSize, ratio, None, measure);
            var w := line.words.value[i];
            && |ops| == 1 + 4 * |line.words.value|
            && ops[1 + 4 * i] == TextOp(line, w, ratio, measure)
            && ops[2 + 4 * i] == Pdf.SetDrawColor(255, 0, 0)
            && ops[3 + 4 * i] == Pdf.SetLineWidth(0.25)
            && ops[4 + 4 * i] == Pdf.Rect(X(w, ratio), w.bbox.y0 * ratio, WordWidth(w, ratio), (w.bbox.y1 - w.bbox.y0) * ratio)
  {
    WordsOpsBlock(line, line.words.value, ratio, true, measure, i);
  }

  /** With `debug: false` each word's only call is its text call. */
  lemma NoDebugOnlyTexts(line: Ocr.Line, fontSize: real, ratio: real, measure: string -> real)
    requires line.words.Some?
    ensures var ops := DrawOcrWord(line, fontSize, ratio, Some(false), measure);
            var words := line.words.value;
            |ops| == 1 + |words| &&
            forall i :: 0 <= i < |words| ==> ops[1 + i] == TextOp(line, words[i], ratio, measure)
  {
    var words := line.words.value;
    forall i | 0 <= i < |words|
      ensures DrawOcrWord(line, fontSize, ratio, Some(false), measure)[1 + i] == TextOp(line, words[i], ratio, measure)
    {
      WordsOpsBlock(line, words, ratio, false, measure, i);
    }
  }

  /** A line's calls stay on the current page. */
  lemma {:induction false} NeverAddsPages(line: Ocr.Line, words: seq<Ocr.Word>, ratio: real, debug: bool, measure: string -> real)
    ensures forall j :: 0 <= j < |WordsOps(line, words, ratio, debug, measure)| ==>
              WordsOps(line, words, ratio, debug, measure)[j] != Pdf.AddPage
  {
    if |words| > 0 {
      NeverAddsPages(line, words[1..], ratio, debug, measure);
      var head := WordOps(line, words[0], ratio, debug, measure);
      assert forall j :: 0 <= j < |head| ==> head[j] != Pdf.AddPage;
    }
  }
}

=== FILE: page_fit.dfy ===
/** `getDimensions` (`src/lib/getDimensions.ts`): scales an image to fit a
    page by the smaller of the two side ratios, keeping its aspect ratio. */
module PageFit {

  /** A width and a height. */
  datatype Size = Size(width: real, height: real)

  /** The fitted size and the scale that produced it. */
  datatype Fitted = Fitted(width: real, height: real, ratio: real)

  predicate Positive(s: Size)
  {
    s.width > 0.0 && s.height > 0.0
  }

  /** `getDimensions(dimensions, page)`; on a tie the width ratio is used. */
  function GetDimensions(dims: Size, page: Size): (f: Fitted)
    requires Positive(dims)
    ensures f.ratio <= page.width / dims.width && f.ratio <= page.height / dims.height
    ensures f.ratio == page.width / dims.width || f.ratio == page.height / dims.height
    ensures f.width == dims.width * f.ratio && f.height == dims.height * f.ratio
  {
    var widthRatio := page.width / dims.width;
    var heightRatio := page.height / dims.height;
    var ratio := if widthRatio > heightRatio then heightRatio else widthRatio;
    Fitted(dims.width * ratio, dims.height * ratio, ratio)
  }

  /** The fitted size keeps the input's aspect ratio. */
  lemma AspectPreserved(dims: Size, page: Size)
    requires Positive(dims)
    ensures var f := GetDimensions(dims, page);
            f.width * dims.height == f.height * dims.width
  {
    var f := GetDimensions(dims, page);
    calc {
      f.width * dims.height;
      (dims.width * f.ratio) * dims.height;
      (dims.height * f.ratio) * dims.width;
      f.height * dims.width;
    }
  }

  /** For a positive page the fitted size lies within the page and touches
      it on at least one side. */
  lemma FitsPage(dims: Size, page: Size)
    requires Positive(dims) && Positive(page)
    ensures var f := GetDimensions(dims, page);
            && 0.0 < f.width <= page.width && 0.0 < f.height <= page.height
            && (f.width == page.width || f.height == page.height)
  {
    var f := GetDimensions(dims, page);
    WithinSide(dims.width, page.width, f.ratio);
    WithinSide(dims.height, page.height, f.ratio);
  }

  /** A side `d` scaled by a positive factor `r` no larger than `p / d`
      stays within `p`, and reaches it exactly at `r == p / d`. */
  lemma WithinSide(d: real, p: real, r: real)
    requires d > 0.0 && p > 0.0 && 0.0 < r <= p / d
    ensures 0.0 < d * r <= p
    ensures r == p / d ==> d * r == p
  {
  }

  /** A page-sized input is left unchanged with ratio 1. */
  lemma PageSizedUnchanged(page: Size)
    requires Positive(page)
    ensures GetDimensions(page, page) == Fitted(page.width, page.height, 1.0)
  {
  }

  /** Scaling the input by `c` leaves the fitted size unchanged and divides
      the ratio by `c`. */
  lemma ScaleInvariant(dims: Size, page: Size, c: real)
    requires Positive(dims) && c > 0.0
    ensures var f := GetDimensions(dims, page);
            var g := GetDimensions(Size(dims.width * c, dims.height * c), page);
            g.width == f.width && g.height == f.height && g.ratio * c == f.ratio
  {
    var f := GetDimensions(dims, page);
    var scaled := Size(dims.width * c, dims.height * c);
    var g := GetDimensions(scaled, page);
    assert g.ratio == f.ratio / c;
    assert g.width == dims.width * c * (f.ratio / c);
    assert g.height == dims.height * c * (f.ratio / c);
  }
}

=== FILE: paper.dfy ===
/** Paper and margin constants of the first generation
    (`src/lib/constants.ts`): the Letter sheet in pixels at 300 DPI, the
    default one-inch margin, and the named margins a caller may give instead
    of a number of pixels. */
module Paper {
  import opened Wrappers

  /** `DEFAULT_MARGIN`: one inch at 300 DPI. */
  const DefaultMargin: real := 300.0

  /** `PAPER_DIMENSIONS.LETTER`. */
  const LetterWidth: real := 2551.0
  const LetterHeight: real := 3295.0

  const DefaultFormat: string := "Letter"

  /** `IMargin | number`: one of the names in `MARGINS` (`'None'` is
      `NoMargin` here), or a number of pixels. */
  datatype Margin = Standard | Thin | NoMargin | Pixels(px: real)

  /** A width and a height in pixels. */
  datatype Sheet = Sheet(width: real, height: real)

  /** `MARGIN_MAP[margin]` for a name, the number itself otherwise; every
      copy of the map in the code has these three entries. */
  function MarginPixels(m: Margin, defaultMargin: real): real
  {
    match m
    case Standard => defaultMargin
    case Thin => defaultMargin / 2.0
    case NoMargin => 0.0
    case Pixels(px) => px
  }

  /** The named margins: half an inch is half of one inch, and no margin is
      the smallest, whatever the default is (when it is not negative). */
  lemma NamedMarginsOrdered(defaultMargin: real)
    requires defaultMargin >= 0.0
    ensures MarginPixels(NoMargin, defaultMargin) <= MarginPixels(Thin, defaultMargin) <= MarginPixels(Standard, defaultMargin)
    ensures 2.0 * MarginPixels(Thin, defaultMargin) == MarginPixels(Standard, defaultMargin)
    ensures MarginPixels(Pixels(defaultMargin), defaultMargin) == MarginPixels(Standard, defaultMargin)
  {
  }

  /** ASCII `toUpperCase` of one character. */
  function Upper(c: char): char
  {
    if 'a' <= c <= 'z' then (c as int - 32) as char else c
  }

  /** `toUpperCase`, on ASCII letters. */
  function ToUpper(s: string): (r: string)
    ensures |r| == |s|
    ensures forall i :: 0 <= i < |s| ==> r[i] == Upper(s[i])
  {
    seq(|s|, i requires 0 <= i < |s| => Upper(s[i]))
  }

  /** `PAPER_DIMENSIONS[format.toUpperCase()]`: the only key is `LETTER`;
      any other format has no entry. */
  function Lookup(format: string): (r: Option<Sheet>)
    ensures r.Some? <==> ToUpper(format) == "LETTER"
    ensures r.Some? ==> r.value == Sheet(LetterWidth, LetterHeight)
  {
    if ToUpper(format) == "LETTER" then Some(Sheet(LetterWidth, LetterHeight)) else None
  }

  /** The lookup ignores the case of the format name. */
  lemma LookupIgnoresCase(a: string, b: string)
    requires ToUpper(a) == ToUpper(b)
    ensures Lookup(a) == Lookup(b)
  {
  }

  /** The default format, however it is spelt, names the Letter sheet. */
  lemma DefaultFormatIsLetter()
    ensures Lookup(DefaultFormat) == Some(Sheet(LetterWidth, LetterHeight))
    ensures Lookup("letter") == Lookup("LETTER") == Lookup(DefaultFormat)
  {
    assert ToUpper(DefaultFormat) == "LETTER";
    assert ToUpper("letter") == "LETTER";
    assert ToUpper("LETTER") == "LETTER";
  }
}

=== FILE: pdf.dfy ===
/** The jsPDF calls the drawing code makes, recorded as values. A drawing
    function of the model returns the sequence of calls it would make on the
    document, in order; jsPDF's own rendering is outside the model. */
module Pdf {
  import opened Wrappers
  import Seqs

  /** The options object passed to `doc.text`; an absent field is `None`. */
  datatype TextOptions = TextOptions(
    charSpace: Option<real>,
    baseline: Option<string>,
    align: Option<string>,
    renderingMode: Option<string>)

  /** One call on a jsPDF document. */
  datatype Op =
    | SetFontSize(size: real)
    | Text(text: string, x: real, y: real, options: TextOptions)
    | SetDrawColor(r: int, g: int, b: int)
    | SetLineWidth(width: real)
    | Rect(x: real, y: real, w: real, h: real)
    | SetTextColor(color: string)
    | AddImage(x: real, y: real, width: real, height: real)
    | AddPage

  /** The `debug` option as the drawing helpers receive it: absent, a
      boolean, one log level, or an array of log levels. */
  datatype Debug = Unset | Flag(on: bool) | Level(name: string) | Levels(names: seq<string>)

  /** `Array.isArray(debug) && debug.includes(level)`. */
  predicate Lists(debug: Debug, level: string)
  {
    debug.Levels? && level in debug.names
  }

  /** Text rendering modes by the names jsPDF accepts, numbered as in
      section 9.3.6 of ISO 32000-1 (table 106, the `Tr` operator). */
  function RenderingModeNumber(name: string): (r: Option<nat>)
    ensures r.Some? ==> r.value <= 7
    ensures name == "invisible" ==> r == Some(3)
    ensures name == "fill" ==> r == Some(0)
  {
    match name
    case "fill" => Some(0)
    case "stroke" => Some(1)
    case "fillThenStroke" => Some(2)
    case "invisible" => Some(3)
    case "fillAndAddForClipping" => Some(4)
    case "strokeAndAddForClipping" => Some(5)
    case "fillThenStrokeAndAddForClipping" => Some(6)
    case "addToPathForClipping" => Some(7)
    case _ => None
  }

  predicate IsText(op: Op)
  {
    op.Text?
  }

  /** The text calls of a call sequence, in order. */
  function Texts(ops: seq<Op>): (r: seq<Op>)
    ensures |r| <= |ops|
    ensures forall i :: 0 <= i < |r| ==> r[i].Text?
  {
    Seqs.Filter(IsText, ops)
  }

  lemma TextsAppend(a: seq<Op>, b: seq<Op>)
    ensures Texts(a + b) == Texts(a) + Texts(b)
  {
    Seqs.FilterAppend(IsText, a, b);
  }
}

=== FILE: pdf_worker.dfy ===
/** The PDF web worker (`src/lib/workers/pdfWorker.ts`) as a function from a
    job description to the trace of what the worker does: the messages it
    posts, the pages it processes, the canvases it releases, its
    garbage-collection hints and the termination of the OCR worker. Clocks,
    canvases, OCR and jsPDF are outside: the per-page durations and the point
    (if any) where something throws are inputs. */
module PdfWorker {
  import opened Wrappers
  import Seqs
  import Text
  import Pdf
  import Ocr
  import Config
  import OcrFromBlocks

  /** A message posted to the main thread (`PdfWorkerOutput`); the timestamp,
      the metrics and the serialised buffer are left out. */
  datatype Message =
    | Pending(progress: real, pageNumber: Option<nat>, totalPages: Option<nat>, stage: string, eta: Option<real>)
    | Done
    | Error(message: string)

  /** What the worker does, in order. */
  datatype Event =
    | Post(message: Message)
    | ProcessPage(index: nat)
    | ReleaseCanvases(index: nat)
    | CollectGarbage
    | TerminateOcr

  /** Where an exception is thrown: creating the OCR worker, the document or
      the canvases; paginating; processing a page; terminating the OCR
      worker; or serialising and posting the document. */
  datatype FailurePoint = Setup | Pagination | AtPage(index: nat) | Termination | Output

  /** An exception, with the message the `catch` block reports
      (`error.message`, or `String(error)` for a non-`Error`). */
  datatype Failure = Failure(point: FailurePoint, message: string)

  /** A job: how many pages pagination produced, the `autoPaginate` option,
      the measured duration of each page, and the exception (if any). */
  datatype Job = Job(cropped: nat, autoPaginate: bool, durations: seq<real>, failure: Option<Failure>)

  /** `pages.length`: every cropped page, or just `[cropped[0]]`. */
  function PageCount(job: Job): nat
  {
    if job.autoPaginate then job.cropped else 1
  }

  /** With `autoPaginate` off and nothing cropped, `pages` is `[undefined]`,
      and destructuring it as a canvas pair throws. */
  predicate MissingFirstPage(job: Job)
  {
    !job.autoPaginate && job.cropped == 0
  }

  predicate FailsAt(job: Job, p: FailurePoint)
  {
    job.failure.Some? && job.failure.value.point == p
  }

  /** Whether the job gets past setup and pagination into the page loop. */
  predicate EntersLoop(job: Job)
  {
    !FailsAt(job, Setup) && !FailsAt(job, Pagination)
  }

  /** How many pages are completed: all of them, or those before the first
      page that throws. */
  function Completed(job: Job): (k: nat)
    ensures k <= PageCount(job)
  {
    if MissingFirstPage(job) then 0
    else if job.failure.Some? && job.failure.value.point.AtPage? && job.failure.value.point.index < PageCount(job)
    then job.failure.value.point.index
    else PageCount(job)
  }

  /** Whether every page is completed, so that the OCR worker is reached. */
  predicate FinishesLoop(job: Job)
  {
    EntersLoop(job) && Completed(job) == PageCount(job) && !MissingFirstPage(job)
  }

  /** Whether nothing throws at all. */
  predicate Succeeds(job: Job)
  {
    FinishesLoop(job) && !FailsAt(job, Termination) && !FailsAt(job, Output)
  }

  /** `pageProgress = 0.3 + (0.6 * (pageIndex + 1)) / totalPages`. */
  function PageProgress(i: nat, n: nat): real
    requires i < n
  {
    0.3 + (0.6 * (i + 1) as real) / n as real
  }

  /** `eta = averageMs * pagesRemaining`, the average taken over the pages
      completed so far. */
  function Eta(durations: seq<real>, i: nat, n: nat): real
    requires i < n && i < |durations|
  {
    Seqs.Mean(durations[..i + 1]) * (n - (i + 1)) as real
  }

  /** The progress message posted after page `i` of `n`. */
  function PageMessage(durations: seq<real>, i: nat, n: nat): (m: Message)
    requires i < n && i < |durations|
    ensures m.Pending? && m.progress == PageProgress(i, n)
  {
    Pending(PageProgress(i, n), Some(i + 1), Some(n),
            "Processing page " + Text.NatToString(i + 1) + "...", Some(Eta(durations, i, n)))
  }

  /** The loop body for page `i` of `n`. */
  function PageEvents(durations: seq<real>, i: nat, n: nat): (es: seq<Event>)
    requires i < n && i < |durations|
  {
    [ProcessPage(i), Post(PageMessage(durations, i, n)), ReleaseCanvases(i)]
    + (if i % Config.BatchSize == 0 then [CollectGarbage] else [])
  }

  /** The loop bodies for pages `0 .. k - 1`. */
  function LoopEvents(durations: seq<real>, k: nat, n: nat): seq<Event>
    requires k <= n && k <= |durations|
  {
    if k == 0 then [] else LoopEvents(durations, k - 1, n) + PageEvents(durations, k - 1, n)
  }

  function Fail(message: string): seq<Event>
  {
    [Post(Error(message))]
  }

  /** The three progress messages before the page loop. */
  const InitEvent: Event := Post(Pending(0.1, None, None, "Initializing worker...", None))
  const PrepareEvent: Event := Post(Pending(0.2, None, None, "Preparing pages...", None))

  function ProcessingEvent(n: nat): Event
  {
    Post(Pending(0.3, Some(1), Some(n), "Processing pages...", None))
  }

  /** The progress message once the OCR worker is terminated. */
  function GeneratingEvent(n: nat): Event
  {
    Post(Pending(0.95, Some(n), Some(n), "Generating PDF...", None))
  }

  /** After the loop: terminate the OCR worker, report 0.95, serialise and
      post the document. */
  function Finish(job: Job, n: nat): seq<Event>
  {
    [TerminateOcr]
    + if FailsAt(job, Termination) then Fail(job.failure.value.message)
      else [GeneratingEvent(n)]
           + if FailsAt(job, Output) then Fail(job.failure.value.message)
             else [Post(Done)]
  }

  /** What follows the page loop: the exception of the failing page, or the
      finish. */
  function AfterLoop(job: Job): seq<Event>
    requires !MissingFirstPage(job)
  {
    if Completed(job) < PageCount(job) then Fail(job.failure.value.message) else Finish(job, PageCount(job))
  }

  /** The `try` block of `self.onmessage`, with its `catch`.
      `typeError` is the engine's message for destructuring `undefined`.
      Its outcomes are stated by `AttemptCases`, `AttemptShape` and
      `AttemptProgresses`. */
  function Attempt(job: Job, typeError: string): seq<Event>
    requires |job.durations| >= PageCount(job)
  {
    var n := PageCount(job);
    [InitEvent]
    + if FailsAt(job, Setup) then Fail(job.failure.value.message)
      else [PrepareEvent]
           + if FailsAt(job, Pagination) then Fail(job.failure.value.message)
             else [ProcessingEvent(n)]
                  + if MissingFirstPage(job) then Fail(typeError)
                    else LoopEvents(job.durations, Completed(job), n) + AfterLoop(job)
  }

  /** `self.onmessage`: the attempt, then the `finally` hint. */
  function Run(job: Job, typeError: string): (es: seq<Event>)
    requires |job.durations| >= PageCount(job)
    ensures |es| >= 3 && es[|es| - 1] == CollectGarbage
    ensures es[0] == InitEvent
  {
    Attempt(job, typeError) + [CollectGarbage]
  }

  /** The attempt of a job that fails before the page loop, or at its
      missing first page. */
  lemma AttemptEarly(job: Job, typeError: string)
    requires |job.durations| >= PageCount(job)
    ensures var a := Attempt(job, typeError);
            && (FailsAt(job, Setup) ==> a == [InitEvent] + Fail(job.failure.value.message))
            && (FailsAt(job, Pagination) ==> a == [InitEvent, PrepareEvent] + Fail(job.failure.value.message))
            && (EntersLoop(job) && MissingFirstPage(job) ==>
                  a == [InitEvent, PrepareEvent, ProcessingEvent(PageCount(job))] + Fail(typeError))
  {
  }

  /** The attempt of a job that runs the page loop. */
  lemma AttemptLoop(job: Job, typeError: string)
    requires |job.durations| >= PageCount(job)
    requires EntersLoop(job) && !MissingFirstPage(job)
    ensures Attempt(job, typeError)
            == [InitEvent, PrepareEvent, ProcessingEvent(PageCount(job))]
               + (LoopEvents(job.durations, Completed(job), PageCount(job)) + AfterLoop(job))
  {
  }

  /** The four ways the attempt can go. */
  lemma AttemptCases(job: Job, typeError: string)
    requires |job.durations| >= PageCount(job)
    ensures var a := Attempt(job, typeError);
            var n := PageCount(job);
            && (FailsAt(job, Setup) ==> a == [InitEvent] + Fail(job.failure.value.message))
            && (FailsAt(job, Pagination) ==> a == [InitEvent, PrepareEvent] + Fail(job.failure.value.message))
            && (EntersLoop(job) && MissingFirstPage(job) ==>
                  a == [InitEvent, PrepareEvent, ProcessingEvent(n)] + Fail(typeError))
            && (EntersLoop(job) && !MissingFirstPage(job) ==>
                  a == [InitEvent, PrepareEvent, ProcessingEvent(n)]
                       + (LoopEvents(job.durations, Completed(job), n) + AfterLoop(job)))
  {
    AttemptEarly(job, typeError);
    if EntersLoop(job) && !MissingFirstPage(job) {
      AttemptLoop(job, typeError);
    }
  }

  // ---------------------------------------------------------------------
  // Terminal messages

  predicate IsTerminal(e: Event)
  {
    e.Post? && !e.message.Pending?
  }

  predicate NoTerminal(es: seq<Event>)
  {
    forall i :: 0 <= i < |es| ==> !IsTerminal(es[i])
  }

  lemma {:induction false} LoopNoTerminal(durations: seq<real>, k: nat, n: nat)
    requires k <= n && k <= |durations|
    ensures NoTerminal(LoopEvents(durations, k, n))
  {
    if k > 0 {
      LoopNoTerminal(durations, k - 1, n);
    }
  }

  /** The message the `catch` block posts for a failing job. */
  function FailureMessage(job: Job, typeError: string): string
  {
    if EntersLoop(job) && MissingFirstPage(job) then typeError
    else if job.failure.Some? then job.failure.value.message
    else ""
  }

  /** Putting non-terminal events in front keeps "only the last event may
      be terminal". */
  lemma Extend(pre: seq<Event>, t: seq<Event>)
    requires NoTerminal(pre) && |t| >= 1 && NoTerminal(t[..|t| - 1])
    ensures var a := pre + t;
            |a| == |pre| + |t| && NoTerminal(a[..|a| - 1]) && a[|a| - 1] == t[|t| - 1]
  {
    var a := pre + t;
    assert a[..|a| - 1] == pre + t[..|t| - 1];
  }

  /** The same with two non-terminal parts in front. */
  lemma Extend2(pre: seq<Event>, mid: seq<Event>, t: seq<Event>)
    requires NoTerminal(pre) && NoTerminal(mid) && |t| >= 1 && NoTerminal(t[..|t| - 1])
    ensures var a := pre + (mid + t);
            |a| >= |pre| + 1 && NoTerminal(a[..|a| - 1]) && a[|a| - 1] == t[|t| - 1]
  {
    Extend(mid, t);
    Extend(pre, mid + t);
  }

  /** What follows the page loop ends with the one terminal message. */
  lemma AfterLoopShape(job: Job, typeError: string)
    requires EntersLoop(job) && !MissingFirstPage(job)
    ensures var t := AfterLoop(job);
            |t| >= 1 && NoTerminal(t[..|t| - 1])
            && t[|t| - 1] == Post(if Succeeds(job) then Done else Error(FailureMessage(job, typeError)))
  {
    var t := AfterLoop(job);
    var n := PageCount(job);
    if Completed(job) < n {
      assert t[..|t| - 1] == [];
    } else if FailsAt(job, Termination) {
      assert t[..|t| - 1] == [TerminateOcr];
    } else if FailsAt(job, Output) {
      assert t[..|t| - 1] == [TerminateOcr, GeneratingEvent(n)];
    } else {
      assert t[..|t| - 1] == [TerminateOcr, GeneratingEvent(n)];
    }
  }

  /** The attempt of a job that fails before the page loop (or at its
      missing first page) ends with its one terminal message. */
  lemma EarlyShape(job: Job, typeError: string)
    requires |job.durations| >= PageCount(job)
    requires !EntersLoop(job) || MissingFirstPage(job)
    ensures var a := Attempt(job, typeError);
            |a| >= 2 && NoTerminal(a[..|a| - 1])
            && a[|a| - 1] == Post(if Succeeds(job) then Done else Error(FailureMessage(job, typeError)))
  {
    var n := PageCount(job);
    AttemptEarly(job, typeError);
    if FailsAt(job, Setup) {
      Extend([InitEvent], Fail(job.failure.value.message));
    } else if FailsAt(job, Pagination) {
      Extend([InitEvent, PrepareEvent], Fail(job.failure.value.message));
    } else {
      Extend([InitEvent, PrepareEvent, ProcessingEvent(n)], Fail(typeError));
    }
  }

  /** The attempt of a job that runs the page loop ends with its one
      terminal message. */
  lemma LoopShape(job: Job, typeError: string)
    requires |job.durations| >= PageCount(job)
    requires EntersLoop(job) && !MissingFirstPage(job)
    ensures var a := Attempt(job, typeError);
            |a| >= 2 && NoTerminal(a[..|a| - 1])
            && a[|a| - 1] == Post(if Succeeds(job) then Done else Error(FailureMessage(job, typeError)))
  {
    var n := PageCount(job);
    AttemptLoop(job, typeError);
    var loop := LoopEvents(job.durations, Completed(job), n);
    LoopNoTerminal(job.durations, Completed(job), n);
    AfterLoopShape(job, typeError);
    Extend2([InitEvent, PrepareEvent, ProcessingEvent(n)], loop, AfterLoop(job));
  }

  /** The attempt ends with its one terminal message. */
  lemma AttemptShape(job: Job, typeError: string)
    requires |job.durations| >= PageCount(job)
    ensures var a := Attempt(job, typeError);
            |a| >= 2 && NoTerminal(a[..|a| - 1])
            && a[|a| - 1] == Post(if Succeeds(job) then Done else Error(FailureMessage(job, typeError)))
  {
    if EntersLoop(job) && !MissingFirstPage(job) {
      LoopShape(job, typeError);
    } else {
      EarlyShape(job, typeError);
    }
  }

  /** A run whose attempt has one terminal message, at its end, holds
      exactly one: the garbage-collection hint after it is not one. */
  lemma OneTerminalAtEnd(a: seq<Event>)
    requires |a| >= 1 && NoTerminal(a[..|a| - 1]) && IsTerminal(a[|a| - 1])
    ensures |Seqs.Filter(IsTerminal, a + [CollectGarbage])| == 1
    ensures (a + [CollectGarbage])[|a + [CollectGarbage]| - 2] == a[|a| - 1]
  {
    var pre := a[..|a| - 1];
    Seqs.FilterNone(IsTerminal, pre);
    assert a == pre + [a[|a| - 1]];
    Seqs.FilterAppend(IsTerminal, pre, [a[|a| - 1]]);
    Seqs.FilterAppend(IsTerminal, a, [CollectGarbage]);
    assert Seqs.Filter(IsTerminal, [CollectGarbage]) == [];
    assert Seqs.Filter(IsTerminal, [a[|a| - 1]]) == [a[|a| - 1]];
  }

  /** Exactly one terminal message is posted, just before the final
      garbage-collection hint: `Done` when nothing throws, otherwise `Error`
      with the thrown message. */
  lemma OneTerminalMessage(job: Job, typeError: string)
    requires |job.durations| >= PageCount(job)
    ensures var es := Run(job, typeError);
            && |Seqs.Filter(IsTerminal, es)| == 1
            && es[|es| - 2] == Post(if Succeeds(job) then Done else Error(FailureMessage(job, typeError)))
  {
    AttemptShape(job, typeError);
    OneTerminalAtEnd(Attempt(job, typeError));
  }

  /** With `autoPaginate` off and no cropped page the job ends in `Error`
      (unless an earlier failure already did). */
  lemma MissingPageFails(job: Job, typeError: string)
    requires |job.durations| >= PageCount(job)
    requires MissingFirstPage(job) && EntersLoop(job)
    ensures var es := Run(job, typeError);
            es[|es| - 2] == Post(Error(typeError)) && !Succeeds(job)
  {
    OneTerminalMessage(job, typeError);
  }

  // ---------------------------------------------------------------------
  // Counting events: OCR termination, garbage-collection hints, pages

  /** The number of page indices below `k` that are multiples of the batch
      size. */
  function BatchStarts(k: nat): nat
  {
    (k + Config.BatchSize - 1) / Config.BatchSize
  }

  lemma PageCollects(durations: seq<real>, i: nat, n: nat)
    requires i < n && i < |durations|
    ensures Seqs.Count(CollectGarbage, PageEvents(durations, i, n)) == (if i % Config.BatchSize == 0 then 1 else 0)
  {
    var body := [ProcessPage(i), Post(PageMessage(durations, i, n)), ReleaseCanvases(i)];
    var gc: seq<Event> := if i % Config.BatchSize == 0 then [CollectGarbage] else [];
    Seqs.CountAppend(CollectGarbage, body, gc);
  }

  lemma PageProcesses(durations: seq<real>, i: nat, n: nat, j: nat)
    requires i < n && i < |durations|
    ensures Seqs.Count(ProcessPage(j), PageEvents(durations, i, n)) == (if j == i then 1 else 0)
  {
    var rest := PageEvents(durations, i, n)[1..];
    assert PageEvents(durations, i, n) == [ProcessPage(i)] + rest;
    Seqs.CountAppend(ProcessPage(j), [ProcessPage(i)], rest);
  }

  lemma {:induction false} LoopTerminates(durations: seq<real>, k: nat, n: nat)
    requires k <= n && k <= |durations|
    ensures TerminateOcr !in LoopEvents(durations, k, n)
  {
    if k > 0 {
      LoopTerminates(durations, k - 1, n);
    }
  }

  lemma {:induction false} LoopCollects(durations: seq<real>, k: nat, n: nat)
    requires k <= n && k <= |durations|
    ensures Seqs.Count(CollectGarbage, LoopEvents(durations, k, n)) == BatchStarts(k)
  {
    if k > 0 {
      var prev := LoopEvents(durations, k - 1, n);
      var page := PageEvents(durations, k - 1, n);
      assert LoopEvents(durations, k, n) == prev + page;
      LoopCollects(durations, k - 1, n);
      Seqs.CountAppend(CollectGarbage, prev, page);
      PageCollects(durations, k - 1, n);
      BatchStartsStep(k - 1);
    }
  }

  lemma BatchStartsStep(k: nat)
    ensures BatchStarts(k + 1) == BatchStarts(k) + (if k % Config.BatchSize == 0 then 1 else 0)
  {
  }

  lemma {:induction false} LoopProcesses(durations: seq<real>, k: nat, n: nat, j: nat)
    requires k <= n && k <= |durations|
    ensures Seqs.Count(ProcessPage(j), LoopEvents(durations, k, n)) == (if j < k then 1 else 0)
  {
    if k > 0 {
      var prev := LoopEvents(durations, k - 1, n);
      var page := PageEvents(durations, k - 1, n);
      assert LoopEvents(durations, k, n) == prev + page;
      LoopProcesses(durations, k - 1, n, j);
      Seqs.CountAppend(ProcessPage(j), prev, page);
      PageProcesses(durations, k - 1, n, j);
    }
  }

  lemma AfterLoopCounts(job: Job, j: nat)
    requires !MissingFirstPage(job)
    ensures var tail := AfterLoop(job);
            && Seqs.Count(TerminateOcr, tail) == (if Completed(job) < PageCount(job) then 0 else 1)
            && Seqs.Count(CollectGarbage, tail) == 0
            && Seqs.Count(ProcessPage(j), tail) == 0
  {
    if Completed(job) == PageCount(job) {
      FinishCounts(job, PageCount(job), j);
    }
  }

  /** The finish terminates the OCR worker once, and neither hints at
      garbage collection nor processes a page. */
  lemma FinishCounts(job: Job, n: nat, j: nat)
    ensures var tail := Finish(job, n);
            && Seqs.Count(TerminateOcr, tail) == 1
            && Seqs.Count(CollectGarbage, tail) == 0
            && Seqs.Count(ProcessPage(j), tail) == 0
  {
    var tail := Finish(job, n);
    Seqs.CountAppend(TerminateOcr, [TerminateOcr], tail[1..]);
    assert tail == [TerminateOcr] + tail[1..];
  }

  /** Occurrences of a non-message event in a run: none before the page
      loop or in a `catch`, so those of the loop, those after it, and the
      final hint. */
  lemma RunCount(job: Job, typeError: string, e: Event)
    requires |job.durations| >= PageCount(job) && !e.Post?
    ensures Seqs.Count(e, Run(job, typeError))
            == (if EntersLoop(job) && !MissingFirstPage(job)
                then Seqs.Count(e, LoopEvents(job.durations, Completed(job), PageCount(job))) + Seqs.Count(e, AfterLoop(job))
                else 0)
               + (if e == CollectGarbage then 1 else 0)
  {
    var a := Attempt(job, typeError);
    Seqs.CountAppend(e, a, [CollectGarbage]);
    if EntersLoop(job) && !MissingFirstPage(job) {
      LoopCount(job, typeError, e);
    } else {
      EarlyCount(job, typeError, e);
    }
  }

  /** An attempt that fails before the page loop posts messages only. */
  lemma EarlyCount(job: Job, typeError: string, e: Event)
    requires |job.durations| >= PageCount(job) && !e.Post?
    requires !EntersLoop(job) || MissingFirstPage(job)
    ensures Seqs.Count(e, Attempt(job, typeError)) == 0
  {
    AttemptEarly(job, typeError);
  }

  /** Apart from posted messages, an attempt that runs the page loop does
      what the loop and what follows it do. */
  lemma LoopCount(job: Job, typeError: string, e: Event)
    requires |job.durations| >= PageCount(job) && !e.Post?
    requires EntersLoop(job) && !MissingFirstPage(job)
    ensures Seqs.Count(e, Attempt(job, typeError))
            == Seqs.Count(e, LoopEvents(job.durations, Completed(job), PageCount(job))) + Seqs.Count(e, AfterLoop(job))
  {
    var n := PageCount(job);
    AttemptLoop(job, typeError);
    var loop := LoopEvents(job.durations, Completed(job), n);
    Seqs.CountAppend(e, [InitEvent, PrepareEvent, ProcessingEvent(n)], loop + AfterLoop(job));
    Seqs.CountAppend(e, loop, AfterLoop(job));
  }

  /** The OCR worker is terminated once when every page is completed, and
      never otherwise: a failure during setup, pagination or a page leaves it
      running. */
  lemma TerminatedOnlyAfterAllPages(job: Job, typeError: string)
    requires |job.durations| >= PageCount(job)
    ensures Seqs.Count(TerminateOcr, Run(job, typeError)) == (if FinishesLoop(job) then 1 else 0)
    ensures Succeeds(job) ==> FinishesLoop(job)
  {
    RunCount(job, typeError, TerminateOcr);
    if EntersLoop(job) && !MissingFirstPage(job) {
      LoopTerminates(job.durations, Completed(job), PageCount(job));
      AfterLoopCounts(job, 0);
    }
  }

  /** A hint follows every completed page whose index is a multiple of
      `BATCH_SIZE` (pages 1, 6, 11, … counting from 1), plus one in `finally`
      on every exit. */
  lemma CollectCadence(job: Job, typeError: string)
    requires |job.durations| >= PageCount(job)
    ensures Seqs.Count(CollectGarbage, Run(job, typeError))
            == (if EntersLoop(job) && !MissingFirstPage(job) then BatchStarts(Completed(job)) else 0) + 1
    ensures Succeeds(job) && job.autoPaginate && job.cropped == 11 ==> Seqs.Count(CollectGarbage, Run(job, typeError)) == 4
  {
    RunCount(job, typeError, CollectGarbage);
    if EntersLoop(job) && !MissingFirstPage(job) {
      LoopCollects(job.durations, Completed(job), PageCount(job));
      AfterLoopCounts(job, 0);
    }
    assert BatchStarts(11) == 3;
  }

  /** Each page up to the first failing one is processed exactly once, and
      no other; with `autoPaginate` off at most the first cropped page is. */
  lemma PagesProcessedOnce(job: Job, typeError: string, i: nat)
    requires |job.durations| >= PageCount(job)
    ensures var k := if EntersLoop(job) && !MissingFirstPage(job) then Completed(job) else 0;
            Seqs.Count(ProcessPage(i), Run(job, typeError)) == (if i < k then 1 else 0)
    ensures !job.autoPaginate && i > 0 ==> ProcessPage(i) !in Run(job, typeError)
  {
    RunCount(job, typeError, ProcessPage(i));
    if EntersLoop(job) && !MissingFirstPage(job) {
      LoopProcesses(job.durations, Completed(job), PageCount(job), i);
      AfterLoopCounts(job, i);
    }
  }

  /** Pagination in the worker as written: `src/lib/utils/getPaginatedCanvases.ts`
      cuts each page with `src/lib/utils/cropCanvas.ts`, whose
      `document.createElement` throws a `ReferenceError` where there is no
      `document`, as in a worker. So a job fails at pagination whenever
      pagination cuts a page. */
  predicate CropsInWorker(job: Job)
  {
    job.cropped >= 1 ==> FailsAt(job, Pagination)
  }

  /** Hence, as written, no job ever processes a page, and only a job that
      paginates automatically and cuts nothing can post `Done`. */
  lemma AsWrittenNoPageProcessed(job: Job, typeError: string, i: nat)
    requires |job.durations| >= PageCount(job)
    requires CropsInWorker(job)
    ensures ProcessPage(i) !in Run(job, typeError)
    ensures Succeeds(job) ==> job.autoPaginate && job.cropped == 0
  {
    PagesProcessedOnce(job, typeError, i);
  }

  // ---------------------------------------------------------------------
  // Progress and ETA

  /** Page progress increases with the page index, stays above the 0.3 of
      setup, and reaches exactly 0.9 on the last page. */
  lemma PageProgressIncreasing(i: nat, j: nat, n: nat)
    requires i <= j < n
    ensures 0.3 < PageProgress(i, n) <= PageProgress(j, n) <= 0.9
    ensures i < j ==> PageProgress(i, n) < PageProgress(j, n)
    ensures PageProgress(n - 1, n) == 0.9
  {
    var N := n as real;
    var x := 0.6 * (i + 1) as real;
    var y := 0.6 * (j + 1) as real;
    DivideOrder(x, y, N);
    Seqs.ScaledBounds(y, N, 0.0, 0.6);
    LastPageProgress(n);
  }

  lemma DivideOrder(x: real, y: real, d: real)
    requires 0.0 < x <= y && d > 0.0
    ensures 0.0 < x / d <= y / d
    ensures x < y ==> x / d < y / d
  {
    assert x / d * d == x && y / d * d == y;
  }

  /** The last page reports 0.9. */
  lemma LastPageProgress(n: nat)
    requires n > 0
    ensures PageProgress(n - 1, n) == 0.9
  {
    assert (0.6 * n as real) / n as real == 0.6;
  }

  /** For non-negative durations the ETA is never negative, and it is 0
      after the last page. */
  lemma EtaBounds(durations: seq<real>, i: nat, n: nat)
    requires i < n && i < |durations|
    requires forall k :: 0 <= k < |durations| ==> durations[k] >= 0.0
    ensures Eta(durations, i, n) >= 0.0
    ensures i == n - 1 ==> Eta(durations, i, n) == 0.0
  {
    var done := durations[..i + 1];
    Seqs.SumNonNegative(done);
    var m := Seqs.Mean(done);
    assert m >= 0.0;
    assert (n - (i + 1)) as real >= 0.0;
  }

  function ProgressOf(e: Event): Option<real>
  {
    if e.Post? && e.message.Pending? then Some(e.message.progress) else None
  }

  /** The progress values a sequence of events reports, in order. */
  function Progresses(es: seq<Event>): (r: seq<real>)
    ensures |r| <= |es|
  {
    Seqs.FilterMap(ProgressOf, es)
  }

  /** The progress values of a successful job: 0.1, 0.2, 0.3, one value per
      page, then 0.95. */
  function Schedule(n: nat): (r: seq<real>)
    ensures |r| == n + 4
  {
    [0.1, 0.2, 0.3] + seq(n, i requires 0 <= i < n => PageProgress(i, n)) + [0.95]
  }

  predicate StrictlyIncreasing(xs: seq<real>)
  {
    forall i, j :: 0 <= i < j < |xs| ==> xs[i] < xs[j]
  }

  lemma ScheduleIncreasing(n: nat)
    ensures StrictlyIncreasing(Schedule(n))
  {
    var s := Schedule(n);
    forall i, j | 0 <= i < j < |s|
      ensures s[i] < s[j]
    {
      if 3 <= i && j < n + 3 {
        PageProgressIncreasing(i - 3, j - 3, n);
      } else if 3 <= i < n + 3 {
        PageProgressIncreasing(i - 3, n - 1, n);
      } else if 3 <= j < n + 3 {
        PageProgressIncreasing(j - 3, n - 1, n);
      }
    }
  }

  lemma Singleton(e: Event)
    ensures Progresses([e]) == if ProgressOf(e).Some? then [ProgressOf(e).value] else []
  {
    assert [e][1..] == [];
  }

  /** `Progresses` distributes over concatenation. */
  lemma ProgressesAppend(a: seq<Event>, b: seq<Event>)
    ensures Progresses(a + b) == Progresses(a) + Progresses(b)
  {
    Seqs.FilterMapAppend(ProgressOf, a, b);
  }

  lemma PageProgresses(durations: seq<real>, i: nat, n: nat)
    requires i < n && i < |durations|
    ensures Progresses(PageEvents(durations, i, n)) == [PageProgress(i, n)]
  {
    var es := PageEvents(durations, i, n);
    var m := Post(PageMessage(durations, i, n));
    var gc: seq<Event> := if i % Config.BatchSize == 0 then [CollectGarbage] else [];
    assert es == [ProcessPage(i)] + [m] + ([ReleaseCanvases(i)] + gc);
    ProgressesAppend([ProcessPage(i)] + [m], [ReleaseCanvases(i)] + gc);
    ProgressesAppend([ProcessPage(i)], [m]);
    Singleton(ProcessPage(i));
    Singleton(m);
    Seqs.FilterMapNone(ProgressOf, [ReleaseCanvases(i)] + gc);
  }

  lemma {:induction false} LoopProgresses(durations: seq<real>, k: nat, n: nat)
    requires k <= n && k <= |durations|
    ensures Progresses(LoopEvents(durations, k, n)) == seq(k, i requires 0 <= i < k => PageProgress(i, n))
  {
    if k > 0 {
      LoopProgresses(durations, k - 1, n);
      ProgressesAppend(LoopEvents(durations, k - 1, n), PageEvents(durations, k - 1, n));
      PageProgresses(durations, k - 1, n);
      var expected := seq(k, i requires 0 <= i < k => PageProgress(i, n));
      assert expected == expected[..k - 1] + [PageProgress(k - 1, n)];
    }
  }

  /** The progress of the three setup messages, and of a failure. */
  lemma OpeningProgresses(n: nat, message: string)
    ensures Progresses([InitEvent]) == [0.1]
    ensures Progresses([InitEvent, PrepareEvent]) == [0.1, 0.2]
    ensures Progresses([InitEvent, PrepareEvent, ProcessingEvent(n)]) == [0.1, 0.2, 0.3]
    ensures Progresses(Fail(message)) == []
  {
    Singleton(InitEvent);
    Singleton(PrepareEvent);
    Singleton(ProcessingEvent(n));
    Singleton(Post(Error(message)));
    ProgressesAppend([InitEvent], [PrepareEvent]);
    ProgressesAppend([InitEvent, PrepareEvent], [ProcessingEvent(n)]);
    assert [InitEvent] + [PrepareEvent] == [InitEvent, PrepareEvent];
    assert [InitEvent, PrepareEvent] + [ProcessingEvent(n)] == [InitEvent, PrepareEvent, ProcessingEvent(n)];
  }

  /** After the loop, only a successful termination reports progress: 0.95. */
  lemma AfterLoopProgresses(job: Job)
    requires !MissingFirstPage(job)
    ensures Progresses(AfterLoop(job))
            == if Completed(job) == PageCount(job) && !FailsAt(job, Termination) then [0.95] else []
  {
    var n := PageCount(job);
    var tail := AfterLoop(job);
    if Completed(job) < n {
      Singleton(tail[0]);
      assert tail == [tail[0]];
    } else {
      var rest := tail[1..];
      assert tail == [TerminateOcr] + rest;
      ProgressesAppend([TerminateOcr], rest);
      Singleton(TerminateOcr);
      if FailsAt(job, Termination) {
        Singleton(rest[0]);
        assert rest == [rest[0]];
      } else {
        var last := rest[1];
        assert rest == [GeneratingEvent(n)] + [last];
        ProgressesAppend([GeneratingEvent(n)], [last]);
        Singleton(GeneratingEvent(n));
        Singleton(last);
      }
    }
  }

  /** How many progress values a job reports. */
  function Reported(job: Job): nat
  {
    if FailsAt(job, Setup) then 1
    else if FailsAt(job, Pagination) then 2
    else if MissingFirstPage(job) then 3
    else 3 + Completed(job) + (if Completed(job) == PageCount(job) && !FailsAt(job, Termination) then 1 else 0)
  }

  /** The progress reported from the page loop on. */
  lemma LoopCaseProgresses(job: Job)
    requires |job.durations| >= PageCount(job) && EntersLoop(job) && !MissingFirstPage(job)
    ensures Reported(job) <= PageCount(job) + 4
    ensures Progresses(LoopEvents(job.durations, Completed(job), PageCount(job)) + AfterLoop(job))
            == Schedule(PageCount(job))[3..Reported(job)]
  {
    var n := PageCount(job);
    var k := Completed(job);
    var loop := LoopEvents(job.durations, k, n);
    ProgressesAppend(loop, AfterLoop(job));
    LoopProgresses(job.durations, k, n);
    AfterLoopProgresses(job);
    ScheduleSlices(n, k);
  }

  /** The page part of the schedule: its first `k` values, and with the
      final 0.95 once every page is done. */
  lemma ScheduleSlices(n: nat, k: nat)
    requires k <= n
    ensures Schedule(n)[3..3 + k] == seq(k, i requires 0 <= i < k => PageProgress(i, n))
    ensures k == n ==> Schedule(n)[3..4 + k] == seq(k, i requires 0 <= i < k => PageProgress(i, n)) + [0.95]
  {
    var all := seq(n, i requires 0 <= i < n => PageProgress(i, n));
    var s := Schedule(n);
    assert s == [0.1, 0.2, 0.3] + all + [0.95];
    assert s[3..3 + k] == all[..k];
    if k == n {
      assert s[3..4 + k] == all + [0.95];
    }
  }

  /** The attempt reports the first `Reported(job)` values of the schedule. */
  lemma AttemptProgresses(job: Job, typeError: string)
    requires |job.durations| >= PageCount(job)
    ensures Reported(job) <= PageCount(job) + 4
    ensures Progresses(Attempt(job, typeError)) == Schedule(PageCount(job))[..Reported(job)]
  {
    var n := PageCount(job);
    var s := Schedule(n);
    var msg := FailureMessage(job, typeError);
    AttemptCases(job, typeError);
    OpeningProgresses(n, msg);
    if FailsAt(job, Setup) {
      ProgressesAppend([InitEvent], Fail(msg));
    } else if FailsAt(job, Pagination) {
      ProgressesAppend([InitEvent, PrepareEvent], Fail(msg));
    } else if MissingFirstPage(job) {
      ProgressesAppend([InitEvent, PrepareEvent, ProcessingEvent(n)], Fail(msg));
    } else {
      var rest := LoopEvents(job.durations, Completed(job), n) + AfterLoop(job);
      ProgressesAppend([InitEvent, PrepareEvent, ProcessingEvent(n)], rest);
      LoopCaseProgresses(job);
      assert s[..Reported(job)] == s[..3] + s[3..Reported(job)];
    }
  }

  /** Whatever happens, the reported progress values are a prefix of the
      schedule of a successful job, so they strictly increase; a successful
      job reports the whole schedule. */
  lemma ProgressFollowsSchedule(job: Job, typeError: string)
    requires |job.durations| >= PageCount(job)
    ensures var p := Progresses(Run(job, typeError));
            var s := Schedule(PageCount(job));
            |p| <= |s| && p == s[..|p|] && StrictlyIncreasing(p)
    ensures Succeeds(job) ==> Progresses(Run(job, typeError)) == Schedule(PageCount(job))
  {
    RunProgresses(job, typeError);
    AttemptProgresses(job, typeError);
    ScheduleIncreasing(PageCount(job));
    PrefixIncreasing(Schedule(PageCount(job)), Reported(job));
    if Succeeds(job) {
      SuccessReportsAll(job);
    }
  }

  /** The final garbage-collection hint reports no progress. */
  lemma RunProgresses(job: Job, typeError: string)
    requires |job.durations| >= PageCount(job)
    ensures Progresses(Run(job, typeError)) == Progresses(Attempt(job, typeError))
  {
    ProgressesAppend(Attempt(job, typeError), [CollectGarbage]);
    Singleton(CollectGarbage);
  }

  /** A successful job reports every value of the schedule. */
  lemma SuccessReportsAll(job: Job)
    requires Succeeds(job)
    ensures Reported(job) == PageCount(job) + 4
  {
  }

  lemma PrefixIncreasing(xs: seq<real>, m: nat)
    requires StrictlyIncreasing(xs) && m <= |xs|
    ensures StrictlyIncreasing(xs[..m])
  {
    var p := xs[..m];
    forall i, j | 0 <= i < j < |p|
      ensures p[i] < p[j]
    {
      assert p[i] == xs[i] && p[j] == xs[j];
    }
  }

  // ---------------------------------------------------------------------
  // Document calls of one page

  /** What `processPage` draws for page `index`: a new page unless it is the
      first, the OCR text layer, the page image over the whole page, then
      the page number centred in the bottom-right margin. `margin` is the
      unscaled option value. */
  function PageOps(index: nat, width: real, height: real, margin: real, blocks: Option<seq<Ocr.Block>>, ratio: real, measure: string -> real): (ops: seq<Pdf.Op>)
    requires blocks.Some? ==> OcrFromBlocks.AllMeasurable(blocks.value, ratio)
  {
    (if index == 0 then [] else [Pdf.AddPage])
    + OcrFromBlocks.DrawOcrFromBlocks(blocks, None, ratio, measure)
    + [Pdf.AddImage(0.0, 0.0, width, height),
       Pdf.SetTextColor(Config.PageNumberColor),
       Pdf.Text(Text.NatToString(index + 1), width - margin / 2.0, height - margin / 2.0,
                Pdf.TextOptions(None, Some("middle"), Some("center"), None))]
  }

  /** Page 0 reuses the document's first page and every later page adds one;
      the OCR text comes before the image (which covers it), and the last
      call writes the 1-based page number, centred half a margin from the
      bottom-right corner, in the page-number colour. */
  lemma PageOrder(index: nat, width: real, height: real, margin: real, blocks: Option<seq<Ocr.Block>>, ratio: real, measure: string -> real)
    requires blocks.Some? ==> OcrFromBlocks.AllMeasurable(blocks.value, ratio)
    ensures var ops := PageOps(index, width, height, margin, blocks, ratio, measure);
            var ocr := OcrFromBlocks.DrawOcrFromBlocks(blocks, None, ratio, measure);
            var img := |ops| - 3;
            && (ops[0] == Pdf.AddPage <==> index > 0)
            && ops[img] == Pdf.AddImage(0.0, 0.0, width, height)
            && Pdf.Texts(ops[..img]) == Pdf.Texts(ocr)
            && ops[img + 1] == Pdf.SetTextColor("#999")
            && ops[img + 2] == Pdf.Text(Text.NatToString(index + 1), width - margin / 2.0, height - margin / 2.0,
                                        Pdf.TextOptions(None, Some("middle"), Some("center"), None))
  {
    var ops := PageOps(index, width, height, margin, blocks, ratio, measure);
    var ocr := OcrFromBlocks.DrawOcrFromBlocks(blocks, None, ratio, measure);
    var lead: seq<Pdf.Op> := if index == 0 then [] else [Pdf.AddPage];
    var img := |ops| - 3;
    assert ops[..img] == lead + ocr;
    Pdf.TextsAppend(lead, ocr);
    assert Pdf.Texts(lead) == [] by {
      if index > 0 {
        assert lead[1..] == [];
      }
    }
    if index == 0 && |ocr| > 0 {
      assert ops[0] == ocr[0];
      assert ocr[0] != Pdf.AddPage by {
        OcrOpsNeverAddPages(blocks, ratio, measure);
      }
    } else if index == 0 {
      assert ops[0] == Pdf.AddImage(0.0, 0.0, width, height);
    }
  }

  lemma OcrOpsNeverAddPages(blocks: Option<seq<Ocr.Block>>, ratio: real, measure: string -> real)
    requires blocks.Some? ==> OcrFromBlocks.AllMeasurable(blocks.value, ratio)
    ensures forall j :: 0 <= j < |OcrFromBlocks.DrawOcrFromBlocks(blocks, None, ratio, measure)| ==>
              OcrFromBlocks.DrawOcrFromBlocks(blocks, None, ratio, measure)[j] != Pdf.AddPage
  {
    OcrFromBlocks.NeverAddsPages(OcrFromBlocks.BlockCalls(blocks, None, ratio), measure);
  }

  // ---------------------------------------------------------------------
  // The DataCloneError filter

  /** The thrown value as the filter sees it: `error?.name` and
      `error?.message`, `None` when absent. */
  datatype Thrown = Thrown(name: Option<string>, message: Option<string>)

  /** The two global events the filter listens to. */
  datatype GlobalEvent =
    | UnhandledRejection(reason: Option<Thrown>)
    | ErrorEvent(error: Option<Thrown>, message: string)

  const CloneMarker: string := "could not be cloned"

  /** `handleDataCloneError`: whether the event is swallowed. A rejection
      has no event message of its own (`'event'` is used). */
  function HandleDataCloneError(ev: GlobalEvent): (suppressed: bool)
    ensures var t := if ev.UnhandledRejection? then ev.reason else ev.error;
            suppressed <==>
              || (t.Some? && t.value.name == Some("DataCloneError"))
              || (t.Some? && t.value.message.Some? && exists i :: Text.OccursAt(t.value.message.value, CloneMarker, i))
              || (ev.ErrorEvent? && exists i :: Text.OccursAt(ev.message, CloneMarker, i))
  {
    var error := if ev.UnhandledRejection? then ev.reason else ev.error;
    var message := if ev.ErrorEvent? then ev.message else "event";
    var errorMessage := if error.Some? && error.value.message.Some? then error.value.message.value else "";
    Text.ContainsIffOccurs(message, CloneMarker);
    Text.ContainsIffOccurs(errorMessage, CloneMarker);
    NotInEvent();
    || (error.Some? && error.value.name == Some("DataCloneError"))
    || (error.Some? && error.value.message.Some? && error.value.message.value != ""
        && Text.Contains(error.value.message.value, CloneMarker))
    || (message != "" && Text.Contains(message, CloneMarker))
  }

  /** The placeholder message of a rejection never matches. */
  lemma NotInEvent()
    ensures !Text.Contains("event", CloneMarker)
  {
    Text.ContainsIffOccurs("event", CloneMarker);
  }
}

=== FILE: pick.dfy ===
/** `pick(source, keys)` (`src/lib/html-to-pdf/utils/pick.ts`): a reduce over
    the keys that copies each key the source has. The source object is its
    map of properties; `key in source` is membership in that map. */
module Pick {

  /** `keys.reduce(...)` after the first `|keys|` keys, left to right. */
  function Pick<V>(source: map<string, V>, keys: seq<string>): (r: map<string, V>)
    ensures forall k :: k in r <==> k in keys && k in source
    ensures forall k :: k in r ==> r[k] == source[k]
  {
    if |keys| == 0 then map[]
    else
      var key := keys[|keys| - 1];
      var acc := Pick(source, keys[..|keys| - 1]);
      assert forall k :: k in keys <==> k in keys[..|keys| - 1] || k == key by {
        assert keys == keys[..|keys| - 1] + [key];
      }
      if key in source then acc[key := source[key]] else acc
  }

  /** The result depends only on the set of requested keys: repeating or
      reordering keys changes nothing. */
  lemma SameKeysSameResult<V>(source: map<string, V>, keys1: seq<string>, keys2: seq<string>)
    requires forall k :: k in keys1 <==> k in keys2
    ensures Pick(source, keys1) == Pick(source, keys2)
  {
    var a := Pick(source, keys1);
    var b := Pick(source, keys2);
    assert a.Keys == b.Keys;
  }

  /** Picking the keys of a picked object again gives it back, and picking
      every key of the source gives the source. */
  lemma PickIdempotent<V>(source: map<string, V>, keys: seq<string>, all: seq<string>)
    requires forall k :: k in all <==> k in source
    ensures Pick(Pick(source, keys), keys) == Pick(source, keys)
    ensures Pick(source, all) == source
  {
    var p := Pick(source, keys);
    assert Pick(p, keys).Keys == p.Keys;
    assert Pick(source, all).Keys == source.Keys;
  }
}

=== FILE: range.dfy ===
/** `range(n, start)` of the second generation
    (`src/lib/html-to-pdf/utils/range.ts`): `[...Array(n).keys()]` shifted by
    `start`. `Array(n)` throws a `RangeError` unless `n` is a valid array
    length, an integer in `[0, 2^32)`. */
module Range {
  import opened Wrappers

  const MaxArrayLength: int := 0x1_0000_0000

  /** `range(n, start)`; the error case is the `RangeError` of `Array(n)`. */
  function Range(n: int, start: int): (r: Result<seq<int>>)
    ensures r.Err? <==> n < 0 || n >= MaxArrayLength
    ensures r.Ok? ==> |r.value| == n && forall i :: 0 <= i < n ==> r.value[i] == start + i
  {
    if n < 0 || n >= MaxArrayLength then Err("RangeError: Invalid array length")
    else Ok(seq(n, i => start + i))
  }

  /** `start` defaults to 0, so `range(n)` lists `0 .. n - 1`. */
  function RangeFromZero(n: int): (r: Result<seq<int>>)
    ensures r.Ok? ==> forall i :: 0 <= i < |r.value| ==> r.value[i] == i
  {
    Range(n, 0)
  }

  /** Consecutive elements differ by exactly one. */
  predicate StepsByOne(s: seq<int>)
  {
    forall i :: 0 < i < |s| ==> s[i] == s[i - 1] + 1
  }

  /** Growing `n` by one appends the next number, so `range` is the list
      built one step at a time from `start`, each element one more than the
      one before. */
  lemma RangeSnoc(n: nat, start: int)
    requires n + 1 < MaxArrayLength
    ensures Range(n + 1, start).Ok? && Range(n, start).Ok?
    ensures Range(n + 1, start).value == Range(n, start).value + [start + n]
    ensures StepsByOne(Range(n + 1, start).value)
  {
    assert Range(n + 1, start).value == Range(n, start).value + [start + n];
  }

  /** No elements for `n == 0`. */
  lemma RangeEmpty(start: int)
    ensures Range(0, start).Ok? && Range(0, start).value == []
  {
  }
}

=== FILE: sanitize.dfy ===
/** `sanitizeForTransfer(value, depth)` (`src/lib/workers/sanitizeForTransfer.ts`):
    turns a value into one `postMessage` can clone. Errors become plain
    records, arrays and plain objects are sanitised element by element one
    level deeper, other objects become a `[ConstructorName]` text, and below
    depth 100 everything is cut off with `String(value)`, which is a
    parameter here. */
module Sanitize {
  import opened Wrappers

  /** The values the sanitiser tells apart. `Object` is anything else
      `typeof` calls an object (or a function, symbol or bigint): its
      constructor's name, if it has one, its `typeof`, and its own
      enumerable entries in order. */
  datatype Value =
    | Null
    | Undefined
    | Str(s: string)
    | Num(x: real)
    | Bool(b: bool)
    | Error(name: string, message: string, stack: Option<string>)
    | Array(items: seq<Value>)
    | Object(constructorName: Option<string>, typeName: string, entries: seq<(string, Value)>)

  const MaxDepth: nat := 100

  predicate IsPrimitive(v: Value)
  {
    v.Null? || v.Undefined? || v.Str? || v.Num? || v.Bool?
  }

  predicate IsPlainObject(v: Value)
  {
    v.Object? && v.constructorName == Some("Object")
  }

  /** What `Object.fromEntries` builds. */
  function PlainObject(entries: seq<(string, Value)>): Value
  {
    Object(Some("Object"), "object", entries)
  }

  /** A value `postMessage` clones as it is, reached at `depth`: below the
      cut-off depth only strings (and `undefined`, which an error without a
      stack leaves there), above it primitives, arrays and plain objects made
      of such values one level deeper, and nothing else. */
  predicate Cloneable(v: Value, depth: nat)
    decreases v
  {
    if depth > MaxDepth then v.Str? || v.Undefined?
    else match v
      case Error(_, _, _) => false
      case Array(items) => forall i :: 0 <= i < |items| ==> Cloneable(items[i], depth + 1)
      case Object(c, t, es) =>
        c == Some("Object") && t == "object" && forall i :: 0 <= i < |es| ==> Cloneable(es[i].1, depth + 1)
      case _ => true
  }

  /** `Cloneable` without `undefined` below the cut-off depth: the values
      the sanitiser leaves unchanged. */
  predicate Settled(v: Value, depth: nat)
    decreases v
  {
    if depth > MaxDepth then v.Str?
    else match v
      case Error(_, _, _) => false
      case Array(items) => forall i :: 0 <= i < |items| ==> Settled(items[i], depth + 1)
      case Object(c, t, es) =>
        c == Some("Object") && t == "object" && forall i :: 0 <= i < |es| ==> Settled(es[i].1, depth + 1)
      case _ => true
  }

  /** `sanitizeForTransfer(value, depth)` with `String` given as `toString`. */
  function Sanitize(v: Value, depth: nat, toString: Value -> string): (r: Value)
    ensures Cloneable(r, depth)
    ensures depth > MaxDepth ==> r == Str(toString(v))
    ensures depth <= MaxDepth && IsPrimitive(v) ==> r == v
    ensures depth <= MaxDepth && v.Error? ==>
              r == PlainObject([("name", Str(v.name)), ("message", Str(v.message)),
                                ("stack", if v.stack.Some? then Str(v.stack.value) else Undefined)])
    ensures depth <= MaxDepth && v.Array? ==> r.Array? && |r.items| == |v.items|
    ensures depth <= MaxDepth && IsPlainObject(v) ==>
              IsPlainObject(r) && |r.entries| == |v.entries|
              && forall i :: 0 <= i < |v.entries| ==> r.entries[i].0 == v.entries[i].0
    ensures depth <= MaxDepth && v.Object? && !IsPlainObject(v) ==>
              r == Str("[" + v.constructorName.GetOr(v.typeName) + "]")
    decreases v
  {
    if depth > MaxDepth then Str(toString(v))
    else match v
      case Null => v
      case Undefined => v
      case Str(_) => v
      case Num(_) => v
      case Bool(_) => v
      case Error(name, message, stack) =>
        PlainObject([("name", Str(name)), ("message", Str(message)),
                     ("stack", if stack.Some? then Str(stack.value) else Undefined)])
      case Array(items) =>
        Array(seq(|items|, i requires 0 <= i < |items| => Sanitize(items[i], depth + 1, toString)))
      case Object(c, t, es) =>
        if c == Some("Object") then
          PlainObject(seq(|es|, i requires 0 <= i < |es| => (es[i].0, Sanitize(es[i].1, depth + 1, toString))))
        else Str("[" + c.GetOr(t) + "]")
  }

  /** Array elements and plain-object values are sanitised one level
      deeper. */
  lemma ChildrenOneLevelDeeper(v: Value, depth: nat, toString: Value -> string)
    requires depth <= MaxDepth
    ensures v.Array? ==> forall i :: 0 <= i < |v.items| ==>
              Sanitize(v, depth, toString).items[i] == Sanitize(v.items[i], depth + 1, toString)
    ensures IsPlainObject(v) ==> forall i :: 0 <= i < |v.entries| ==>
              Sanitize(v, depth, toString).entries[i].1 == Sanitize(v.entries[i].1, depth + 1, toString)
  {
  }

  /** A settled value is left as it is, given that `String` of a string is
      the string itself. */
  lemma {:induction false} SettledUnchanged(v: Value, depth: nat, toString: Value -> string)
    requires forall s :: toString(Str(s)) == s
    requires Settled(v, depth)
    ensures Sanitize(v, depth, toString) == v
    decreases v
  {
    if depth <= MaxDepth {
      match v
      case Array(items) =>
        forall i | 0 <= i < |items|
          ensures Sanitize(items[i], depth + 1, toString) == items[i]
        {
          SettledUnchanged(items[i], depth + 1, toString);
        }
        assert Sanitize(v, depth, toString).items == items;
      case Object(c, t, es) =>
        forall i | 0 <= i < |es|
          ensures Sanitize(es[i].1, depth + 1, toString) == es[i].1
        {
          SettledUnchanged(es[i].1, depth + 1, toString);
        }
        assert Sanitize(v, depth, toString).entries == es;
      case _ =>
    }
  }

  /** Sanitising is not idempotent: an error without a stack met at the
      cut-off depth leaves an `undefined` one level deeper, which a second
      pass turns into the text `"undefined"`. */
  lemma NotIdempotentAtCutoff(toString: Value -> string)
    requires toString(Undefined) == "undefined"
    ensures var v := Error("Error", "boom", None);
            Sanitize(Sanitize(v, MaxDepth, toString), MaxDepth, toString) != Sanitize(v, MaxDepth, toString)
  {
    var once := Sanitize(Error("Error", "boom", None), MaxDepth, toString);
    var twice := Sanitize(once, MaxDepth, toString);
    assert once.entries[2].1 == Undefined;
    assert twice.entries[2].1 == Str("undefined");
  }
}

=== FILE: seqs.dfy ===
/** Sequence helpers shared by the model: sums and means of real sequences,
    flattening, and order-preserving filtering. */
module Seqs {
  import opened Wrappers

  function Sum(xs: seq<real>): real
  {
    if |xs| == 0 then 0.0 else Sum(xs[..|xs| - 1]) + xs[|xs| - 1]
  }

  /** The arithmetic mean of a non-empty sequence. */
  function Mean(xs: seq<real>): real
    requires |xs| > 0
  {
    Sum(xs) / (|xs| as real)
  }

  function Min(xs: seq<real>): real
    requires |xs| > 0
  {
    if |xs| == 1 then xs[0]
    else var m := Min(xs[..|xs| - 1]); if xs[|xs| - 1] < m then xs[|xs| - 1] else m
  }

  function Max(xs: seq<real>): real
    requires |xs| > 0
  {
    if |xs| == 1 then xs[0]
    else var m := Max(xs[..|xs| - 1]); if xs[|xs| - 1] > m then xs[|xs| - 1] else m
  }

  lemma {:induction false} SumNonNegative(xs: seq<real>)
    requires forall i :: 0 <= i < |xs| ==> xs[i] >= 0.0
    ensures Sum(xs) >= 0.0
  {
    if |xs| > 0 {
      SumNonNegative(xs[..|xs| - 1]);
    }
  }

  lemma {:induction false} MinIsLowerBound(xs: seq<real>)
    requires |xs| > 0
    ensures forall i :: 0 <= i < |xs| ==> Min(xs) <= xs[i]
    ensures exists i :: 0 <= i < |xs| && Min(xs) == xs[i]
  {
    if |xs| == 1 {
      assert Min(xs) == xs[0];
    } else {
      var init := xs[..|xs| - 1];
      MinIsLowerBound(init);
      var k :| 0 <= k < |init| && Min(init) == init[k];
      assert forall i :: 0 <= i < |init| ==> init[i] == xs[i];
      if xs[|xs| - 1] < Min(init) {
        assert Min(xs) == xs[|xs| - 1];
      } else {
        assert Min(xs) == xs[k];
      }
    }
  }

  lemma {:induction false} MaxIsUpperBound(xs: seq<real>)
    requires |xs| > 0
    ensures forall i :: 0 <= i < |xs| ==> xs[i] <= Max(xs)
    ensures exists i :: 0 <= i < |xs| && Max(xs) == xs[i]
  {
    if |xs| == 1 {
      assert Max(xs) == xs[0];
    } else {
      var init := xs[..|xs| - 1];
      MaxIsUpperBound(init);
      var k :| 0 <= k < |init| && Max(init) == init[k];
      assert forall i :: 0 <= i < |init| ==> init[i] == xs[i];
      if xs[|xs| - 1] > Max(init) {
        assert Max(xs) == xs[|xs| - 1];
      } else {
        assert Max(xs) == xs[k];
      }
    }
  }

  /** Every element between the bounds puts the sum between |xs| times the bounds. */
  lemma {:induction false} SumBetween(xs: seq<real>, lo: real, hi: real)
    requires forall i :: 0 <= i < |xs| ==> lo <= xs[i] <= hi
    ensures (|xs| as real) * lo <= Sum(xs) <= (|xs| as real) * hi
  {
    if |xs| > 0 {
      SumBetween(xs[..|xs| - 1], lo, hi);
    }
  }

  /** The mean lies between the minimum and the maximum. */
  lemma MeanBetweenMinAndMax(xs: seq<real>)
    requires |xs| > 0
    ensures Min(xs) <= Mean(xs) <= Max(xs)
  {
    SumWithinExtremes(xs);
    ScaledBounds(Sum(xs), |xs| as real, Min(xs), Max(xs));
  }

  lemma SumWithinExtremes(xs: seq<real>)
    requires |xs| > 0
    ensures (|xs| as real) * Min(xs) <= Sum(xs) <= (|xs| as real) * Max(xs)
  {
    MinIsLowerBound(xs);
    MaxIsUpperBound(xs);
    SumBetween(xs, Min(xs), Max(xs));
  }

  lemma ScaledBounds(s: real, n: real, lo: real, hi: real)
    requires n > 0.0 && n * lo <= s <= n * hi
    ensures lo <= s / n <= hi
  {
    var q := s / n;
    assert s == q * n;
  }

  /** Concatenation of a sequence of sequences, in order. */
  function Flatten<T>(xss: seq<seq<T>>): seq<T>
  {
    if |xss| == 0 then [] else xss[0] + Flatten(xss[1..])
  }

  lemma {:induction false} FlattenAppend<T>(xss: seq<seq<T>>, yss: seq<seq<T>>)
    ensures Flatten(xss + yss) == Flatten(xss) + Flatten(yss)
  {
    if |xss| == 0 {
      assert xss + yss == yss;
    } else {
      var zss := xss + yss;
      assert zss[0] == xss[0];
      assert zss[1..] == xss[1..] + yss;
      FlattenAppend(xss[1..], yss);
      calc {
        Flatten(zss);
        zss[0] + Flatten(zss[1..]);
        xss[0] + (Flatten(xss[1..]) + Flatten(yss));
        (xss[0] + Flatten(xss[1..])) + Flatten(yss);
      }
    }
  }

  /** The elements of `xs` satisfying `p`, in their original order. */
  function Filter<T>(p: T -> bool, xs: seq<T>): (r: seq<T>)
    ensures |r| <= |xs|
    ensures forall i :: 0 <= i < |r| ==> r[i] in xs && p(r[i])
    ensures forall i :: 0 <= i < |xs| && p(xs[i]) ==> xs[i] in r
  {
    if |xs| == 0 then []
    else
      var rest := Filter(p, xs[1..]);
      assert forall i :: 1 <= i < |xs| ==> xs[i] == xs[1..][i - 1];
      if p(xs[0]) then [xs[0]] + rest else rest
  }

  /** How many times `x` occurs in `xs`. */
  function Count<T(==)>(x: T, xs: seq<T>): (c: nat)
    ensures c <= |xs|
    ensures c == 0 <==> x !in xs
  {
    if |xs| == 0 then 0
    else
      assert xs == [xs[0]] + xs[1..];
      (if xs[0] == x then 1 else 0) + Count(x, xs[1..])
  }

  /** A slice of `xs + ys` lying wholly inside `ys`. */
  lemma SliceAppend<T>(xs: seq<T>, ys: seq<T>, lo: nat, hi: nat)
    requires |xs| <= lo <= hi <= |xs| + |ys|
    ensures (xs + ys)[lo..hi] == ys[lo - |xs|..hi - |xs|]
  {
  }

  lemma {:induction false} CountAppend<T>(x: T, xs: seq<T>, ys: seq<T>)
    ensures Count(x, xs + ys) == Count(x, xs) + Count(x, ys)
  {
    if |xs| == 0 {
      assert xs + ys == ys;
    } else {
      assert (xs + ys)[1..] == xs[1..] + ys;
      CountAppend(x, xs[1..], ys);
    }
  }

  /** Filtering a non-empty sequence: its front filtered, then its last
      element if it passes. */
  lemma FilterSnoc<T>(p: T -> bool, xs: seq<T>)
    requires |xs| > 0
    ensures Filter(p, xs) == Filter(p, xs[..|xs| - 1]) + (if p(xs[|xs| - 1]) then [xs[|xs| - 1]] else [])
  {
    var last := xs[|xs| - 1];
    assert [last][1..] == [];
    assert Filter(p, [last]) == if p(last) then [last] else [];
    assert xs == xs[..|xs| - 1] + [last];
    FilterAppend(p, xs[..|xs| - 1], [last]);
  }

  lemma {:induction false} FilterAppend<T>(p: T -> bool, xs: seq<T>, ys: seq<T>)
    ensures Filter(p, xs + ys) == Filter(p, xs) + Filter(p, ys)
  {
    if |xs| == 0 {
      assert xs + ys == ys;
    } else {
      var zs := xs + ys;
      assert zs[0] == xs[0];
      assert zs[1..] == xs[1..] + ys;
      FilterAppend(p, xs[1..], ys);
      if p(xs[0]) {
        calc {
          Filter(p, zs);
          [xs[0]] + Filter(p, zs[1..]);
          [xs[0]] + (Filter(p, xs[1..]) + Filter(p, ys));
          ([xs[0]] + Filter(p, xs[1..])) + Filter(p, ys);
        }
      }
    }
  }

  /** Nothing passes a filter that rejects every element. */
  lemma {:induction false} FilterNone<T>(p: T -> bool, xs: seq<T>)
    requires forall i :: 0 <= i < |xs| ==> !p(xs[i])
    ensures Filter(p, xs) == []
  {
    if |xs| > 0 {
      FilterNone(p, xs[1..]);
    }
  }

  /** `f(x) == Some(y)`, written so quantifiers over `x` find a trigger. */
  ghost predicate MapsTo<T, U>(f: T -> Option<U>, x: T, y: U)
  {
    f(x).Some? && f(x).value == y
  }

  /** Map-and-drop: the `Some` values of `f` over `xs`, in order. This is the
      shape of a generator that `continue`s past some inputs and yields a
      transformed value for the rest. */
  function FilterMap<T, U>(f: T -> Option<U>, xs: seq<T>): (r: seq<U>)
    ensures |r| <= |xs|
  {
    if |xs| == 0 then []
    else (if f(xs[0]).Some? then [f(xs[0]).value] else []) + FilterMap(f, xs[1..])
  }

  /** The output holds exactly the values some input maps to. */
  lemma {:induction false} FilterMapMembers<T, U>(f: T -> Option<U>, xs: seq<T>, y: U)
    ensures y in FilterMap(f, xs) <==> exists j :: 0 <= j < |xs| && MapsTo(f, xs[j], y)
    decreases |xs|
  {
    if |xs| > 0 {
      var tail := xs[1..];
      FilterMapMembers(f, tail, y);
      var first := if f(xs[0]).Some? then [f(xs[0]).value] else [];
      assert FilterMap(f, xs) == first + FilterMap(f, tail);
      assert y in first <==> MapsTo(f, xs[0], y);
      if exists j :: 0 <= j < |xs| && MapsTo(f, xs[j], y) {
        var j :| 0 <= j < |xs| && MapsTo(f, xs[j], y);
        if j > 0 {
          assert tail[j - 1] == xs[j];
        }
      }
      if y in FilterMap(f, tail) {
        var k :| 0 <= k < |tail| && MapsTo(f, tail[k], y);
        assert xs[k + 1] == tail[k];
      }
    }
  }

  /** Nothing comes out when every element maps to `None`. */
  lemma {:induction false} FilterMapNone<T, U>(f: T -> Option<U>, xs: seq<T>)
    requires forall i :: 0 <= i < |xs| ==> f(xs[i]).None?
    ensures FilterMap(f, xs) == []
  {
    if |xs| > 0 {
      FilterMapNone(f, xs[1..]);
    }
  }

  /** Order is kept: map-and-drop distributes over concatenation. */
  lemma {:induction false} FilterMapAppend<T, U>(f: T -> Option<U>, xs: seq<T>, ys: seq<T>)
    ensures FilterMap(f, xs + ys) == FilterMap(f, xs) + FilterMap(f, ys)
    decreases |xs|
  {
    if |xs| == 0 {
      assert xs + ys == ys;
    } else {
      var zs := xs + ys;
      assert zs[0] == xs[0];
      assert zs[1..] == xs[1..] + ys;
      FilterMapAppend(f, xs[1..], ys);
      var first := if f(xs[0]).Some? then [f(xs[0]).value] else [];
      calc {
        FilterMap(f, zs);
        first + FilterMap(f, zs[1..]);
        first + (FilterMap(f, xs[1..]) + FilterMap(f, ys));
        (first + FilterMap(f, xs[1..])) + FilterMap(f, ys);
      }
    }
  }
}

=== FILE: sequential.dfy ===
/** `sequential(tasks)` (`src/lib/utils/sequential.ts`): awaits the tasks one
    after the other. A task is either a function, called only when the loop
    reaches it, or a promise that is already under way and only awaited. */
module Sequential {
  import opened Wrappers
  import opened Async

  datatype Task<T> = Thunk(call: () -> Outcome<T>) | Promise(settled: Outcome<T>)

  /** What awaiting the task gives once the loop reaches it. */
  function Settle<T>(t: Task<T>): Outcome<T>
  {
    match t
    case Thunk(f) => f()
    case Promise(o) => o
  }

  /** The collected results, the indices of the function tasks that were
      called, in call order, and the rejection that ended the loop early. */
  datatype Progress<T> = Progress(results: seq<T>, invoked: seq<nat>, rejection: Option<string>)

  /** `sequential(tasks)`. No tasks give no results. */
  function Sequential<T>(tasks: seq<Task<T>>): (r: Progress<T>)
    ensures |r.results| <= |tasks|
    ensures r.rejection.None? ==> |r.results| == |tasks|
    ensures r.rejection.Some? ==> |r.results| < |tasks| && Settle(tasks[|r.results|]) == Rejected(r.rejection.value)
    ensures forall j :: 0 <= j < |r.results| ==> Gives(Settle(tasks[j]), r.results[j])
    ensures forall k: nat :: k in r.invoked <==> k < Reached(r) && tasks[k].Thunk?
    ensures Ascending(r.invoked)
  {
    var r := From(tasks, 0);
    FromInvoked(tasks, 0);
    ThunksInSpec(tasks, 0, Reached(r));
    r
  }

  /** How many tasks the loop reached: the awaited ones and the one that
      rejected. */
  function Reached<T>(r: Progress<T>): nat
  {
    |r.results| + if r.rejection.Some? then 1 else 0
  }

  /** The indices in `[lo, hi)` of the function tasks, ascending. */
  function ThunksIn<T>(tasks: seq<Task<T>>, lo: nat, hi: nat): seq<nat>
    requires hi <= |tasks|
    decreases hi - lo
  {
    if lo >= hi then []
    else (if tasks[lo].Thunk? then [lo] else []) + ThunksIn(tasks, lo + 1, hi)
  }

  lemma ThunksInSpec<T>(tasks: seq<Task<T>>, lo: nat, hi: nat)
    requires hi <= |tasks|
    ensures forall k: nat :: k in ThunksIn(tasks, lo, hi) <==> lo <= k < hi && tasks[k].Thunk?
    ensures Ascending(ThunksIn(tasks, lo, hi))
  {
    ThunksInMembers(tasks, lo, hi);
    ThunksInAscending(tasks, lo, hi);
  }

  lemma {:induction false} ThunksInMembers<T>(tasks: seq<Task<T>>, lo: nat, hi: nat)
    requires hi <= |tasks|
    ensures forall k: nat :: k in ThunksIn(tasks, lo, hi) <==> lo <= k < hi && tasks[k].Thunk?
    decreases hi - lo
  {
    if lo < hi {
      ThunksInMembers(tasks, lo + 1, hi);
    }
  }

  lemma {:induction false} ThunksInAscending<T>(tasks: seq<Task<T>>, lo: nat, hi: nat)
    requires hi <= |tasks|
    ensures Ascending(ThunksIn(tasks, lo, hi))
    decreases hi - lo
  {
    if lo < hi {
      ThunksInMembers(tasks, lo + 1, hi);
      ThunksInAscending(tasks, lo + 1, hi);
      var rest := ThunksIn(tasks, lo + 1, hi);
      if tasks[lo].Thunk? && |rest| > 0 {
        assert rest[0] in rest;
        assert ThunksIn(tasks, lo, hi) == [lo] + rest;
      }
    }
  }

  /** Each index larger than the one before. */
  predicate Ascending(s: seq<nat>)
  {
    forall a :: 0 < a < |s| ==> s[a - 1] < s[a]
  }

  /** The loop from task `i` on. */
  function From<T>(tasks: seq<Task<T>>, i: nat): (r: Progress<T>)
    requires i <= |tasks|
    ensures |r.results| <= |tasks| - i
    ensures r.rejection.None? ==> |r.results| == |tasks| - i
    ensures r.rejection.Some? ==> |r.results| < |tasks| - i && Settle(tasks[i + |r.results|]) == Rejected(r.rejection.value)
    ensures forall j :: 0 <= j < |r.results| ==> Gives(Settle(tasks[i + j]), r.results[j])
    decreases |tasks| - i
  {
    if i == |tasks| then Progress([], [], None)
    else
      var o := Settle(tasks[i]);
      var called: seq<nat> := if tasks[i].Thunk? then [i] else [];
      if o.Rejected? then
        Progress([], called, Some(o.reason))
      else
        var rest := From(tasks, i + 1);
        var r := Progress([o.value] + rest.results, called + rest.invoked, rest.rejection);
        assert forall j :: 0 < j < |r.results| ==> r.results[j] == rest.results[j - 1];
        r
  }

  /** The loop calls exactly the function tasks it reaches, in order. */
  lemma {:induction false} FromInvoked<T>(tasks: seq<Task<T>>, i: nat)
    requires i <= |tasks|
    ensures From(tasks, i).invoked == ThunksIn(tasks, i, i + Reached(From(tasks, i)))
    decreases |tasks| - i
  {
    if i < |tasks| {
      if Settle(tasks[i]).Rejected? {
        assert ThunksIn(tasks, i + 1, i + 1) == [];
      } else {
        FromInvoked(tasks, i + 1);
        assert Reached(From(tasks, i)) == 1 + Reached(From(tasks, i + 1));
      }
    }
  }

  /** Only what the tasks settle to matters for the results: a function task
      can be replaced by the promise it returns (or the other way round)
      without changing the results or the rejection; only `invoked`
      differs. */
  lemma {:induction false} SettledOnly<T>(t1: seq<Task<T>>, t2: seq<Task<T>>, i: nat)
    requires |t1| == |t2| && i <= |t1|
    requires forall j :: i <= j < |t1| ==> Settle(t1[j]) == Settle(t2[j])
    ensures From(t1, i).results == From(t2, i).results
    ensures From(t1, i).rejection == From(t2, i).rejection
    decreases |t1| - i
  {
    if i < |t1| && !Settle(t1[i]).Rejected? {
      SettledOnly(t1, t2, i + 1);
    }
  }

  /** A rejected task ends the loop: no task after it is called or
      awaited. */
  lemma RejectionStops<T>(tasks: seq<Task<T>>, k: nat)
    requires k < |tasks| && Settle(tasks[k]).Rejected?
    ensures |Sequential(tasks).results| <= k
    ensures forall j: nat :: j in Sequential(tasks).invoked ==> j <= k
  {
  }
}

=== FILE: sorted_strings.dfy ===
/** The order JavaScript's default `Array.prototype.sort` puts strings in
    (lexicographic, character by character, a proper prefix first), and the
    "collect into a `Set`, then `Array.from(...).sort()`" idiom the source uses
    to build duplicate-free sorted word and character lists. */
module SortedStrings {

  predicate Less(a: string, b: string)
    decreases |a|
  {
    if |a| == 0 then |b| > 0
    else if |b| == 0 then false
    else if a[0] == b[0] then Less(a[1..], b[1..])
    else a[0] < b[0]
  }

  lemma {:induction false} LessIrreflexive(a: string)
    ensures !Less(a, a)
    decreases |a|
  {
    if |a| > 0 {
      LessIrreflexive(a[1..]);
    }
  }

  lemma {:induction false} LessTransitive(a: string, b: string, c: string)
    requires Less(a, b) && Less(b, c)
    ensures Less(a, c)
    decreases |a|
  {
    if |a| > 0 && |b| > 0 && |c| > 0 && a[0] == b[0] && b[0] == c[0] {
      LessTransitive(a[1..], b[1..], c[1..]);
    }
  }

  lemma {:induction false} LessTotal(a: string, b: string)
    ensures a == b || Less(a, b) || Less(b, a)
    decreases |a|
  {
    if |a| > 0 && |b| > 0 && a[0] == b[0] {
      LessTotal(a[1..], b[1..]);
      if a[1..] == b[1..] {
        assert a == [a[0]] + a[1..] && b == [b[0]] + b[1..];
      }
    }
  }

  lemma LessAsymmetric(a: string, b: string)
    requires Less(a, b)
    ensures !Less(b, a)
  {
    if Less(b, a) {
      LessTransitive(a, b, a);
      LessIrreflexive(a);
    }
  }

  /** Ascending without repetitions. */
  ghost predicate StrictlySorted(s: seq<string>)
  {
    forall i, j :: 0 <= i < j < |s| ==> Less(s[i], s[j])
  }

  function Insert(x: string, s: seq<string>): (r: seq<string>)
    requires StrictlySorted(s)
    ensures StrictlySorted(r)
    ensures forall w :: w in r <==> w in s || w == x
  {
    if |s| == 0 then [x]
    else if x == s[0] then s
    else if Less(x, s[0]) then
      assert forall j :: 0 < j < |s| ==> Less(x, s[j]) by {
        forall j | 0 < j < |s| ensures Less(x, s[j]) {
          LessTransitive(x, s[0], s[j]);
        }
      }
      [x] + s
    else
      LessTotal(x, s[0]);
      var tail := Insert(x, s[1..]);
      assert forall w :: w in tail ==> Less(s[0], w) by {
        forall w | w in tail ensures Less(s[0], w) {
          if w != x {
            var j :| 0 <= j < |s[1..]| && s[1..][j] == w;
            assert s[j + 1] == w;
          }
        }
      }
      assert forall w :: w in s <==> w == s[0] || w in s[1..] by {
        assert s == [s[0]] + s[1..];
      }
      [s[0]] + tail
  }

  /** `Array.from(new Set(xs)).sort()`: the distinct elements of `xs`, ascending. */
  function SortedSet(xs: seq<string>): (r: seq<string>)
    ensures StrictlySorted(r)
    ensures forall w :: w in r <==> w in xs
  {
    if |xs| == 0 then []
    else
      var init := xs[..|xs| - 1];
      assert forall w :: w in xs <==> w in init || w == xs[|xs| - 1] by {
        assert xs == init + [xs[|xs| - 1]];
      }
      Insert(xs[|xs| - 1], SortedSet(init))
  }

  /** A duplicate-free ascending list is determined by its elements. */
  lemma {:induction false} SortedUnique(a: seq<string>, b: seq<string>)
    requires StrictlySorted(a) && StrictlySorted(b)
    requires forall w :: w in a <==> w in b
    ensures a == b
    decreases |a|
  {
    assert |a| > 0 ==> a[0] in a;
    assert |b| > 0 ==> b[0] in b;
    if |a| > 0 && |b| > 0 {
      if a[0] != b[0] {
        assert a[0] in a && b[0] in b;
        var i :| 0 <= i < |b| && b[i] == a[0];
        var j :| 0 <= j < |a| && a[j] == b[0];
        assert i > 0 && j > 0;
        assert Less(b[0], a[0]) && Less(a[0], b[0]);
        LessAsymmetric(a[0], b[0]);
      }
      forall w
        ensures w in a[1..] <==> w in b[1..]
      {
        if w in a[1..] {
          var i :| 0 <= i < |a[1..]| && a[1..][i] == w;
          assert Less(a[0], w);
          LessIrreflexive(w);
          assert w in b && w != b[0];
          var k :| 0 <= k < |b| && b[k] == w;
          assert w in b[1..] by { assert b[1..][k - 1] == w; }
        }
        if w in b[1..] {
          var i :| 0 <= i < |b[1..]| && b[1..][i] == w;
          assert Less(b[0], w);
          LessIrreflexive(w);
          assert w in a && w != a[0];
          var k :| 0 <= k < |a| && a[k] == w;
          assert w in a[1..] by { assert a[1..][k - 1] == w; }
        }
      }
      SortedUnique(a[1..], b[1..]);
      assert a == [a[0]] + a[1..] && b == [b[0]] + b[1..];
    }
  }
}

=== FILE: tesseract_worker.dfy ===
/** `createTesseractWorker` (`src/lib/workers/createTesseractWorker.ts`): makes
    an OCR worker, writes the custom word list into its virtual file system,
    reloads the language and sets the recognition parameters. The worker's
    operations are outside the model: whether each of them throws is an
    input, and the calls made on the worker are the output. */
module TesseractWorker {
  import opened Wrappers
  import Text

  const DataCloneErrorPrefix: string := "DataCloneError"
  const TessdataDir: string := "/tessdata"
  const UserWordsSuffix: string := ".user-words"
  const DefaultLang: string := "eng"

  /** `OEM.LSTM_ONLY`. */
  const LstmOnly: int := 1

  /** `ensureNewLine(words)`. */
  function EnsureNewLine(words: string): (r: string)
    ensures Text.EndsWith(r, "\n")
    ensures Text.EndsWith(words, "\n") ==> r == words
    ensures !Text.EndsWith(words, "\n") ==> r == words + "\n"
  {
    if Text.EndsWith(words, "\n") then words else words + "\n"
  }

  /** Adding the line break once is enough. */
  lemma EnsureNewLineIdempotent(words: string)
    ensures EnsureNewLine(EnsureNewLine(words)) == EnsureNewLine(words)
  {
  }

  /** `getTargetPath(lang)`: `/tessdata/<lang>.user-words`. */
  function TargetPath(lang: string): (p: string)
    ensures Text.StartsWith(p, TessdataDir + "/") && Text.EndsWith(p, UserWordsSuffix)
    ensures |p| == |TessdataDir| + 1 + |lang| + |UserWordsSuffix|
  {
    var p := TessdataDir + "/" + lang + UserWordsSuffix;
    assert p[..|TessdataDir| + 1] == TessdataDir + "/";
    assert p[|p| - |UserWordsSuffix|..] == UserWordsSuffix;
    p
  }

  /** The language a target path was made for. */
  function LangOf(p: string): string
    requires |p| >= |TessdataDir| + 1 + |UserWordsSuffix|
  {
    p[|TessdataDir| + 1 .. |p| - |UserWordsSuffix|]
  }

  /** The path gives back its language, so different languages never share a
      word file. */
  lemma TargetPathInjective(lang: string, other: string)
    ensures LangOf(TargetPath(lang)) == lang
    ensures TargetPath(lang) == TargetPath(other) ==> lang == other
  {
    var p := TessdataDir + "/" + lang + UserWordsSuffix;
    assert p[|TessdataDir| + 1 .. |p| - |UserWordsSuffix|] == lang;
    var q := TessdataDir + "/" + other + UserWordsSuffix;
    assert q[|TessdataDir| + 1 .. |q| - |UserWordsSuffix|] == other;
  }

  /** What a failing worker operation throws: an `Error` object, a string,
      or anything else. */
  datatype Caught = ErrorObject(name: string, message: string) | Text(s: string) | OtherValue

  /** The test that takes a failed `mkdir` for "the directory already
      exists". */
  predicate DirectoryExists(e: Caught)
  {
    || (e.ErrorObject? && e.name == DataCloneErrorPrefix)
    || (e.Text? && Text.Contains(e.s, DataCloneErrorPrefix))
  }

  /** Whether each worker operation completes or throws. */
  datatype Step = Completes | Throws(error: Caught)

  datatype Steps = Steps(create: Step, mkdir: Step, writeFile: Step, reinitialize: Step, setParameters: Step)

  /** The operations issued, in order. */
  datatype Call =
    | CreateWorker
    | Mkdir(dir: string)
    | WriteFile(path: string, data: string)
    | Reinitialize(lang: string, oem: int)
    | SetParameters(params: map<string, string>)

  /** How a failed `mkdir` is reported in the log. */
  datatype MkdirReport = AlreadyExists | Unexpected(error: Caught)

  datatype Outcome = Ready | Failed(error: Caught)

  datatype Setup = Setup(calls: seq<Call>, mkdirReport: Option<MkdirReport>, outcome: Outcome)

  /** `allParams`. */
  function Params(whitelist: string): map<string, string>
  {
    map["preserve_interword_spaces" := "0", "tessedit_char_whitelist" := whitelist, "user_defined_dpi" := "600"]
  }

  /** Every call of a run that meets no failure. */
  function AllCalls(customWords: string, whitelist: string, lang: string): seq<Call>
  {
    [ CreateWorker,
      Mkdir(TessdataDir),
      WriteFile(TargetPath(lang), EnsureNewLine(customWords)),
      Reinitialize(lang, LstmOnly),
      SetParameters(Params(whitelist)) ]
  }

  /** The operations whose failure is rethrown, in the order they run. */
  function Propagating(steps: Steps): seq<Step>
  {
    [steps.create, steps.writeFile, steps.reinitialize, steps.setParameters]
  }

  /** `createTesseractWorker(customWords, whitelist, lang, debug)`; `None`
      stands for an omitted language. */
  function CreateTesseractWorker(customWords: string, whitelist: string, lang: Option<string>, steps: Steps): (s: Setup)
    ensures s.outcome.Ready? <==> forall k :: 0 <= k < 4 ==> Propagating(steps)[k].Completes?
    ensures s.outcome.Failed? ==> exists k :: 0 <= k < 4 && Propagating(steps)[k] == Throws(s.outcome.error)
                                    && forall j :: 0 <= j < k ==> Propagating(steps)[j].Completes?
    ensures exists n :: 1 <= n <= 5 && s.calls == AllCalls(customWords, whitelist, lang.GetOr(DefaultLang))[..n]
    ensures s.outcome.Ready? ==> s.calls == AllCalls(customWords, whitelist, lang.GetOr(DefaultLang))
    ensures steps.mkdir.Throws? && steps.create.Completes? ==>
              s.mkdirReport == Some(if DirectoryExists(steps.mkdir.error) then AlreadyExists else Unexpected(steps.mkdir.error))
  {
    var l := lang.GetOr(DefaultLang);
    var all := AllCalls(customWords, whitelist, l);
    if steps.create.Throws? then
      assert Propagating(steps)[0] == steps.create;
      assert all[..1] == AllCalls(customWords, whitelist, l)[..1];
      Setup(all[..1], None, Failed(steps.create.error))
    else
      var report :=
        if steps.mkdir.Completes? then None
        else if DirectoryExists(steps.mkdir.error) then Some(AlreadyExists)
        else Some(Unexpected(steps.mkdir.error));
      if steps.writeFile.Throws? then
        assert Propagating(steps)[1] == steps.writeFile;
        assert all[..3] == AllCalls(customWords, whitelist, l)[..3];
        Setup(all[..3], report, Failed(steps.writeFile.error))
      else if steps.reinitialize.Throws? then
        assert Propagating(steps)[2] == steps.reinitialize;
        assert all[..4] == AllCalls(customWords, whitelist, l)[..4];
        Setup(all[..4], report, Failed(steps.reinitialize.error))
      else if steps.setParameters.Throws? then
        assert Propagating(steps)[3] == steps.setParameters;
        assert all[..5] == AllCalls(customWords, whitelist, l)[..5];
        Setup(all[..5], report, Failed(steps.setParameters.error))
      else
        assert all[..5] == all;
        assert forall k :: 0 <= k < 4 ==> Propagating(steps)[k].Completes?;
        Setup(all, report, Ready)
  }

  /** A failed `mkdir` is always swallowed: it changes neither the calls
      that follow nor the outcome, only the log line. */
  lemma MkdirNeverMatters(customWords: string, whitelist: string, lang: Option<string>, steps: Steps, mkdir: Step)
    ensures var a := CreateTesseractWorker(customWords, whitelist, lang, steps);
            var b := CreateTesseractWorker(customWords, whitelist, lang, steps.(mkdir := mkdir));
            a.calls == b.calls && a.outcome == b.outcome
  {
  }

  /** The word file gets the custom words ending in one line break, and the
      parameters set are exactly the three of `allParams`. */
  lemma ReadyConfiguration(customWords: string, whitelist: string, lang: Option<string>, steps: Steps)
    requires CreateTesseractWorker(customWords, whitelist, lang, steps).outcome.Ready?
    ensures var s := CreateTesseractWorker(customWords, whitelist, lang, steps);
            && s.calls[2] == WriteFile("/tessdata/" + lang.GetOr("eng") + ".user-words", EnsureNewLine(customWords))
            && Text.EndsWith(s.calls[2].data, "\n")
            && s.calls[4].params.Keys == {"preserve_interword_spaces", "tessedit_char_whitelist", "user_defined_dpi"}
            && s.calls[4].params["tessedit_char_whitelist"] == whitelist
  {
    FullConfiguration(customWords, whitelist, lang.GetOr("eng"));
  }

  lemma FullConfiguration(customWords: string, whitelist: string, lang: string)
    ensures var all := AllCalls(customWords, whitelist, lang);
            && all[2] == WriteFile("/tessdata/" + lang + ".user-words", EnsureNewLine(customWords))
            && all[4].params.Keys == {"preserve_interword_spaces", "tessedit_char_whitelist", "user_defined_dpi"}
            && all[4].params["tessedit_char_whitelist"] == whitelist
  {
    assert TargetPath(lang) == "/tessdata/" + lang + ".user-words";
  }
}

=== FILE: text.dfy ===
/** String primitives with JavaScript semantics: the `\s` whitespace class
    (which `trim`, `split(/\s+/)` and `replace(/\s+/g, ...)` all use),
    whitespace tokens, prefix/suffix/substring tests, decimal rendering of
    naturals and `Array.prototype.join`. */
module Text {

  /** The characters JavaScript's `\s` and `String.prototype.trim` treat as
      white space: the ECMAScript WhiteSpace and LineTerminator code points. */
  predicate IsWhitespace(c: char)
  {
    || c == '\t' || c == '\n' || c == '\U{B}' || c == '\U{C}' || c == '\r'
    || c == ' ' || c == '\U{A0}' || c == '\U{1680}'
    || ('\U{2000}' <= c <= '\U{200A}')
    || c == '\U{2028}' || c == '\U{2029}' || c == '\U{202F}' || c == '\U{205F}'
    || c == '\U{3000}' || c == '\U{FEFF}'
  }

  predicate NoWhitespace(s: string)
  {
    forall i :: 0 <= i < |s| ==> !IsWhitespace(s[i])
  }

  predicate AllWhitespace(s: string)
  {
    forall i :: 0 <= i < |s| ==> IsWhitespace(s[i])
  }

  /** Number of leading whitespace characters. */
  function LeadingWhitespace(s: string): (n: nat)
    ensures n <= |s|
    ensures AllWhitespace(s[..n])
    ensures n < |s| ==> !IsWhitespace(s[n])
  {
    if |s| == 0 || !IsWhitespace(s[0]) then 0
    else
      var n := 1 + LeadingWhitespace(s[1..]);
      assert forall i :: 1 <= i < n ==> s[..n][i] == s[1..][..n - 1][i - 1];
      n
  }

  /** Number of trailing whitespace characters. */
  function TrailingWhitespace(s: string): (n: nat)
    ensures n <= |s|
    ensures AllWhitespace(s[|s| - n..])
    ensures n < |s| ==> !IsWhitespace(s[|s| - n - 1])
  {
    if |s| == 0 || !IsWhitespace(s[|s| - 1]) then 0
    else
      var init := s[..|s| - 1];
      var n := 1 + TrailingWhitespace(init);
      assert s[|s| - n..] == init[|init| - (n - 1)..] + [s[|s| - 1]];
      n
  }

  /** Where `String.prototype.trim` cuts: everything before `i` and from `j`
      on is white space, and the kept part neither starts nor ends with it. */
  function TrimBounds(s: string): (b: (nat, nat))
    ensures b.0 <= b.1 <= |s|
    ensures AllWhitespace(s[..b.0]) && AllWhitespace(s[b.1..])
    ensures b.0 < b.1 ==> !IsWhitespace(s[b.0]) && !IsWhitespace(s[b.1 - 1])
  {
    var i := LeadingWhitespace(s);
    var rest := s[i..];
    var t := TrailingWhitespace(rest);
    var j := i + |rest| - t;
    assert rest[|rest| - t..] == s[j..];
    assert i < j ==> rest[|rest| - t - 1] == s[j - 1] && rest[0] == s[i];
    (i, j)
  }

  /** `String.prototype.trim`. Where it cuts is stated by `TrimBounds`, and
      when it gives the empty string by `TrimEmptyIffBlank`. */
  function Trim(s: string): string
  {
    var b := TrimBounds(s);
    s[b.0..b.1]
  }

  /** A string trims to the empty string exactly when it is all white space,
      which is when JavaScript treats `s.trim()` as false. */
  lemma TrimEmptyIffBlank(s: string)
    ensures Trim(s) == "" <==> AllWhitespace(s)
  {
    var b := TrimBounds(s);
    assert |Trim(s)| == b.1 - b.0;
    if b.0 == b.1 {
      JoinedBlank(s, b.0);
    } else {
      assert !IsWhitespace(s[b.0]);
    }
  }

  lemma JoinedBlank(s: string, k: nat)
    requires k <= |s|
    requires AllWhitespace(s[..k]) && AllWhitespace(s[k..])
    ensures AllWhitespace(s)
  {
    forall i | 0 <= i < |s|
      ensures IsWhitespace(s[i])
    {
      if i < k {
        assert s[..k][i] == s[i];
      } else {
        assert s[k..][i - k] == s[i];
      }
    }
  }

  /** Length of the leading run of non-white-space characters. */
  function WordLength(s: string): (n: nat)
    ensures n <= |s|
    ensures NoWhitespace(s[..n])
    ensures n < |s| ==> IsWhitespace(s[n])
  {
    if |s| == 0 || IsWhitespace(s[0]) then 0
    else
      var n := 1 + WordLength(s[1..]);
      assert forall i :: 1 <= i < n ==> s[..n][i] == s[1..][..n - 1][i - 1];
      n
  }

  /** `s.split(/\s+/).filter(Boolean)`: the maximal runs of non-white-space
      characters, in order, as stated by `TokensAreWords`, `TokensOfWord`,
      `TokensSplitAtWhitespace` and `TokensOfBlank`. */
  function Tokens(s: string): (r: seq<string>)
    decreases |s|
  {
    if |s| == 0 then []
    else if IsWhitespace(s[0]) then Tokens(s[1..])
    else
      var n := WordLength(s);
      [s[..n]] + Tokens(s[n..])
  }

  /** Every token is a non-empty string without white space. */
  lemma {:induction false} TokensAreWords(s: string)
    ensures forall k :: 0 <= k < |Tokens(s)| ==> |Tokens(s)[k]| > 0 && NoWhitespace(Tokens(s)[k])
    decreases |s|
  {
    if |s| == 0 {
    } else if IsWhitespace(s[0]) {
      TokensAreWords(s[1..]);
    } else {
      var n := WordLength(s);
      TokensAreWords(s[n..]);
      var r := Tokens(s);
      assert r == [s[..n]] + Tokens(s[n..]);
      forall k | 0 <= k < |r|
        ensures |r[k]| > 0 && NoWhitespace(r[k])
      {
        if k > 0 {
          assert r[k] == Tokens(s[n..])[k - 1];
        }
      }
    }
  }

  /** A string with no white space is a single token (or none, when empty). */
  lemma {:induction false} TokensOfWord(w: string)
    requires NoWhitespace(w)
    ensures Tokens(w) == (if |w| == 0 then [] else [w])
  {
    if |w| > 0 {
      WordLengthOfWord(w);
      assert w[..|w|] == w;
      assert w[|w|..] == [];
      assert Tokens(w) == [w] + Tokens([]);
    }
  }

  lemma {:induction false} WordLengthOfWord(w: string)
    requires NoWhitespace(w)
    ensures WordLength(w) == |w|
    decreases |w|
  {
    if |w| > 0 {
      WordLengthOfWord(w[1..]);
    }
  }

  /** A white-space character splits the token list: tokens never span it. */
  lemma {:induction false} TokensSplitAtWhitespace(a: string, w: char, b: string)
    requires IsWhitespace(w)
    ensures Tokens(a + [w] + b) == Tokens(a) + Tokens(b)
    decreases |a|
  {
    var s := a + [w] + b;
    if |a| == 0 {
      assert s[1..] == b;
    } else if IsWhitespace(a[0]) {
      assert s[1..] == a[1..] + [w] + b;
      TokensSplitAtWhitespace(a[1..], w, b);
    } else {
      var n := WordLength(a);
      WordLengthStopsAtWhitespace(a, w, b);
      assert s[..n] == a[..n];
      assert s[n..] == a[n..] + [w] + b;
      TokensSplitAtWhitespace(a[n..], w, b);
    }
  }

  lemma {:induction false} WordLengthStopsAtWhitespace(a: string, w: char, b: string)
    requires IsWhitespace(w)
    ensures WordLength(a + [w] + b) == WordLength(a)
    decreases |a|
  {
    var s := a + [w] + b;
    if |a| > 0 && !IsWhitespace(a[0]) {
      assert s[1..] == a[1..] + [w] + b;
      WordLengthStopsAtWhitespace(a[1..], w, b);
    }
  }

  /** White space alone yields no tokens. */
  lemma {:induction false} TokensOfBlank(s: string)
    requires AllWhitespace(s)
    ensures Tokens(s) == []
    decreases |s|
  {
    if |s| > 0 {
      TokensOfBlank(s[1..]);
    }
  }

  /** `s.replace(/\s+/g, ' ')`: every maximal white-space run becomes one space. */
  function CollapseRuns(s: string): string
    decreases |s|
  {
    if |s| == 0 then []
    else if IsWhitespace(s[0]) then
      var n := LeadingWhitespace(s);
      [' '] + CollapseRuns(s[n..])
    else [s[0]] + CollapseRuns(s[1..])
  }

  /** No white space other than single spaces, and never two in a row. */
  ghost predicate SingleSpaced(s: string)
  {
    && (forall i :: 0 <= i < |s| && IsWhitespace(s[i]) ==> s[i] == ' ')
    && (forall i :: 0 <= i < |s| - 1 && IsWhitespace(s[i]) ==> !IsWhitespace(s[i + 1]))
  }

  lemma {:induction false} CollapseRunsSingleSpaced(s: string)
    ensures SingleSpaced(CollapseRuns(s))
    ensures |CollapseRuns(s)| > 0 && IsWhitespace(CollapseRuns(s)[0]) ==> |s| > 0 && IsWhitespace(s[0])
    decreases |s|
  {
    if |s| == 0 {
    } else if IsWhitespace(s[0]) {
      var n := LeadingWhitespace(s);
      CollapseRunsSingleSpaced(s[n..]);
      var tail := CollapseRuns(s[n..]);
      assert CollapseRuns(s) == [' '] + tail;
      assert |tail| > 0 ==> !IsWhitespace(tail[0]);
    } else {
      CollapseRunsSingleSpaced(s[1..]);
    }
  }

  /** `s.replace(/\s+/g, ' ').trim()`. */
  function Normalize(s: string): string
  {
    Trim(CollapseRuns(s))
  }

  /** A normalised string is single-spaced and has no white space at either end. */
  lemma NormalizeShape(s: string)
    ensures SingleSpaced(Normalize(s))
    ensures |Normalize(s)| == 0 || (!IsWhitespace(Normalize(s)[0]) && !IsWhitespace(Normalize(s)[|Normalize(s)| - 1]))
  {
    var c := CollapseRuns(s);
    CollapseRunsSingleSpaced(s);
    var b := TrimBounds(c);
    SliceSingleSpaced(c, b.0, b.1);
  }

  lemma SliceSingleSpaced(c: string, i: nat, j: nat)
    requires i <= j <= |c|
    requires SingleSpaced(c)
    ensures SingleSpaced(c[i..j])
  {
    var r := c[i..j];
    assert forall k :: 0 <= k < |r| ==> r[k] == c[i + k];
  }

  predicate StartsWith(s: string, prefix: string)
  {
    |prefix| <= |s| && s[..|prefix|] == prefix
  }

  predicate EndsWith(s: string, suffix: string)
  {
    |suffix| <= |s| && s[|s| - |suffix|..] == suffix
  }

  /** `String.prototype.includes`. */
  predicate Contains(s: string, sub: string)
    decreases |s|
  {
    StartsWith(s, sub) || (|s| > 0 && Contains(s[1..], sub))
  }

  predicate OccursAt(s: string, sub: string, i: int)
  {
    0 <= i && i + |sub| <= |s| && s[i..i + |sub|] == sub
  }

  lemma {:induction false} ContainsIffOccurs(s: string, sub: string)
    ensures Contains(s, sub) <==> exists i :: OccursAt(s, sub, i)
    decreases |s|
  {
    if StartsWith(s, sub) {
      assert OccursAt(s, sub, 0);
    }
    if |s| > 0 {
      ContainsIffOccurs(s[1..], sub);
      if Contains(s[1..], sub) {
        var i :| OccursAt(s[1..], sub, i);
        assert s[1..][i..i + |sub|] == s[i + 1..i + 1 + |sub|];
        assert OccursAt(s, sub, i + 1);
      }
      if exists i :: OccursAt(s, sub, i) {
        var i :| OccursAt(s, sub, i);
        if i > 0 {
          assert s[1..][i - 1..i - 1 + |sub|] == s[i..i + |sub|];
          assert OccursAt(s[1..], sub, i - 1);
        } else {
          assert StartsWith(s, sub);
        }
      }
    } else {
      if exists i :: OccursAt(s, sub, i) {
        var i :| OccursAt(s, sub, i);
        assert i == 0 && |sub| == 0;
        assert StartsWith(s, sub);
      }
    }
  }

  /** Decimal rendering of a natural number, as JavaScript's `${n}`. */
  function NatToString(n: nat): (r: string)
    ensures |r| > 0
    ensures forall i :: 0 <= i < |r| ==> '0' <= r[i] <= '9'
  {
    if n < 10 then [Digit(n)] else NatToString(n / 10) + [Digit(n % 10)]
  }

  function Digit(d: nat): char
    requires d < 10
  {
    ['0', '1', '2', '3', '4', '5', '6', '7', '8', '9'][d]
  }

  /** `Array.prototype.join(sep)`. */
  function Join(parts: seq<string>, sep: string): string
  {
    if |parts| == 0 then ""
    else if |parts| == 1 then parts[0]
    else parts[0] + sep + Join(parts[1..], sep)
  }

  /** Joining one-character strings with no separator lays their
      characters side by side. */
  lemma {:induction false} JoinSingles(parts: seq<string>)
    requires forall i :: 0 <= i < |parts| ==> |parts[i]| == 1
    ensures |Join(parts, "")| == |parts|
    ensures forall i :: 0 <= i < |parts| ==> Join(parts, "")[i] == parts[i][0]
  {
    if |parts| > 1 {
      JoinSingles(parts[1..]);
      assert Join(parts, "") == parts[0] + Join(parts[1..], "");
    }
  }
}

=== FILE: text_layer.dfy ===
/** `drawTextLayerFromNodes` (`src/lib/html-to-pdf/utils/drawTextLayerFromNodes.ts`):
    every extracted text node becomes an invisible, top-aligned text call on
    the PDF page, its canvas position and font size mapped by the page to
    canvas size ratio. The verbose debug table is modelled as a value; the
    other log output and timing are left out. */
module TextLayer {
  import opened Wrappers
  import Pdf
  import JsMath
  import HtmlTextNodes
  import Seqs

  /** `doc.internal.pageSize`. */
  datatype PageSize = PageSize(width: real, height: real)

  /** One row of the verbose debug table. */
  datatype TableRow = TableRow(index: nat, text: string, x: real, y: real, fontSize: real)

  /** The calls made on the document, and the debug table when one is built
      for the logger. */
  datatype Drawing = Drawing(ops: seq<Pdf.Op>, table: Option<seq<TableRow>>)

  /** The options of every text call: invisible text (rendering mode 3),
      positioned by its top-left corner. */
  const LayerTextOptions: Pdf.TextOptions := Pdf.TextOptions(None, Some("top"), Some("left"), Some("invisible"))

  /** The calls for one node: font size, then text. */
  function NodeOps(node: HtmlTextNodes.TextNode, scaleX: real, scaleY: real): seq<Pdf.Op>
  {
    [Pdf.SetFontSize(node.fontSize * scaleX), Pdf.Text(node.text, node.x * scaleX, node.y * scaleY, LayerTextOptions)]
  }

  function NodesOps(nodes: seq<HtmlTextNodes.TextNode>, scaleX: real, scaleY: real): (ops: seq<Pdf.Op>)
    ensures |ops| == 2 * |nodes|
  {
    if |nodes| == 0 then [] else NodeOps(nodes[0], scaleX, scaleY) + NodesOps(nodes[1..], scaleX, scaleY)
  }

  /** `Math.round(v * f) / f`, the rounding of the processed-node record. */
  function RoundTo(v: real, f: real): (r: real)
    requires f > 0.0
    ensures v - 0.5 / f < r <= v + 0.5 / f
  {
    var n := JsMath.Round(v * f);
    assert v * f - 0.5 < n as real <= v * f + 0.5;
    DivideBounds(v * f - 0.5, n as real, v * f + 0.5, f);
    n as real / f
  }

  lemma DivideBounds(a: real, b: real, c: real, f: real)
    requires f > 0.0 && a < b <= c
    ensures a / f < b / f <= c / f
  {
  }

  /** Texts longer than 20 characters are cut to 20 and marked with `...`. */
  function Shorten(text: string): (r: string)
    ensures |text| <= 20 ==> r == text
    ensures |text| > 20 ==> |r| == 23 && r[..20] == text[..20]
  {
    if |text| > 20 then text[..20] + "..." else text
  }

  /** The table row for one node. */
  function Row(n: HtmlTextNodes.TextNode, index: nat, scaleX: real, scaleY: real): (r: TableRow)
    ensures r.index == index && r.text == Shorten(n.text)
    ensures n.x * scaleX - 0.005 < r.x <= n.x * scaleX + 0.005
    ensures n.y * scaleY - 0.005 < r.y <= n.y * scaleY + 0.005
  {
    TableRow(index, Shorten(n.text), RoundTo(n.x * scaleX, 100.0), RoundTo(n.y * scaleY, 100.0), RoundTo(n.fontSize * scaleX, 10.0))
  }

  function TableRows(nodes: seq<HtmlTextNodes.TextNode>, scaleX: real, scaleY: real, first: nat): (rows: seq<TableRow>)
    ensures |rows| == |nodes|
  {
    if |nodes| == 0 then []
    else
      [Row(nodes[0], first, scaleX, scaleY)] + TableRows(nodes[1..], scaleX, scaleY, first + 1)
  }

  /** `drawTextLayerFromNodes({ doc, textNodes, canvasWidth, canvasHeight, debug })`.
      The table is what the function builds for `logger?.table`; it reaches
      any output only when a logger is passed, and logging is not
      modelled. */
  function DrawTextLayer(nodes: seq<HtmlTextNodes.TextNode>, canvasWidth: real, canvasHeight: real, page: PageSize, debug: Pdf.Debug): (d: Drawing)
    requires canvasWidth != 0.0 && canvasHeight != 0.0
    ensures |d.ops| == 2 * |nodes|
    ensures d.table.Some? <==> Pdf.Lists(debug, "verbose")
    ensures d.table.Some? ==> |d.table.value| == JsMath.Min(10.0, |nodes| as real) as int
  {
    var scaleX := page.width / canvasWidth;
    var scaleY := page.height / canvasHeight;
    var ops := NodesOps(nodes, scaleX, scaleY);
    var shown := if |nodes| > 10 then nodes[..10] else nodes;
    Drawing(ops, if Pdf.Lists(debug, "verbose") then Some(TableRows(shown, scaleX, scaleY, 1)) else None)
  }

  lemma {:induction false} NodesOpsAt(nodes: seq<HtmlTextNodes.TextNode>, scaleX: real, scaleY: real, i: nat)
    requires i < |nodes|
    ensures var ops := NodesOps(nodes, scaleX, scaleY);
            ops[2 * i] == Pdf.SetFontSize(nodes[i].fontSize * scaleX)
            && ops[2 * i + 1] == Pdf.Text(nodes[i].text, nodes[i].x * scaleX, nodes[i].y * scaleY, LayerTextOptions)
  {
    NodesOpsSlice(nodes, scaleX, scaleY, i);
    var ops := NodesOps(nodes, scaleX, scaleY);
    assert ops[2 * i] == ops[2 * i..2 * i + 2][0] && ops[2 * i + 1] == ops[2 * i..2 * i + 2][1];
  }

  lemma {:induction false} NodesOpsSlice(nodes: seq<HtmlTextNodes.TextNode>, scaleX: real, scaleY: real, i: nat)
    requires i < |nodes|
    ensures NodesOps(nodes, scaleX, scaleY)[2 * i..2 * i + 2] == NodeOps(nodes[i], scaleX, scaleY)
  {
    var head := NodeOps(nodes[0], scaleX, scaleY);
    var tail := NodesOps(nodes[1..], scaleX, scaleY);
    assert NodesOps(nodes, scaleX, scaleY) == head + tail;
    if i == 0 {
      assert (head + tail)[..2] == head;
    } else {
      NodesOpsSlice(nodes[1..], scaleX, scaleY, i - 1);
      assert nodes[1..][i - 1] == nodes[i];
      Seqs.SliceAppend(head, tail, 2 * i, 2 * i + 2);
    }
  }

  /** Each node is drawn exactly once, in input order: the font size (node
      size times the horizontal scale, also for the vertical direction), then
      the text at the node position scaled by `pageWidth / canvasWidth` and
      `pageHeight / canvasHeight`, invisible (rendering mode 3), top-left
      anchored. */
  lemma DrawsEachNode(nodes: seq<HtmlTextNodes.TextNode>, canvasWidth: real, canvasHeight: real, page: PageSize, debug: Pdf.Debug, i: nat)
    requires canvasWidth != 0.0 && canvasHeight != 0.0 && i < |nodes|
    ensures var ops := DrawTextLayer(nodes, canvasWidth, canvasHeight, page, debug).ops;
            var scaleX := page.width / canvasWidth;
            var scaleY := page.height / canvasHeight;
            && scaleX * canvasWidth == page.width && scaleY * canvasHeight == page.height
            && ops[2 * i] == Pdf.SetFontSize(nodes[i].fontSize * scaleX)
            && ops[2 * i + 1].Text?
            && ops[2 * i + 1].text == nodes[i].text
            && ops[2 * i + 1].x == nodes[i].x * scaleX
            && ops[2 * i + 1].y == nodes[i].y * scaleY
            && ops[2 * i + 1].options.baseline == Some("top")
            && ops[2 * i + 1].options.align == Some("left")
            && ops[2 * i + 1].options.renderingMode == Some("invisible")
            && Pdf.RenderingModeNumber("invisible") == Some(3)
  {
    NodesOpsAt(nodes, page.width / canvasWidth, page.height / canvasHeight, i);
  }

  /** Whether two nodes agree on everything the drawing reads. */
  predicate SameDrawnFields(a: HtmlTextNodes.TextNode, b: HtmlTextNodes.TextNode)
  {
    a.text == b.text && a.x == b.x && a.y == b.y && a.fontSize == b.fontSize
  }

  /** Node width, height and letter spacing do not affect the drawing, and
      the debug option never changes it. */
  lemma {:induction false} OnlyDrawnFieldsMatter(nodes: seq<HtmlTextNodes.TextNode>, others: seq<HtmlTextNodes.TextNode>, canvasWidth: real, canvasHeight: real, page: PageSize, debug: Pdf.Debug, debug2: Pdf.Debug)
    requires canvasWidth != 0.0 && canvasHeight != 0.0
    requires |nodes| == |others| && forall i :: 0 <= i < |nodes| ==> SameDrawnFields(nodes[i], others[i])
    ensures DrawTextLayer(nodes, canvasWidth, canvasHeight, page, debug).ops
            == DrawTextLayer(others, canvasWidth, canvasHeight, page, debug2).ops
  {
    SameNodesOps(nodes, others, page.width / canvasWidth, page.height / canvasHeight);
  }

  lemma SameNodeOps(a: HtmlTextNodes.TextNode, b: HtmlTextNodes.TextNode, scaleX: real, scaleY: real)
    requires SameDrawnFields(a, b)
    ensures NodeOps(a, scaleX, scaleY) == NodeOps(b, scaleX, scaleY)
  {
    var p, q := NodeOps(a, scaleX, scaleY), NodeOps(b, scaleX, scaleY);
    assert |p| == |q| == 2;
    assert p[0] == q[0];
    assert p[1] == q[1];
  }

  lemma {:induction false} SameNodesOps(nodes: seq<HtmlTextNodes.TextNode>, others: seq<HtmlTextNodes.TextNode>, scaleX: real, scaleY: real)
    requires |nodes| == |others| && forall i :: 0 <= i < |nodes| ==> SameDrawnFields(nodes[i], others[i])
    ensures NodesOps(nodes, scaleX, scaleY) == NodesOps(others, scaleX, scaleY)
  {
    if |nodes| > 0 {
      assert SameDrawnFields(nodes[0], others[0]);
      SameNodeOps(nodes[0], others[0], scaleX, scaleY);
      assert forall i :: 0 <= i < |nodes| - 1 ==> nodes[1..][i] == nodes[i + 1] && others[1..][i] == others[i + 1];
      SameNodesOps(nodes[1..], others[1..], scaleX, scaleY);
      assert NodesOps(nodes, scaleX, scaleY) == NodeOps(nodes[0], scaleX, scaleY) + NodesOps(nodes[1..], scaleX, scaleY);
      assert NodesOps(others, scaleX, scaleY) == NodeOps(others[0], scaleX, scaleY) + NodesOps(others[1..], scaleX, scaleY);
    }
  }

  lemma {:induction false} TableRowsAt(nodes: seq<HtmlTextNodes.TextNode>, scaleX: real, scaleY: real, first: nat, i: nat)
    requires i < |nodes|
    ensures TableRows(nodes, scaleX, scaleY, first)[i] == Row(nodes[i], first + i, scaleX, scaleY)
  {
    if i > 0 {
      TableRowsAt(nodes[1..], scaleX, scaleY, first + 1, i - 1);
      var rows := TableRows(nodes, scaleX, scaleY, first);
      var rest := TableRows(nodes[1..], scaleX, scaleY, first + 1);
      assert rows == rows[..1] + rest;
      assert rows[i] == rest[i - 1];
    }
  }

  /** Row `i` of the verbose table is the row of node `i`, numbered `i + 1`. */
  lemma TableRowOf(nodes: seq<HtmlTextNodes.TextNode>, canvasWidth: real, canvasHeight: real, page: PageSize, debug: Pdf.Debug, i: nat)
    requires canvasWidth != 0.0 && canvasHeight != 0.0
    requires Pdf.Lists(debug, "verbose") && i < 10 && i < |nodes|
    ensures var d := DrawTextLayer(nodes, canvasWidth, canvasHeight, page, debug);
            i < |d.table.value| && d.table.value[i] == Row(nodes[i], i + 1, page.width / canvasWidth, page.height / canvasHeight)
  {
    var shown := if |nodes| > 10 then nodes[..10] else nodes;
    TableRowsAt(shown, page.width / canvasWidth, page.height / canvasHeight, 1, i);
  }

  /** The verbose table lists the first (at most ten) nodes, numbered from
      1, with positions rounded to hundredths of the drawn positions. */
  lemma TableListsFirstNodes(nodes: seq<HtmlTextNodes.TextNode>, canvasWidth: real, canvasHeight: real, page: PageSize, debug: Pdf.Debug, i: nat)
    requires canvasWidth != 0.0 && canvasHeight != 0.0
    requires Pdf.Lists(debug, "verbose") && i < 10 && i < |nodes|
    ensures var d := DrawTextLayer(nodes, canvasWidth, canvasHeight, page, debug);
            var r := d.table.value[i];
            r.index == i + 1 && r.text == Shorten(nodes[i].text)
            && d.ops[2 * i + 1].Text?
            && d.ops[2 * i + 1].x - 0.005 < r.x <= d.ops[2 * i + 1].x + 0.005
            && d.ops[2 * i + 1].y - 0.005 < r.y <= d.ops[2 * i + 1].y + 0.005
  {
    var scaleX, scaleY := page.width / canvasWidth, page.height / canvasHeight;
    TableRowOf(nodes, canvasWidth, canvasHeight, page, debug, i);
    DrawsEachNode(nodes, canvasWidth, canvasHeight, page, debug, i);
    var r := Row(nodes[i], i + 1, scaleX, scaleY);
    assert nodes[i].x * scaleX - 0.005 < r.x <= nodes[i].x * scaleX + 0.005;
  }
}

=== FILE: times.dfy ===
/** `times(n, cb)` (`src/utils/times.ts`, and the identical `times` of
    `src/lib/utils.ts`): `new Array(n).fill(0).map(() => cb())`. The callback
    takes no argument, so what tells its calls apart is the state it carries
    from one call to the next: it is modelled as a step from a state to a
    result and the next state. */
module Times {
  import opened Wrappers
  import Range

  /** The state after `i` calls. */
  function After<T, S>(cb: S -> (T, S), s: S, i: nat): S
  {
    if i == 0 then s else cb(After(cb, s, i - 1)).1
  }

  /** The results of `n` calls in call order and the final state. */
  function Calls<T, S>(n: nat, cb: S -> (T, S), s: S): (r: (seq<T>, S))
    ensures |r.0| == n
    ensures forall i :: 0 <= i < n ==> r.0[i] == cb(After(cb, s, i)).0
    ensures r.1 == After(cb, s, n)
  {
    if n == 0 then ([], s)
    else
      var prev := Calls(n - 1, cb, s);
      var next := cb(prev.1);
      (prev.0 + [next.0], next.1)
  }

  /** `times(n, cb)`; `new Array(n)` throws a `RangeError` for a length
      JavaScript does not allow. */
  function Times<T, S>(n: int, cb: S -> (T, S), s: S): (r: Result<(seq<T>, S)>)
    ensures r.Err? <==> n < 0 || n >= Range.MaxArrayLength
    ensures r.Ok? ==> |r.value.0| == n && r.value.1 == After(cb, s, n)
    ensures r.Ok? ==> forall i :: 0 <= i < n ==> r.value.0[i] == cb(After(cb, s, i)).0
  {
    if n < 0 || n >= Range.MaxArrayLength then Err("RangeError: Invalid array length")
    else Ok(Calls(n, cb, s))
  }

  /** `times(0, cb)` is `[]` and calls nothing. */
  lemma NoCalls<T, S>(cb: S -> (T, S), s: S)
    ensures Times(0, cb, s) == Ok(([], s))
  {
  }

  /** `n + m` calls are `n` calls followed by `m` calls from where the first
      ones left the state. */
  lemma {:induction false} CallsSplit<T, S>(n: nat, m: nat, cb: S -> (T, S), s: S)
    ensures Calls(n + m, cb, s).0 == Calls(n, cb, s).0 + Calls(m, cb, Calls(n, cb, s).1).0
    ensures Calls(n + m, cb, s).1 == Calls(m, cb, Calls(n, cb, s).1).1
    decreases m
  {
    if m > 0 {
      CallsSplit(n, m - 1, cb, s);
    }
  }

  /** A callback that keeps no state gives `n` copies of one value. */
  lemma Stateless<T, S>(n: nat, cb: S -> (T, S), s: S)
    requires cb(s).1 == s
    ensures forall i :: 0 <= i < n ==> Calls(n, cb, s).0[i] == cb(s).0
  {
    forall i | 0 <= i < n
      ensures Calls(n, cb, s).0[i] == cb(s).0
    {
      SameState(cb, s, i);
    }
  }

  lemma {:induction false} SameState<T, S>(cb: S -> (T, S), s: S, i: nat)
    requires cb(s).1 == s
    ensures After(cb, s, i) == s
  {
    if i > 0 {
      SameState(cb, s, i - 1);
    }
  }
}

=== FILE: tree.dfy ===
/** The node tree both `traverse` helpers walk, reduced to what they look
    at: whether a node is an `HTMLElement`, another element (SVG, MathML) or
    no element at all (text, comment, document), whether it has a `style`
    property, and its children in document order. `id` tells equal-looking
    nodes apart. */
module Tree {
  import Seqs

  datatype Kind = HtmlElement | OtherElement | NonElement

  datatype Node = Node(id: nat, kind: Kind, hasStyle: bool, children: seq<Node>)

  predicate IsHtml(n: Node)
  {
    n.kind == HtmlElement
  }

  /** Every node of the tree in document (pre-)order, the root first. */
  function PreOrder(n: Node): seq<Node>
    decreases n, 1
  {
    [n] + PreOrderAll(n.children)
  }

  function PreOrderAll(ns: seq<Node>): seq<Node>
    decreases ns, 0
  {
    if |ns| == 0 then [] else PreOrder(ns[0]) + PreOrderAll(ns[1..])
  }

  /** The `HTMLElement`s of the tree in document order. */
  function HtmlNodes(n: Node): seq<Node>
  {
    Seqs.Filter(IsHtml, PreOrder(n))
  }
}

=== FILE: unique_words.dfy ===
/** `getUniqueWordsFromTextNodes` of both generations
    (`src/lib/html-to-pdf/utils/getUniqueWordsFromTextNodes.ts` and
    `src/lib/utils/getUniqueWordsFromTextNodes.ts`, the same body over their
    own text-node records) and `getUniqueCharsFromTextNodes`
    (`src/lib/html-to-pdf/utils/getUniqueCharsFromTextNodes.ts`): collect
    words or characters into a `Set`, then `Array.from(set).sort()`. */
module UniqueWords {
  import Seqs
  import Text
  import SortedStrings
  import HtmlTextNodes
  import UtilsTextNodes

  /** Whether `w` is a white-space separated token of one of the texts. */
  ghost predicate TokenOf(texts: seq<string>, w: string)
  {
    exists i :: 0 <= i < |texts| && w in Text.Tokens(texts[i])
  }

  /** The tokens of every text, text by text, in order. */
  function AllTokens(texts: seq<string>): (r: seq<string>)
    ensures forall w :: w in r <==> TokenOf(texts, w)
  {
    if |texts| == 0 then []
    else
      var rest := AllTokens(texts[1..]);
      assert forall w :: TokenOf(texts, w) <==> w in Text.Tokens(texts[0]) || TokenOf(texts[1..], w) by {
        forall w ensures TokenOf(texts, w) ==> w in Text.Tokens(texts[0]) || TokenOf(texts[1..], w) {
          if TokenOf(texts, w) {
            var i :| 0 <= i < |texts| && w in Text.Tokens(texts[i]);
            if i > 0 {
              assert texts[1..][i - 1] == texts[i];
            }
          }
        }
      }
      Text.Tokens(texts[0]) + rest
  }

  /** The dictionary of the given texts and additional words: each token of
      a text, and each non-empty additional word taken whole. */
  function FromTexts(texts: seq<string>, additional: seq<string>): (r: seq<string>)
    ensures SortedStrings.StrictlySorted(r)
    ensures forall w :: w in r <==> TokenOf(texts, w) || (w in additional && w != "")
    ensures "" !in r
  {
    var words := AllTokens(texts) + Seqs.Filter((w: string) => w != "", additional);
    assert "" !in AllTokens(texts) by {
      if "" in AllTokens(texts) {
        var i :| 0 <= i < |texts| && "" in Text.Tokens(texts[i]);
        Text.TokensAreWords(texts[i]);
      }
    }
    SortedStrings.SortedSet(words)
  }

  function Texts(nodes: seq<HtmlTextNodes.TextNode>): seq<string>
  {
    seq(|nodes|, i requires 0 <= i < |nodes| => nodes[i].text)
  }

  function UtilsTexts(nodes: seq<UtilsTextNodes.TextNode>): seq<string>
  {
    seq(|nodes|, i requires 0 <= i < |nodes| => nodes[i].text)
  }

  /** `getUniqueWordsFromTextNodes(textNodes, additionalWords)` of the
      second generation; `additionalWords` defaults to `[]`. */
  function HtmlUniqueWords(nodes: seq<HtmlTextNodes.TextNode>, additional: seq<string>): (r: seq<string>)
    ensures SortedStrings.StrictlySorted(r)
    ensures forall w :: w in r <==> TokenOf(Texts(nodes), w) || (w in additional && w != "")
  {
    FromTexts(Texts(nodes), additional)
  }

  /** `getUniqueWordsFromTextNodes(textNodes, additionalWords)` of the first
      generation. */
  function UtilsUniqueWords(nodes: seq<UtilsTextNodes.TextNode>, additional: seq<string>): (r: seq<string>)
    ensures SortedStrings.StrictlySorted(r)
    ensures forall w :: w in r <==> TokenOf(UtilsTexts(nodes), w) || (w in additional && w != "")
  {
    FromTexts(UtilsTexts(nodes), additional)
  }

  /** Only the set of texts and the set of additional words matter: node
      order, repetitions and the order of the additional words do not change
      the dictionary. */
  lemma WordsOrderIndependent(t1: seq<string>, t2: seq<string>, a1: seq<string>, a2: seq<string>)
    requires forall t :: t in t1 <==> t in t2
    requires forall w :: w in a1 <==> w in a2
    ensures FromTexts(t1, a1) == FromTexts(t2, a2)
  {
    forall w
      ensures TokenOf(t1, w) <==> TokenOf(t2, w)
    {
      if TokenOf(t1, w) {
        var i :| 0 <= i < |t1| && w in Text.Tokens(t1[i]);
        assert t1[i] in t2;
        var j :| 0 <= j < |t2| && t2[j] == t1[i];
      }
      if TokenOf(t2, w) {
        var i :| 0 <= i < |t2| && w in Text.Tokens(t2[i]);
        assert t2[i] in t1;
        var j :| 0 <= j < |t1| && t1[j] == t2[i];
      }
    }
    SortedStrings.SortedUnique(FromTexts(t1, a1), FromTexts(t2, a2));
  }

  /** An additional word is kept whole even when it contains white space,
      while the same text in a node is split. */
  lemma AdditionalWordsUnsplit()
    ensures "a b" in FromTexts([], ["a b"])
    ensures "a b" !in FromTexts(["a b"], [])
    ensures "a" in FromTexts(["a b"], [])
  {
    assert Text.IsWhitespace(' ');
    Text.TokensSplitAtWhitespace("a", ' ', "b");
    assert "a" + [' '] + "b" == "a b";
    Text.TokensOfWord("a");
    Text.TokensOfWord("b");
    assert Text.Tokens("a b") == ["a", "b"];
    var texts := ["a b"];
    forall w
      ensures TokenOf(texts, w) <==> w in Text.Tokens("a b")
    {
      assert texts[0] == "a b";
      if TokenOf(texts, w) {
        var i :| 0 <= i < |texts| && w in Text.Tokens(texts[i]);
        assert i == 0;
      }
    }
  }

  /** Whether `c` occurs in one of the texts. */
  ghost predicate CharOf(texts: seq<string>, c: char)
  {
    exists i :: 0 <= i < |texts| && c in texts[i]
  }

  /** The characters of every text, each as a one-character string. */
  function AllChars(texts: seq<string>): (r: seq<string>)
    ensures forall w :: w in r <==> |w| == 1 && CharOf(texts, w[0])
  {
    if |texts| == 0 then []
    else
      var t := texts[0];
      var here := seq(|t|, k requires 0 <= k < |t| => [t[k]]);
      var rest := AllChars(texts[1..]);
      assert forall w :: w in here <==> |w| == 1 && w[0] in t by {
        forall w ensures w in here <==> |w| == 1 && w[0] in t {
          if |w| == 1 && w[0] in t {
            var k :| 0 <= k < |t| && t[k] == w[0];
            assert here[k] == w;
          }
        }
      }
      assert forall c :: CharOf(texts, c) <==> c in t || CharOf(texts[1..], c) by {
        forall c ensures CharOf(texts, c) ==> c in t || CharOf(texts[1..], c) {
          if CharOf(texts, c) {
            var i :| 0 <= i < |texts| && c in texts[i];
            if i > 0 {
              assert texts[1..][i - 1] == texts[i];
            }
          }
        }
      }
      here + rest
  }

  /** `getUniqueCharsFromTextNodes(textNodes)`. */
  function UniqueChars(nodes: seq<HtmlTextNodes.TextNode>): (r: seq<string>)
    ensures SortedStrings.StrictlySorted(r)
    ensures forall w :: w in r <==> |w| == 1 && CharOf(Texts(nodes), w[0])
  {
    SortedStrings.SortedSet(AllChars(Texts(nodes)))
  }

  /** The character list depends only on which characters occur; texts that
      are all empty (or no texts) give `[]`. */
  lemma CharsDependOnlyOnCharacters(n1: seq<HtmlTextNodes.TextNode>, n2: seq<HtmlTextNodes.TextNode>)
    requires forall c :: CharOf(Texts(n1), c) <==> CharOf(Texts(n2), c)
    ensures UniqueChars(n1) == UniqueChars(n2)
    ensures (forall i :: 0 <= i < |n1| ==> n1[i].text == "") ==> UniqueChars(n1) == []
  {
    SortedStrings.SortedUnique(UniqueChars(n1), UniqueChars(n2));
    if forall i :: 0 <= i < |n1| ==> n1[i].text == "" {
      assert forall c :: !CharOf(Texts(n1), c);
      SortedStrings.SortedUnique(UniqueChars(n1), []);
    }
  }
}

=== FILE: utils_chain.dfy ===
/** `chain(...fns)` of the first generation (`src/lib/utils/chain.ts`): the
    first function is called with no argument, then `rest.reduce` threads an
    accumulator promise `[prevValue, results]` through the remaining
    functions. Each step first awaits the accumulator, so a rejection skips
    every later call and becomes the rejection of the whole chain. */
module UtilsChain {
  import opened Wrappers
  import opened Async
  import HtmlChain

  /** Function `rest[i]` maps `x` to `y`. */
  ghost predicate Maps<T>(f: T -> Outcome<T>, x: T, y: T)
  {
    Gives(f(x), y)
  }

  /** What a run of `first` followed by the first `n` functions of `rest`
      is: the first call has no argument, every later call receives the
      previous result, and a rejected call ends the run with its reason. */
  ghost predicate Chained<T>(first: () -> Outcome<T>, rest: seq<T -> Outcome<T>>, n: nat, r: Run<T>)
    requires n <= |rest|
  {
    && Shaped(n + 1, r)
    && Threaded(None, r)
    && (|r.results| > 0 ==> Gives(first(), r.results[0]))
    && (forall i :: 0 < i < |r.results| ==> Maps(rest[i - 1], r.results[i - 1], r.results[i]))
    && (r.rejection.Some? && |r.results| == 0 ==> first() == Rejected(r.rejection.value))
    && (r.rejection.Some? && |r.results| > 0 ==>
          rest[|r.results| - 1](r.results[|r.results| - 1]) == Rejected(r.rejection.value))
  }

  /** `chain(first, ...rest)`. */
  function Chain<T>(first: () -> Outcome<T>, rest: seq<T -> Outcome<T>>): (r: Run<T>)
    ensures Chained(first, rest, |rest|, r)
  {
    var o := first();
    if o.Rejected? then Run([None], [], Some(o.reason))
    else Reduce(first, rest, |rest|, o.value)
  }

  /** The accumulator after `rest.reduce` has passed the first `k` functions,
      starting from `[v0, [v0]]`. */
  function Reduce<T>(first: () -> Outcome<T>, rest: seq<T -> Outcome<T>>, k: nat, v0: T): (r: Run<T>)
    requires k <= |rest| && Gives(first(), v0)
    ensures Chained(first, rest, k, r) && |r.results| > 0
    decreases k
  {
    if k == 0 then Run([None], [v0], None)
    else
      var acc := Reduce(first, rest, k - 1, v0);
      if acc.rejection.Some? then acc
      else
        var prev := acc.results[|acc.results| - 1];
        var o := rest[k - 1](prev);
        SnocThreaded(acc, prev, o);
        if o.Rejected? then Run(acc.inputs + [Some(prev)], acc.results, Some(o.reason))
        else
          SnocMaps(first, rest, k - 1, acc, o.value);
          Run(acc.inputs + [Some(prev)], acc.results + [o.value], None)
  }

  /** Appending the call on the last result keeps the arguments threaded. */
  lemma SnocThreaded<T>(acc: Run<T>, prev: T, o: Outcome<T>)
    requires |acc.results| > 0 && |acc.inputs| == |acc.results| && Threaded(None, acc)
    requires prev == acc.results[|acc.results| - 1]
    ensures !o.Rejected? ==> Threaded(None, Run(acc.inputs + [Some(prev)], acc.results + [o.value], None))
    ensures o.Rejected? ==> Threaded(None, Run(acc.inputs + [Some(prev)], acc.results, Some(o.reason)))
  {
    if !o.Rejected? {
      var r := Run(acc.inputs + [Some(prev)], acc.results + [o.value], None);
      forall i | 0 <= i < |r.inputs|
        ensures r.inputs[i] == if i == 0 then None else Some(r.results[i - 1])
      {
        if i < |acc.inputs| {
          assert r.inputs[i] == acc.inputs[i];
        }
      }
    }
  }

  /** Appending a value the next function gives keeps every step a call of
      the function before it. */
  lemma SnocMaps<T>(first: () -> Outcome<T>, rest: seq<T -> Outcome<T>>, k: nat, acc: Run<T>, v: T)
    requires k < |rest| && |acc.results| == k + 1
    requires forall i :: 0 < i < |acc.results| ==> Maps(rest[i - 1], acc.results[i - 1], acc.results[i])
    requires Gives(rest[k](acc.results[k]), v)
    ensures var rs := acc.results + [v];
            forall i :: 0 < i < |rs| ==> Maps(rest[i - 1], rs[i - 1], rs[i])
  {
    var rs := acc.results + [v];
    forall i | 0 < i < |rs|
      ensures Maps(rest[i - 1], rs[i - 1], rs[i])
    {
      assert rs[i - 1] == acc.results[i - 1];
      if i < |acc.results| {
        assert rs[i] == acc.results[i];
      }
    }
  }

  /** Given the same calls, the reduce-based chain and the loop-based chain
      of the second generation make the same run: same arguments, same
      results, same rejection. */
  lemma AgreesWithLoop<T>(fns: seq<Option<T> -> Outcome<T>>, first: () -> Outcome<T>, rest: seq<T -> Outcome<T>>)
    requires |fns| == |rest| + 1
    requires fns[0](None) == first()
    requires forall i, v :: 0 < i < |fns| ==> fns[i](Some(v)) == rest[i - 1](v)
    ensures Chain(first, rest) == HtmlChain.Chain(fns)
  {
    var r := Chain(first, rest);
    assert Shaped(|fns|, r) && Threaded(None, r);
    forall i | 0 <= i < |r.results|
      ensures HtmlChain.Calls(fns[i], r.inputs[i], r.results[i])
    {
      if i > 0 {
        assert r.inputs[i] == Some(r.results[i - 1]);
        assert fns[i](Some(r.results[i - 1])) == rest[i - 1](r.results[i - 1]);
      }
    }
    if r.rejection.Some? && |r.results| > 0 {
      var m := |r.results|;
      assert r.inputs[m] == Some(r.results[m - 1]);
      assert fns[m](Some(r.results[m - 1])) == rest[m - 1](r.results[m - 1]);
    }
    assert HtmlChain.ChainedFrom(fns, None, r);
    HtmlChain.RunUnique(fns, None, r, HtmlChain.Chain(fns));
  }
}

=== FILE: utils_crop.dfy ===
/** Crop geometry of the first generation (`src/lib/utils/cropCanvas.ts`):
    every source canvas is cut to the same horizontal band, each into a
    fresh, transparent output canvas whose height is the band height
    converted to an integer. Pixels and the canvas element's padding style
    are not modelled. */
module UtilsCrop {
  import JsMath
  import HtmlCrop

  /** The band copied out of one source: an output canvas of size `output`
      receiving source rows `[srcY, srcY + drawHeight)` at its top,
      unscaled. `drawImage` clips a source rectangle that runs past the
      source's bottom, and the destination with it. */
  datatype Band = Band(output: HtmlCrop.Size, srcY: real, drawHeight: real)

  /** One source: `cv.width = canvas.width`, `cv.height = height` (an
      `unsigned long`, so the integer part modulo 2^32), and the band
      `[y, y + height)` drawn at the top with the same height. */
  function CropOne(source: HtmlCrop.Size, y: real, height: real): (b: Band)
    ensures b.output == HtmlCrop.Size(source.width, JsMath.ToUint32(height) as real)
    ensures b.srcY == y
    ensures b.drawHeight <= height && b.drawHeight <= source.height - y
    ensures b.drawHeight == height || b.drawHeight == source.height - y
  {
    Band(HtmlCrop.Size(source.width, JsMath.ToUint32(height) as real), y, JsMath.Min(height, source.height - y))
  }

  /** `cropCanvas(sources, y, height)`: one band per source, in order. */
  function CropCanvas(sources: seq<HtmlCrop.Size>, y: real, height: real): (r: seq<Band>)
    ensures |r| == |sources|
    ensures forall i :: 0 <= i < |r| ==> r[i].output.width == sources[i].width
  {
    if |sources| == 0 then [] else [CropOne(sources[0], y, height)] + CropCanvas(sources[1..], y, height)
  }

  /** The content of one output row: left transparent, or a copy of a
      source row. */
  datatype Pixel = Transparent | Copied(row: real)

  /** Output row `r` after the single `drawImage`. */
  function OutputRow(b: Band, r: real): Pixel
    requires 0.0 <= r < b.output.height
  {
    if r < b.drawHeight then Copied(b.srcY + r) else Transparent
  }

  /** The first generation's band is the second generation's first page
      with the band height as page height: the same canvas size, and the
      same source row in every row that is drawn. The two differ only in
      the rows nothing is drawn to, which stay transparent here and are
      filled white there. */
  lemma AgreesWithFirstPage(source: HtmlCrop.Size, y: real, height: real, margin: real, r: real)
    requires 0.0 <= height < 4294967296.0
    requires 0.0 <= r < CropOne(source, y, height).output.height
    ensures var b := CropOne(source, y, height);
            var c := HtmlCrop.CropCanvas(source, HtmlCrop.Request(y, height, margin, true, false, height));
            && c.output == b.output
            && (OutputRow(b, r).Copied? <==> HtmlCrop.OutputRow(c, r).SourceRow?)
            && (OutputRow(b, r).Copied? ==> OutputRow(b, r).row == HtmlCrop.OutputRow(c, r).row)
  {
  }

  /** The same `y` and `height` are applied to every source, and only the
      width and the clipping at each source's bottom differ between
      outputs. */
  lemma {:induction false} SameBandForAll(sources: seq<HtmlCrop.Size>, y: real, height: real)
    ensures forall i :: 0 <= i < |sources| ==>
              CropCanvas(sources, y, height)[i] ==
              Band(HtmlCrop.Size(sources[i].width, JsMath.ToUint32(height) as real), y, JsMath.Min(height, sources[i].height - y))
    decreases |sources|
  {
    if |sources| > 0 {
      SameBandForAll(sources[1..], y, height);
      assert forall i :: 1 <= i < |sources| ==> CropCanvas(sources, y, height)[i] == CropCanvas(sources[1..], y, height)[i - 1];
    }
  }
}

=== FILE: utils_text_nodes.dfy ===
/** Text-node extraction of the first generation
    (`src/lib/utils/getTextNodes.ts`): blank text nodes are never yielded,
    nodes under an invisible parent are skipped, and rectangles are mapped
    onto the canvas with separate horizontal and vertical scales. There is
    no size filter, and a parentless node is kept. */
module UtilsTextNodes {
  import opened Wrappers
  import Seqs
  import Dom

  /** `ITextNode` of this generation. Lengths from `parseFloat` are kept as
      `Option`, `None` standing for `NaN` (which scaling leaves `NaN`). */
  datatype TextNode = TextNode(text: string, fontSize: Option<real>, letterSpacing: Option<real>, rect: Dom.Rect)

  /** Canvas pixels per CSS pixel of the reference element, per axis. */
  datatype Scale = Scale(x: real, y: real)

  /** `scaleX = canvas.width / width` and `scaleY = canvas.height / height`
      of the reference element's rectangle. */
  function MakeScale(canvasWidth: real, canvasHeight: real, base: Dom.Rect): (s: Scale)
    requires base.width > 0.0 && base.height > 0.0
    ensures s.x * base.width == canvasWidth && s.y * base.height == canvasHeight
  {
    Scale(canvasWidth / base.width, canvasHeight / base.height)
  }

  function ScaleLength(v: Option<real>, factor: real): Option<real>
  {
    match v
    case None => None
    case Some(x) => Some(x * factor)
  }

  /** The loop body for one accepted text node: skipped when the parent is
      invisible; a parentless node reads an empty style, so it is never
      invisible and gets size 0 for both lengths. */
  function Convert(site: Dom.TextSite, base: Dom.Rect, s: Scale): (r: Option<TextNode>)
    ensures r.None? <==> site.parent.Some? && Dom.Invisible(site.parent.value)
    ensures r.Some? ==> r.value.text == site.text
    ensures r.Some? && site.parent.None? ==> r.value.fontSize == Some(0.0) && r.value.letterSpacing == Some(0.0)
    ensures r.Some? && site.parent.Some? ==>
              r.value.fontSize.Some? == site.parent.value.fontSize.Some?
              && r.value.letterSpacing.Some? == site.parent.value.letterSpacing.Some?
  {
    var fontSize: Option<real> := if site.parent.Some? then site.parent.value.fontSize else Some(0.0);
    var letterSpacing: Option<real> := if site.parent.Some? then site.parent.value.letterSpacing else Some(0.0);
    if site.parent.Some? && Dom.Invisible(site.parent.value) then None
    else
      Some(TextNode(
        site.text,
        ScaleLength(fontSize, s.y),
        ScaleLength(letterSpacing, s.x),
        Dom.Rect(
          (site.rect.left - base.left) * s.x,
          (site.rect.top - base.top) * s.y,
          site.rect.width * s.x,
          site.rect.height * s.y)))
  }

  /** Font size follows the vertical scale, letter spacing the horizontal
      one, and the rectangle is relative to the reference element. */
  lemma ConvertGeometry(site: Dom.TextSite, base: Dom.Rect, s: Scale)
    requires Convert(site, base, s).Some?
    ensures var n := Convert(site, base, s).value;
            && n.rect.left + base.left * s.x == site.rect.left * s.x
            && n.rect.top + base.top * s.y == site.rect.top * s.y
            && n.rect.width == site.rect.width * s.x && n.rect.height == site.rect.height * s.y
            && (site.parent.Some? && site.parent.value.fontSize.Some? ==>
                  n.fontSize.value == site.parent.value.fontSize.value * s.y)
            && (site.parent.Some? && site.parent.value.letterSpacing.Some? ==>
                  n.letterSpacing.value == site.parent.value.letterSpacing.value * s.x)
  {
    var n := Convert(site, base, s).value;
    assert n.rect.left == (site.rect.left - base.left) * s.x;
    assert n.rect.top == (site.rect.top - base.top) * s.y;
  }

  function Visit(base: Dom.Rect, s: Scale): Dom.TextSite -> Option<TextNode>
  {
    site => if Dom.HasVisibleText(site) then Convert(site, base, s) else None
  }

  /** `getTextNodes`: the generator's output, in document order. What it
      yields is stated by `GetTextNodesSpec`, `BlankNeverYielded` and
      `ZeroAreaYielded`. */
  function GetTextNodes(walk: seq<Dom.TextSite>, base: Dom.Rect, s: Scale): seq<TextNode>
  {
    Seqs.FilterMap(Visit(base, s), walk)
  }

  /** A node is yielded iff its text is not blank and its parent (if any) is
      visible; document order is kept. */
  lemma GetTextNodesSpec(walk: seq<Dom.TextSite>, more: seq<Dom.TextSite>, base: Dom.Rect, s: Scale, n: TextNode)
    ensures n in GetTextNodes(walk, base, s) <==>
              exists j :: 0 <= j < |walk| && Dom.HasVisibleText(walk[j])
                          && Convert(walk[j], base, s).Some? && Convert(walk[j], base, s).value == n
    ensures GetTextNodes(walk + more, base, s) == GetTextNodes(walk, base, s) + GetTextNodes(more, base, s)
  {
    Seqs.FilterMapMembers(Visit(base, s), walk, n);
    Seqs.FilterMapAppend(Visit(base, s), walk, more);
    if exists j :: 0 <= j < |walk| && Seqs.MapsTo(Visit(base, s), walk[j], n) {
      var j :| 0 <= j < |walk| && Seqs.MapsTo(Visit(base, s), walk[j], n);
    }
  }

  /** Whitespace-only text nodes are never yielded, even with a visible
      parent. */
  lemma BlankNeverYielded(site: Dom.TextSite, base: Dom.Rect, s: Scale)
    requires !Dom.HasVisibleText(site)
    ensures GetTextNodes([site], base, s) == []
  {
    assert [site][1..] == [];
  }

  /** Unlike the second generation there is no size filter: a visible text
      node with an empty rectangle is still yielded. */
  lemma ZeroAreaYielded(site: Dom.TextSite, base: Dom.Rect, s: Scale)
    requires Dom.HasVisibleText(site) && (site.parent.None? || !Dom.Invisible(site.parent.value))
    requires site.rect.width == 0.0 && site.rect.height == 0.0
    ensures |GetTextNodes([site], base, s)| == 1
  {
    assert [site][1..] == [];
  }
}

=== FILE: utils_traverse.dfy ===
/** `traverse(root)` of the first generation (`src/lib/utils/traverse.ts`):
    yields the root when it is an `HTMLElement`, then whatever a TreeWalker
    over elements returns. The walker's filter skips (rather than rejects)
    elements that are not `HTMLElement`s, so their descendants are still
    visited; non-element nodes are not shown and are passed through the same
    way. */
module UtilsTraverse {
  import Seqs
  import opened Tree

  /** The nodes `walker.nextNode()` returns below `ns`, in order. */
  function Walk(ns: seq<Node>): seq<Node>
    decreases ns
  {
    if |ns| == 0 then []
    else (if IsHtml(ns[0]) then [ns[0]] else []) + Walk(ns[0].children) + Walk(ns[1..])
  }

  /** `traverse(root)`, as the list of yielded elements. */
  function Traverse(root: Node): (r: seq<Node>)
    ensures |r| > 0 && r[0] == root <==> IsHtml(root)
    ensures forall x :: x in r ==> IsHtml(x)
  {
    WalkIsFilter(root.children);
    assert IsHtml(root) ==> root !in Walk(root.children) by {
      if IsHtml(root) {
        NotBelowItself(root);
      }
    }
    (if IsHtml(root) then [root] else []) + Walk(root.children)
  }

  /** The walker returns exactly the `HTMLElement`s below the root, in
      document order. */
  lemma {:induction false} WalkIsFilter(ns: seq<Node>)
    ensures Walk(ns) == Seqs.Filter(IsHtml, PreOrderAll(ns))
    decreases ns
  {
    if |ns| > 0 {
      WalkIsFilter(ns[0].children);
      WalkIsFilter(ns[1..]);
      Seqs.FilterAppend(IsHtml, PreOrder(ns[0]), PreOrderAll(ns[1..]));
      Seqs.FilterAppend(IsHtml, [ns[0]], PreOrderAll(ns[0].children));
    }
  }

  /** `traverse(root)` is the list of all `HTMLElement`s of the tree in
      document order: each once, the root first when it is one. */
  lemma TraverseIsHtmlNodes(root: Node)
    ensures Traverse(root) == HtmlNodes(root)
  {
    WalkIsFilter(root.children);
    Seqs.FilterAppend(IsHtml, [root], PreOrderAll(root.children));
  }

  /** A node is never one of its own descendants. */
  lemma NotBelowItself(n: Node)
    ensures n !in PreOrderAll(n.children)
  {
    DescendantsSmaller(n.children, n);
  }

  lemma {:induction false} DescendantsSmaller(ns: seq<Node>, n: Node)
    requires forall i :: 0 <= i < |ns| ==> ns[i] < n
    ensures n !in PreOrderAll(ns)
    decreases ns
  {
    if |ns| > 0 {
      assert forall i :: 0 <= i < |ns[0].children| ==> ns[0].children[i] < n;
      DescendantsSmaller(ns[0].children, n);
      DescendantsSmaller(ns[1..], n);
    }
  }
}

=== FILE: wrappers.dfy ===
/** Failure-carrying results used across the model: an optional value and a
    value-or-error outcome, the two shapes the source expresses with
    `undefined`/`null` and with thrown errors. */
module Wrappers {

  datatype Option<+T> = None | Some(value: T) {

    function GetOr(default: T): T {
      match this
      case Some(v) => v
      case None => default
    }
  }

  datatype Result<+R> = Ok(value: R) | Err(message: string) {

    predicate IsFailure() {
      Err?
    }

    function PropagateFailure<U>(): Result<U>
      requires Err?
    {
      Err(message)
    }

    function Extract(): R
      requires Ok?
    {
      value
    }
  }
}

=== FILE: zip.dfy ===
/** `zip(...arrays)` (`src/lib/utils/zip.ts`): tuples of the elements at
    the same index, as long as the longest array, with `undefined` (`None`)
    where an array has run out. It counts with `range`; the `range` of its
    own directory (`src/lib/utils/range.ts`) is not part of this model and is
    taken to be the second generation's `range`. */
module Zip {
  import opened Wrappers
  import Range

  /** `Math.max(...arrays.map((arr) => arr.length))` for at least one array. */
  function MaxLength<T>(arrays: seq<seq<T>>): (m: nat)
    requires |arrays| > 0
    ensures forall k :: 0 <= k < |arrays| ==> |arrays[k]| <= m
    ensures exists k :: 0 <= k < |arrays| && |arrays[k]| == m
  {
    if |arrays| == 1 then |arrays[0]|
    else
      var m := MaxLength(arrays[1..]);
      assert forall k :: 1 <= k < |arrays| ==> arrays[k] == arrays[1..][k - 1];
      if |arrays[0]| > m then |arrays[0]| else m
  }

  /** `arrays.map((arr) => arr[i])`. */
  function Row<T>(arrays: seq<seq<T>>, i: int): (r: seq<Option<T>>)
  {
    seq(|arrays|, k requires 0 <= k < |arrays| => if 0 <= i < |arrays[k]| then Some(arrays[k][i]) else None)
  }

  /** Whether every array has a length JavaScript allows. */
  predicate ValidLengths<T>(arrays: seq<seq<T>>)
  {
    forall k :: 0 <= k < |arrays| ==> |arrays[k]| < Range.MaxArrayLength
  }

  /** `zip(...arrays)`. */
  function Zip<T>(arrays: seq<seq<T>>): (r: seq<seq<Option<T>>>)
    requires ValidLengths(arrays)
    ensures |arrays| == 0 ==> r == []
    ensures forall k :: 0 <= k < |arrays| ==> |arrays[k]| <= |r|
    ensures |arrays| > 0 ==> exists k :: 0 <= k < |arrays| && |arrays[k]| == |r|
    ensures forall i :: 0 <= i < |r| ==> |r[i]| == |arrays|
    ensures forall i, k :: 0 <= i < |r| && 0 <= k < |arrays| ==>
              r[i][k] == if i < |arrays[k]| then Some(arrays[k][i]) else None
  {
    if |arrays| == 0 then []
    else
      var indices := Range.Range(MaxLength(arrays), 0).value;
      seq(|indices|, j requires 0 <= j < |indices| => Row(arrays, indices[j]))
  }

  /** Column `k` of the tuples. */
  function Column<T>(rows: seq<seq<Option<T>>>, k: nat): seq<Option<T>>
    requires forall i :: 0 <= i < |rows| ==> k < |rows[i]|
  {
    seq(|rows|, i requires 0 <= i < |rows| => rows[i][k])
  }

  /** Every input is recovered from its column of the tuples: its elements
      in order, then `undefined` up to the longest length. */
  lemma ColumnsRecoverArrays<T>(arrays: seq<seq<T>>, k: nat)
    requires ValidLengths(arrays) && k < |arrays|
    ensures var r := Zip(arrays);
            Column(r, k) == seq(|arrays[k]|, i requires 0 <= i < |arrays[k]| => Some(arrays[k][i]))
                            + seq(|r| - |arrays[k]|, i => None)
  {
    var r := Zip(arrays);
    var padded := seq(|arrays[k]|, i requires 0 <= i < |arrays[k]| => Some(arrays[k][i]))
                  + seq(|r| - |arrays[k]|, i => None);
    assert |Column(r, k)| == |padded|;
    forall i | 0 <= i < |r|
      ensures Column(r, k)[i] == padded[i]
    {
      assert Column(r, k)[i] == r[i][k];
    }
  }

  /** Arrays of one length zip to tuples of exactly their elements. */
  lemma SameLengthNoPadding<T>(arrays: seq<seq<T>>, n: nat)
    requires |arrays| > 0 && n < Range.MaxArrayLength
    requires forall k :: 0 <= k < |arrays| ==> |arrays[k]| == n
    ensures ValidLengths(arrays)
    ensures |Zip(arrays)| == n
    ensures forall i, k :: 0 <= i < n && 0 <= k < |arrays| ==> Zip(arrays)[i][k] == Some(arrays[k][i])
  {
    assert |arrays[0]| == n;
  }
}
